=== FILE: README.md ===
# dcshortcut-ts in Dafny

A Dafny model of the logic core of dcshortcut-ts, a Chrome extension that adds
keyboard shortcuts, post-to-post macros, list auto-refresh, favourite galleries and
dccon (sticker) aliases to the DCInside gallery site. The DOM, `chrome.*` APIs,
`fetch`, timers, the clock and `Math.random` become explicit inputs, returned
effects or events; everything else is modelled as the TypeScript code does it.

What is modelled, one module per source file or component:

- `Session` (src/background/background.ts): the service worker's session record
  (`zRunning`, `xRunning`, their owner tabs, the auto-refresh leader). Every listener
  is one atomic transition with the tab facts as parameters and the messages it sends
  as returned effects. Proved: at most one macro runs, a running macro has a truthy
  owner, and only a tab close or navigating away clears the leader.
- `Agent` (src/content-script/main.ts): the per-tab polling decision and the
  `startMacro`/`stopMacro`/`leaderUpdate` and visibility/focus reactions.
- `AutoRefresher` and `RefreshMerge` (src/services/AutoRefresher.ts): the
  generation-fenced polling loop, with each `await` as an explicit continuation that
  `start`/`stop` may overtake, the jitter bound, and the list merge (reply-count sync,
  the latest shown post, the new rows, insertion above the first post, trim to 50).
- `Events` and `PostNavigation` (src/services/Events.ts): the macro timers and their
  re-check guards, the post-number input mode, keydown dispatch, profile cycling,
  the choice of the next post across pages and the URL parameter sync.
- `Shortcut` (src/services/Shortcut.ts): key-token normalisation, the canonical
  `Ctrl+Alt+Shift+Meta+Key` form, combo parsing, the combo of a key event and the
  Alt-required fallback.
- `DcconAlias` and `DcconAliasMap` (src/services/DcconAlias.ts): alias sanitising and
  de-duplication, sort buckets and comparison, Hangul initials and search, the `@`
  token before the caret, the suggestion-grid selection, and the alias map edits and
  grouping.
- `Gallery` and `Posts` (src/services/Gallery.ts, src/services/Posts.ts): what a
  page address says, the list addresses, post-row classification, the post list,
  `[n]` labels, short dates and column widths over abstract row records.
- `FavoritesStore`, `SettingsStore`, `UiStore` and `Storage` (src/stores/*.ts,
  src/services/Storage.ts): profile maps with the old-format migration, settings
  loading and validated saves, the modal state machine, and the storage defaults
  and clamps over an abstract key/value area.
- Shared JavaScript semantics: `JsNumber` (NaN, infinities, truthiness, truncating
  `%`, `parseInt`), `JsObject` (`Object.keys` order: array-index keys first, then
  creation order), `JsValue`, `WebUrl` (`URLSearchParams`), `Text` (`trim`,
  `split`/`join`, search), `Sorting` (a stable sort with a comparator), `Seqs` and
  `Wrappers`.

Where the code departs from what it evidently means to do, the model keeps the code
as written for the flows built on it and proves the departure; the intended version
sits next to it with its property proved (see "## Findings").

## Model

| member | source | states |
|---|---|---|
| Session.Initialize | src/background/background.ts:284-296 | start-up and install clear both macros, both owners and the leader; the cleared record satisfies the one-macro invariant |
| Session.ToggleMacro | src/background/background.ts:180-228 | a running macro is switched off with a stop sent only to a truthy owner; with no active dcinside tab nothing changes; otherwise the macro runs in the active tab, the other macro is stopped (and told so when it had a truthy owner), the start message comes last, and at most one macro runs afterwards |
| Session.OnRemoved | src/background/background.ts:93-133 | closing a tab clears exactly the macros it owned, clears the leader and broadcasts `null` only when it was the leader, and leaves no reference to the closed tab |
| Session.OnUpdated | src/background/background.ts:65-88 | a completed load of a board page in the active tab makes it leader and broadcasts it; the leader completing a non-board load resigns with a `null` broadcast; nothing else moves the leader and the macros are untouched |
| Session.OnActivated | src/background/background.ts:49-60 | activating a board tab with a truthy id elects and broadcasts it; anything else, including a failed `tabs.get`, changes nothing |
| Session.OnFocusChanged | src/background/background.ts:24-44 | losing focus to no window changes nothing; a leader change happens only to the focused window's active board tab and is broadcast; focus never clears the leader |
| Session.Step | src/background/background.ts:24-296 | every background event handler keeps the one-macro invariant |
| Session.RunKeepsInv | src/background/background.ts:24-296 | over any sequence of events from a reachable record, at most one macro runs and a running macro has a truthy owner |
| Session.ReachableFromInitialize | src/background/background.ts:284-296 | every record reachable from start-up satisfies the invariant |
| Session.LeaderClearedOnlyBy | src/background/background.ts:65-133 | the leader is cleared only by closing it, by it finishing a non-board load, or by re-initialisation |
| Session.LeaderEventsKeepMacros | src/background/background.ts:24-88 | the leader-election listeners never touch the macro slots |
| Session.MacroStateReply | src/background/background.ts:241-252 | `getMacroState` reports the running flags and, on reachable records, the owners |
| Session.LeaderReply | src/background/background.ts:267-272 | `getLeaderTabId` answers a leader only when it is truthy, and answers that leader |
| Session.MyTabIdReply | src/background/background.ts:259-265 | `getMyTabId` succeeds exactly when the sender has a truthy tab id, and returns it |
| Session.DeliverLeaderUpdate | src/background/background.ts:139-157 | a leader broadcast is attempted for every dcinside tab with a truthy id, in query order; failed sends are swallowed and the rest still delivered |
| Session.TruthyIdsComplete | src/background/background.ts:139-157 | no dcinside tab with a truthy id is skipped by the broadcast |
| Agent.PollingDecision | src/content-script/main.ts:139-160 | without an own tab id nothing happens; polling starts exactly when the leader answer names this tab, the page is refreshable and auto refresh is enabled; a failed leader query stops polling |
| Agent.ApplyDecision | src/content-script/main.ts:152-158 | a stop leaves no timer and no request in flight, a start with auto refresh enabled leaves a timer, and the refresher's well-formedness is kept |
| Agent.AtMostOnePoller | src/content-script/main.ts:139-160 | two different tabs asking the same background record never both start polling, and the one that does is the recorded leader |
| Agent.OnLeaderUpdate | src/content-script/main.ts:119-124 | a `leaderUpdate` message starts polling only when the background's leader answer names this tab |
| Agent.LeaderUpdateIgnoresPayload | src/content-script/main.ts:119-124 | the leader id carried by the message has no influence: the tab re-asks the background |
| Agent.OnStartMacro | src/content-script/main.ts:91-111 | a `startMacro` navigates exactly when the current tab is the expected one and the macro is enabled in the settings; a tab mismatch is reported before the settings are looked at |
| Agent.StartFromToggleReachesOwner | src/content-script/main.ts:91-111 | the start message sent by switching a macro on is accepted by the tab it names when the macro is enabled |
| Agent.OnVisibilityChange | src/content-script/main.ts:242-246 | without pause-on-inactive visibility is ignored; with it, becoming visible re-evaluates polling and becoming hidden stops it |
| Agent.OnFocus | src/content-script/main.ts:247-248 | focusing the window while polling resets the unseen count and nothing else; without a timer nothing changes |
| Agent.VisibilityEffect | src/content-script/main.ts:242-246 | an ignored change keeps the refresher, a stop leaves no timer, no request and no unseen count, and well-formedness is kept |
| Agent.VisibilityPausesPolling | src/content-script/main.ts:242-246 | with pause-on-inactive, hiding the page always stops polling and restores the title; showing it polls exactly when this tab leads, the page is refreshable and auto refresh is on |
| Agent.FocusRestoresTitle | src/content-script/main.ts:247-248 | focusing while polling restores the original title, focusing without a timer leaves the title as it was, well-formedness is kept and a second focus changes nothing |
| AutoRefresher.Initial | src/services/AutoRefresher.ts:24-36 | the refresher starts without a timer, a request or an unseen count, and is well-formed |
| AutoRefresher.TitleShowsCount | src/services/AutoRefresher.ts:238-242 | the unseen count written into the title as `(n) ` can be read back from it |
| AutoRefresher.Start | src/services/AutoRefresher.ts:49-60 | starting with a timer already set, or with auto refresh disabled, changes nothing; otherwise a new generation stamped with the clock, a fresh controller, the count reset and the first check armed; well-formedness is kept |
| AutoRefresher.Stop | src/services/AutoRefresher.ts:66-76 | stopping leaves no timer, no controller and no unseen count, aborts exactly the controller that was live, and keeps the generation |
| AutoRefresher.StopIdempotent | src/services/AutoRefresher.ts:66-76 | stopping twice is stopping once |
| AutoRefresher.StartIdempotent | src/services/AutoRefresher.ts:49-50 | a second start, at any later time, changes nothing |
| AutoRefresher.Schedule | src/services/AutoRefresher.ts:82-95 | a check is scheduled only for the current generation, and nothing else changes |
| AutoRefresher.NextDelay | src/services/AutoRefresher.ts:84-87 | the next delay is the interval in milliseconds within ±15%, strictly below the upper bound for a positive interval |
| AutoRefresher.JitterBounds | src/services/AutoRefresher.ts:86 | the random jitter never exceeds 15% of the base interval in either direction |
| AutoRefresher.Fail | src/services/AutoRefresher.ts:248-264 | an abort is silent and changes nothing, a failed fetch reschedules, any other error stops polling, and only an `Error` other than those alerts |
| AutoRefresher.CheckNewPosts | src/services/AutoRefresher.ts:110-136 | a stale generation or an empty list URL does nothing; otherwise a request is sent carrying the live controller |
| AutoRefresher.TimerFires | src/services/AutoRefresher.ts:91-93 | only an armed timer starts a check, for the generation it was armed for |
| AutoRefresher.ResumeResponse | src/services/AutoRefresher.ts:138-148 | an aborted request ends silently; the body is read only when the response is OK, the generation and list URL are unchanged and no page load is in progress |
| AutoRefresher.ResumeBody | src/services/AutoRefresher.ts:149-246 | after the body is read the generation is not re-checked; the unseen count grows only when the window is unfocused, and every chain ends here |
| AutoRefresher.MergeBody | src/services/AutoRefresher.ts:155-246 | reply counts are synced from the rows of every fetched post table while new posts come from the first one only; posts newer than the latest local one (or the viewed post) are inserted by the as-written reversed insertion, the unseen count grows by their number when unfocused, and the next check is scheduled |
| AutoRefresher.ApplyKeepsTracks | src/services/AutoRefresher.ts:49-95 | start, stop and scheduling while a request is outstanding keep the bookkeeping and keep the request either aborted or the live one |
| AutoRefresher.ApplyAllKeepsTracks | src/services/AutoRefresher.ts:49-95 | the same holds across any sequence of those events |
| AutoRefresher.TimerCreatesTracked | src/services/AutoRefresher.ts:91-136 | a request started by the timer is tracked from the start |
| AutoRefresher.ResumeResponseTracked | src/services/AutoRefresher.ts:138-148 | reading the response keeps the request tracked |
| AutoRefresher.StaleBodyIsHarmless | src/services/AutoRefresher.ts:110-148 | a body arriving after a restart or stop changes nothing on the page or in the refresher |
| AutoRefresher.ResumeBodyKeepsWf | src/services/AutoRefresher.ts:149-246 | the last step of a check keeps the refresher well-formed |
| RefreshMerge.FetchedReply | src/services/AutoRefresher.ts:155-166 | the reply badge recorded for a post number is that of the last fetched row with that number, and there is none when no fetched row has it |
| RefreshMerge.SyncReplies | src/services/AutoRefresher.ts:168-197 | only the reply badges of numbered local rows that the fetched list also holds change, each to the fetched badge; every other row and every other field is kept |
| RefreshMerge.LatestShown | src/services/AutoRefresher.ts:203-214 | the latest number is the largest number of a valid local row without the current-post icon, or 0 |
| RefreshMerge.Latest | src/services/AutoRefresher.ts:216-222 | on a `/view/` page the viewed post's number also counts: the result is the larger of the two |
| RefreshMerge.NewRows | src/services/AutoRefresher.ts:224-232 | the new rows are exactly the valid fetched rows numbered above the latest one, in fetched order |
| RefreshMerge.SampleIndex | src/services/AutoRefresher.ts:277-278 | the column sample is the first `ub-content` row, if any |
| RefreshMerge.AnchorIndex | src/services/AutoRefresher.ts:286-292 | the insertion point is the first valid row, or the end when there is none |
| RefreshMerge.Prepare | src/services/AutoRefresher.ts:297-314 | an inserted row is padded with placeholder cells up to the sample's column count, never loses cells, and is highlighted; nothing else about it changes |
| RefreshMerge.PrepareAll | src/services/AutoRefresher.ts:296-316 | every inserted row is prepared the same way, in order |
| RefreshMerge.TrimValidSpec | src/services/AutoRefresher.ts:328-339 | trimming keeps the first 50 valid rows and every other row, in order |
| RefreshMerge.SpliceAtAnchor | src/services/AutoRefresher.ts:286-339 | splicing rows in at the first valid row and trimming leaves the spliced valid rows ahead of the old ones, capped at 50, and keeps all other rows |
| RefreshMerge.InsertAndTrimSpec | src/services/AutoRefresher.ts:273-343 | with fetched order kept: no sample row or a sample with no cells changes nothing; otherwise the valid rows are the prepared new rows followed by the old ones, capped at 50, and the other rows keep their places |
| RefreshMerge.InsertEachBeforeSplices | src/services/AutoRefresher.ts:296-316 | inserting each row before the same fixed anchor splices them in the order they are inserted |
| RefreshMerge.InsertAndTrimAsWrittenSpec | src/services/AutoRefresher.ts:273-343 | as written, the valid rows after insertion are the prepared new rows in REVERSED fetched order followed by the old ones, capped at 50 |
| RefreshMerge.AsWrittenReverses | src/services/AutoRefresher.ts:296 | the as-written insertion is the order-keeping one applied to the reversed list |
| RefreshMerge.InsertionOrderReversed | src/services/AutoRefresher.ts:296-316 | for two distinct new posts the as-written page shows them in the opposite order of the fetched list, unlike the order-keeping insertion |
| Events.WithPending | src/services/Events.ts:268-276 | replacing one macro's timer slot leaves the other macro's slot alone |
| Events.StopAlert | src/services/Events.ts:273-275 | the stop alert is the given reason, else the default notice naming the macro |
| Events.HandleStopMacroCommand | src/services/Events.ts:268-276 | stopping a macro cancels exactly its pending timer, empties its slot and leaves the other macro's timer alone |
| Events.StopMacroIdempotent | src/services/Events.ts:268-276 | a second stop finds nothing to cancel and changes nothing |
| Events.RescheduleMacroAttempt | src/services/Events.ts:1559-1576 | rescheduling cancels the macro's previous timer and records the new one, leaving the other macro's timer alone |
| Events.StopCancelsRescheduled | src/services/Events.ts:268-276 | a stop after a reschedule cancels the rescheduled timer and restores the other slots |
| Events.RescheduledFire | src/services/Events.ts:1566-1575 | when a rescheduled timer fires, its slot is emptied and it navigates exactly when the latest macro state says the macro runs in this tab and the macro is enabled |
| Events.RescheduledFireOnlyInOwner | src/services/Events.ts:1566-1575 | with a reachable background record, a rescheduled timer navigates only in the running macro's truthy owner tab |
| Events.TriggerMacroNavigation | src/services/Events.ts:278-319 | a navigation is scheduled only in the truthy owner tab of a running, enabled macro, replacing that macro's previous timer; Z takes precedence over X |
| Events.TriggeredFireAsWritten | src/services/Events.ts:299-310 | as written, the fire-time check compares this tab with the owner captured when the timer was set, and navigates only while the macro runs and is enabled |
| Events.TriggeredFireMissesOwnerChange | src/services/Events.ts:299-310 | when the macro has moved to another tab meanwhile, the as-written check still navigates where the up-to-date check would not |
| Events.TriggeredFire | src/services/Events.ts:299-310 | the corrected fire-time check equals the rescheduling one, and agrees with the as-written check whenever the owner has not changed |
| Events.ExitNumberInput | src/services/Events.ts:1637-1647 | leaving number input clears the mode and the buffer |
| Events.DigitRangeOfChar | src/services/Events.ts:1598 | on a one-character key, `key >= '0' && key <= '9'` is the digit test |
| Events.DigitRangeOfWord | src/services/Events.ts:1598 | on a longer key the string comparison only looks at the first character (so `"0x"` passes) |
| Events.KeyValueDigit | src/services/Events.ts:1598 | for the key values a browser produces, the range test holds exactly for one digit |
| Events.ToggleNumberInput | src/services/Events.ts:1578-1589 | with digits typed the toggle key navigates to them and closes; otherwise it opens an empty buffer |
| Events.HandleNumberInput | src/services/Events.ts:1591-1609 | Enter, `.` or backtick navigate exactly when the buffer holds digits and then close; a digit is appended below three digits; Escape closes; Backspace drops the last digit |
| Events.NumberInputKeepsWf | src/services/Events.ts:1578-1647 | every transition keeps the buffer to at most three digits, empty when closed |
| Events.BackspaceUndoesDigit | src/services/Events.ts:1591-1609 | Backspace right after a digit restores the previous state |
| Events.TypedDigits | src/services/Events.ts:1598-1601 | typing digits into an open buffer appends them while at most three are held |
| Events.TypedNumberCommits | src/services/Events.ts:1578-1609 | opening number input, typing one to three digits and pressing Enter navigates to exactly those digits |
| Events.MatchAction | src/services/Events.ts:1441-1452 | the matched action is the first in action order whose combination is the pressed one, and none matches only when no action's combination is |
| Events.LegacyStep | src/services/Events.ts:1484-1512 | the legacy profile keys act only with Alt alone held, the preview enabled and Alt tracked as pressed |
| Events.BareKeyMatchesAscii | src/services/Events.ts:1503-1511 | a bare ASCII combination matches a key whose full upper case equals it, so Alt with `ı` or `ſ` matches a stored `I` or `S` |
| Events.ListedIndexOfNumber | src/services/Events.ts:1549-1551 | the key spelling a positive number k opens the post at index k - 1, so `1` opens the first listed post |
| Events.Route | src/services/Events.ts:1437-1555 | a matched, enabled shortcut runs unless a bare key is typed into a text field; otherwise the legacy profile keys, then the Alt-digit favourites, then the number keys, in that order; typing without a modifier never triggers anything |
| Events.HandleKeydown | src/services/Events.ts:1412-1555 | the preview is shown on the first Alt press when enabled; a shortcut runs only when it is the first match, switched on and not typed into a text field; the profile and favourite keys require Alt alone |
| Events.DigitKeyFillsBuffer | src/services/Events.ts:1530-1538 | in number-input mode a bare digit that is no shortcut goes into the buffer |
| Events.HandleKeyup | src/services/Events.ts:198-205 | releasing Alt clears the Alt flag and hides the preview when it is enabled; other keys change nothing |
| Events.ReleaseStuckAlt | src/services/Events.ts:207-225 | on blur or focus a stuck Alt flag is cleared and the preview hidden when it was up |
| Events.AltPressRelease | src/services/Events.ts:198-205 | pressing and releasing Alt shows and then hides the preview exactly when it is enabled |
| Events.ActiveIndex | src/services/Events.ts:603 | the active profile's position in enumeration order, or -1 when it is missing |
| Events.CycleTarget | src/services/Events.ts:604-609 | the next position, with `(i ± 1 + n) % n`, is always a valid position |
| Events.CycleProfiles | src/services/Events.ts:592-617 | with one profile or none nothing switches; otherwise the active profile becomes an existing one, different from the current one when that is valid, and the profiles themselves are untouched |
| Events.CycleMoves | src/services/Events.ts:604-609 | from a valid position a step never stays in place |
| Events.CycleBackUndoesNext | src/services/Events.ts:604-609 | stepping back undoes stepping forward |
| Events.CycleNextThenPrev | src/services/Events.ts:592-617 | cycling to the next profile and back returns to the original active profile |
| PostNavigation.SyncParam | src/services/Events.ts:868-875 | one parameter is set to the loaded page's value when that is non-empty and deleted otherwise; no other parameter changes |
| PostNavigation.SyncParams | src/services/Events.ts:866-876 | after a list page is loaded in place, exactly the five list parameters follow the loaded page and every other parameter is kept |
| PostNavigation.SyncParamsIdempotent | src/services/Events.ts:866-876 | synchronising a second time changes nothing |
| PostNavigation.CopyPresent | src/services/Events.ts:1123-1127 | each listed parameter the current address has (even empty) is carried over; all others keep the target's value |
| PostNavigation.FirstSorted | src/services/Events.ts:1058-1059 | the head of the list sorted by `a.num - b.num` (or `b.num - a.num`) is a candidate with the smallest (or largest) number |
| PostNavigation.Candidates | src/services/Events.ts:1056 | the candidates are exactly the fetched posts beyond the current number in the walking direction |
| PostNavigation.Nearest | src/services/Events.ts:1056-1059 | the chosen post lies beyond the current one and is the closest such post; there is none only when no post lies beyond |
| PostNavigation.Newest | src/services/Events.ts:1115-1117 | the page-1 fallback picks the newest post newer than the current one, if any |
| PostNavigation.CrossPage | src/services/Events.ts:1052-1092 | an empty page, no post beyond the current one, a non-positive number and a link whose `no` disagrees are each refused; otherwise the address gets the nearest post's `no`, takes `page` and `search_pos` from the list page and keeps every other parameter |
| PostNavigation.CrossPageGoesToNearest | src/services/Events.ts:1052-1092 | a successful cross-page step opens a positive post number that is on the fetched page, beyond the current one and nearest to it |
| PostNavigation.LatestFallback | src/services/Events.ts:1108-1137 | without a previous page, Z opens the newest page-1 post newer than the current one on page 1, carrying the search parameters over; it gives up only when page 1 has none |
| PostNavigation.OnPage1 | src/services/Events.ts:1119-1127 | the fallback address keeps the post's `no`, sets `page=1` and carries every present search parameter |
| PostNavigation.LatestFallbackNewest | src/services/Events.ts:1108-1137 | the fallback succeeds exactly when page 1 has a newer post, and then opens the newest post of page 1 |
| PostNavigation.ProbeCandidates | src/services/Events.ts:936-938 | the head probe tries the next five numbers upward for Z and at most five positive numbers downward for X |
| PostNavigation.Probe | src/services/Events.ts:935-945 | the probe stops at the first candidate that exists and finds nothing only when none of them exists |
| PostNavigation.ProbeStep | src/services/Events.ts:935-953 | a successful probe changes only `no`, to an existing candidate; otherwise the macro is rescheduled as not found nearby |
| PostNavigation.ChooseWay | src/services/Events.ts:905-959 | a missing or non-numeric `no` stops navigation; without a search keyword and without the current-post icon the head probe is used; with the icon the row walk; with a keyword and no icon the inconsistent-state retry |
| PostNavigation.NeighbourRow | src/services/Events.ts:961-977 | the row walk picks the nearest valid post whose title link has an `href`, above (Z) or below (X) the current row, and finds none only when that side has no such post |
| Shortcut.WithModifier | src/services/Shortcut.ts:129-131 | Setting one modifier flag makes it held and leaves the other three exactly as they were |
| Shortcut.KeyAlias | src/services/Shortcut.ts:32-54 | Every value of the key-name table is one of the canonical key names |
| Shortcut.ShortNameAbsent | src/services/Shortcut.ts:7-18 | No one- or two-letter token names a modifier (every alias is longer) |
| Shortcut.NormalizeKeyTokenAsWritten | src/services/Shortcut.ts:68-94 | IME/dead/modifier tokens and anything containing Hangul give "" ; a blank token gives "" ; a table hit gives the table's name; any non-empty result is printable ASCII without `+` |
| Shortcut.NormalizeTrimmed | src/services/Shortcut.ts:75-93 | On a trimmed token: a table hit wins; otherwise a non-empty result is printable ASCII without `+` |
| Shortcut.SingleCharacter | src/services/Shortcut.ts:78-82 | `+` becomes `Plus`, another printable character its upper case, a non-printable one "" |
| Shortcut.Capitalize | src/services/Shortcut.ts:90 | Only the first character changes and only in case; alphanumeric tokens stay alphanumeric |
| Shortcut.NormalizeKeyToken | src/services/Shortcut.ts:68-94 | Corrected key token: agrees with the source on every token but a lone space, which gives `Space` |
| Shortcut.SpaceBarDropped | src/services/Shortcut.ts:72-73 | The source maps the space bar to "" although its table has an entry `' ' -> Space`; the corrected token gives `Space` |
| Shortcut.KeyNameStable | src/services/Shortcut.ts:75-93 | Every canonical key name normalises to itself and is not a modifier alias |
| Shortcut.KeyTokenStable | src/services/Shortcut.ts:68-94 | A normalised token has the canonical shape, and is not a modifier when its input was not |
| Shortcut.Held | src/services/Shortcut.ts:98-102 | Lists exactly the held modifiers, in MODIFIER_ORDER (Ctrl, Alt, Shift, Meta) |
| Shortcut.FormatCombo | src/services/Shortcut.ts:96-105 | Splitting the result at `+` gives the held modifier names in order followed by the key |
| Shortcut.NormalizeParts | src/services/Shortcut.ts:107-146 | With inherited-member lookups not counted: the held modifiers are every modifier some token names, and the key is the normalisation of the one token that is not a modifier; none when there are zero or several such tokens or it does not normalise |
| Shortcut.ScanMeaning | src/services/Shortcut.ts:127-141 | The token loop equals the order-free meaning above: a second key token or an unnormalisable one aborts, modifier tokens only accumulate |
| Shortcut.NormalizeCombo | src/services/Shortcut.ts:107-146 | Corrected `normalizeShortcutCombo`: present exactly when the parse succeeds, and then the canonical format of what was parsed |
| Shortcut.NormalizeRejects | src/services/Shortcut.ts:107-146 | Blank input, no key token, two key tokens or a key that does not normalise each give null |
| Shortcut.FormatRoundTrip | src/services/Shortcut.ts:96-146 | Parsing a formatted combo gives back exactly its modifiers and key |
| Shortcut.NormalizeIdempotent | src/services/Shortcut.ts:107-146 | Normalising a normalised combo changes nothing |
| Shortcut.NormalizeComboAsWritten | src/services/Shortcut.ts:107-146 | The source's normalisation: blank input gives null |
| Shortcut.AsWrittenMeaning | src/services/Shortcut.ts:127-146 | As written, a token spelt like an inherited object member (`constructor`, `__proto__`) is silently skipped and the rest is parsed as in the corrected version |
| Shortcut.InheritedAliasSwallowed | src/services/Shortcut.ts:128-131 | `Ctrl+A+constructor` normalises to `Ctrl+A` as written but is rejected (two key tokens) by the corrected version |
| Shortcut.PartsAsWritten | src/services/Shortcut.ts:107-146 | The as-written parse yields a plain canonical key that normalises to itself |
| Shortcut.FormatRoundTripAsWritten | src/services/Shortcut.ts:96-146 | The as-written parse also inverts formatting for every plain key |
| Shortcut.AsWrittenAgrees | src/services/Shortcut.ts:127-146 | When no token is spelt like an inherited member the source and the corrected normalisation, and their Alt tests, coincide |
| Shortcut.ComboFromEvent | src/services/Shortcut.ts:148-165 | Corrected event combo: none exactly while composing, for a modifier key or an unnormalisable key; otherwise it parses back to the event's own modifiers and key |
| Shortcut.EventRoundTrip | src/services/Shortcut.ts:153-164 | The combo built from an event parses back to the event's modifiers and normalised key |
| Shortcut.SpaceBarCombo | src/services/Shortcut.ts:148-165 | With the corrected token the space bar with any modifiers yields the `...+Space` combo |
| Shortcut.ComboFromEventAsWritten | src/services/Shortcut.ts:148-165 | The source's event combo: none exactly while composing, for a modifier key or an unnormalisable key; equals the corrected one except for the space bar, and parses back to the event |
| Shortcut.HasAlt | src/services/Shortcut.ts:167-170 | True exactly when the combo normalises and Alt is among its held modifiers |
| Shortcut.HasAltAsWritten | src/services/Shortcut.ts:167-170 | Same statement for the as-written normalisation |
| Shortcut.AltInPieces | src/services/Shortcut.ts:169 | The `Alt` piece occurs in a formatted combo exactly when Alt is held |
| Shortcut.NormalizeWithFallback | src/services/Shortcut.ts:172-185 | Corrected fallback normalisation: "" only when neither combo nor fallback parses; otherwise it parses to the first that does, with Alt added when required |
| Shortcut.NormalizeWithFallbackAsWritten | src/services/Shortcut.ts:172-185 | Same statement for the source's function: the result's meaning is the stored (or fallback) combo with Alt forced on when required |
| Shortcut.AltPrefixNotCanonical | src/services/Shortcut.ts:180-182 | An `Alt+` prefix in front of a formatted combo is never itself a formatted combo |
| Shortcut.AltPrefixedNeverPressed | src/services/Shortcut.ts:180-182 | When the configured combo holds Ctrl but not Alt and Alt is required, no key event produces the string the source stores, so the shortcut can never fire |
| Shortcut.NormalizeWithFallbackMerged | src/services/Shortcut.ts:172-185 | Corrected result: same meaning as the source's, but written in canonical order, so Alt is required and still formatted canonically |
| Shortcut.MergedIsPressed | src/services/Shortcut.ts:148-185 | Pressing the configured key with the configured (Alt-forced) modifiers produces exactly the corrected stored combo |
| DcconAlias.NormalizeBlank | src/services/DcconAlias.ts:84-90 | An alias has the empty key exactly when it is all whitespace |
| DcconAlias.NormalizeIdempotent | src/services/DcconAlias.ts:88-90 | A key is its own key |
| DcconAlias.SanitizeSingleAlias | src/services/DcconAlias.ts:92-97 | At most five characters and no whitespace; empty exactly when the alias without leading `@`s and surrounding whitespace is empty or holds whitespace; otherwise a prefix of it, cut only at five characters |
| DcconAlias.SanitizeClean | src/services/DcconAlias.ts:92-97 | A short alias without whitespace or leading `@` sanitises to itself |
| DcconAlias.SanitizeIdempotent | src/services/DcconAlias.ts:92-97 | Sanitising twice is sanitising once, unless the first result itself starts with `@` |
| DcconAlias.SanitizeAfterSpace | src/services/DcconAlias.ts:94 | `@ x` sanitises to `x`: the `@`s are stripped before the whitespace, so a result can still start with `@` (`@ @x` gives `@x`) |
| DcconAlias.SanitizeLeadingAt | src/services/DcconAlias.ts:94 | `@x` sanitises to `x`, the witness that sanitising is not idempotent on `@ @x` |
| DcconAlias.ParseAliasListInput | src/services/DcconAlias.ts:99-116 | Every alias kept is a non-empty sanitised comma piece of the trimmed input, and no two share a key |
| DcconAlias.OnePerKey | src/services/DcconAlias.ts:103-113 | The de-duplicating loop keeps only non-empty pieces, pairwise distinct by key |
| DcconAlias.OnePerKeyIsLoop | src/services/DcconAlias.ts:103-113 | The kept pieces are exactly those the `forEach` with its `seen` set pushes: a non-empty piece is appended when no earlier kept piece has its key, so the order is the input order |
| DcconAlias.ParseAliasListInputIsLoop | src/services/DcconAlias.ts:99-116 | The parsed aliases are the first piece per key, in the order they were typed |
| DcconAlias.OnePerKeyCovers | src/services/DcconAlias.ts:106-112 | Every accepted piece's key is represented in the result: nothing is lost except duplicates |
| DcconAlias.OnePerKeyKeepsFirst | src/services/DcconAlias.ts:109-112 | Of several pieces with one key the first one is the one kept |
| DcconAlias.ParsePromptText | src/services/DcconAlias.ts:863-890 | Re-submitting the prompt pre-filled with `aliases.join(', ')` unchanged saves exactly the same aliases |
| DcconAlias.SanitizePromptText | src/services/DcconAlias.ts:92-106 | Each comma piece of the pre-filled prompt text sanitises back to its alias |
| DcconAlias.CharBucket | src/services/DcconAlias.ts:121-124 | Digits are bucket 0, Latin letters 1, Hangul 2, anything else 3 |
| DcconAlias.AliasSortBucket | src/services/DcconAlias.ts:118-125 | Bucket 9 exactly for a blank alias; otherwise the bucket of its first visible character |
| DcconAlias.SanitizedBucket | src/services/DcconAlias.ts:118-125 | Every alias the prompt accepts sorts by its first character and never in the blank bucket |
| DcconAlias.CompareAliasStrings | src/services/DcconAlias.ts:127-137 | A lower bucket always sorts first; within a bucket the locale collation decides |
| DcconAlias.AliasComparatorConsistent | src/services/DcconAlias.ts:127-146 | Grouping by bucket keeps a consistent collation consistent, so sorting with it is well defined |
| DcconAlias.InitialIndex | src/services/DcconAlias.ts:271-273 | A syllable's initial index always falls inside the 19-entry initials table, so the `?? ''` never fires |
| DcconAlias.InitialOf | src/services/DcconAlias.ts:269-279 | A character contributes at most one consonant; a consonant contributes itself; nothing exactly for a character that is neither a syllable nor a consonant |
| DcconAlias.ExtractHangulInitials | src/services/DcconAlias.ts:266-282 | The initials are never longer than the text and consist only of consonants |
| DcconAlias.InitialsOfConsonants | src/services/DcconAlias.ts:276-278 | A string of consonants is its own initials |
| DcconAlias.InitialsIdempotent | src/services/DcconAlias.ts:266-282 | Taking initials twice is taking them once |
| DcconAlias.ConsonantQueryFindsSyllables | src/services/DcconAlias.ts:288-293 | A consonant-only query equal to an alias's initials matches that alias |
| DcconAlias.RemoveSpaces | src/services/DcconAlias.ts:300 | Removes whitespace and only whitespace |
| DcconAlias.GetMatchingAliases | src/services/DcconAlias.ts:295-306 | the suggestion list for a typed query never holds more than 120 dccons |
| DcconAlias.SelectMatches | src/services/DcconAlias.ts:295-306 | At most 120 results; an empty query gives the first 120 groups; otherwise only groups one of whose aliases matches, taken from the grouped list |
| DcconAlias.MatchingIsPrefixOfMatches | src/services/DcconAlias.ts:301-305 | The result is all matches within some prefix of the groups, and falls short of the whole list only once 120 are found |
| DcconAlias.TokenRunStart | src/services/DcconAlias.ts:311 | Finds the longest run of token characters (neither whitespace nor `@`) ending the text |
| DcconAlias.ExtractAliasTokenContext | src/services/DcconAlias.ts:308-317 | Some exactly when the text before the caret ends in `@` plus at most 40 token characters, with the `@` at the start or after whitespace; then start is the `@`, end the caret and the query what lies between |
| DcconAlias.MoveSuggestionSelection | src/services/DcconAlias.ts:556-562 | Nothing when there are no suggestions; otherwise the index moves by `step` cyclically |
| DcconAlias.MoveForwardBack | src/services/DcconAlias.ts:556-562 | One step forward then one back returns to the same suggestion |
| DcconAlias.RowCount | src/services/DcconAlias.ts:569 | The ceiling of size over six columns: the fewest rows holding every suggestion |
| DcconAlias.MoveSuggestionSelectionByRow | src/services/DcconAlias.ts:564-580 | Stays in range; lands in the same column `stepRows` rows further, rows wrapping, unless that cell is past the end, where it takes the last suggestion |
| DcconAlias.WrappedRow | src/services/DcconAlias.ts:574-575 | The truncating remainder plus the negative fix-up is the mathematical remainder |
| DcconAlias.RowCycle | src/services/DcconAlias.ts:564-580 | Moving by as many rows as the grid has returns to the same suggestion |
| DcconAliasMap.CleanKey | src/services/DcconAlias.ts:816-823 | One key keeps only the entries of other dccons and is deleted once that leaves none; every other key is untouched |
| DcconAliasMap.CleanKeyTwice | src/services/DcconAlias.ts:816-823 | Cleaning a key a second time changes nothing |
| DcconAliasMap.RemoveFromKeys | src/services/DcconAlias.ts:815-824 | Keys not visited keep their value; each visited key keeps only other dccons' entries and is present only while some remain |
| DcconAliasMap.RemoveTargetFromAliasMap | src/services/DcconAlias.ts:814-825 | Under every key exactly the other dccons' entries remain, in order, and no key is left empty or newly created |
| DcconAliasMap.RemoveLeavesNone | src/services/DcconAlias.ts:814-825 | After removal no entry of the dccon remains under any key |
| DcconAliasMap.NextTarget | src/services/DcconAlias.ts:838-845 | The stored entry belongs to the edited dccon, carries the alias and is stamped `baseTime + index` |
| DcconAliasMap.PutTargetFor | src/services/DcconAlias.ts:847-856 | The dccon's first entry under the key is replaced by the new one, or the new one is put in front |
| DcconAliasMap.PutTargetOthers | src/services/DcconAlias.ts:847-856 | Other dccons' entries under the key are unchanged and keep their order |
| DcconAliasMap.StoreAlias | src/services/DcconAlias.ts:834-858 | Storing one alias touches only the key of that alias |
| DcconAliasMap.StoreStep | src/services/DcconAlias.ts:834-858 | Each iteration extends what the aliases so far stored by the next alias (the loop invariant of `setAliasesForTarget`) |
| DcconAliasMap.RemovedStoresNothing | src/services/DcconAlias.ts:831 | The removal establishes that invariant for no aliases |
| DcconAliasMap.SetAliasesForTarget | src/services/DcconAlias.ts:827-861 | Other dccons' entries are preserved under every key; under each key the dccon has exactly the entry of the last alias with that key (stamped with its index) or none; no key is empty and a new key appears only for an alias |
| DcconAliasMap.StoredOnce | src/services/DcconAlias.ts:834-858 | An alias whose key no other alias shares is stored exactly once under that key, with its own index stamp |
| DcconAliasMap.ParsedAliasesStoredOnce | src/services/DcconAlias.ts:827-861 | Every alias a prompt answer is parsed into is stored exactly once under its key |
| DcconAliasMap.GroupKeyInjective | src/services/DcconAlias.ts:165 | Different dccons get different `package:detail` group keys provided package indices contain no `:` |
| DcconAliasMap.EntryOf | src/services/DcconAlias.ts:174-177 | The entry keeps the alias and a finite timestamp, and takes the clock for a non-finite one |
| DcconAliasMap.AddToDraft | src/services/DcconAlias.ts:174-179 | A later target of a group appends its entry and fills the title or image only where missing |
| DcconAliasMap.AddTarget | src/services/DcconAlias.ts:164-182 | A target joins the draft of its key or opens a new one at the end; draft keys stay distinct |
| DcconAliasMap.Drafts | src/services/DcconAlias.ts:161-183 | The drafts have pairwise distinct group keys |
| DcconAliasMap.DraftsCollect | src/services/DcconAlias.ts:163-183 | Every target's entry lands in the draft of its group key |
| DcconAliasMap.DraftsFromTargets | src/services/DcconAlias.ts:163-183 | Every draft entry comes from a target of that key, and no draft is empty |
| DcconAliasMap.EntryOrderConsistent | src/services/DcconAlias.ts:199 | Ordering by timestamp then alias comparator is a total preorder when the comparator is consistent |
| DcconAliasMap.KeptEntries | src/services/DcconAlias.ts:187-196 | One entry per key, each one of the draft's entries |
| DcconAliasMap.KeptNonBlank | src/services/DcconAlias.ts:189-190 | Blank aliases are never kept |
| DcconAliasMap.GroupEntries | src/services/DcconAlias.ts:198-199 | A reordering of the kept entries, one per key |
| DcconAliasMap.GroupEntriesEarliest | src/services/DcconAlias.ts:192-195 | Every non-blank alias of the draft is represented by an entry with its key that is no later than it |
| DcconAliasMap.GroupEntriesSorted | src/services/DcconAlias.ts:198-199 | The group's aliases are in ascending timestamp order |
| DcconAliasMap.GroupOf | src/services/DcconAlias.ts:198-210 | No popup entry when no alias survives; otherwise its aliases are the sorted survivors, the first is the displayed alias, and the dccon fields come from the draft |
| DcconAliasMap.GroupsCover | src/services/DcconAlias.ts:186-211 | Every draft that kept an alias has its popup entry |
| DcconAliasMap.GroupsDistinct | src/services/DcconAlias.ts:186-211 | Popup entries are for pairwise different dccons |
| DcconAliasMap.RebuildGroupedAliases | src/services/DcconAlias.ts:152-214 | At most one popup entry per dccon |
| DcconAliasMap.RebuiltGroupShape | src/services/DcconAlias.ts:198-210 | Each popup entry has aliases, shows the first, no two share a key, none is blank |
| DcconAliasMap.RebuildCovers | src/services/DcconAlias.ts:152-214 | Every stored non-blank alias appears, by key, in its dccon's popup entry |
| DcconAliasMap.RebuildSound | src/services/DcconAlias.ts:152-214 | Every alias of a popup entry is a stored alias of that dccon |
| DcconAliasMap.RebuildSorted | src/services/DcconAlias.ts:139-146 | The popup list is sorted by `comparePopupTargets` |
| DcconAliasMap.StoredAliases | src/services/DcconAlias.ts:254-261 | Exactly the aliases stored for the dccon, in enumeration order |
| DcconAliasMap.AliasesByTarget | src/services/DcconAlias.ts:247-264 | Without a popup entry for the dccon, the result is a reordering of its stored non-blank aliases, first per key |
| DcconAliasMap.AliasesByTargetGrouped | src/services/DcconAlias.ts:248-251 | With a popup entry for the dccon, the aliases of the first such entry are returned |
| DcconAliasMap.AliasesByTargetFallbackSound | src/services/DcconAlias.ts:253-263 | Without a popup entry, every returned alias is a stored non-blank alias of the dccon |
| DcconAliasMap.AliasesByTargetFallbackCovers | src/services/DcconAlias.ts:253-263 | Without a popup entry, every stored non-blank alias of the dccon is represented by key |
| DcconAliasMap.AliasesByTargetFallbackOrder | src/services/DcconAlias.ts:253-263 | Without a popup entry, no two returned aliases share a key and they are sorted by `compareAliasStrings` |
| Storage.GetData | src/services/Storage.ts:42-54 | A missing or null entry reads as the default; any other entry reads as stored |
| Storage.SetData | src/services/Storage.ts:23-34 | The key holds the new value and every other key is unchanged |
| Storage.GetAfterSet | src/services/Storage.ts:23-54 | A written non-null value is read back, a written null reads as the default, and other keys read as before |
| Storage.ClampedNumber | src/services/Storage.ts:107 | the stored number clamped from below: never below `lo`; the default for a falsy number (0, NaN, missing); the value itself when at least `lo`; `lo` otherwise |
| Storage.AutoRefreshInterval | src/services/Storage.ts:103-108 | At least 1; 10 when nothing is stored |
| Storage.MacroInterval | src/services/Storage.ts:138-143 | At least 500; 5000 when nothing is stored |
| Storage.SaveAutoRefreshInterval | src/services/Storage.ts:110-121 | Writes exactly the numbers that are not NaN and at least 1; leaves storage unchanged otherwise |
| Storage.SaveMacroInterval | src/services/Storage.ts:145-156 | Writes exactly the numbers that are not NaN and at least 500 |
| Storage.IntervalsReadBack | src/services/Storage.ts:103-156 | An accepted interval is read back unchanged; a refused one leaves the reading as it was |
| Storage.SaversKeepIntervalsValid | src/services/Storage.ts:103-156 | When only the setters write, the stored intervals stay valid numbers and are read back verbatim |
| Storage.PreviewOpacity | src/services/Storage.ts:70-73 | 0.85 when nothing is stored; the stored value otherwise, unconverted |
| Storage.SavePreviewOpacity | src/services/Storage.ts:75-87 | Writes exactly the finite numbers within [0.1, 1.0] |
| Storage.OpacityReadsBack | src/services/Storage.ts:70-87 | An accepted opacity is read back; a refused one leaves the reading as it was |
| Storage.PageMode | src/services/Storage.ts:159-162 | `'ajax'` when nothing is stored |
| Storage.SavePageMode | src/services/Storage.ts:164-167 | `'ajax'` and `'full'` are stored and read back; any other mode leaves storage untouched |
| Storage.SavesNeverStoreInfinite | src/services/Storage.ts:164-167 | No sequence of saves makes the stored mode `'infinite'` unless it already was |
| Storage.Favorites | src/services/Storage.ts:171-175 | Always an object: the stored value when it is one, `{}` otherwise |
| FavoritesStore.DefaultProfiles | src/stores/favoritesStore.ts:72 | The fresh store is one empty profile named `기본` |
| FavoritesStore.ProfilesFrom | src/stores/favoritesStore.ts:71-87 | Never empty; a missing, non-object or empty value gives the default profile; old-format data is wrapped as the `기본` profile; anything else is taken as the profile map |
| FavoritesStore.LoadAsWritten | src/stores/favoritesStore.ts:63-101 | A failed read gives the default profile and keeps the active name; a successful one always has a profile and names either a stored profile or `기본` active |
| FavoritesStore.Load | src/stores/favoritesStore.ts:63-101 | The same, with the corrected old-format test that asks the digit keys to hold favourite records |
| FavoritesStore.ChooseActive | src/stores/favoritesStore.ts:89-94 | The stored active name is kept exactly when it names a profile; otherwise `기본` |
| FavoritesStore.EnsureLoaded | src/stores/favoritesStore.ts:44-55 | A loaded store is left as it is; a cold one loads from storage |
| FavoritesStore.Save | src/stores/favoritesStore.ts:103-108 | Storage then holds the profiles under the favourites key and the active name under its key |
| FavoritesStore.FavoritesReadBack | src/services/Storage.ts:171-181 | `getFavorites` returns exactly the profiles saved |
| FavoritesStore.LoadSaved | src/stores/favoritesStore.ts:63-108 | With the corrected test, saving then loading gives back the same store |
| FavoritesStore.LoadSavedAsWritten | src/stores/favoritesStore.ts:63-108 | As written, the same holds as long as some profile name is not a single digit |
| FavoritesStore.EnsureLoadedSaved | src/stores/favoritesStore.ts:44-108 | A cold store reloads what was saved |
| FavoritesStore.DigitNamedProfileCollapses | src/stores/favoritesStore.ts:74-81 | As written, a store whose only profile is named `1` reloads as a `기본` profile containing that profile: the migration misfires |
| FavoritesStore.ActiveFavorites | src/stores/favoritesStore.ts:30-35 | The active profile when present and truthy; `{}` otherwise |
| FavoritesStore.AddOrUpdateFavorite | src/stores/favoritesStore.ts:115-127 | The active profile maps the key to the favourite; its other keys and the other profiles are unchanged, as are the profile names |
| FavoritesStore.RemoveFavorite | src/stores/favoritesStore.ts:133-147 | Nothing changes unless the key holds a truthy favourite; afterwards it holds none, and everything else is unchanged |
| FavoritesStore.HasFavorite | src/stores/favoritesStore.ts:154-163 | True exactly when the active profile has the key as its own property |
| FavoritesStore.GetFavorite | src/stores/favoritesStore.ts:170-179 | The stored favourite when it is truthy; null when it is missing or falsy |
| FavoritesStore.AddThenFind | src/stores/favoritesStore.ts:115-179 | A favourite just added is found and read back; just removed, it is not found |
| FavoritesStore.SwitchProfile | src/stores/favoritesStore.ts:213-222 | Only an existing profile becomes active; the profiles are untouched |
| FavoritesStore.AddProfile | src/stores/favoritesStore.ts:228-240 | A blank name and a taken name are refused (each exactly then); otherwise a new empty profile under the trimmed name becomes active, the others are unchanged, and it is enumerated last unless its name is an array index |
| FavoritesStore.RemoveProfile | src/stores/favoritesStore.ts:246-263 | Refused exactly when one profile is left; a missing name changes nothing; otherwise only that profile goes, and if it was active the first remaining one becomes active |
| FavoritesStore.OthersRemain | src/stores/favoritesStore.ts:248-254 | Deleting one of two or more profiles leaves one |
| FavoritesStore.RenameProfile | src/stores/favoritesStore.ts:270-294 | Blank new name, missing old name and taken new name are each refused exactly then; otherwise the data moves to the trimmed name, the active name follows it, and nothing else changes |
| FavoritesStore.MoveProfile | src/stores/favoritesStore.ts:283-287 | The data under the old name moves to the new one, which is enumerated last unless it is an array index |
| FavoritesStore.ClearAndSetFavorites | src/stores/favoritesStore.ts:185-205 | The profiles become the given data; its first key becomes active, else `기본` if present, else the active name stays |
| FavoritesStore.ClearAndSetWf | src/stores/favoritesStore.ts:195-200 | Afterwards the active name names a profile exactly when the data has a non-empty first key, a `기본` profile, or the old active name |
| FavoritesStore.FavoriteEditsKeepWf | src/stores/favoritesStore.ts:115-147 | Favourite edits and switching keep the active name on an existing profile |
| FavoritesStore.ProfileEditsKeepWf | src/stores/favoritesStore.ts:228-240 | Adding a profile keeps the active name on an existing profile |
| FavoritesStore.RenameProfileKeepsWf | src/stores/favoritesStore.ts:270-294 | So does renaming |
| FavoritesStore.RemoveProfileKeepsWf | src/stores/favoritesStore.ts:246-263 | So does removing |
| SettingsStore.DefaultKey | src/stores/settingsStore.ts:83-91 | Every action's default key is one character |
| SettingsStore.KeyKeyInjective | src/stores/settingsStore.ts:171-177 | Different actions use different `shortcut…Key` and `shortcut…Enabled` storage keys |
| SettingsStore.EnabledKeyNotDedicated | src/stores/settingsStore.ts:205-211 | No action's own enable key is one of the five keys with a dedicated flag, so per-action flags always land in the shared table |
| SettingsStore.Initial | src/stores/settingsStore.ts:109-139 | Before loading, no key and no per-action flag is known |
| SettingsStore.KeysFrom | src/stores/settingsStore.ts:169-172 | Every listed action gets its stored key (or its default) and nothing else is added |
| SettingsStore.EnabledFrom | src/stores/settingsStore.ts:174-180 | Every listed action outside the Alt class gets its flag, true unless `false` is stored; nothing else is added |
| SettingsStore.LoadSettings | src/stores/settingsStore.ts:147-185 | Every action has its stored or default key; every non-Alt action its flag and no Alt action one; the loaded intervals are at least their minimums |
| SettingsStore.LoadEmptyIsInitial | src/stores/settingsStore.ts:109-185 | Loading from empty storage gives the initial scalar settings |
| SettingsStore.LoadEmptyKeysAreDefaults | src/stores/settingsStore.ts:169-180 | From empty storage every action has its default key and every non-Alt action is enabled |
| SettingsStore.FindConflict | src/stores/settingsStore.ts:224-237 | Finds nothing exactly when no other action of the same Alt class currently has the key; otherwise the first such action in list order |
| SettingsStore.SaveShortcutKey | src/stores/settingsStore.ts:215-242 | Rejected as invalid exactly when the upper-cased key is not one of `A-Z0-9[]`` ` ``; rejected with the conflicting action when one exists; saved exactly otherwise, storing the upper-cased key in the store and in storage and changing nothing else |
| SettingsStore.DefaultsDistinct | src/stores/settingsStore.ts:83-91 | The default keys are distinct within each Alt class |
| SettingsStore.DefaultCode | src/stores/settingsStore.ts:83-91 | Each default key is already upper case and determines its action within its class |
| SettingsStore.SaveKeepsKeysDistinct | src/stores/settingsStore.ts:224-240 | A save that passes the conflict check keeps keys distinct within each class |
| SettingsStore.SavedKeyReloads | src/stores/settingsStore.ts:215-242 | A saved key is what the next load reads for that action |
| SettingsStore.SaveMacroInterval | src/stores/settingsStore.ts:244-252 | Saved exactly for a number that is not NaN and at least 500, which the store and storage then hold |
| SettingsStore.SaveAutoRefreshInterval | src/stores/settingsStore.ts:279-287 | Saved exactly for a number that is not NaN and at least 1 |
| SettingsStore.SavePreviewOpacity | src/stores/settingsStore.ts:264-272 | Saved exactly for a number within [0.1, 1.0] |
| SettingsStore.MacroIntervalReloads | src/stores/settingsStore.ts:244-252 | After an accepted save the next load reads the same interval |
| SettingsStore.AutoRefreshIntervalReloads | src/stores/settingsStore.ts:279-287 | Same for the refresh interval |
| SettingsStore.PreviewOpacityReloads | src/stores/settingsStore.ts:264-272 | Same for the preview opacity |
| SettingsStore.SavePageNavigationMode | src/stores/settingsStore.ts:189-194 | Only `ajax` and `full` are taken, and storage then reads that mode |
| SettingsStore.PageNavigationModeReloads | src/stores/settingsStore.ts:189-194 | After a save the next load reads the store's mode; a refused mode leaves the loaded mode as it was |
| SettingsStore.SaveShortcutEnabled | src/stores/settingsStore.ts:201-213 | The flag is always written under its key; the five dedicated keys set their own flag and every other key the shared table |
| SettingsStore.EnabledSaveReloads | src/stores/settingsStore.ts:201-213 | Enabling or disabling a non-Alt action shows in the store at once and in the next load |
| Gallery.TypeOfPath | src/services/Gallery.ts:181-184 | Minor, mini and person galleries exactly for their path prefixes; a board otherwise |
| Gallery.PrefixesExclusive | src/services/Gallery.ts:182-184 | No path has two of the prefixes, so the order of the tests does not matter |
| Gallery.FirstMatch | src/services/Gallery.ts:187-190 | The leftmost position where the literal is followed by a class character, or none at all |
| Gallery.RunEnd | src/services/Gallery.ts:187-190 | The greedy `+` run: all class characters, stopped by a non-class character or the end |
| Gallery.Capture | src/services/Gallery.ts:187-190 | No capture exactly when the pattern matches nowhere; a capture is a non-empty run of class characters |
| Gallery.CaptureAfter | src/services/Gallery.ts:187 | In `…?id=X&…` with no `=` before it, the captured id is X |
| Gallery.GalleryId | src/services/Gallery.ts:187-188 | Empty exactly when no `id=` is followed by a non-`&` character; never contains `&` |
| Gallery.CurrentPage | src/services/Gallery.ts:190-191 | 1 when no `page=` is followed by a digit; otherwise the decimal value of the digit run after the leftmost such `page=` |
| Gallery.CapturePageAfter | src/services/Gallery.ts:190 | In `…page=D…` with no `=` before it and D a maximal digit run, the captured digits are D |
| Gallery.CurrentPageReadsBack | src/services/Gallery.ts:190-191 | The page number written after `page=` (no `=` before it, no digit after it) is the page read back |
| Gallery.GetPageInfo | src/services/Gallery.ts:178-196 | Type from the path, id and page from the address, recommend mode exactly when the address holds `exception_mode=recommend` |
| Gallery.ListPathname | src/services/Gallery.ts:205-208 | Boards list at `/board/lists`; other kinds get their type segment in front |
| Gallery.BaseListUrl | src/services/Gallery.ts:202-209 | None exactly when the page has no gallery id; otherwise the list address of that gallery |
| Gallery.RecommendListUrl | src/services/Gallery.ts:215-219 | None exactly when there is no base address; otherwise the base address with the recommend filter appended |
| Gallery.BaseListUrlReadsBack | src/services/Gallery.ts:178-209 | Reading the page info of the base list address gives back the gallery's type and id |
| Gallery.RecommendListUrlReadsBack | src/services/Gallery.ts:178-219 | Reading the recommend list address gives back the same gallery, in recommend mode |
| Gallery.PathnameReadsBack | src/services/Gallery.ts:205-208 | A list path is classified as the gallery kind it was built for |
| Gallery.PageListUrlReadsBack | src/services/Gallery.ts:178-209 | The gallery a page shows survives the trip through its list address |
| Gallery.ListUrlForCurrentContext | src/services/Gallery.ts:76-88 | Addresses outside `/view/` are unchanged; on a view address the path is the original with its first `/view/` (and only that one) replaced by `/lists/`, every `no` parameter is deleted and the other parameters, the origin and the fragment are kept |
| Posts.CloseFrom | src/services/Posts.ts:75 | The lazy `.*?\]` scan: stops at the first `]` or line terminator |
| Posts.FirstGroup | src/services/Posts.ts:75 | The leftmost `[…]` group on one line, or none anywhere |
| Posts.SpacesFrom | src/services/Posts.ts:75 | The `\s*` run after the group |
| Posts.StripFirstGroup | src/services/Posts.ts:75 | Unchanged when there is no group; otherwise at least the two brackets are removed |
| Posts.StripLeadingGroup | src/services/Posts.ts:75 | A number cell `[d] n` loses its reply-count group and keeps `n` |
| Posts.NoBracketNoGroup | src/services/Posts.ts:75 | A text without `[` is left alone |
| Posts.ValidPostCases | src/services/Posts.ts:41-82 | Missing cells, blocked, trending or hidden rows, notice icons and bold titles are never posts; an `AD` row is a post only through the current-post icon |
| Posts.NumberPartOf | src/services/Posts.ts:74-76 | A digit run, with or without a leading reply group, reduces to the digits and is not `AD` |
| Posts.NumberTextLooksLikePost | src/services/Posts.ts:74-81 | Such a number text passes the numeric test |
| Posts.NumberedRowIsPost | src/services/Posts.ts:41-82 | An ordinary row whose number cell shows a post number, with or without reply group, is a post |
| Posts.FilterFindLast | src/services/Posts.ts:93-107 | One pass yields exactly the accepted elements and the position of the last marked one among them, -1 exactly when none is marked |
| Posts.ListedRows | src/services/Posts.ts:93-107 | Only valid posts with a title link, each from the table |
| Posts.Walkable | src/services/Events.ts:970-971 | a row the walk opens needs a link with an `href`, which is stricter than being listed |
| Posts.GetValidPosts | src/services/Posts.ts:88-110 | The listed rows in document order, and the index of the last one with the current-post icon, -1 exactly when there is none |
| Posts.Navigate | src/services/Posts.ts:170-179 | Follows a link exactly when `parseInt(number)` lies between 1 and the number of listed posts, and then the link of that post |
| Posts.NavigateToNumber | src/services/Posts.ts:170-179 | Typing the decimal number k reaches the k-th listed post exactly when k is in range |
| Posts.CountLabelled | src/services/Posts.ts:125-153 | Never more than the rows counted |
| Posts.AddNumberLabels | src/services/Posts.ts:116-163 | Exactly the rows eligible for labelling (valid posts in the first body, non-`AD`, unblocked rows in later ones) get a label, which is one more than the eligible rows before them |
| Posts.LabelsIncrease | src/services/Posts.ts:156-162 | Labels strictly increase in document order |
| Posts.FirstTimestamp | src/services/Posts.ts:193 | The leftmost `YYYY-MM-DD HH:MM:SS` in the tooltip, or none anywhere |
| Posts.ShortDate | src/services/Posts.ts:196-201 | `HH:mm` for a post of today; `MM.DD HH:mm` otherwise; both end with the post's hour and minute |
| Posts.FormatDate | src/services/Posts.ts:188-209 | A formatted cell is left alone; otherwise the cell is marked, and its text becomes the short date when its tooltip holds a timestamp and is kept when not |
| Posts.FormatDates | src/services/Posts.ts:184-210 | Every cell is formatted independently |
| Posts.FormatDatesOnce | src/services/Posts.ts:188-208 | Formatting twice, even on another day, is formatting once |
| Posts.TargetWidths | src/services/Posts.ts:223-231 | Target widths exist exactly for 6, 7 or 8 columns, one per column |
| Posts.AdjustColgroupWidths | src/services/Posts.ts:216-243 | No table, nothing; another column count is left alone; otherwise each column gets its target width or none |
| Posts.AdjustTwice | src/services/Posts.ts:216-243 | Adjusting twice is adjusting once |
| Posts.LayoutsNest | src/services/Posts.ts:224-228 | The 7-column layout is the 8-column one without the checkbox column, and the 6-column one drops the second of the 7 |
| UiStore.Apply | src/stores/uiStore.ts:45-94 | Opening sets that modal and closing clears it; a toggle closes its own modal and otherwise opens it; modal actions leave the preview flag alone and the preview actions leave the modal alone |
| UiStore.ToggleTwice | src/stores/uiStore.ts:69-80 | Toggling twice restores the state unless the other modal was open, which ends up closed |
| UiStore.PreviewFollowsLastShowOrHide | src/stores/uiStore.ts:85-94 | Over any run of actions the preview flag is what the last show or hide made it, and unchanged when there was none |
| JsNumber.Or | src/services/Storage.ts:107 | the JavaScript logical or of a number and a default: the number when it is truthy (neither 0 nor NaN), the default otherwise |
| JsNumber.Max | src/services/Storage.ts:107 | `Math.max`: NaN exactly when an argument is NaN; otherwise the larger argument |
| JsNumber.Rem | src/services/DcconAlias.ts:571-574 | The `%` of the source truncates: the remainder has the sign of the dividend and lies strictly within one divisor of zero |
| JsNumber.ParseIntOfNatToString | src/services/Posts.ts:172 | `parseInt` reads back the decimal rendering of every natural |
| JsNumber.DigitPrefixOfAppend | src/services/Posts.ts:172 | `parseInt` stops at the first non-digit |
| JsObject.Keys | src/stores/favoritesStore.ts:259 | `Object.keys` lists every own key, in enumeration order |
| JsObject.Get | src/stores/favoritesStore.ts:119 | A lookup succeeds exactly for an own key, and gives that key's value |
| JsObject.Set | src/stores/favoritesStore.ts:121 | The key then holds the value and no other key changes; an existing key keeps its place, a new array-index key is placed among the indices in numeric order and any other new key goes last |
| JsObject.Append | src/stores/favoritesStore.ts:237 | A new key is inserted at its enumeration slot |
| JsObject.Slot | src/stores/favoritesStore.ts:237 | Non-index keys enter last; index keys enter after every smaller index |
| JsObject.Delete | src/stores/favoritesStore.ts:140 | The key is gone, the other keys keep their values and relative order |
| JsObject.NewKeyKeepsOrder | src/stores/favoritesStore.ts:237 | Adding a key leaves the relative order of the others as it was |
| JsValue.ToNumber | src/services/Storage.ts:107 | `Number(v)`: a number is itself, null is 0, a boolean 0 or 1, an object NaN |
| JsValue.Member | src/stores/favoritesStore.ts:137 | A member exists exactly for an own key of an object |
| WebUrl.GetParam | src/services/Events.ts:500 | `searchParams.get` finds a value exactly when the name is present, taken from a pair with that name |
| WebUrl.DeleteParam | src/services/Gallery.ts:84 | `searchParams.delete` removes every pair with the name and keeps all other pairs |
| WebUrl.DeleteAbsent | src/services/Gallery.ts:84 | Deleting an absent name changes nothing |
| WebUrl.SetParam | src/services/Events.ts:502 | `searchParams.set`: the name then reads the value, other names read as before, and nothing else about that name survives |
| Text.Trim | src/services/Shortcut.ts:72 | No whitespace at either end; empty exactly for an all-whitespace string |
| Text.TrimOfTrimmed | src/services/Shortcut.ts:113 | A trimmed string trims to itself |
| Text.FindFrom | src/services/DcconAlias.ts:290 | `indexOf`: the first occurrence at or after the start, or none at all |
| Text.JsUpperOfAscii | src/services/Events.ts:1503 | `toUpperCase` of ASCII text is its ASCII upper case |
| Text.ReplaceFirst | src/services/Gallery.ts:82 | `replace` with a string pattern replaces only the first occurrence, leaving the rest intact |
| Text.Split | src/services/Shortcut.ts:112 | `split`: pieces free of the separator that join back to the input |
| Text.SplitJoin | src/services/Shortcut.ts:104-112 | Splitting a join gives back the parts when none holds the separator |
| Text.NatToString | src/services/Posts.ts:160 | Decimal rendering: digits only, no leading zero, denoting the number |
| Text.Pad2 | src/services/Posts.ts:186 | `padStart(2, '0')`: two digits for numbers below 100, denoting the number |
| Sorting.Sort | src/services/DcconAlias.ts:213 | `Array.prototype.sort` yields a permutation of its input |
| Sorting.SortSorted | src/services/DcconAlias.ts:213 | With a consistent comparator the output is ordered |
| Sorting.SortStable | src/services/DcconAlias.ts:199 | Elements the comparator ranks equal keep their input order (the sort is stable) |
| Sorting.SortKeepsDistinct | src/services/DcconAlias.ts:198-199 | Sorting keeps keys distinct |
| Seqs.Take | src/services/DcconAlias.ts:298-305 | `slice(0, n)`: the first n elements, or all when there are fewer |

## Left out

- Storage failures: every `chrome.storage` read and write succeeds; the rejected promises and the `try`/`catch` fallbacks around them are not modelled.
- Floating point: JavaScript numbers are exact reals plus NaN and the infinities, so rounding (of opacities, intervals, `Math.random` jitter) is not modelled.
- The clock, `Math.random`, `setTimeout`/`setInterval`, `fetch`, HEAD probes and DOM queries are parameters or environment steps; the DOM effects themselves (highlighting, alerts, focus, scrolling, CSS) are not modelled.
- Percent-encoding and serialising a URL back to `href`: query names and values are the decoded strings.
- Arrays in storage: `JsValue.Value` has no arrays, so `getFavorites` accepting an array (its `typeof === 'object'` test) and array or string spread are not modelled.
- Storage.Favorites: a stored array is read as "no favourites" rather than passed through, because arrays are not values of the model.
- `localeCompare` is a comparator parameter assumed to be a total preorder; its locale tables are not modelled.
- Strings are sequences of code points, while JavaScript `length` and `slice` count UTF-16 units; the two differ only for characters outside the Basic Multilingual Plane (emoji).
- DcconAlias.SanitizeSingleAlias: the five-character cut counts code points, not UTF-16 units, so an alias of emoji keeps whole characters where the source can cut a surrogate pair in half.
- DcconAlias.ExtractAliasTokenContext: the 40-character token limit and the token start are counted in code points, not UTF-16 units.
- DcconAlias.NormalizeAliasKey: `toLocaleLowerCase` is modelled on ASCII letters only, so non-ASCII letters that differ only in case give two keys instead of one.
- DcconAlias.ParseAliasListInput: de-duplication uses the ASCII-only key above, so `É` and `é` count as two aliases.
- SettingsStore.SaveShortcutKey: the conflict check upper-cases the other actions' keys with ASCII-only `toUpperCase` (plus `ı` and `ſ` for the new key), so a stored non-ASCII key that would upper-case into a conflicting letter is not seen as a conflict.
- SettingsStore.FindConflict: the same ASCII-only upper-casing of stored keys.
- SettingsStore.LoadSettings: a stored shortcut key that is not a string is read as the default key, where `val ?? default` would keep the non-string value.
- Shortcut.NormalizeKeyTokenAsWritten: `KEY_NORMALIZATION_MAP[...]` also finds inherited members, so a raw key named `constructor` would return the `Object` function and one named `__proto__` would return `Object.prototype`; the model treats both as ordinary words.
- Shortcut.ComboFromEventAsWritten: the same inherited lookup for an event whose `key` is `constructor` or `__proto__`, which no keyboard produces.
- DcconAliasMap.GroupKeyInjective: `packageIdx:detailIdx` group keys of different dccons are proved distinct only when the package indices contain no `:`; the source does not check this.
- DcconAlias.SanitizeIdempotent: sanitising is not idempotent when its result itself starts with `@` (the second pass strips it); the lemma states idempotence for the other inputs.
- Gallery's `getInfo` and `handleFavoriteKey` (Gallery.ts:94-172) read the DOM and show UI; they are not part of this model.
- `isRefreshablePage` and the UI-enabled flags are parameters of `Agent` and `Events`.
- Events' search-block fetching (Events.ts:980-1050), `findPaginationLink` and `getValidPostsFromDoc` parse fetched HTML; the model takes their results (rows, page numbers) as inputs.
- Text.JsUpper: only characters whose upper case is pure ASCII are mapped (ASCII letters, `ı`, `ſ`, `ß`, U+FB00 to U+FB06); other characters are kept as they are, which compares the same against ASCII text but is not their real upper case.
- FavoritesStore.GetFavorite: `currentProfile[key]` also reads inherited members, so a key such as `constructor` would return a function rather than null; the model reads own keys only (favourite keys are digits).
- Events.CycleProfiles: the `loadProfiles` reload before cycling is not modelled; the profiles already in the store are cycled.
- Events.HandleKeydown: the DOM effects of the actions (clicks, focus, scrolling) are not modelled; the result names the action taken.
- The corrected shortcut members (`Shortcut.NormalizeKeyToken`, `NormalizeCombo`, `ComboFromEvent`, `HasAlt`, `NormalizeWithFallback`, `NormalizeWithFallbackMerged`) are the intended halves of findings; the dispatch in `Events` uses the as-written ones.
- AutoRefresher.MergeBody: merges with the as-written, order-reversing insertion, as the source does; the order-keeping `RefreshMerge.InsertAndTrim` is the intended half.
- AutoRefresher.MergeBody: the `addNumberLabels()` and `formatDates()` calls that end `insertAndTrimPosts` (AutoRefresher.ts:344-345) are not applied to the merged rows; `Posts.AddNumberLabels` and `Posts.FormatDates` model them on their own.
- FavoritesStore.LoadAsWritten: the two writes of `loadProfiles` are not returned: the `saveProfiles()` after a migration (favoritesStore.ts:81) and the write of `기본` as the active name when the stored one names no profile (favoritesStore.ts:93). The store they leave behind is what the model returns.
- FavoritesStore.EnsureLoaded: loads with `LoadAsWritten`, as the source does; `Load` is the intended half.
- Concurrency: only the two `await`s of `checkNewPosts` are interleaving points; other async functions are atomic steps.

## Findings

| source | as written | input that shows it | evidently intended | confidence | as-written member | corrected member |
|---|---|---|---|---|---|---|
| src/services/Shortcut.ts:72-76 | the key is trimmed before the table lookup, so the space bar's `" "` becomes `""` and the `' ': 'Space'` entry is never reached | a key event with `key == " "`: no combo, so a Space shortcut can never fire | the space bar normalises to `Space` | high, not executed | Shortcut.SpaceBarDropped | Shortcut.SpaceBarCombo |
| src/services/Shortcut.ts:128 | `MODIFIER_ALIASES[token.toLowerCase()]` also finds inherited members, so a token `constructor` or `__proto__` is skipped as if it were a modifier | `"Ctrl+A+constructor"` normalises to `Ctrl+A` | only the table's own names are modifiers; an extra word makes the combo invalid | medium, not executed | Shortcut.InheritedAliasSwallowed | Shortcut.NormalizeIdempotent |
| src/services/Shortcut.ts:180-182 | an Alt-required combo without Alt gets `Alt+` put in front, outside the canonical order | stored `Ctrl+K` for an Alt action becomes `Alt+Ctrl+K`, while pressing Ctrl+Alt+K gives `Ctrl+Alt+K` | Alt is merged into the canonical modifier order, so the key can be pressed | high, not executed | Shortcut.AltPrefixedNeverPressed | Shortcut.MergedIsPressed |
| src/stores/favoritesStore.ts:74-81 | stored data whose keys are all single digits is taken for the old single-profile format | profiles named `1` and `2`: `{"1": {}, "2": {}}` is wrapped into one profile `기본` | only data whose values are favourite records is migrated | medium, not executed | FavoritesStore.DigitNamedProfileCollapses | FavoritesStore.LoadSaved |
| src/services/AutoRefresher.ts:296-316 | the new rows are reversed and each is inserted before the same first post, which reverses them twice over: the page shows them oldest first | two new posts 12, 11 fetched in that order are shown as 11, 12 above the old posts | the new rows appear in fetched order (newest first) | high, not executed | RefreshMerge.InsertionOrderReversed | RefreshMerge.InsertAndTrimSpec |
| src/services/Events.ts:299-310 | the timer's callback compares this tab with the owner seen when it was armed, not with the owner in the fresh answer | tab 5 arms the Z timer; the stop for tab 5 and the start for tab 7 both land while the callback awaits `getMacroStateFromBackground()`; the answer names tab 7, and tab 5 still navigates | navigate only when this tab is still the owner, as the rescheduled attempt checks | medium, not executed | Events.TriggeredFireMissesOwnerChange | Events.TriggeredFire |

=== FILE: agent.dfy ===
/** The content script's reactions (src/content-script/main.ts): the per-tab
    decision to poll for new posts, the `startMacro`, `stopMacro` and `leaderUpdate`
    message handlers, and the visibility and focus listeners. */
module Agent {
  import opened Wrappers
  import Session
  import AutoRefresher

  /** How the `getLeaderTabId` query ended: it threw, it came back without a
      successful reply, or it came back with the leader (`None` is `null`). */
  datatype LeaderAnswer = Threw | Unsuccessful | Leader(leaderTabId: Option<int>)

  datatype Decision = NoChange | StartPolling | StopPolling

  /** `handleAutoRefresherState`: nothing while the own tab id is unknown; otherwise
      poll exactly when this tab is the leader, the page is refreshable and auto
      refresh is enabled, and stop in every other case, errors included. */
  function PollingDecision(myTabId: Option<int>, answer: LeaderAnswer, enabled: bool, refreshable: bool): (d: Decision)
    ensures d == NoChange <==> myTabId.None?
    ensures d == StartPolling <==>
              myTabId.Some? && answer == Leader(myTabId) && refreshable && enabled
    ensures myTabId.Some? && !answer.Leader? ==> d == StopPolling
  {
    if myTabId.None? then NoChange
    else match answer
      case Threw => StopPolling
      case Unsuccessful => StopPolling
      case Leader(leader) =>
        if myTabId == leader && refreshable && enabled then StartPolling else StopPolling
  }

  /** Carrying out a decision on the tab's refresher; `now` is the clock reading
      `start` takes. */
  function ApplyDecision(s: AutoRefresher.Refresher, d: Decision, enabled: bool, now: int): (r: AutoRefresher.Refresher)
    ensures d == NoChange ==> r == s
    ensures d == StopPolling ==> r.timer.NoTimer? && r.controller.None?
    ensures d == StartPolling && enabled ==> !r.timer.NoTimer?
    ensures AutoRefresher.Wf(s) ==> AutoRefresher.Wf(r)
  {
    match d
    case NoChange => s
    case StartPolling => AutoRefresher.Start(s, enabled, now)
    case StopPolling => AutoRefresher.Stop(s)
  }

  /** Every tab asks the coordinator for the same leader, so of two different tabs
      at most one decides to poll, and only the recorded leader does. */
  lemma AtMostOnePoller(bg: Session.State, t1: int, t2: int, enabled1: bool, enabled2: bool,
                        refreshable1: bool, refreshable2: bool)
    requires t1 != t2
    ensures !(PollingDecision(Some(t1), Leader(Session.LeaderReply(bg)), enabled1, refreshable1) == StartPolling
              && PollingDecision(Some(t2), Leader(Session.LeaderReply(bg)), enabled2, refreshable2) == StartPolling)
    ensures PollingDecision(Some(t1), Leader(Session.LeaderReply(bg)), enabled1, refreshable1) == StartPolling ==>
              bg.leader == Some(t1)
  {
  }

  /** The `leaderUpdate` handler: the leader carried by the message is only logged;
      the decision comes from a fresh query. */
  function OnLeaderUpdate(payload: Option<int>, myTabId: Option<int>, answer: LeaderAnswer,
                          enabled: bool, refreshable: bool): (d: Decision)
    ensures d == StartPolling ==> answer == Leader(myTabId)
  {
    PollingDecision(myTabId, answer, enabled, refreshable)
  }

  lemma LeaderUpdateIgnoresPayload(p1: Option<int>, p2: Option<int>, myTabId: Option<int>,
                                   answer: LeaderAnswer, enabled: bool, refreshable: bool)
    ensures OnLeaderUpdate(p1, myTabId, answer, enabled, refreshable)
            == OnLeaderUpdate(p2, myTabId, answer, enabled, refreshable)
  {
  }

  /** What `startMacro` does: refuse a message meant for another tab, refuse a
      macro switched off in the settings, or navigate (Z to the previous post, X to
      the next). */
  datatype StartResult = Mismatch | UiDisabled | Navigate(macro: Session.Macro)

  function OnStartMacro(m: Session.Macro, expectedTabId: int, currentTabId: Option<int>,
                        zEnabled: bool, xEnabled: bool): (r: StartResult)
    ensures r.Navigate? <==>
              currentTabId == Some(expectedTabId) && (if m == Session.Z then zEnabled else xEnabled)
    ensures r.Navigate? ==> r.macro == m
    ensures currentTabId != Some(expectedTabId) ==> r == Mismatch
  {
    if currentTabId != Some(expectedTabId) then Mismatch
    else if !(if m == Session.Z then zEnabled else xEnabled) then UiDisabled
    else Navigate(m)
  }

  /** A start request the coordinator addressed to this very tab is acted on
      whenever the macro is enabled: `expectedTabId` is the new owner's own id. */
  lemma StartFromToggleReachesOwner(bg: Session.State, m: Session.Macro, active: int, zEnabled: bool, xEnabled: bool)
    requires !Session.Running(bg, m) && active != 0
    requires (if m == Session.Z then zEnabled else xEnabled)
    ensures Session.ToggleMacro(bg, m, Some(active)).effects != []
    ensures var e := Session.ToggleMacro(bg, m, Some(active)).effects;
            var last := e[|e| - 1];
            last.Send? && last.msg.StartMacro?
            && OnStartMacro(m, last.msg.expectedTabId, Some(last.tab), zEnabled, xEnabled) == Navigate(m)
  {
  }

  /** The visibility listener. */
  datatype VisibilityReaction = Ignore | Reevaluate | StopNow

  function OnVisibilityChange(pauseOnInactive: bool, visible: bool): (r: VisibilityReaction)
    ensures !pauseOnInactive <==> r == Ignore
    ensures pauseOnInactive ==> (r == Reevaluate <==> visible)
  {
    if !pauseOnInactive then Ignore else if visible then Reevaluate else StopNow
  }

  /** The focus listener: while a timer is set the title is restored and the
      unseen count reset; nothing else about the refresher changes. */
  function OnFocus(s: AutoRefresher.Refresher): (r: AutoRefresher.Refresher)
    ensures !s.timer.NoTimer? ==> r.unseen == 0
    ensures r == s.(unseen := r.unseen)
    ensures s.timer.NoTimer? ==> r == s
  {
    if !s.timer.NoTimer? then s.(unseen := 0) else s
  }

  /** What a visibility event does to the refresher: nothing, the polling decision
      of a fresh query (`decision`), or `stop`. */
  function VisibilityEffect(s: AutoRefresher.Refresher, reaction: VisibilityReaction, decision: Decision,
                            enabled: bool, now: int): (r: AutoRefresher.Refresher)
    ensures reaction == Ignore ==> r == s
    ensures reaction == StopNow ==> r.timer.NoTimer? && r.controller.None? && r.unseen == 0
    ensures AutoRefresher.Wf(s) ==> AutoRefresher.Wf(r)
  {
    match reaction
    case Ignore => s
    case Reevaluate => ApplyDecision(s, decision, enabled, now)
    case StopNow => AutoRefresher.Stop(s)
  }

  /** With pausing on, hiding the page stops polling and shows the plain title;
      showing it again polls when the fresh query makes this tab the poller. */
  lemma VisibilityPausesPolling(s: AutoRefresher.Refresher, myTabId: int, answer: LeaderAnswer,
                                enabled: bool, refreshable: bool, now: int, original: string)
    ensures var hidden := VisibilityEffect(s, OnVisibilityChange(true, false),
                                           PollingDecision(Some(myTabId), answer, enabled, refreshable), enabled, now);
            hidden.timer.NoTimer? && AutoRefresher.Title(original, hidden.unseen) == original
    ensures var shown := VisibilityEffect(s, OnVisibilityChange(true, true),
                                          PollingDecision(Some(myTabId), answer, enabled, refreshable), enabled, now);
            (answer == Leader(Some(myTabId)) && enabled && refreshable ==> !shown.timer.NoTimer?)
            && (answer != Leader(Some(myTabId)) || !enabled || !refreshable ==> shown.timer.NoTimer?)
    ensures VisibilityEffect(s, OnVisibilityChange(false, false), NoChange, enabled, now) == s
  {
  }

  /** Focusing the window shows the plain title while polling, keeps the
      refresher's bookkeeping, and a second focus changes nothing. */
  lemma FocusRestoresTitle(s: AutoRefresher.Refresher, original: string)
    ensures !s.timer.NoTimer? ==> AutoRefresher.Title(original, OnFocus(s).unseen) == original
    ensures s.timer.NoTimer? ==> AutoRefresher.Title(original, OnFocus(s).unseen) == AutoRefresher.Title(original, s.unseen)
    ensures AutoRefresher.Wf(s) ==> AutoRefresher.Wf(OnFocus(s))
    ensures OnFocus(OnFocus(s)) == OnFocus(s)
  {
  }
}

=== FILE: auto_refresher.dfy ===
/** The auto-refresh scheduler of src/services/AutoRefresher.ts: a generation-fenced
    polling loop. `start` opens a generation (stamped with the clock) and an abort
    controller, `stop` clears the timer and aborts the controller, and every check
    runs as a chain of asynchronous steps. The two `await`s of `checkNewPosts` are
    modelled as explicit continuations (`Pending`) that the environment resumes
    with the outcome of the network call. */
module AutoRefresher {
  import opened Wrappers
  import opened Text
  import opened JsNumber
  import opened RefreshMerge

  /** `timerId`: no timer, a timer waiting to fire, or a timer that has fired. The
      code never clears `timerId` when the timeout runs, so a fired timer still
      counts as running. */
  datatype Timer = NoTimer | Armed(gen: int) | Fired(gen: int)

  /** The refresher's fields. Abort controllers are named by `nat` identities handed
      out in order; `aborted` records which have been aborted. `unseen` is
      `newPostCountInTitle`. */
  datatype Refresher = Refresher(
    timer: Timer,
    controller: Option<nat>,
    aborted: set<nat>,
    nextController: nat,
    generation: int,
    unseen: nat)

  function Initial(): (r: Refresher)
    ensures Wf(r) && r.timer == NoTimer && r.controller.None? && r.unseen == 0
  {
    Refresher(NoTimer, None, {}, 0, 0, 0)
  }

  /** Bookkeeping that every reachable state keeps: identities are issued below
      `nextController`, the live controller is not aborted, and a timer belongs to
      the current generation, which has a controller. */
  predicate Wf(s: Refresher) {
    (forall c :: c in s.aborted ==> c < s.nextController)
    && (s.controller.Some? ==> s.controller.value < s.nextController && s.controller.value !in s.aborted)
    && (!s.timer.NoTimer? ==> s.timer.gen == s.generation && s.controller.Some?)
  }

  /** The document title for a count of unseen posts. */
  function Title(original: string, unseen: nat): (t: string)
  {
    if unseen == 0 then original else "(" + NatToString(unseen) + ") " + original
  }

  /** The count shown in the title can be read back from it. */
  lemma TitleShowsCount(original: string, unseen: nat)
    requires unseen > 0
    ensures Title(original, unseen)[0] == '('
    ensures ParseInt(Title(original, unseen)[1..]) == Some(unseen)
  {
    var digits := NatToString(unseen);
    var t := Title(original, unseen);
    assert t[1..] == digits + (") " + original);
    assert !IsSpace(digits[0]);
    assert TrimStart(t[1..]) == t[1..];
    DigitPrefixOfAppend(digits, ") " + original);
  }

  // ---------------------------------------------------------------------------
  // start, stop, scheduleNextCheck
  // ---------------------------------------------------------------------------

  /** `start()`: does nothing when a timer is set or auto refresh is disabled;
      otherwise opens generation `now` with a fresh controller, restores the title
      and arms the first check. */
  function Start(s: Refresher, enabled: bool, now: int): (r: Refresher)
    ensures !s.timer.NoTimer? || !enabled ==> r == s
    ensures s.timer.NoTimer? && enabled ==>
              r.timer == Armed(now) && r.generation == now && r.unseen == 0
              && r.controller == Some(s.nextController) && r.aborted == s.aborted && r.nextController > s.nextController
    ensures Wf(s) ==> Wf(r)
  {
    if !s.timer.NoTimer? || !enabled then s
    else
      assert Wf(s) ==> s.nextController !in s.aborted;
      var begun := s.(generation := now, controller := Some(s.nextController),
                       nextController := s.nextController + 1, unseen := 0);
      Schedule(begun, now)
  }

  /** `stop()`: clears the timer, aborts and drops the controller, and restores the
      title. The generation is left as it is. */
  function Stop(s: Refresher): (r: Refresher)
    ensures r.timer == NoTimer && r.controller.None? && r.unseen == 0
    ensures r.generation == s.generation && r.nextController == s.nextController
    ensures s.controller.Some? ==> r.aborted == s.aborted + {s.controller.value}
    ensures s.controller.None? ==> r.aborted == s.aborted
    ensures Wf(s) ==> Wf(r)
  {
    var aborted := match s.controller
      case None => s.aborted
      case Some(c) => s.aborted + {c};
    s.(timer := NoTimer, controller := None, aborted := aborted, unseen := 0)
  }

  lemma StopIdempotent(s: Refresher)
    ensures Stop(Stop(s)) == Stop(s)
  {
  }

  lemma StartIdempotent(s: Refresher, enabled: bool, now: int, later: int)
    ensures Start(Start(s, enabled, now), enabled, later) == Start(s, enabled, now)
  {
  }

  /** `scheduleNextCheck(gen)`: arms the timer only for the current generation. */
  function Schedule(s: Refresher, gen: int): (r: Refresher)
    ensures gen == s.generation ==> r.timer == Armed(gen) && r == s.(timer := r.timer)
    ensures gen != s.generation ==> r == s
  {
    if gen != s.generation then s else s.(timer := Armed(gen))
  }

  /** The delay of the next check in milliseconds: the interval in seconds times
      1000, plus a jitter of up to 15% either way drawn from `random` in [0, 1). */
  function NextDelay(intervalSeconds: real, random: real): (d: real)
    requires 0.0 <= random < 1.0
    ensures intervalSeconds >= 0.0 ==>
              0.85 * (intervalSeconds * 1000.0) <= d <= 1.15 * (intervalSeconds * 1000.0)
    ensures intervalSeconds > 0.0 ==> d < 1.15 * (intervalSeconds * 1000.0)
  {
    var base := intervalSeconds * 1000.0;
    JitterBounds(base, random);
    base + Jitter(base, random)
  }

  /** `(Math.random() - 0.5) * base * 0.3`. */
  function Jitter(base: real, random: real): real {
    (random - 0.5) * base * 0.3
  }

  lemma JitterBounds(base: real, random: real)
    requires 0.0 <= random < 1.0
    ensures base >= 0.0 ==> -0.15 * base <= Jitter(base, random) <= 0.15 * base
    ensures base > 0.0 ==> Jitter(base, random) < 0.15 * base
  {
    var x := Jitter(base, random);
    assert x + 0.15 * base == base * (0.3 * random);
    assert 0.15 * base - x == base * (0.3 - 0.3 * random);
    if base >= 0.0 {
      assert base * (0.3 * random) >= 0.0;
      assert base * (0.3 - 0.3 * random) >= 0.0;
    }
    if base > 0.0 {
      assert base * (0.3 - 0.3 * random) > 0.0;
    }
  }

  // ---------------------------------------------------------------------------
  // checkNewPosts as a chain of steps
  // ---------------------------------------------------------------------------

  datatype Stage = AwaitingResponse | AwaitingBody

  /** A suspended `checkNewPosts` call: its generation, the list URL it requested
      and the controller whose signal the request carries. */
  datatype Pending = Pending(stage: Stage, gen: int, url: string, ctl: nat)

  /** What the `catch` block distinguishes. */
  datatype ErrorKind = AbortError | FailedToFetch | OtherError | NotAnError

  /** The refresher after a step, the continuation still outstanding, and whether
      an alert was shown. */
  datatype Step = Step(state: Refresher, pending: Option<Pending>, alert: bool)

  /** The `catch` block: an abort is silent, a network failure retries on the next
      cycle, any other error stops polling with an alert, a non-`Error` value stops
      polling silently. */
  function Fail(s: Refresher, gen: int, e: ErrorKind): (r: Step)
    ensures r.pending.None?
    ensures r.alert <==> e == OtherError
    ensures e == AbortError ==> r.state == s
    ensures e == FailedToFetch ==> r.state == Schedule(s, gen)
    ensures e == OtherError || e == NotAnError ==> r.state == Stop(s)
  {
    match e
    case AbortError => Step(s, None, false)
    case FailedToFetch => Step(Schedule(s, gen), None, false)
    case OtherError => Step(Stop(s), None, true)
    case NotAnError => Step(Stop(s), None, false)
  }

  /** The synchronous start of `checkNewPosts(gen)` up to the `fetch` call. A stale
      generation and an empty list URL end the chain. Reading the signal of a
      missing controller throws a TypeError, which the `catch` block treats as an
      unexpected error. */
  function CheckNewPosts(s: Refresher, gen: int, listUrl: string): (r: Step)
    ensures gen != s.generation || listUrl == [] ==> r == Step(s, None, false)
    ensures gen == s.generation && listUrl != [] && s.controller.Some? ==>
              r == Step(s, Some(Pending(AwaitingResponse, gen, listUrl, s.controller.value)), false)
    ensures gen == s.generation && listUrl != [] && s.controller.None? ==> r == Fail(s, gen, OtherError)
  {
    if gen != s.generation || listUrl == [] then Step(s, None, false)
    else match s.controller
      case None => Fail(s, gen, OtherError)
      case Some(c) => Step(s, Some(Pending(AwaitingResponse, gen, listUrl, c)), false)
  }

  /** The timer callback: an armed timer fires (and stays set), starting a check of
      its generation; with no armed timer nothing happens. */
  function TimerFires(s: Refresher, listUrl: string): (r: Step)
    ensures !s.timer.Armed? ==> r == Step(s, None, false)
    ensures s.timer.Armed? ==> r == CheckNewPosts(s.(timer := Fired(s.timer.gen)), s.timer.gen, listUrl)
  {
    match s.timer
    case Armed(g) => CheckNewPosts(s.(timer := Fired(g)), g, listUrl)
    case _ => Step(s, None, false)
  }

  /** How the `fetch` promise settled. A request whose controller was aborted
      before it settled always rejects with an AbortError. */
  datatype FetchOutcome = Rejected(kind: ErrorKind) | Responded(ok: bool)

  /** Resumption after `await fetch(...)`: the generation and the list URL are
      re-checked, a page navigation in progress ends the chain, a non-OK status is
      an unexpected error, and otherwise the body is awaited. */
  function ResumeResponse(s: Refresher, k: Pending, outcome: FetchOutcome, urlNow: string, pageLoading: bool): (r: Step)
    ensures k.ctl in s.aborted ==> r == Fail(s, k.gen, AbortError)
    ensures r.pending.Some? <==>
              k.ctl !in s.aborted && outcome == Responded(true) && k.gen == s.generation
              && urlNow == k.url && !pageLoading
    ensures r.pending.Some? ==> r.state == s && r.pending.value == k.(stage := AwaitingBody)
  {
    if k.ctl in s.aborted then Fail(s, k.gen, AbortError)
    else match outcome
      case Rejected(e) => Fail(s, k.gen, e)
      case Responded(ok) =>
        if k.gen != s.generation || urlNow != k.url then Step(s, None, false)
        else if pageLoading then Step(s, None, false)
        else if !ok then Fail(s, k.gen, OtherError)
        else Step(s, Some(k.(stage := AwaitingBody)), false)
  }

  /** How `response.text()` settled. A parsed body carries the rows of every post
      table body (`table.gall_list tbody tr`, read for the reply badges) and the row
      list of its first post table body (`None` when it has none; the new posts come
      only from there). */
  datatype BodyOutcome = BodyFailed(kind: ErrorKind) | Body(allRows: seq<Row>, rows: Option<seq<Row>>)

  /** A step that may also change the post list of the page. */
  datatype Merge = Merge(step: Step, page: Option<seq<Row>>)

  /** Resumption after `await response.text()`. The generation is NOT re-checked
      here. The reply badges are refreshed; with no post table on either side the
      chain ends without a new timer; otherwise the new posts are merged in. */
  function ResumeBody(s: Refresher, k: Pending, outcome: BodyOutcome, page: Option<seq<Row>>,
                      viewPostNo: Option<int>, focused: bool): (r: Merge)
    ensures k.ctl in s.aborted ==> r == Merge(Fail(s, k.gen, AbortError), page)
    ensures k.ctl !in s.aborted && outcome.Body? && outcome.rows.Some? && page.Some? ==>
              r == MergeBody(s, k.gen, outcome.allRows, outcome.rows.value, page.value, viewPostNo, focused)
    ensures k.ctl !in s.aborted && outcome.Body? && (outcome.rows.None? || page.None?) ==>
              r.step == Step(s, None, false)
              && r.page == (if page.Some? then Some(SyncReplies(page.value, outcome.allRows)) else None)
    ensures r.step.pending.None?
    ensures r.page.Some? <==> page.Some?
    ensures r.step.state.unseen > s.unseen ==> !focused
  {
    if k.ctl in s.aborted then Merge(Fail(s, k.gen, AbortError), page)
    else match outcome
      case BodyFailed(e) => Merge(Fail(s, k.gen, e), page)
      case Body(all, fetched) =>
        if fetched.Some? && page.Some? then MergeBody(s, k.gen, all, fetched.value, page.value, viewPostNo, focused)
        else
          var synced := match page
            case None => None
            case Some(rows) => Some(SyncReplies(rows, all));
          Merge(Step(s, None, false), synced)
  }

  /** Both pages have a post table: reply badges are refreshed from the rows of
      every fetched post table (`all`); the new posts, taken from the first fetched
      table (`fetched`), are counted in the title while the window is unfocused,
      inserted above the old ones as `insertAndTrimPosts` is written (so in the
      reverse of the order the server lists them), and the next check of the
      generation is scheduled. */
  function MergeBody(s: Refresher, gen: int, all: seq<Row>, fetched: seq<Row>, local: seq<Row>,
                     viewPostNo: Option<int>, focused: bool): (r: Merge)
    ensures r.step.state.unseen == (if focused then s.unseen else s.unseen + |NewRows(fetched, Latest(SyncReplies(local, all), viewPostNo))|)
    ensures r.page.Some?
    ensures NewRows(fetched, Latest(SyncReplies(local, all), viewPostNo)) == [] ==> r.page.value == SyncReplies(local, all)
    ensures NewRows(fetched, Latest(SyncReplies(local, all), viewPostNo)) != [] ==>
              r.page.value == InsertAndTrimAsWritten(SyncReplies(local, all), NewRows(fetched, Latest(SyncReplies(local, all), viewPostNo)))
    ensures r.step.pending.None? && !r.step.alert
    ensures r.step.state == Schedule(s.(unseen := r.step.state.unseen), gen)
  {
    var synced := SyncReplies(local, all);
    var incoming := NewRows(fetched, Latest(synced, viewPostNo));
    var counted := if incoming != [] && !focused then s.(unseen := s.unseen + |incoming|) else s;
    var rows := if incoming != [] then InsertAndTrimAsWritten(synced, incoming) else synced;
    Merge(Step(Schedule(counted, gen), None, false), Some(rows))
  }

  // ---------------------------------------------------------------------------
  // Generation fencing
  // ---------------------------------------------------------------------------

  /** A continuation is either dead (its controller was aborted) or it is the one
      live check of the current generation, whose timer has fired. */
  predicate Tracks(s: Refresher, k: Pending) {
    k.ctl < s.nextController
    && (k.ctl in s.aborted
        || (s.controller == Some(k.ctl) && k.gen == s.generation && s.timer == Fired(k.gen)))
  }

  /** What the rest of the system does while a continuation is outstanding. */
  datatype Event = StartEvent(enabled: bool, now: int) | StopEvent | TimerEvent(listUrl: string)

  function Apply(s: Refresher, e: Event): (r: Refresher)
  {
    match e
    case StartEvent(enabled, now) => Start(s, enabled, now)
    case StopEvent => Stop(s)
    case TimerEvent(url) => TimerFires(s, url).state
  }

  /** Events keep the bookkeeping and keep every outstanding continuation either
      dead or current. */
  lemma ApplyKeepsTracks(s: Refresher, k: Pending, e: Event)
    requires Wf(s) && Tracks(s, k)
    ensures Wf(Apply(s, e)) && Tracks(Apply(s, e), k)
  {
  }

  function ApplyAll(s: Refresher, es: seq<Event>): Refresher
    decreases |es|
  {
    if es == [] then s else ApplyAll(Apply(s, es[0]), es[1..])
  }

  lemma {:induction false} ApplyAllKeepsTracks(s: Refresher, k: Pending, es: seq<Event>)
    requires Wf(s) && Tracks(s, k)
    ensures Wf(ApplyAll(s, es)) && Tracks(ApplyAll(s, es), k)
    decreases |es|
  {
    if es != [] {
      ApplyKeepsTracks(s, k, es[0]);
      ApplyAllKeepsTracks(Apply(s, es[0]), k, es[1..]);
    }
  }

  /** A continuation created by a timer is tracked from the start. */
  lemma TimerCreatesTracked(s: Refresher, listUrl: string)
    requires Wf(s)
    ensures Wf(TimerFires(s, listUrl).state)
    ensures TimerFires(s, listUrl).pending.Some? ==>
              Tracks(TimerFires(s, listUrl).state, TimerFires(s, listUrl).pending.value)
  {
  }

  /** The response step keeps the continuation tracked. */
  lemma ResumeResponseTracked(s: Refresher, k: Pending, outcome: FetchOutcome, urlNow: string, pageLoading: bool)
    requires Wf(s) && Tracks(s, k)
    ensures Wf(ResumeResponse(s, k, outcome, urlNow, pageLoading).state)
    ensures ResumeResponse(s, k, outcome, urlNow, pageLoading).pending.Some? ==>
              Tracks(ResumeResponse(s, k, outcome, urlNow, pageLoading).state,
                     ResumeResponse(s, k, outcome, urlNow, pageLoading).pending.value)
  {
  }

  /** Although the body step does not re-check the generation, a continuation of an
      older generation cannot touch the page or the refresher: by then its
      controller has been aborted, so the body read fails with an AbortError. */
  lemma StaleBodyIsHarmless(s: Refresher, k: Pending, es: seq<Event>, outcome: BodyOutcome,
                            page: Option<seq<Row>>, viewPostNo: Option<int>, focused: bool)
    requires Wf(s) && Tracks(s, k)
    requires ApplyAll(s, es).generation != k.gen
    ensures ResumeBody(ApplyAll(s, es), k, outcome, page, viewPostNo, focused)
            == Merge(Step(ApplyAll(s, es), None, false), page)
  {
    ApplyAllKeepsTracks(s, k, es);
  }

  /** The body step ends every chain and keeps the bookkeeping. */
  lemma ResumeBodyKeepsWf(s: Refresher, k: Pending, outcome: BodyOutcome, page: Option<seq<Row>>,
                          viewPostNo: Option<int>, focused: bool)
    requires Wf(s) && Tracks(s, k)
    ensures Wf(ResumeBody(s, k, outcome, page, viewPostNo, focused).step.state)
  {
  }
}

=== FILE: dccon_alias.dfy ===
/** The text side of dccon aliases (short names typed after `@` in a comment box to
    pick a dccon sticker): cleaning what the user types as aliases, ordering aliases,
    Hangul-initial search, finding the `@` token before the caret, and moving the
    selection in the six-column suggestion grid. */
module DcconAlias {
  import opened Wrappers
  import opened Text
  import opened Seqs
  import JsNumber
  import Sorting

  const SuggestionLimit: nat := 120
  const MaxAliasLength: nat := 5
  const MaxTokenQueryLength: nat := 40
  const GridColumnCount: nat := 6
  const HangulSyllableBase: int := 0xAC00
  const HangulSyllableLast: int := 0xD7A3
  const HangulInitialCycle: int := 588

  /** The nineteen leading consonants in the order of the syllable block. */
  const HangulInitials: seq<char> :=
    ['\U{3131}', '\U{3132}', '\U{3134}', '\U{3137}', '\U{3138}', '\U{3139}', '\U{3141}',
     '\U{3142}', '\U{3143}', '\U{3145}', '\U{3146}', '\U{3147}', '\U{3148}', '\U{3149}',
     '\U{314A}', '\U{314B}', '\U{314C}', '\U{314D}', '\U{314E}']

  /** One entry of the suggestion popup: a dccon and all of its aliases. */
  datatype PopupTarget = PopupTarget(
    alias: string,
    aliases: seq<string>,
    packageIdx: string,
    detailIdx: string,
    title: Option<string>,
    imageUrl: Option<string>)

  function Min(a: int, b: int): int { if a <= b then a else b }

  /** `normalizeAliasKey`: trimmed and lower-cased. */
  function NormalizeAliasKey(alias: string): string {
    Lower(Trim(alias))
  }

  /** Lower-casing never turns a visible character into whitespace. */
  lemma LowerKeepsNonSpace(c: char)
    requires !IsSpace(c)
    ensures !IsSpace(AsciiLower(c))
  {
  }

  /** Lower-casing keeps the ends of a trimmed string visible. */
  lemma LowerTrimmed(t: string)
    requires t == [] || (!IsSpace(t[0]) && !IsSpace(t[|t| - 1]))
    ensures var r := Lower(t); r == [] || (!IsSpace(r[0]) && !IsSpace(r[|r| - 1]))
  {
    if t != [] {
      LowerKeepsNonSpace(t[0]);
      LowerKeepsNonSpace(t[|t| - 1]);
    }
  }

  /** A key is empty exactly for a blank alias. */
  lemma NormalizeBlank(alias: string)
    ensures NormalizeAliasKey(alias) == "" <==> forall k :: 0 <= k < |alias| ==> IsSpace(alias[k])
  {
  }

  /** A key never has whitespace at its ends. */
  lemma NormalizeTrimmed(alias: string)
    ensures var r := NormalizeAliasKey(alias);
      r == [] || (!IsSpace(r[0]) && !IsSpace(r[|r| - 1]))
  {
    LowerTrimmed(Trim(alias));
  }

  lemma LowerIdempotent(s: string)
    ensures Lower(Lower(s)) == Lower(s)
  {
    forall i | 0 <= i < |s| ensures Lower(Lower(s))[i] == Lower(s)[i] {
      var c := s[i];
      if 'A' <= c <= 'Z' {
        assert 'a' <= AsciiLower(c) <= 'z';
      }
    }
  }

  /** A normalised key is its own key. */
  lemma NormalizeIdempotent(alias: string)
    ensures NormalizeAliasKey(NormalizeAliasKey(alias)) == NormalizeAliasKey(alias)
  {
    var k := NormalizeAliasKey(alias);
    NormalizeTrimmed(alias);
    TrimOfTrimmed(k);
    LowerIdempotent(Trim(alias));
  }

  /* ---------------------------------------------------------------------------
     Sanitising and parsing the alias prompt
     --------------------------------------------------------------------------- */

  /** `replace(/^@+/, '')`. */
  function DropLeadingAts(s: string): (r: string)
    ensures |r| <= |s| && r == s[|s| - |r|..]
    ensures forall i :: 0 <= i < |s| - |r| ==> s[i] == '@'
    ensures r == [] || r[0] != '@'
  {
    if s != [] && s[0] == '@' then DropLeadingAts(s[1..]) else s
  }

  /** `sanitizeSingleAlias`: leading `@`s and surrounding whitespace go; the alias is
      rejected (empty) when nothing is left or whitespace remains inside, and is cut to
      its first five characters otherwise. */
  function SanitizeSingleAlias(raw: string): (r: string)
    ensures |r| <= MaxAliasLength
    ensures !HasSpace(r)
    ensures r == "" <==> Stripped(raw) == "" || HasSpace(Stripped(raw))
    ensures r != "" ==> StartsWith(Stripped(raw), r) && (r == Stripped(raw) || |r| == MaxAliasLength)
  {
    var alias := Stripped(raw);
    if alias == "" || HasSpace(alias) then ""
    else
      var n := Min(MaxAliasLength, |alias|);
      CutAlias(alias, n);
      alias[..n]
  }

  /** What cutting a clean, non-empty alias to at most five characters keeps. */
  lemma CutAlias(alias: string, n: int)
    requires alias != "" && !HasSpace(alias) && n == Min(MaxAliasLength, |alias|)
    ensures 0 < n <= |alias| && |alias[..n]| <= MaxAliasLength && alias[..n] != ""
    ensures !HasSpace(alias[..n])
    ensures StartsWith(alias, alias[..n]) && (alias[..n] == alias || |alias[..n]| == MaxAliasLength)
  {
    NoSpacePrefix(alias, n);
  }

  /** The alias with its leading `@`s and surrounding whitespace removed. */
  function Stripped(raw: string): string {
    Trim(DropLeadingAts(raw))
  }

  lemma NoSpacePrefix(a: string, n: nat)
    requires n <= |a| && !HasSpace(a)
    ensures !HasSpace(a[..n])
  {
    forall i | 0 <= i < n ensures !IsSpace(a[..n][i]) {
      assert a[..n][i] == a[i];
    }
  }

  /** A clean alias: what sanitising keeps unchanged and a comma-separated prompt can
      carry. */
  predicate IsCleanAlias(a: string) {
    0 < |a| <= MaxAliasLength && !HasSpace(a) && a[0] != '@' && ',' !in a
  }

  /** A clean alias sanitises to itself. */
  lemma SanitizeClean(a: string)
    requires 0 < |a| <= MaxAliasLength && !HasSpace(a) && a[0] != '@'
    ensures SanitizeSingleAlias(a) == a
  {
    assert DropLeadingAts(a) == a;
    TrimOfTrimmed(a);
  }

  /** Sanitising is idempotent except on what still starts with `@` after trimming
      (`"@ @x"` gives `"@x"`, which sanitises again to `"x"`). */
  lemma SanitizeIdempotent(raw: string)
    requires SanitizeSingleAlias(raw) == "" || SanitizeSingleAlias(raw)[0] != '@'
    ensures SanitizeSingleAlias(SanitizeSingleAlias(raw)) == SanitizeSingleAlias(raw)
  {
    var r := SanitizeSingleAlias(raw);
    if r != "" {
      SanitizeClean(r);
    } else {
      assert Stripped(r) == "";
    }
  }

  /** The exception to idempotence: an `@` after the first whitespace survives, so
      `"@ @x"` sanitises to `"@x"` ... */
  lemma SanitizeAfterSpace(a: string)
    requires 0 < |a| <= MaxAliasLength && !HasSpace(a)
    ensures SanitizeSingleAlias("@ " + a) == a
  {
    var raw := "@ " + a;
    assert raw[1..] == " " + a;
    assert DropLeadingAts(raw) == " " + a;
    NoSpaceEnds(a);
    TrimSpaceLed(a);
    assert Stripped(raw) == a;
  }

  lemma NoSpaceEnds(a: string)
    requires a != [] && !HasSpace(a)
    ensures !IsSpace(a[0]) && !IsSpace(a[|a| - 1])
  {
  }

  /** ... which sanitises again to `"x"`. */
  lemma SanitizeLeadingAt(at: string, x: string)
    requires at == "@x" && x == "x"
    ensures SanitizeSingleAlias(at) == x
  {
    assert !IsSpace(x[0]);
    NoSpaceIn(x);
    assert at[1..] == x;
    assert DropLeadingAts(at) == x;
    TrimOfTrimmed(x);
    assert Stripped(at) == x;
  }

  lemma NoSpaceIn(s: string)
    requires forall i :: 0 <= i < |s| ==> !IsSpace(s[i])
    ensures !HasSpace(s)
  {
  }

  /** Trimming one leading space off a trimmed non-empty string. */
  lemma TrimSpaceLed(a: string)
    requires a != [] && !IsSpace(a[0]) && !IsSpace(a[|a| - 1])
    ensures Trim(" " + a) == a
  {
    assert (" " + a)[1..] == a;
    assert TrimStart(" " + a) == a;
    assert TrimEnd(a) == a;
  }

  predicate NonEmpty(s: string) { s != "" }

  /** Each token sanitised, in order. */
  function SanitizeAll(tokens: seq<string>): (r: seq<string>)
    ensures |r| == |tokens|
    ensures forall i :: 0 <= i < |r| ==> r[i] == SanitizeSingleAlias(tokens[i])
  {
    seq(|tokens|, i requires 0 <= i < |tokens| => SanitizeSingleAlias(tokens[i]))
  }

  /** The comma-separated pieces of the trimmed input, each sanitised. */
  function SanitizedTokens(raw: string): seq<string> {
    SanitizeAll(Split(Trim(raw), ','))
  }

  /** `parseAliasListInput`: the accepted pieces, one per key. */
  function ParseAliasListInput(raw: string): (r: seq<string>)
    ensures forall i :: 0 <= i < |r| ==> NonEmpty(r[i]) && r[i] in SanitizedTokens(raw)
    ensures forall i, j :: 0 <= i < j < |r| ==> NormalizeAliasKey(r[i]) != NormalizeAliasKey(r[j])
  {
    OnePerKey(SanitizedTokens(raw))
  }

  /** The loop of `parseAliasListInput` over the sanitised pieces: rejected pieces are
      skipped and a piece whose key was already taken is dropped. */
  function OnePerKey(sanitized: seq<string>): (r: seq<string>)
    ensures forall i :: 0 <= i < |r| ==> NonEmpty(r[i]) && r[i] in sanitized
    ensures forall i, j :: 0 <= i < j < |r| ==> NormalizeAliasKey(r[i]) != NormalizeAliasKey(r[j])
  {
    FilterDedup(sanitized, NonEmpty, NormalizeAliasKey)
  }

  /** The kept pieces are exactly those the loop of `parseAliasListInput` pushes, in
      input order: a piece is appended when it is non-empty and no piece appended
      before it has its key. */
  lemma OnePerKeyIsLoop(sanitized: seq<string>)
    ensures OnePerKey(sanitized) == LoopDedup(sanitized, NonEmpty, NormalizeAliasKey)
  {
    FilterDedupIsLoop(sanitized, NonEmpty, NormalizeAliasKey);
  }

  /** So the parsed aliases are the first piece per key, in the order typed. */
  lemma ParseAliasListInputIsLoop(raw: string)
    ensures ParseAliasListInput(raw) == LoopDedup(SanitizedTokens(raw), NonEmpty, NormalizeAliasKey)
  {
    OnePerKeyIsLoop(SanitizedTokens(raw));
  }

  /** Every accepted piece is represented by an alias with its key. */
  lemma OnePerKeyCovers(sanitized: seq<string>, s: string)
    requires s in sanitized && s != ""
    ensures exists i :: 0 <= i < |OnePerKey(sanitized)| &&
              NormalizeAliasKey(OnePerKey(sanitized)[i]) == NormalizeAliasKey(s)
  {
    assert NonEmpty(s);
    var r := OnePerKey(sanitized);
    var key := NormalizeAliasKey;
    var i :| 0 <= i < |r| && key(r[i]) == key(s);
    assert NormalizeAliasKey(r[i]) == key(r[i]);
  }

  /** Of the accepted pieces with one key, the first is the one kept. */
  lemma OnePerKeyKeepsFirst(sanitized: seq<string>, j: nat)
    requires j < |Filter(sanitized, NonEmpty)|
    requires forall k :: 0 <= k < j ==>
               NormalizeAliasKey(Filter(sanitized, NonEmpty)[k]) != NormalizeAliasKey(Filter(sanitized, NonEmpty)[j])
    ensures Filter(sanitized, NonEmpty)[j] in OnePerKey(sanitized)
  {
    DedupKeepsFirst(Filter(sanitized, NonEmpty), NormalizeAliasKey, {}, j);
  }

  /** `aliases.join(', ')`, the text the alias prompt is pre-filled with. */
  function PromptText(aliases: seq<string>): string {
    Join(SpaceLed(aliases), ',')
  }

  /** The pieces of `aliases.join(', ')` between the commas. */
  function SpaceLed(aliases: seq<string>): (r: seq<string>)
    ensures |r| == |aliases|
  {
    seq(|aliases|, i requires 0 <= i < |aliases| => if i == 0 then aliases[0] else " " + aliases[i])
  }

  /** Editing the aliases shown in the prompt without changing them saves the same
      aliases: parsing the pre-filled text gives back the list. */
  lemma ParsePromptText(aliases: seq<string>)
    requires |aliases| >= 1
    requires forall i :: 0 <= i < |aliases| ==> IsCleanAlias(aliases[i])
    requires forall i, j :: 0 <= i < j < |aliases| ==> NormalizeAliasKey(aliases[i]) != NormalizeAliasKey(aliases[j])
    ensures ParseAliasListInput(PromptText(aliases)) == aliases
  {
    SanitizePromptText(aliases);
    FilterAll(aliases, NonEmpty);
    DedupDistinct(aliases, NormalizeAliasKey, {});
  }

  /** Each piece of the pre-filled text sanitises back to its alias. */
  lemma SanitizePromptText(aliases: seq<string>)
    requires |aliases| >= 1
    requires forall i :: 0 <= i < |aliases| ==> IsCleanAlias(aliases[i])
    ensures SanitizedTokens(PromptText(aliases)) == aliases
  {
    var parts := SpaceLed(aliases);
    forall i | 0 <= i < |parts| ensures ',' !in parts[i] {
      if i > 0 {
        assert parts[i] == " " + aliases[i];
      }
    }
    TrimPromptText(aliases);
    SplitJoin(parts, ',');
    assert Split(Trim(PromptText(aliases)), ',') == parts;
    forall i | 0 <= i < |parts| ensures SanitizeSingleAlias(parts[i]) == aliases[i] {
      SanitizeSpaceLed(aliases[i], i == 0);
    }
    SanitizeEach(parts, aliases);
  }

  lemma SanitizeEach(parts: seq<string>, aliases: seq<string>)
    requires |parts| == |aliases|
    requires forall i :: 0 <= i < |parts| ==> SanitizeSingleAlias(parts[i]) == aliases[i]
    ensures SanitizeAll(parts) == aliases
  {
  }

  lemma SanitizeSpaceLed(a: string, first: bool)
    requires IsCleanAlias(a)
    ensures SanitizeSingleAlias(if first then a else " " + a) == a
  {
    assert !IsSpace(a[0]) && !IsSpace(a[|a| - 1]);
    if first {
      SanitizeClean(a);
    } else {
      assert DropLeadingAts(" " + a) == " " + a;
      TrimSpaceLed(a);
    }
  }

  /** The pre-filled text starts with the first alias and ends with the last one, so
      trimming it changes nothing. */
  lemma TrimPromptText(aliases: seq<string>)
    requires |aliases| >= 1
    requires forall i :: 0 <= i < |aliases| ==> IsCleanAlias(aliases[i])
    ensures Trim(PromptText(aliases)) == PromptText(aliases)
  {
    var parts := SpaceLed(aliases);
    forall i | 0 <= i < |parts| ensures parts[i] != [] {
    }
    JoinEnds(parts, ',');
    var first := aliases[0];
    var last := aliases[|aliases| - 1];
    CleanEnds(first);
    CleanEnds(last);
    var lastPart := parts[|parts| - 1];
    assert lastPart == (if |parts| == 1 then last else " " + last);
    assert lastPart[|lastPart| - 1] == last[|last| - 1];
    TrimmedEnds(PromptText(aliases), first[0], last[|last| - 1]);
  }

  lemma TrimmedEnds(t: string, a: char, b: char)
    requires t != [] && t[0] == a && t[|t| - 1] == b && !IsSpace(a) && !IsSpace(b)
    ensures Trim(t) == t
  {
    TrimOfTrimmed(t);
  }

  lemma CleanEnds(a: string)
    requires IsCleanAlias(a)
    ensures !IsSpace(a[0]) && !IsSpace(a[|a| - 1])
  {
  }

  /** A join begins with its first part and ends with its last. */
  lemma {:induction false} JoinEnds(parts: seq<string>, sep: char)
    requires |parts| >= 1
    requires forall i :: 0 <= i < |parts| ==> parts[i] != []
    ensures var j := Join(parts, sep);
      j != [] && j[0] == parts[0][0] && j[|j| - 1] == parts[|parts| - 1][|parts[|parts| - 1]| - 1]
  {
    if |parts| > 1 {
      var tail := parts[1..];
      JoinEnds(tail, sep);
      assert Join(parts, sep) == parts[0] + [sep] + Join(tail, sep);
    }
  }

  /* ---------------------------------------------------------------------------
     Ordering aliases
     --------------------------------------------------------------------------- */

  /** The Hangul class `[ㄱ-ㅎㅏ-ㅣ가-힣]`: consonants, vowels and syllables. */
  predicate IsHangulChar(c: char) {
    ('\U{3131}' <= c <= '\U{314E}') || ('\U{314F}' <= c <= '\U{3163}') || ('\U{AC00}' <= c <= '\U{D7A3}')
  }

  /** The bucket of a first character: digits, then Latin letters, then Hangul, then
      everything else. */
  function CharBucket(c: char): (r: nat)
    ensures r <= 3
    ensures r == 0 <==> IsAsciiDigit(c)
    ensures r == 1 <==> IsAsciiLetter(c)
    ensures r == 2 <==> IsHangulChar(c)
  {
    if IsAsciiDigit(c) then 0
    else if IsAsciiLetter(c) then 1
    else if IsHangulChar(c) then 2
    else 3
  }

  /** `getAliasSortBucket`: the bucket of the first character of the trimmed alias, 9
      for a blank one. The first character after `trim` is the first after
      `trimStart`, which is what is computed here. */
  function AliasSortBucket(alias: string): (r: nat)
    ensures r == 9 <==> TrimStart(alias) == ""
    ensures r != 9 ==> r == CharBucket(TrimStart(alias)[0])
  {
    var t := TrimStart(alias);
    if t == "" then 9 else CharBucket(t[0])
  }

  /** The bucket is read off the trimmed alias, as in the source. */
  lemma BucketOfTrimmed(alias: string)
    ensures AliasSortBucket(alias) == 9 <==> Trim(alias) == ""
    ensures Trim(alias) != "" ==> AliasSortBucket(alias) == CharBucket(Trim(alias)[0])
  {
    var t := TrimStart(alias);
    assert Trim(alias) == TrimEnd(t);
    if t != "" {
      assert !IsSpace(t[|t| - 1]) || IsSpace(t[|t| - 1]);
      TrimEndKeepsFirst(t);
    }
  }

  lemma TrimEndKeepsFirst(t: string)
    requires t != "" && !IsSpace(t[0])
    ensures TrimEnd(t) != "" && TrimEnd(t)[0] == t[0]
  {
  }

  /** Every alias the prompt accepts sorts by its first character, never last. */
  lemma SanitizedBucket(raw: string)
    requires SanitizeSingleAlias(raw) != ""
    ensures AliasSortBucket(SanitizeSingleAlias(raw)) == CharBucket(SanitizeSingleAlias(raw)[0]) < 9
  {
    var r := SanitizeSingleAlias(raw);
    NoSpaceEnds(r);
    assert TrimStart(r) == r;
  }

  /** `compareAliasStrings`: by bucket, then by the locale collation `locale`. */
  function CompareAliasStrings(a: string, b: string, locale: (string, string) -> int): (r: int)
    ensures AliasSortBucket(a) < AliasSortBucket(b) ==> r < 0
    ensures AliasSortBucket(a) > AliasSortBucket(b) ==> r > 0
    ensures AliasSortBucket(a) == AliasSortBucket(b) ==> r == locale(a, b)
  {
    Sorting.ByKeyThen(AliasSortBucket, locale)(a, b)
  }

  /** The alias comparator as a function value. */
  function AliasComparator(locale: (string, string) -> int): (string, string) -> int {
    Sorting.ByKeyThen(AliasSortBucket, locale)
  }

  /** Grouping by bucket keeps a consistent collation consistent, so sorting aliases
      with it is well defined. */
  lemma AliasComparatorConsistent(locale: (string, string) -> int)
    requires Sorting.Consistent(locale)
    ensures Sorting.Consistent(AliasComparator(locale))
  {
    Sorting.ByKeyThenConsistent(AliasSortBucket, locale);
  }

  /* ---------------------------------------------------------------------------
     Hangul initials and search
     --------------------------------------------------------------------------- */

  predicate IsHangulSyllable(c: char) {
    HangulSyllableBase <= c as int <= HangulSyllableLast
  }

  /** The class `[ㄱ-ㅎ]`. */
  predicate IsHangulConsonant(c: char) {
    '\U{3131}' <= c <= '\U{314E}'
  }

  /** Position of a syllable's leading consonant in `HangulInitials`. */
  function InitialIndex(c: char): (i: nat)
    requires IsHangulSyllable(c)
    ensures i < |HangulInitials|
  {
    (c as int - HangulSyllableBase) / HangulInitialCycle
  }

  /** What one character contributes to the initials. */
  function InitialOf(c: char): (r: string)
    ensures |r| <= 1
    ensures forall i :: 0 <= i < |r| ==> IsHangulConsonant(r[i])
    ensures IsHangulConsonant(c) ==> r == [c]
    ensures r == [] <==> !IsHangulSyllable(c) && !IsHangulConsonant(c)
  {
    if IsHangulSyllable(c) then [HangulInitials[InitialIndex(c)]]
    else if IsHangulConsonant(c) then [c]
    else []
  }

  /** `extractHangulInitials`: each syllable becomes its leading consonant, consonants
      stay, everything else is dropped. */
  function ExtractHangulInitials(s: string): (r: string)
    ensures |r| <= |s|
    ensures forall i :: 0 <= i < |r| ==> IsHangulConsonant(r[i])
  {
    if s == [] then [] else InitialOf(s[0]) + ExtractHangulInitials(s[1..])
  }

  /** A string of consonants is its own initials. */
  lemma {:induction false} InitialsOfConsonants(s: string)
    requires forall i :: 0 <= i < |s| ==> IsHangulConsonant(s[i])
    ensures ExtractHangulInitials(s) == s
  {
    if s != [] {
      InitialsOfConsonants(s[1..]);
    }
  }

  /** Taking initials twice is taking them once. */
  lemma InitialsIdempotent(s: string)
    ensures ExtractHangulInitials(ExtractHangulInitials(s)) == ExtractHangulInitials(s)
  {
    InitialsOfConsonants(ExtractHangulInitials(s));
  }

  /** Agreement with Unicode's composition of a syllable from leading consonant `l`,
      vowel `v` and optional trailing consonant `t` (section 3.12 of the Unicode
      Standard): the initial found is the one the syllable was built from. */
  lemma InitialOfComposed(l: nat, v: nat, t: nat)
    requires l < 19 && v < 21 && t < 28
    ensures InitialOf((HangulSyllableBase + (l * 21 + v) * 28 + t) as char) == [HangulInitials[l]]
  {
    var offset := (l * 21 + v) * 28 + t;
    assert offset == l * 588 + (v * 28 + t);
    assert v * 28 + t < 588;
    assert offset <= 18 * 588 + 587;
    var c := (HangulSyllableBase + offset) as char;
    assert c as int - HangulSyllableBase == offset;
    assert offset / 588 == l;
  }

  /** `isHangulConsonantQuery`: non-empty and only consonants. */
  predicate IsConsonantQuery(q: string) {
    |q| > 0 && forall i :: 0 <= i < |q| ==> IsHangulConsonant(q[i])
  }

  /** `matchesAliasSearchQuery`. */
  predicate MatchesAliasSearchQuery(source: string, normalizedQuery: string, consonantQuery: string) {
    Contains(NormalizeAliasKey(source), normalizedQuery)
    || (IsConsonantQuery(consonantQuery) && Contains(ExtractHangulInitials(source), consonantQuery))
  }

  /** A consonant query finds a syllable alias by its initials (`ㅇㄴ` finds `안녕`). */
  lemma ConsonantQueryFindsSyllables(source: string, q: string)
    requires IsConsonantQuery(q) && q == ExtractHangulInitials(source)
    ensures MatchesAliasSearchQuery(source, q, q)
  {
    ContainsSlice(q, 0, |q|);
    assert q[0..|q|] == q;
  }

  /** Example: the initials of "안녕" ("hello") are "ㅇㄴ". */
  lemma InitialsOfAnnyeong(word: string, initials: string)
    requires word == ['\U{C548}', '\U{B155}'] && initials == ['\U{3147}', '\U{3134}']
    ensures ExtractHangulInitials(word) == initials
  {
    assert InitialIndex(word[0]) == 11;
    assert InitialIndex(word[1]) == 2;
    assert word[1..][1..] == [];
  }

  predicate NotSpace(c: char) { !IsSpace(c) }

  /** `replace(/\s+/g, '')`. */
  function RemoveSpaces(s: string): (r: string)
    ensures !HasSpace(r) && |r| <= |s|
    ensures forall c :: c in s && !IsSpace(c) ==> c in r
  {
    Filter(s, NotSpace)
  }

  /** The groups one of whose aliases matches. */
  function QueryMatcher(normalizedQuery: string, consonantQuery: string): PopupTarget -> bool {
    (g: PopupTarget) => exists a :: a in g.aliases && MatchesAliasSearchQuery(a, normalizedQuery, consonantQuery)
  }

  /** `getMatchingAliases(query)`, given the grouped aliases. */
  function GetMatchingAliases(grouped: seq<PopupTarget>, query: string): (r: seq<PopupTarget>)
    ensures |r| <= SuggestionLimit
  {
    SelectMatches(grouped, NormalizeAliasKey(query))
  }

  /** The body of `getMatchingAliases` for the normalised query `nq`: at most 120
      groups; without a query the first 120, else groups one of whose aliases
      matches, in list order. */
  function SelectMatches(grouped: seq<PopupTarget>, nq: string): (r: seq<PopupTarget>)
    ensures |r| <= SuggestionLimit
    ensures nq == "" ==> r == Take(grouped, SuggestionLimit)
    ensures forall i :: 0 <= i < |r| ==> r[i] in grouped
    ensures nq != "" ==> forall i :: 0 <= i < |r| ==> QueryMatcher(nq, RemoveSpaces(nq))(r[i])
  {
    if nq == "" then Take(grouped, SuggestionLimit)
    else
      var all := Filter(grouped, QueryMatcher(nq, RemoveSpaces(nq)));
      var r := Take(all, SuggestionLimit);
      assert forall i :: 0 <= i < |r| ==> r[i] == all[i];
      r
  }

  /** The matches are exactly the matching groups of a prefix of the list, and that
      prefix is the whole list unless the limit was reached: nothing is reordered and
      no match is skipped. */
  lemma MatchingIsPrefixOfMatches(grouped: seq<PopupTarget>, nq: string) returns (n: nat)
    requires nq != ""
    ensures n <= |grouped|
    ensures SelectMatches(grouped, nq) == Filter(grouped[..n], QueryMatcher(nq, RemoveSpaces(nq)))
    ensures n < |grouped| ==> |SelectMatches(grouped, nq)| == SuggestionLimit
  {
    var keep := QueryMatcher(nq, RemoveSpaces(nq));
    var all := Filter(grouped, keep);
    var r := SelectMatches(grouped, nq);
    n := FilterPrefix(grouped, keep, |r|);
    if |all| <= SuggestionLimit {
      assert all[..|r|] == all;
      assert grouped[..|grouped|] == grouped;
      n := |grouped|;
    }
  }

  /* ---------------------------------------------------------------------------
     The `@` token before the caret
     --------------------------------------------------------------------------- */

  datatype TokenContext = TokenContext(query: string, start: int, end: int)

  /** The class `[^\s@]`. */
  predicate IsTokenChar(c: char) { !IsSpace(c) && c != '@' }

  /** `/(?:^|\s)@([^\s@]{0,40})$/` matches `text` with its `@` at `p`. */
  predicate TokenAt(text: string, p: nat) {
    p < |text| && text[p] == '@' && (p == 0 || IsSpace(text[p - 1]))
    && |text| - p - 1 <= MaxTokenQueryLength
    && forall k :: p < k < |text| ==> IsTokenChar(text[k])
  }

  /** Start of the longest run of token characters that ends the text. */
  function TokenRunStart(text: string): (k: nat)
    ensures k <= |text|
    ensures forall j :: k <= j < |text| ==> IsTokenChar(text[j])
    ensures k == 0 || !IsTokenChar(text[k - 1])
  {
    if text == [] || !IsTokenChar(text[|text| - 1]) then |text|
    else TokenRunStart(text[..|text| - 1])
  }

  /** `extractAliasTokenContext` for a text area holding `value` whose selection starts
      at `selectionStart` (`None` when the browser reports none). */
  function ExtractAliasTokenContext(value: string, selectionStart: Option<nat>): (r: Option<TokenContext>)
    ensures var caret := selectionStart.GetOr(|value|);
      r.Some? <==> exists p :: TokenAt(value[..Min(caret, |value|)], p)
    ensures var caret := selectionStart.GetOr(|value|);
      r.Some? && caret <= |value| ==>
        var t := r.value;
        t.end == caret && 0 <= t.start < caret && value[t.start] == '@'
        && (t.start == 0 || IsSpace(value[t.start - 1]))
        && t.query == value[t.start + 1..caret] && |t.query| <= MaxTokenQueryLength
        && forall k :: 0 <= k < |t.query| ==> IsTokenChar(t.query[k])
  {
    var caret := selectionStart.GetOr(|value|);
    var before := value[..Min(caret, |value|)];
    var k := TokenRunStart(before);
    assert forall p: nat :: TokenAt(before, p) ==> p + 1 == k by {
      forall p: nat | TokenAt(before, p) ensures p + 1 == k {
        assert !IsTokenChar(before[p]);
      }
    }
    if k == 0 || before[k - 1] != '@' || |before| - k > MaxTokenQueryLength
       || (k - 1 > 0 && !IsSpace(before[k - 2]))
    then None
    else
      assert TokenAt(before, k - 1);
      var query := before[k..];
      Some(TokenContext(query, caret - |query| - 1, caret))
  }

  /* ---------------------------------------------------------------------------
     Moving the selection in the suggestion grid
     --------------------------------------------------------------------------- */

  /** `moveSuggestionSelection`: `None` when there is nothing to select; otherwise the
      index `step` places further, wrapping around. */
  function MoveSuggestionSelection(selected: int, step: int, size: nat): (r: Option<int>)
    ensures r.None? <==> size == 0
    ensures r.Some? && selected + step + size >= 0 ==> r.value == (selected + step) % size
  {
    if size == 0 then None
    else
      if selected + step + size >= 0 then
        JsNumber.ModShift(selected + step, size);
        Some(JsNumber.Rem(selected + step + size, size))
      else
        Some(JsNumber.Rem(selected + step + size, size))
  }

  /** One step forward and one back returns to the same suggestion. */
  lemma MoveForwardBack(selected: int, size: nat)
    requires 0 <= selected < size
    ensures MoveSuggestionSelection(MoveSuggestionSelection(selected, 1, size).value, -1, size)
            == Some(selected)
  {
    var next := MoveSuggestionSelection(selected, 1, size).value;
    if selected + 1 < size {
      JsNumber.ModUnique(selected + 1, size, 0, selected + 1);
      JsNumber.ModUnique(selected, size, 0, selected);
    } else {
      JsNumber.ModUnique(size, size, 1, 0);
      JsNumber.ModUnique(-1, size, -1, size - 1);
    }
  }

  /** `Math.ceil(size / columns)`. */
  function RowCount(size: nat): (n: nat)
    ensures size > 0 ==> n > 0 && (n - 1) * GridColumnCount < size <= n * GridColumnCount
  {
    (size + GridColumnCount - 1) / GridColumnCount
  }

  /** `moveSuggestionSelectionByRow`: the same column `stepRows` rows further, rows
      wrapping around, clamped to the last suggestion. */
  function MoveSuggestionSelectionByRow(selected: int, stepRows: int, size: nat): (r: Option<int>)
    ensures r.None? <==> size == 0
    ensures r.Some? && 0 <= selected < size ==>
              0 <= r.value < size
              && (r.value == size - 1
                  || (r.value % GridColumnCount == selected % GridColumnCount
                      && r.value / GridColumnCount == (selected / GridColumnCount + stepRows) % RowCount(size)))
  {
    if size == 0 then None
    else
      var rowCount := RowCount(size);
      var column := JsNumber.Rem(selected, GridColumnCount);
      var row := selected / GridColumnCount;
      var wrapped := JsNumber.Rem(row + stepRows, rowCount);
      var nextRow := if wrapped < 0 then wrapped + rowCount else wrapped;
      WrappedRow(row + stepRows, rowCount);
      var r := Min(size - 1, nextRow * GridColumnCount + column);
      if 0 <= selected then
        assert column == selected % GridColumnCount;
        assert 0 <= column < GridColumnCount;
        assert (nextRow * GridColumnCount + column) % GridColumnCount == column;
        assert (nextRow * GridColumnCount + column) / GridColumnCount == nextRow;
        Some(r)
      else
        Some(r)
  }

  /** The truncating remainder, moved into `[0, m)`, is the Euclidean one. */
  lemma WrappedRow(a: int, m: int)
    requires m > 0
    ensures var w := JsNumber.Rem(a, m);
      (if w < 0 then w + m else w) == a % m
  {
    var w := JsNumber.Rem(a, m);
    var q := JsNumber.TruncDiv(a, m);
    assert a == q * m + w;
    if w < 0 {
      JsNumber.ModUnique(a, m, q - 1, w + m);
    } else {
      JsNumber.ModUnique(a, m, q, w);
    }
  }

  /** Moving by as many rows as the grid has lands on the same suggestion. */
  lemma RowCycle(selected: int, size: nat)
    requires 0 <= selected < size
    ensures MoveSuggestionSelectionByRow(selected, RowCount(size), size) == Some(selected)
  {
    var rowCount := RowCount(size);
    var row := selected / GridColumnCount;
    WrappedRow(row + rowCount, rowCount);
    assert row < rowCount;
    assert (row + rowCount) % rowCount == row;
  }
}

=== FILE: dccon_alias_map.dfy ===
/** The stored dccon alias map (`DcconAliasMap`: normalised alias -> the dccons
    registered under it) and the edits and the grouping `DcconAlias.ts` performs on it. */
module DcconAliasMap {
  import opened Wrappers
  import opened Seqs
  import opened Text
  import JsObject
  import JsNumber
  import Sorting
  import DcconAlias

  /** One stored alias of a dccon (`DcconAliasTarget`). */
  datatype Target = Target(
    alias: string,
    packageIdx: string,
    detailIdx: string,
    title: Option<string>,
    imageUrl: Option<string>,
    updatedAt: JsNumber.Num)

  /** The dccon whose aliases are edited (`AliasEditableTargetInfo`). */
  datatype TargetInfo = TargetInfo(
    packageIdx: string,
    detailIdx: string,
    title: Option<string>,
    imageUrl: Option<string>)

  type AliasMap = JsObject.Obj<seq<Target>>

  /** `aliasMap[key] ?? []`. */
  function EntriesOf(m: AliasMap, key: string): seq<Target> {
    JsObject.Get(m, key).GetOr([])
  }

  /** The entry belongs to the dccon `packageIdx`/`detailIdx`. */
  predicate IsFor(t: Target, packageIdx: string, detailIdx: string) {
    t.packageIdx == packageIdx && t.detailIdx == detailIdx
  }

  function ForTarget(packageIdx: string, detailIdx: string): Target -> bool {
    (t: Target) => IsFor(t, packageIdx, detailIdx)
  }

  function OtherTargets(packageIdx: string, detailIdx: string): Target -> bool {
    (t: Target) => !IsFor(t, packageIdx, detailIdx)
  }

  /* ---------------------------------------------------------------------------
     removeTargetFromAliasMap
     --------------------------------------------------------------------------- */

  /** One iteration: `key` keeps only the entries of other dccons, and is deleted
      when none are left. */
  function CleanKey(m: AliasMap, key: string, packageIdx: string, detailIdx: string): (r: AliasMap)
    ensures forall k :: k != key ==> JsObject.Get(r, k) == JsObject.Get(m, k)
    ensures EntriesOf(r, key) == Filter(EntriesOf(m, key), OtherTargets(packageIdx, detailIdx))
    ensures JsObject.Has(r, key) <==> EntriesOf(r, key) != []
  {
    var kept := Filter(EntriesOf(m, key), OtherTargets(packageIdx, detailIdx));
    if kept != [] then JsObject.Set(m, key, kept) else JsObject.Delete(m, key)
  }

  /** Cleaning a key twice is cleaning it once. */
  lemma CleanKeyTwice(m: AliasMap, key: string, packageIdx: string, detailIdx: string)
    ensures var once := CleanKey(m, key, packageIdx, detailIdx);
      Filter(EntriesOf(once, key), OtherTargets(packageIdx, detailIdx)) == EntriesOf(once, key)
  {
    var once := CleanKey(m, key, packageIdx, detailIdx);
    FilterAll(EntriesOf(once, key), OtherTargets(packageIdx, detailIdx));
  }

  /** The `for (const key of keys)` loop over the listed keys. */
  function RemoveFromKeys(m: AliasMap, keys: seq<string>, packageIdx: string, detailIdx: string): (r: AliasMap)
    ensures forall k :: k !in keys ==> JsObject.Get(r, k) == JsObject.Get(m, k)
    ensures forall k :: k in keys ==>
              EntriesOf(r, k) == Filter(EntriesOf(m, k), OtherTargets(packageIdx, detailIdx))
              && (JsObject.Has(r, k) <==> EntriesOf(r, k) != [])
    decreases |keys|
  {
    if keys == [] then m
    else
      var next := CleanKey(m, keys[0], packageIdx, detailIdx);
      CleanKeyTwice(m, keys[0], packageIdx, detailIdx);
      assert forall k :: k in keys ==> k == keys[0] || k in keys[1..];
      RemoveFromKeys(next, keys[1..], packageIdx, detailIdx)
  }

  /** `removeTargetFromAliasMap`: every entry of the dccon is gone, every other entry
      stays where it was, and a key left with no entries is deleted. */
  function RemoveTargetFromAliasMap(m: AliasMap, packageIdx: string, detailIdx: string): (r: AliasMap)
    ensures forall k :: EntriesOf(r, k) == Filter(EntriesOf(m, k), OtherTargets(packageIdx, detailIdx))
    ensures forall k :: JsObject.Has(r, k) ==> JsObject.Has(m, k) && EntriesOf(r, k) != []
  {
    var keys := JsObject.Keys(m);
    forall k | JsObject.Has(m, k) ensures k in keys {
      var i :| 0 <= i < |m.list| && m.list[i].0 == k;
      assert keys[i] == k;
    }
    RemoveFromKeys(m, keys, packageIdx, detailIdx)
  }

  /** After the removal no entry of the dccon is left. */
  lemma RemoveLeavesNone(m: AliasMap, packageIdx: string, detailIdx: string, k: string)
    ensures Filter(EntriesOf(RemoveTargetFromAliasMap(m, packageIdx, detailIdx), k),
                   ForTarget(packageIdx, detailIdx)) == []
  {
    var es := EntriesOf(RemoveTargetFromAliasMap(m, packageIdx, detailIdx), k);
    FilterNone(es, ForTarget(packageIdx, detailIdx));
  }

  /* ---------------------------------------------------------------------------
     setAliasesForTarget
     --------------------------------------------------------------------------- */

  /** The entry stored for the alias at `index` (`nextTarget`), stamped
      `baseTime + index`. */
  function NextTarget(alias: string, info: TargetInfo, baseTime: int, index: nat): (r: Target)
    ensures IsFor(r, info.packageIdx, info.detailIdx) && r.alias == alias
    ensures r.updatedAt == JsNumber.Finite((baseTime + index) as real)
  {
    Target(alias, info.packageIdx, info.detailIdx, info.title, info.imageUrl,
           JsNumber.Finite((baseTime + index) as real))
  }

  /** `targets[findIndex(...)] = next`, or `targets.unshift(next)` when the dccon has
      no entry yet. */
  function PutTarget(targets: seq<Target>, next: Target): (r: seq<Target>)
    ensures |r| == |targets| || |r| == |targets| + 1
  {
    match FindIndex(targets, ForTarget(next.packageIdx, next.detailIdx))
    case Some(e) => targets[e := next]
    case None => [next] + targets
  }

  /** Putting `next`: the dccon's first entry becomes `next` (or `next` goes first),
      and its other entries stay, in order. */
  lemma PutTargetFor(targets: seq<Target>, next: Target)
    ensures var f := Filter(targets, ForTarget(next.packageIdx, next.detailIdx));
      Filter(PutTarget(targets, next), ForTarget(next.packageIdx, next.detailIdx))
      == [next] + (if f == [] then [] else f[1..])
  {
    var isFor := ForTarget(next.packageIdx, next.detailIdx);
    match FindIndex(targets, isFor)
    case Some(e) =>
      FilterUpdate(targets, e, next, isFor);
      FilterNone(targets[..e], isFor);
    case None =>
      FilterCons(next, targets, isFor);
      FilterNone(targets, isFor);
  }

  /** Putting `next` leaves the entries of other dccons as they were, in order. */
  lemma PutTargetOthers(targets: seq<Target>, next: Target)
    ensures Filter(PutTarget(targets, next), OtherTargets(next.packageIdx, next.detailIdx))
            == Filter(targets, OtherTargets(next.packageIdx, next.detailIdx))
  {
    var other := OtherTargets(next.packageIdx, next.detailIdx);
    match FindIndex(targets, ForTarget(next.packageIdx, next.detailIdx))
    case Some(e) =>
      FilterUpdate(targets, e, next, other);
    case None =>
      FilterCons(next, targets, other);
  }

  /** The alias has the non-blank normalised key `key`. */
  function HasKey(key: string): string -> bool {
    (a: string) => key != "" && DcconAlias.NormalizeAliasKey(a) == key
  }

  /** The entries of the dccon under `key` once `aliases` are stored: the one for the
      last alias with that key, if any. */
  function StoredFor(aliases: seq<string>, info: TargetInfo, baseTime: int, key: string): (r: seq<Target>)
    ensures |r| <= 1
  {
    match LastIndex(aliases, HasKey(key))
    case None => []
    case Some(j) => [NextTarget(aliases[j], info, baseTime, j)]
  }

  /** One `forEach` iteration: the alias at `index` stores the dccon under its key. */
  function StoreAlias(r: AliasMap, alias: string, index: nat, info: TargetInfo, baseTime: int): (r': AliasMap)
    ensures forall k :: k != DcconAlias.NormalizeAliasKey(alias) ==> JsObject.Get(r', k) == JsObject.Get(r, k)
  {
    var key := DcconAlias.NormalizeAliasKey(alias);
    if key == "" then r
    else JsObject.Set(r, key, PutTarget(EntriesOf(r, key), NextTarget(alias, info, baseTime, index)))
  }

  /** What the map holds once `aliases` are stored over `m` without the dccon: other
      dccons' entries as in `m`, the dccon's as `StoredFor` says, no empty lists. */
  ghost predicate Stored(m: AliasMap, r: AliasMap, aliases: seq<string>, info: TargetInfo, baseTime: int) {
    (forall k :: Filter(EntriesOf(r, k), OtherTargets(info.packageIdx, info.detailIdx))
                 == Filter(EntriesOf(m, k), OtherTargets(info.packageIdx, info.detailIdx)))
    && (forall k :: Filter(EntriesOf(r, k), ForTarget(info.packageIdx, info.detailIdx))
                    == StoredFor(aliases, info, baseTime, k))
    && (forall k :: JsObject.Has(r, k) ==> EntriesOf(r, k) != [])
    && (forall k :: JsObject.Has(r, k) ==> JsObject.Has(m, k) || LastIndex(aliases, HasKey(k)).Some?)
  }

  /** The key the alias is stored under. */
  lemma StoreAliasAtKey(r: AliasMap, aliases: seq<string>, i: nat, info: TargetInfo, baseTime: int)
    requires i < |aliases| && DcconAlias.NormalizeAliasKey(aliases[i]) != ""
    requires |Filter(EntriesOf(r, DcconAlias.NormalizeAliasKey(aliases[i])), ForTarget(info.packageIdx, info.detailIdx))| <= 1
    ensures var key := DcconAlias.NormalizeAliasKey(aliases[i]);
      var r' := StoreAlias(r, aliases[i], i, info, baseTime);
      Filter(EntriesOf(r', key), ForTarget(info.packageIdx, info.detailIdx)) == [NextTarget(aliases[i], info, baseTime, i)]
      && Filter(EntriesOf(r', key), OtherTargets(info.packageIdx, info.detailIdx))
         == Filter(EntriesOf(r, key), OtherTargets(info.packageIdx, info.detailIdx))
      && JsObject.Has(r', key) && EntriesOf(r', key) != []
  {
    var key := DcconAlias.NormalizeAliasKey(aliases[i]);
    var next := NextTarget(aliases[i], info, baseTime, i);
    var es := EntriesOf(r, key);
    var put := PutTarget(es, next);
    var f := Filter(es, ForTarget(info.packageIdx, info.detailIdx));
    PutTargetFor(es, next);
    PutTargetOthers(es, next);
    assert (if f == [] then [] else f[1..]) == [];
    var r' := JsObject.Set(r, key, put);
    assert StoreAlias(r, aliases[i], i, info, baseTime) == r';
    assert EntriesOf(r', key) == put;
  }

  /** Storing the alias at `i`, seen at one key `k`. */
  lemma StoreStepAt(m: AliasMap, r: AliasMap, aliases: seq<string>, i: nat, info: TargetInfo, baseTime: int, k: string)
    requires i < |aliases|
    requires Filter(EntriesOf(r, k), OtherTargets(info.packageIdx, info.detailIdx))
             == Filter(EntriesOf(m, k), OtherTargets(info.packageIdx, info.detailIdx))
    requires Filter(EntriesOf(r, k), ForTarget(info.packageIdx, info.detailIdx))
             == StoredFor(aliases[..i], info, baseTime, k)
    requires JsObject.Has(r, k) ==> EntriesOf(r, k) != []
    requires JsObject.Has(r, k) ==> JsObject.Has(m, k) || LastIndex(aliases[..i], HasKey(k)).Some?
    ensures var r' := StoreAlias(r, aliases[i], i, info, baseTime);
      Filter(EntriesOf(r', k), OtherTargets(info.packageIdx, info.detailIdx))
      == Filter(EntriesOf(m, k), OtherTargets(info.packageIdx, info.detailIdx))
      && Filter(EntriesOf(r', k), ForTarget(info.packageIdx, info.detailIdx))
         == StoredFor(aliases[..i + 1], info, baseTime, k)
      && (JsObject.Has(r', k) ==> EntriesOf(r', k) != [])
      && (JsObject.Has(r', k) ==> JsObject.Has(m, k) || LastIndex(aliases[..i + 1], HasKey(k)).Some?)
  {
    var key := DcconAlias.NormalizeAliasKey(aliases[i]);
    LastIndexStep(aliases, HasKey(k), i);
    if key != "" && k == key {
      StoreAliasAtKey(r, aliases, i, info, baseTime);
    }
  }

  /** Storing the alias at `i` extends what `aliases[..i]` stored to `aliases[..i + 1]`. */
  lemma StoreStep(m: AliasMap, r: AliasMap, aliases: seq<string>, i: nat, info: TargetInfo, baseTime: int)
    requires i < |aliases| && Stored(m, r, aliases[..i], info, baseTime)
    ensures Stored(m, StoreAlias(r, aliases[i], i, info, baseTime), aliases[..i + 1], info, baseTime)
  {
    var r' := StoreAlias(r, aliases[i], i, info, baseTime);
    forall k
      ensures Filter(EntriesOf(r', k), OtherTargets(info.packageIdx, info.detailIdx))
              == Filter(EntriesOf(m, k), OtherTargets(info.packageIdx, info.detailIdx))
      ensures Filter(EntriesOf(r', k), ForTarget(info.packageIdx, info.detailIdx))
              == StoredFor(aliases[..i + 1], info, baseTime, k)
      ensures JsObject.Has(r', k) ==> EntriesOf(r', k) != []
      ensures JsObject.Has(r', k) ==> JsObject.Has(m, k) || LastIndex(aliases[..i + 1], HasKey(k)).Some?
    {
      StoreStepAt(m, r, aliases, i, info, baseTime, k);
    }
  }

  /** Once the dccon is removed, the map holds what storing no alias leaves. */
  lemma RemovedStoresNothing(m: AliasMap, aliases: seq<string>, info: TargetInfo, baseTime: int)
    ensures Stored(m, RemoveTargetFromAliasMap(m, info.packageIdx, info.detailIdx), aliases[..0], info, baseTime)
  {
    var r := RemoveTargetFromAliasMap(m, info.packageIdx, info.detailIdx);
    forall k ensures Filter(EntriesOf(r, k), OtherTargets(info.packageIdx, info.detailIdx))
                     == Filter(EntriesOf(m, k), OtherTargets(info.packageIdx, info.detailIdx))
      && Filter(EntriesOf(r, k), ForTarget(info.packageIdx, info.detailIdx)) == []
    {
      FilterAll(EntriesOf(r, k), OtherTargets(info.packageIdx, info.detailIdx));
      RemoveLeavesNone(m, info.packageIdx, info.detailIdx, k);
    }
    assert aliases[..0] == [];
  }

  /** `setAliasesForTarget` with `Date.now()` read as `baseTime`: the dccon's old
      entries are removed, then each alias with a non-blank key stores the dccon
      under that key, replacing its entry there or going first in the list. */
  method SetAliasesForTarget(m: AliasMap, aliases: seq<string>, info: TargetInfo, baseTime: int)
    returns (r: AliasMap)
    ensures forall k :: Filter(EntriesOf(r, k), OtherTargets(info.packageIdx, info.detailIdx))
                        == Filter(EntriesOf(m, k), OtherTargets(info.packageIdx, info.detailIdx))
    ensures forall k :: Filter(EntriesOf(r, k), ForTarget(info.packageIdx, info.detailIdx))
                        == StoredFor(aliases, info, baseTime, k)
    ensures forall k :: JsObject.Has(r, k) ==> EntriesOf(r, k) != []
    ensures forall k :: JsObject.Has(r, k) ==> JsObject.Has(m, k) || LastIndex(aliases, HasKey(k)).Some?
  {
    r := RemoveTargetFromAliasMap(m, info.packageIdx, info.detailIdx);
    RemovedStoresNothing(m, aliases, info, baseTime);
    var i := 0;
    while i < |aliases|
      invariant i <= |aliases|
      invariant Stored(m, r, aliases[..i], info, baseTime)
    {
      StoreStep(m, r, aliases, i, info, baseTime);
      r := StoreAlias(r, aliases[i], i, info, baseTime);
      i := i + 1;
    }
    assert aliases[..i] == aliases;
  }

  /** An alias whose key no other alias shares is stored exactly once under that key,
      stamped with its own index. */
  lemma StoredOnce(aliases: seq<string>, info: TargetInfo, baseTime: int, i: nat)
    requires i < |aliases| && DcconAlias.NormalizeAliasKey(aliases[i]) != ""
    requires forall j :: 0 <= j < |aliases| && j != i ==>
               DcconAlias.NormalizeAliasKey(aliases[j]) != DcconAlias.NormalizeAliasKey(aliases[i])
    ensures StoredFor(aliases, info, baseTime, DcconAlias.NormalizeAliasKey(aliases[i]))
            == [NextTarget(aliases[i], info, baseTime, i)]
  {
    var key := DcconAlias.NormalizeAliasKey(aliases[i]);
    assert HasKey(key)(aliases[i]);
    var last := LastIndex(aliases, HasKey(key));
    assert last == Some(i);
  }

  /** A sanitised alias that is not empty has a non-blank key. */
  lemma SanitizedKeyNonBlank(pieces: seq<string>, a: string)
    requires a in DcconAlias.SanitizeAll(pieces) && a != ""
    ensures DcconAlias.NormalizeAliasKey(a) != ""
  {
    var tokens := DcconAlias.SanitizeAll(pieces);
    var j :| 0 <= j < |tokens| && tokens[j] == a;
    assert !HasSpace(a);
    DcconAlias.NormalizeBlank(a);
  }

  /** The aliases a prompt answer is parsed into are each stored exactly once. */
  lemma ParsedAliasesStoredOnce(raw: string, info: TargetInfo, baseTime: int, i: nat)
    requires i < |DcconAlias.ParseAliasListInput(raw)|
    ensures var aliases := DcconAlias.ParseAliasListInput(raw);
      StoredFor(aliases, info, baseTime, DcconAlias.NormalizeAliasKey(aliases[i]))
      == [NextTarget(aliases[i], info, baseTime, i)]
  {
    var aliases := DcconAlias.ParseAliasListInput(raw);
    ParsedKeyNonBlank(raw, i);
    KeysDistinctFrom(aliases, i);
    StoredOnce(aliases, info, baseTime, i);
  }

  lemma ParsedKeyNonBlank(raw: string, i: nat)
    requires i < |DcconAlias.ParseAliasListInput(raw)|
    ensures DcconAlias.NormalizeAliasKey(DcconAlias.ParseAliasListInput(raw)[i]) != ""
  {
    var a := DcconAlias.ParseAliasListInput(raw)[i];
    assert a in DcconAlias.SanitizedTokens(raw) && DcconAlias.NonEmpty(a);
    SanitizedKeyNonBlank(Split(Trim(raw), ','), a);
  }

  /** Pairwise distinct keys: no other alias shares the key of the one at `i`. */
  lemma KeysDistinctFrom(aliases: seq<string>, i: nat)
    requires i < |aliases|
    requires forall a, b :: 0 <= a < b < |aliases| ==>
               DcconAlias.NormalizeAliasKey(aliases[a]) != DcconAlias.NormalizeAliasKey(aliases[b])
    ensures forall j :: 0 <= j < |aliases| && j != i ==>
              DcconAlias.NormalizeAliasKey(aliases[j]) != DcconAlias.NormalizeAliasKey(aliases[i])
  {
  }

  /* ---------------------------------------------------------------------------
     rebuildGroupedAliases: the drafts
     --------------------------------------------------------------------------- */

  /** One alias of a dccon while grouping (`{ alias, updatedAt }`). */
  datatype AliasEntry = AliasEntry(alias: string, updatedAt: real)

  /** A group being collected (`AliasGroupDraft`). */
  datatype Draft = Draft(
    packageIdx: string,
    detailIdx: string,
    title: Option<string>,
    imageUrl: Option<string>,
    entries: seq<AliasEntry>)

  /** The template key `${packageIdx}:${detailIdx}` of a group. */
  function GroupKey(packageIdx: string, detailIdx: string): string {
    packageIdx + ":" + detailIdx
  }

  function TargetKey(t: Target): string { GroupKey(t.packageIdx, t.detailIdx) }

  function DraftKey(d: Draft): string { GroupKey(d.packageIdx, d.detailIdx) }

  /** The first `:` of a group key ends the package index when that has none. */
  lemma ColonAfterPackage(packageIdx: string, detailIdx: string)
    requires ':' !in packageIdx
    ensures ':' in GroupKey(packageIdx, detailIdx)
    ensures FirstIndexOf(GroupKey(packageIdx, detailIdx), ':') == |packageIdx|
  {
    var k := GroupKey(packageIdx, detailIdx);
    assert k[|packageIdx|] == ':';
    assert k[..|packageIdx|] == packageIdx;
  }

  /** Different dccons get different group keys as long as package indices hold no `:`. */
  lemma GroupKeyInjective(p1: string, d1: string, p2: string, d2: string)
    requires ':' !in p1 && ':' !in p2
    requires GroupKey(p1, d1) == GroupKey(p2, d2)
    ensures p1 == p2 && d1 == d2
  {
    var k := GroupKey(p1, d1);
    ColonAfterPackage(p1, d1);
    ColonAfterPackage(p2, d2);
    assert p1 == k[..|p1|] == p2;
    assert d1 == k[|p1| + 1..] == d2;
  }

  /** JavaScript truthiness of an optional string. */
  predicate Present(s: Option<string>) { s.Some? && s.value != "" }

  /** `Number.isFinite(updatedAt) ? updatedAt : Date.now()`, the clock read as `now`. */
  function EntryOf(t: Target, now: real): (e: AliasEntry)
    ensures e.alias == t.alias
    ensures t.updatedAt.Finite? ==> e.updatedAt == t.updatedAt.value
    ensures !t.updatedAt.Finite? ==> e.updatedAt == now
  {
    AliasEntry(t.alias, if t.updatedAt.Finite? then t.updatedAt.value else now)
  }

  /** A new draft for the first target of its group (`groups.get(key) ?? {...}`). */
  function NewDraft(t: Target, now: real): Draft {
    Draft(t.packageIdx, t.detailIdx, t.title, t.imageUrl, [EntryOf(t, now)])
  }

  /** A later target of the group: its entry is pushed and it fills a missing title
      or image. */
  function AddToDraft(d: Draft, t: Target, now: real): (r: Draft)
    ensures DraftKey(r) == DraftKey(d) && r.entries == d.entries + [EntryOf(t, now)]
    ensures Present(d.title) ==> r.title == d.title
    ensures !Present(d.title) ==> r.title == (if Present(t.title) then t.title else d.title)
    ensures Present(d.imageUrl) ==> r.imageUrl == d.imageUrl
    ensures !Present(d.imageUrl) ==> r.imageUrl == (if Present(t.imageUrl) then t.imageUrl else d.imageUrl)
  {
    d.(entries := d.entries + [EntryOf(t, now)],
       title := if !Present(d.title) && Present(t.title) then t.title else d.title,
       imageUrl := if !Present(d.imageUrl) && Present(t.imageUrl) then t.imageUrl else d.imageUrl)
  }

  function SameGroup(key: string): Draft -> bool {
    (d: Draft) => DraftKey(d) == key
  }

  /** One iteration: the target joins the draft of its key, or opens one at the end. */
  function AddTarget(drafts: seq<Draft>, t: Target, now: real): (r: seq<Draft>)
    requires KeysDistinct(drafts, DraftKey)
    ensures KeysDistinct(r, DraftKey)
    ensures |r| == |drafts| || r == drafts + [NewDraft(t, now)]
  {
    match FindIndex(drafts, SameGroup(TargetKey(t)))
    case Some(i) =>
      var r := drafts[i := AddToDraft(drafts[i], t, now)];
      assert forall j :: 0 <= j < |r| ==> DraftKey(r[j]) == DraftKey(drafts[j]);
      r
    case None => drafts + [NewDraft(t, now)]
  }

  /** The drafts of `Object.values(aliasMap)` visited in order, one per group key, in
      the order the keys first appear. */
  function Drafts(ts: seq<Target>, now: real): (r: seq<Draft>)
    ensures KeysDistinct(r, DraftKey)
  {
    if ts == [] then [] else AddTarget(Drafts(ts[..|ts| - 1], now), ts[|ts| - 1], now)
  }

  /** Every target of the map, in enumeration order. */
  function AllTargets(m: AliasMap): seq<Target> {
    Flatten(JsObject.Values(m))
  }

  /** Some draft of key `TargetKey(t)` holds the entry of `t`. */
  ghost predicate Collected(drafts: seq<Draft>, t: Target, now: real) {
    exists i :: 0 <= i < |drafts| && DraftKey(drafts[i]) == TargetKey(t) && EntryOf(t, now) in drafts[i].entries
  }

  lemma AddTargetCollects(drafts: seq<Draft>, t: Target, now: real, u: Target)
    requires KeysDistinct(drafts, DraftKey)
    requires u == t || Collected(drafts, u, now)
    ensures Collected(AddTarget(drafts, t, now), u, now)
  {
    var r := AddTarget(drafts, t, now);
    var found := FindIndex(drafts, SameGroup(TargetKey(t)));
    if u == t {
      if found.None? {
        assert r[|drafts|] == NewDraft(t, now);
      } else {
        assert r[found.value].entries == drafts[found.value].entries + [EntryOf(t, now)];
      }
    } else {
      var i :| 0 <= i < |drafts| && DraftKey(drafts[i]) == TargetKey(u) && EntryOf(u, now) in drafts[i].entries;
      if found.Some? && found.value == i {
        assert r[i].entries == drafts[i].entries + [EntryOf(t, now)];
      } else {
        assert r[i] == drafts[i];
      }
    }
  }

  /** Every target ends up in the draft of its key. */
  lemma {:induction false} DraftsCollect(ts: seq<Target>, now: real, t: Target)
    requires t in ts
    ensures Collected(Drafts(ts, now), t, now)
  {
    var init := ts[..|ts| - 1];
    var last := ts[|ts| - 1];
    if t != last {
      assert t in init;
      DraftsCollect(init, now, t);
    }
    AddTargetCollects(Drafts(init, now), last, now, t);
  }

  /** Every entry of a draft comes from a target of the draft's key. */
  ghost predicate FromTargets(drafts: seq<Draft>, ts: seq<Target>, now: real) {
    forall i, e :: 0 <= i < |drafts| && e in drafts[i].entries ==>
      exists t :: t in ts && TargetKey(t) == DraftKey(drafts[i]) && e == EntryOf(t, now)
  }

  lemma {:induction false} DraftsFromTargets(ts: seq<Target>, now: real)
    ensures FromTargets(Drafts(ts, now), ts, now)
    ensures forall i :: 0 <= i < |Drafts(ts, now)| ==> Drafts(ts, now)[i].entries != []
  {
    if ts != [] {
      var init := ts[..|ts| - 1];
      var last := ts[|ts| - 1];
      DraftsFromTargets(init, now);
      var drafts := Drafts(init, now);
      var r := AddTarget(drafts, last, now);
      assert forall t :: t in init ==> t in ts;
      forall i, e | 0 <= i < |r| && e in r[i].entries
        ensures exists t :: t in ts && TargetKey(t) == DraftKey(r[i]) && e == EntryOf(t, now)
      {
        if i < |drafts| && e in drafts[i].entries {
          var t :| t in init && TargetKey(t) == DraftKey(drafts[i]) && e == EntryOf(t, now);
          assert DraftKey(r[i]) == DraftKey(drafts[i]) by {
            match FindIndex(drafts, SameGroup(TargetKey(last)))
            case Some(j) =>
            case None =>
          }
        } else {
          assert e == EntryOf(last, now);
          match FindIndex(drafts, SameGroup(TargetKey(last)))
          case Some(j) =>
            assert DraftKey(r[i]) == TargetKey(last);
          case None =>
            assert DraftKey(r[i]) == TargetKey(last);
        }
      }
    }
  }

  /* ---------------------------------------------------------------------------
     rebuildGroupedAliases: one group per draft
     --------------------------------------------------------------------------- */

  function EntryKey(e: AliasEntry): string { DcconAlias.NormalizeAliasKey(e.alias) }

  function EntryTime(e: AliasEntry): real { e.updatedAt }

  /** The entry's alias has a non-blank key (`if (!normalized) return`). */
  predicate NonBlankEntry(e: AliasEntry) { EntryKey(e) != "" }

  /** `a.updatedAt - b.updatedAt || compareAliasStrings(a.alias, b.alias)` as an
      ordering: earlier first, then by alias. */
  function EntryOrder(locale: (string, string) -> int): (AliasEntry, AliasEntry) -> bool {
    (a: AliasEntry, b: AliasEntry) =>
      a.updatedAt < b.updatedAt
      || (a.updatedAt == b.updatedAt && DcconAlias.AliasComparator(locale)(a.alias, b.alias) <= 0)
  }

  /** With a consistent alias comparator the entry ordering is consistent. */
  lemma EntryOrderConsistent(locale: (string, string) -> int)
    requires Sorting.Consistent(DcconAlias.AliasComparator(locale))
    ensures Sorting.TotalPreorder(EntryOrder(locale))
  {
    var le := EntryOrder(locale);
    var alias := Sorting.LeOf(DcconAlias.AliasComparator(locale));
    forall a, b ensures le(a, b) || le(b, a) {
      assert alias(a.alias, b.alias) || alias(b.alias, a.alias);
    }
    forall a, b, c | le(a, b) && le(b, c) ensures le(a, c) {
      if a.updatedAt == b.updatedAt == c.updatedAt {
        assert alias(a.alias, b.alias) && alias(b.alias, c.alias);
      }
    }
  }

  /** The `dedupedAliasMap` of a draft: per non-blank key the earliest entry. */
  function KeptEntries(d: Draft): (r: seq<AliasEntry>)
    ensures KeysDistinct(r, EntryKey)
    ensures forall i :: 0 <= i < |r| ==> r[i] in d.entries
  {
    var filtered := Filter(d.entries, NonBlankEntry);
    var r := KeepEarliest(filtered, EntryKey, EntryTime);
    assert forall i :: 0 <= i < |r| ==> r[i] in filtered;
    r
  }

  /** Only aliases with a non-blank key are kept. */
  lemma KeptNonBlank(d: Draft, i: nat)
    requires i < |KeptEntries(d)|
    ensures NonBlankEntry(KeptEntries(d)[i])
  {
    KeepEarliestAccepted(d.entries, NonBlankEntry, EntryKey, EntryTime);
  }

  /** The deduplicated entries of a draft, sorted. */
  function GroupEntries(d: Draft, locale: (string, string) -> int): (r: seq<AliasEntry>)
    ensures KeysDistinct(r, EntryKey)
    ensures multiset(r) == multiset(KeptEntries(d))
  {
    var kept := KeptEntries(d);
    Sorting.SortKeepsDistinct(kept, EntryOrder(locale), EntryKey);
    Sorting.Sort(kept, EntryOrder(locale))
  }

  /** Every non-blank alias of the draft is represented by an entry with its key that
      is no later than it. */
  lemma GroupEntriesEarliest(d: Draft, locale: (string, string) -> int, e: AliasEntry)
    requires e in d.entries && NonBlankEntry(e)
    ensures Covered(GroupEntries(d, locale), EntryKey, EntryTime, e)
  {
    KeptCovers(d, e);
    CoveredReordered(KeptEntries(d), GroupEntries(d, locale), EntryKey, EntryTime, e);
  }

  lemma KeptCovers(d: Draft, e: AliasEntry)
    requires e in d.entries && NonBlankEntry(e)
    ensures Covered(KeptEntries(d), EntryKey, EntryTime, e)
  {
    var filtered := Filter(d.entries, NonBlankEntry);
    var i :| 0 <= i < |d.entries| && d.entries[i] == e;
    assert e in filtered;
    KeepEarliestCovers(filtered, EntryKey, EntryTime, e);
  }

  /** With a consistent comparator the entries are in ascending `updatedAt` order. */
  lemma GroupEntriesSorted(d: Draft, locale: (string, string) -> int)
    requires Sorting.Consistent(DcconAlias.AliasComparator(locale))
    ensures var r := GroupEntries(d, locale);
      forall i, j :: 0 <= i < j < |r| ==> r[i].updatedAt <= r[j].updatedAt
  {
    EntryOrderConsistent(locale);
    Sorting.SortSorted(KeptEntries(d), EntryOrder(locale));
  }

  /** The aliases of the entries, in order. */
  function AliasesOf(es: seq<AliasEntry>): (r: seq<string>)
    ensures |r| == |es| && forall i :: 0 <= i < |es| ==> r[i] == es[i].alias
  {
    seq(|es|, i requires 0 <= i < |es| => es[i].alias)
  }

  /** The popup entry of a draft; `None` when no alias survives. */
  function GroupOf(d: Draft, locale: (string, string) -> int): (r: Option<DcconAlias.PopupTarget>)
    ensures r.None? <==> GroupEntries(d, locale) == []
    ensures r.Some? ==> r.value.aliases == AliasesOf(GroupEntries(d, locale))
                        && r.value.alias == r.value.aliases[0]
                        && r.value.packageIdx == d.packageIdx && r.value.detailIdx == d.detailIdx
                        && r.value.title == d.title && r.value.imageUrl == d.imageUrl
  {
    var es := GroupEntries(d, locale);
    if es == [] then None
    else
      var aliases := AliasesOf(es);
      Some(DcconAlias.PopupTarget(aliases[0], aliases, d.packageIdx, d.detailIdx, d.title, d.imageUrl))
  }

  /* ---------------------------------------------------------------------------
     rebuildGroupedAliases: the popup list
     --------------------------------------------------------------------------- */

  function PopupKey(g: DcconAlias.PopupTarget): string { GroupKey(g.packageIdx, g.detailIdx) }

  /** The popup entry of each draft, as a function value. */
  function GroupFn(locale: (string, string) -> int): Draft -> Option<DcconAlias.PopupTarget> {
    (d: Draft) => GroupOf(d, locale)
  }

  /** The popup entries of the drafts, in draft order, skipping drafts that kept no
      alias (`if (aliases.length === 0) return`). */
  function Groups(drafts: seq<Draft>, locale: (string, string) -> int): seq<DcconAlias.PopupTarget> {
    FilterMap(drafts, GroupFn(locale))
  }

  /** Every popup entry is the group of one of the drafts. */
  lemma GroupsFromDrafts(drafts: seq<Draft>, locale: (string, string) -> int, g: DcconAlias.PopupTarget)
    returns (j: nat)
    requires g in Groups(drafts, locale)
    ensures j < |drafts| && GroupOf(drafts[j], locale) == Some(g)
  {
    j := FilterMapFrom(drafts, GroupFn(locale), g);
  }

  /** Every draft that kept an alias has its popup entry. */
  lemma GroupsCover(drafts: seq<Draft>, locale: (string, string) -> int, j: nat)
    requires j < |drafts| && GroupOf(drafts[j], locale).Some?
    ensures GroupOf(drafts[j], locale).value in Groups(drafts, locale)
  {
    FilterMapCovers(drafts, GroupFn(locale), j);
  }

  /** Distinct drafts give popup entries for distinct dccons. */
  lemma GroupsDistinct(drafts: seq<Draft>, locale: (string, string) -> int)
    requires KeysDistinct(drafts, DraftKey)
    ensures KeysDistinct(Groups(drafts, locale), PopupKey)
  {
    var f := GroupFn(locale);
    forall j | 0 <= j < |drafts| && f(drafts[j]).Some? ensures PopupKey(f(drafts[j]).value) == DraftKey(drafts[j]) {
      GroupKeyOf(drafts[j], locale);
    }
    FilterMapDistinct(drafts, f, DraftKey, PopupKey);
  }

  /** `comparePopupTargets`: by first alias, then package and detail index under the
      numeric `localeCompare` (`numeric`). */
  function ComparePopupTargets(locale: (string, string) -> int, numeric: (string, string) -> int)
    : (DcconAlias.PopupTarget, DcconAlias.PopupTarget) -> int
  {
    (a: DcconAlias.PopupTarget, b: DcconAlias.PopupTarget) =>
      var byAlias := DcconAlias.AliasComparator(locale)(a.alias, b.alias);
      if byAlias != 0 then byAlias
      else
        var byPackage := numeric(a.packageIdx, b.packageIdx);
        if byPackage != 0 then byPackage else numeric(a.detailIdx, b.detailIdx)
  }

  /** `rebuildGroupedAliases` over the stored map, `Date.now()` read as `now`,
      `localeCompare` as `locale` and its numeric form as `numeric`: one popup entry
      per dccon. */
  function RebuildGroupedAliases(m: AliasMap, now: real, locale: (string, string) -> int,
                                 numeric: (string, string) -> int): (r: seq<DcconAlias.PopupTarget>)
    ensures KeysDistinct(r, PopupKey)
  {
    var drafts := Drafts(AllTargets(m), now);
    var groups := Groups(drafts, locale);
    GroupsDistinct(drafts, locale);
    Sorting.SortKeepsDistinct(groups, Sorting.LeOf(ComparePopupTargets(locale, numeric)), PopupKey);
    Sorting.Sort(groups, Sorting.LeOf(ComparePopupTargets(locale, numeric)))
  }

  /** A popup entry of the rebuilt list is the group of one of the drafts. */
  lemma RebuiltFromDraft(m: AliasMap, now: real, locale: (string, string) -> int,
                         numeric: (string, string) -> int, i: nat) returns (d: Draft)
    requires i < |RebuildGroupedAliases(m, now, locale, numeric)|
    ensures d in Drafts(AllTargets(m), now)
    ensures GroupOf(d, locale) == Some(RebuildGroupedAliases(m, now, locale, numeric)[i])
  {
    var drafts := Drafts(AllTargets(m), now);
    var groups := Groups(drafts, locale);
    var r := RebuildGroupedAliases(m, now, locale, numeric);
    assert r[i] in multiset(groups);
    var j := GroupsFromDrafts(drafts, locale, r[i]);
    d := drafts[j];
  }

  /** The aliases of a group's entries have the entries' keys. */
  lemma GroupAliasesDistinct(d: Draft, locale: (string, string) -> int)
    ensures KeysDistinct(AliasesOf(GroupEntries(d, locale)), DcconAlias.NormalizeAliasKey)
  {
    var es := GroupEntries(d, locale);
    var aliases := AliasesOf(es);
    forall a, b | 0 <= a < b < |aliases|
      ensures DcconAlias.NormalizeAliasKey(aliases[a]) != DcconAlias.NormalizeAliasKey(aliases[b])
    {
      assert EntryKey(es[a]) != EntryKey(es[b]);
    }
  }

  lemma GroupAliasesNonBlank(d: Draft, locale: (string, string) -> int, a: nat)
    requires a < |GroupEntries(d, locale)|
    ensures DcconAlias.NormalizeAliasKey(AliasesOf(GroupEntries(d, locale))[a]) != ""
  {
    var es := GroupEntries(d, locale);
    assert es[a] in multiset(KeptEntries(d));
    var k :| 0 <= k < |KeptEntries(d)| && KeptEntries(d)[k] == es[a];
    KeptNonBlank(d, k);
    assert NonBlankEntry(es[a]);
  }

  /** Each popup entry: its aliases are non-empty, no two share a key, none is blank,
      and the entry's `alias` is the first of them. */
  lemma RebuiltGroupShape(m: AliasMap, now: real, locale: (string, string) -> int,
                          numeric: (string, string) -> int, i: nat)
    requires i < |RebuildGroupedAliases(m, now, locale, numeric)|
    ensures var g := RebuildGroupedAliases(m, now, locale, numeric)[i];
      g.aliases != [] && g.alias == g.aliases[0]
      && KeysDistinct(g.aliases, DcconAlias.NormalizeAliasKey)
      && forall a :: 0 <= a < |g.aliases| ==> DcconAlias.NormalizeAliasKey(g.aliases[a]) != ""
  {
    var d := RebuiltFromDraft(m, now, locale, numeric, i);
    GroupAliasesDistinct(d, locale);
    forall a | 0 <= a < |GroupEntries(d, locale)|
      ensures DcconAlias.NormalizeAliasKey(AliasesOf(GroupEntries(d, locale))[a]) != ""
    {
      GroupAliasesNonBlank(d, locale, a);
    }
  }

  /** Some alias of the popup entry has the key `key`. */
  ghost predicate HasAliasKey(g: DcconAlias.PopupTarget, key: string) {
    exists a :: 0 <= a < |g.aliases| && DcconAlias.NormalizeAliasKey(g.aliases[a]) == key
  }

  lemma GroupAliasAt(d: Draft, locale: (string, string) -> int, a: nat)
    requires a < |GroupEntries(d, locale)|
    ensures GroupOf(d, locale).Some?
    ensures GroupOf(d, locale).value.aliases[a] == GroupEntries(d, locale)[a].alias
  {
  }

  lemma HasAliasKeyAt(g: DcconAlias.PopupTarget, a: nat, x: AliasEntry)
    requires a < |g.aliases| && g.aliases[a] == x.alias
    ensures HasAliasKey(g, EntryKey(x))
  {
  }

  lemma EntryWithKey(d: Draft, locale: (string, string) -> int, e: AliasEntry) returns (a: nat)
    requires e in d.entries && NonBlankEntry(e)
    ensures a < |GroupEntries(d, locale)| && EntryKey(GroupEntries(d, locale)[a]) == EntryKey(e)
  {
    GroupEntriesEarliest(d, locale, e);
    a := CoveringIndex(GroupEntries(d, locale), EntryKey, EntryTime, e);
  }

  /** A draft holding a non-blank alias yields a popup entry with that alias's key. */
  lemma GroupHasAlias(d: Draft, locale: (string, string) -> int, e: AliasEntry)
    requires e in d.entries && NonBlankEntry(e)
    ensures GroupOf(d, locale).Some? && HasAliasKey(GroupOf(d, locale).value, EntryKey(e))
  {
    var a := EntryWithKey(d, locale, e);
    GroupAliasAt(d, locale, a);
    HasAliasKeyAt(GroupOf(d, locale).value, a, GroupEntries(d, locale)[a]);
  }

  /** The draft that collected `t`. */
  lemma CollectingDraft(ts: seq<Target>, now: real, t: Target) returns (j: nat)
    requires t in ts
    ensures j < |Drafts(ts, now)| && DraftKey(Drafts(ts, now)[j]) == TargetKey(t)
    ensures EntryOf(t, now) in Drafts(ts, now)[j].entries
  {
    DraftsCollect(ts, now, t);
    var drafts := Drafts(ts, now);
    j :| 0 <= j < |drafts| && DraftKey(drafts[j]) == TargetKey(t) && EntryOf(t, now) in drafts[j].entries;
  }

  /** The position in the rebuilt list of the popup entry of a draft. */
  lemma RebuiltPosition(m: AliasMap, now: real, locale: (string, string) -> int,
                        numeric: (string, string) -> int, j: nat) returns (i: nat)
    requires j < |Drafts(AllTargets(m), now)| && GroupOf(Drafts(AllTargets(m), now)[j], locale).Some?
    ensures i < |RebuildGroupedAliases(m, now, locale, numeric)|
    ensures RebuildGroupedAliases(m, now, locale, numeric)[i]
            == GroupOf(Drafts(AllTargets(m), now)[j], locale).value
  {
    var drafts := Drafts(AllTargets(m), now);
    var r := RebuildGroupedAliases(m, now, locale, numeric);
    var g := GroupOf(drafts[j], locale).value;
    GroupsCover(drafts, locale, j);
    assert g in multiset(r);
    i :| 0 <= i < |r| && r[i] == g;
  }

  lemma GroupKeyOf(d: Draft, locale: (string, string) -> int)
    requires GroupOf(d, locale).Some?
    ensures PopupKey(GroupOf(d, locale).value) == DraftKey(d)
  {
  }

  lemma EntryOfKey(t: Target, now: real)
    ensures EntryKey(EntryOf(t, now)) == DcconAlias.NormalizeAliasKey(t.alias)
  {
  }

  /** Every stored alias with a non-blank key shows up, by key, in the popup entry of
      its dccon. */
  lemma RebuildCovers(m: AliasMap, now: real, locale: (string, string) -> int,
                      numeric: (string, string) -> int, t: Target)
    requires t in AllTargets(m) && DcconAlias.NormalizeAliasKey(t.alias) != ""
    ensures var r := RebuildGroupedAliases(m, now, locale, numeric);
      exists i :: 0 <= i < |r| && PopupKey(r[i]) == TargetKey(t)
                 && HasAliasKey(r[i], DcconAlias.NormalizeAliasKey(t.alias))
  {
    var j := CollectingDraft(AllTargets(m), now, t);
    var d := Drafts(AllTargets(m), now)[j];
    var e := EntryOf(t, now);
    EntryOfKey(t, now);
    GroupHasAlias(d, locale, e);
    GroupKeyOf(d, locale);
    var i := RebuiltPosition(m, now, locale, numeric, j);
    var r := RebuildGroupedAliases(m, now, locale, numeric);
    assert PopupKey(r[i]) == TargetKey(t) && HasAliasKey(r[i], DcconAlias.NormalizeAliasKey(t.alias));
  }

  /** An entry of a group is an entry of its draft. */
  lemma GroupEntryInDraft(d: Draft, locale: (string, string) -> int, a: nat)
    requires a < |GroupEntries(d, locale)|
    ensures GroupEntries(d, locale)[a] in d.entries
  {
    var es := GroupEntries(d, locale);
    assert es[a] in multiset(KeptEntries(d));
    var k :| 0 <= k < |KeptEntries(d)| && KeptEntries(d)[k] == es[a];
  }

  /** The target behind an entry of one of the drafts. */
  lemma SourceTarget(ts: seq<Target>, now: real, d: Draft, e: AliasEntry) returns (t: Target)
    requires d in Drafts(ts, now) && e in d.entries
    ensures t in ts && TargetKey(t) == DraftKey(d) && e == EntryOf(t, now)
  {
    DraftsFromTargets(ts, now);
    var drafts := Drafts(ts, now);
    var j :| 0 <= j < |drafts| && drafts[j] == d;
    t :| t in ts && TargetKey(t) == DraftKey(d) && e == EntryOf(t, now);
  }

  /** Every alias of a popup entry is a stored alias of that dccon. */
  lemma RebuildSound(m: AliasMap, now: real, locale: (string, string) -> int,
                     numeric: (string, string) -> int, i: nat, a: nat)
    requires i < |RebuildGroupedAliases(m, now, locale, numeric)|
    requires a < |RebuildGroupedAliases(m, now, locale, numeric)[i].aliases|
    ensures var g := RebuildGroupedAliases(m, now, locale, numeric)[i];
      exists t :: t in AllTargets(m) && TargetKey(t) == PopupKey(g) && t.alias == g.aliases[a]
  {
    var d := RebuiltFromDraft(m, now, locale, numeric, i);
    GroupAliasAt(d, locale, a);
    GroupEntryInDraft(d, locale, a);
    GroupKeyOf(d, locale);
    var t := SourceTarget(AllTargets(m), now, d, GroupEntries(d, locale)[a]);
    var g := RebuildGroupedAliases(m, now, locale, numeric)[i];
    assert TargetKey(t) == PopupKey(g) && t.alias == g.aliases[a];
  }

  /** With a consistent comparator the popup list is in `comparePopupTargets` order. */
  lemma RebuildSorted(m: AliasMap, now: real, locale: (string, string) -> int, numeric: (string, string) -> int)
    requires Sorting.Consistent(ComparePopupTargets(locale, numeric))
    ensures Sorting.Sorted(RebuildGroupedAliases(m, now, locale, numeric),
                           Sorting.LeOf(ComparePopupTargets(locale, numeric)))
  {
    Sorting.SortSorted(Groups(Drafts(AllTargets(m), now), locale),
                       Sorting.LeOf(ComparePopupTargets(locale, numeric)));
  }

  /* ---------------------------------------------------------------------------
     getAliasesByTarget: the aliases shown for one dccon
     --------------------------------------------------------------------------- */

  /** The popup entry is for the dccon `packageIdx`/`detailIdx`. */
  function IsPopupFor(packageIdx: string, detailIdx: string): DcconAlias.PopupTarget -> bool {
    (g: DcconAlias.PopupTarget) => g.packageIdx == packageIdx && g.detailIdx == detailIdx
  }

  /** The stored aliases of the dccon, in enumeration order. */
  function StoredAliases(ts: seq<Target>, packageIdx: string, detailIdx: string): (r: seq<string>)
    ensures forall i :: 0 <= i < |r| ==>
      exists t :: t in ts && IsFor(t, packageIdx, detailIdx) && t.alias == r[i]
    ensures forall t :: t in ts && IsFor(t, packageIdx, detailIdx) ==> t.alias in r
  {
    if ts == [] then []
    else
      var init := StoredAliases(ts[..|ts| - 1], packageIdx, detailIdx);
      var last := ts[|ts| - 1];
      assert ts == ts[..|ts| - 1] + [last];
      assert forall t :: t in ts ==> t in ts[..|ts| - 1] || t == last;
      if IsFor(last, packageIdx, detailIdx) then init + [last.alias] else init
  }

  /** An alias whose key is not blank (`if (!normalized) return`). */
  predicate NonBlankAlias(a: string) { DcconAlias.NormalizeAliasKey(a) != "" }

  /** `getAliasesByTarget`, given the grouped aliases `grouped`: the aliases of the
      first popup entry for the dccon, or else the stored aliases of the dccon, one
      per key (the first met), in `compareAliasStrings` order. */
  function AliasesByTarget(grouped: seq<DcconAlias.PopupTarget>, m: AliasMap, packageIdx: string,
                           detailIdx: string, locale: (string, string) -> int): (r: seq<string>)
    ensures FindIndex(grouped, IsPopupFor(packageIdx, detailIdx)).None? ==>
      multiset(r) == multiset(FilterDedup(StoredAliases(AllTargets(m), packageIdx, detailIdx),
                                          NonBlankAlias, DcconAlias.NormalizeAliasKey))
  {
    match FindIndex(grouped, IsPopupFor(packageIdx, detailIdx))
    case Some(k) => grouped[k].aliases
    case None =>
      Sorting.Sort(FilterDedup(StoredAliases(AllTargets(m), packageIdx, detailIdx),
                               NonBlankAlias, DcconAlias.NormalizeAliasKey),
                   Sorting.LeOf(DcconAlias.AliasComparator(locale)))
  }

  /** With a popup entry for the dccon, its aliases are returned: those of the first. */
  lemma AliasesByTargetGrouped(grouped: seq<DcconAlias.PopupTarget>, m: AliasMap, packageIdx: string,
                               detailIdx: string, locale: (string, string) -> int, k: nat)
    requires k < |grouped| && grouped[k].packageIdx == packageIdx && grouped[k].detailIdx == detailIdx
    requires forall j :: 0 <= j < k ==> !(grouped[j].packageIdx == packageIdx && grouped[j].detailIdx == detailIdx)
    ensures AliasesByTarget(grouped, m, packageIdx, detailIdx, locale) == grouped[k].aliases
  {
    assert IsPopupFor(packageIdx, detailIdx)(grouped[k]);
  }

  /** Without a popup entry, every alias returned is a stored, non-blank alias of the
      dccon. */
  lemma AliasesByTargetFallbackSound(grouped: seq<DcconAlias.PopupTarget>, m: AliasMap, packageIdx: string,
                                     detailIdx: string, locale: (string, string) -> int, i: nat)
    requires forall j :: 0 <= j < |grouped| ==> !(grouped[j].packageIdx == packageIdx && grouped[j].detailIdx == detailIdx)
    requires i < |AliasesByTarget(grouped, m, packageIdx, detailIdx, locale)|
    ensures var a := AliasesByTarget(grouped, m, packageIdx, detailIdx, locale)[i];
      NonBlankAlias(a) && exists t :: t in AllTargets(m) && IsFor(t, packageIdx, detailIdx) && t.alias == a
  {
    var r := AliasesByTarget(grouped, m, packageIdx, detailIdx, locale);
    var stored := StoredAliases(AllTargets(m), packageIdx, detailIdx);
    DedupedMember(r, stored, NonBlankAlias, DcconAlias.NormalizeAliasKey, i);
  }

  /** Without a popup entry, every non-blank stored alias of the dccon is represented
      by a returned alias with its key. */
  lemma AliasesByTargetFallbackCovers(grouped: seq<DcconAlias.PopupTarget>, m: AliasMap, packageIdx: string,
                                      detailIdx: string, locale: (string, string) -> int, t: Target)
    requires forall j :: 0 <= j < |grouped| ==> !(grouped[j].packageIdx == packageIdx && grouped[j].detailIdx == detailIdx)
    requires t in AllTargets(m) && IsFor(t, packageIdx, detailIdx) && NonBlankAlias(t.alias)
    ensures var r := AliasesByTarget(grouped, m, packageIdx, detailIdx, locale);
      exists i :: 0 <= i < |r| && DcconAlias.NormalizeAliasKey(r[i]) == DcconAlias.NormalizeAliasKey(t.alias)
  {
    var r := AliasesByTarget(grouped, m, packageIdx, detailIdx, locale);
    var stored := StoredAliases(AllTargets(m), packageIdx, detailIdx);
    var i := DedupedIndex(r, stored, NonBlankAlias, DcconAlias.NormalizeAliasKey, t.alias);
    assert DcconAlias.NormalizeAliasKey(r[i]) == DcconAlias.NormalizeAliasKey(t.alias);
  }

  /** Without a popup entry, no two returned aliases share a key, and with a
      consistent `localeCompare` they are in `compareAliasStrings` order. */
  lemma AliasesByTargetFallbackOrder(grouped: seq<DcconAlias.PopupTarget>, m: AliasMap, packageIdx: string,
                                     detailIdx: string, locale: (string, string) -> int)
    requires forall j :: 0 <= j < |grouped| ==> !(grouped[j].packageIdx == packageIdx && grouped[j].detailIdx == detailIdx)
    requires Sorting.Consistent(DcconAlias.AliasComparator(locale))
    ensures var r := AliasesByTarget(grouped, m, packageIdx, detailIdx, locale);
      KeysDistinct(r, DcconAlias.NormalizeAliasKey)
      && Sorting.Sorted(r, Sorting.LeOf(DcconAlias.AliasComparator(locale)))
  {
    var stored := StoredAliases(AllTargets(m), packageIdx, detailIdx);
    var f := FilterDedup(stored, NonBlankAlias, DcconAlias.NormalizeAliasKey);
    Sorting.SortKeepsDistinct(f, Sorting.LeOf(DcconAlias.AliasComparator(locale)), DcconAlias.NormalizeAliasKey);
    Sorting.SortSorted(f, Sorting.LeOf(DcconAlias.AliasComparator(locale)));
  }
}

=== FILE: events.dfy ===
/** The content script's event layer (src/services/Events.ts): the per-macro timers and
    their re-check guards, the post-number input mode, keydown dispatch to shortcut
    actions, profile cycling, the choice of the next post across pages and the URL
    parameter sync after an in-place page load. Timers, `fetch`, the DOM and
    `location` are replaced by parameters (what the background answered, which HEAD
    probes found a post, the rows of the list) and by returned decisions. */
module Events {
  import opened Wrappers
  import opened Text
  import Session
  import JsNumber
  import Seqs
  import Sorting
  import WebUrl
  import JsObject
  import FavoritesStore
  import SettingsStore
  import Shortcut

  /* ---------------------------------------------------------------------------
     Macro timers: `_macroTimeouts`
     --------------------------------------------------------------------------- */

  /** The pending timer of each macro, by the id `setTimeout` returned. */
  datatype Timeouts = Timeouts(z: Option<int>, x: Option<int>)

  function Pending(t: Timeouts, m: Session.Macro): Option<int> {
    if m == Session.Z then t.z else t.x
  }

  /** The timers with macro `m`'s slot replaced. */
  function WithPending(t: Timeouts, m: Session.Macro, id: Option<int>): (r: Timeouts)
    ensures Pending(r, m) == id
    ensures Pending(r, Session.Other(m)) == Pending(t, Session.Other(m))
  {
    if m == Session.Z then t.(z := id) else t.(x := id)
  }

  /** The timers after a step, and the timer that step cancels (`clearTimeout`). */
  datatype TimerStep = TimerStep(timeouts: Timeouts, cancel: Option<int>)

  function MacroName(m: Session.Macro): string {
    if m == Session.Z then "Z" else "X"
  }

  /** The alert `handleStopMacroCommand` shows: the reason, or the default notice. */
  function StopAlert(m: Session.Macro, reason: Option<string>): (r: string)
    ensures reason.Some? ==> r == reason.value
    ensures reason.None? ==> r == MacroName(m) + " 매크로가 중지되었습니다."
  {
    reason.GetOr(MacroName(m) + " 매크로가 중지되었습니다.")
  }

  /** `handleStopMacroCommand(m)`: cancels macro `m`'s pending timer, if any. */
  function HandleStopMacroCommand(t: Timeouts, m: Session.Macro): (r: TimerStep)
    ensures Pending(r.timeouts, m).None?
    ensures Pending(r.timeouts, Session.Other(m)) == Pending(t, Session.Other(m))
    ensures r.cancel == Pending(t, m)
  {
    TimerStep(WithPending(t, m, None), Pending(t, m))
  }

  /** A second stop command finds nothing left to cancel. */
  lemma StopMacroIdempotent(t: Timeouts, m: Session.Macro)
    ensures var once := HandleStopMacroCommand(t, m).timeouts;
      HandleStopMacroCommand(once, m) == TimerStep(once, None)
  {
    var once := HandleStopMacroCommand(t, m).timeouts;
    assert WithPending(once, m, None) == once;
  }

  /** `rescheduleMacroAttempt(m)`: the pending attempt of `m` is replaced by a new
      timer `id`. */
  function RescheduleMacroAttempt(t: Timeouts, m: Session.Macro, id: int): (r: TimerStep)
    ensures Pending(r.timeouts, m) == Some(id)
    ensures Pending(r.timeouts, Session.Other(m)) == Pending(t, Session.Other(m))
    ensures r.cancel == Pending(t, m)
  {
    TimerStep(WithPending(t, m, Some(id)), Pending(t, m))
  }

  /** A stop command cancels exactly the attempt that was rescheduled last. */
  lemma StopCancelsRescheduled(t: Timeouts, m: Session.Macro, id: int)
    ensures var r := RescheduleMacroAttempt(t, m, id).timeouts;
      HandleStopMacroCommand(r, m).cancel == Some(id)
      && HandleStopMacroCommand(r, m).timeouts == WithPending(t, m, None)
  {
    var r := RescheduleMacroAttempt(t, m, id).timeouts;
    assert WithPending(r, m, None) == WithPending(t, m, None);
  }

  /** `getMacroStateFromBackground`: the reply, or nothing running when the query
      failed. */
  function MacroViewOf(reply: Option<Session.MacroView>): Session.MacroView {
    reply.GetOr(Session.MacroView(false, false, None, None))
  }

  function ViewRunning(v: Session.MacroView, m: Session.Macro): bool {
    if m == Session.Z then v.zRunning else v.xRunning
  }

  function ViewOwner(v: Session.MacroView, m: Session.Macro): Option<int> {
    if m == Session.Z then v.zTabId else v.xTabId
  }

  /** The macro UI switch (`macroZEnabled` / `macroXEnabled`). */
  function UiEnabled(m: Session.Macro, zEnabled: bool, xEnabled: bool): bool {
    if m == Session.Z then zEnabled else xEnabled
  }

  /** The decision a timer callback takes when it fires. */
  datatype Fire = Fire(timeouts: Timeouts, navigate: bool)

  /** The callback of a rescheduled attempt: the slot is emptied, and the step runs
      only if the macro still runs, is owned by this tab and is still enabled. */
  function RescheduledFire(t: Timeouts, m: Session.Macro, latest: Session.MacroView,
                           tabId: Option<int>, enabled: bool): (r: Fire)
    ensures Pending(r.timeouts, m).None?
    ensures Pending(r.timeouts, Session.Other(m)) == Pending(t, Session.Other(m))
    ensures r.navigate <==> ViewRunning(latest, m) && tabId == ViewOwner(latest, m) && enabled
  {
    Fire(WithPending(t, m, None), ViewRunning(latest, m) && tabId == ViewOwner(latest, m) && enabled)
  }

  /** Against a reachable coordinator record, a firing attempt navigates only in the
      macro's owner tab, which has a truthy id. */
  lemma RescheduledFireOnlyInOwner(t: Timeouts, m: Session.Macro, bg: Session.State,
                                   tabId: Option<int>, enabled: bool)
    requires Session.Inv(bg)
    requires RescheduledFire(t, m, Session.MacroStateReply(bg), tabId, enabled).navigate
    ensures Session.Running(bg, m) && tabId == Session.Owner(bg, m) && Session.Truthy(tabId)
  {
  }

  /** What `triggerMacroNavigation` did: nothing, or a timer `id` armed for `macro`,
      remembering the owner it saw (`targetTabId`). */
  datatype Trigger =
    | NoTrigger
    | Scheduled(macro: Session.Macro, target: Option<int>, step: TimerStep)

  /** `processMacro(m)`. */
  function ProcessMacro(view: Session.MacroView, m: Session.Macro, myTabId: Option<int>,
                        zEnabled: bool, xEnabled: bool, t: Timeouts, id: int): (r: Trigger)
  {
    if ViewRunning(view, m) && myTabId == ViewOwner(view, m) && UiEnabled(m, zEnabled, xEnabled)
    then Scheduled(m, ViewOwner(view, m), TimerStep(WithPending(t, m, Some(id)), Pending(t, m)))
    else NoTrigger
  }

  /** `triggerMacroNavigation` after a page load: `view` is the background's answer,
      `myTabId` this tab's id and `id` the timer `setTimeout` would return. Z is
      considered first; X only when Z does not run here. */
  function TriggerMacroNavigation(view: Session.MacroView, myTabId: Option<int>, zEnabled: bool,
                                  xEnabled: bool, t: Timeouts, id: int): (r: Trigger)
    ensures r.Scheduled? ==>
      Session.Truthy(myTabId) && ViewRunning(view, r.macro) && myTabId == ViewOwner(view, r.macro)
      && UiEnabled(r.macro, zEnabled, xEnabled) && r.target == myTabId
      && Pending(r.step.timeouts, r.macro) == Some(id) && r.step.cancel == Pending(t, r.macro)
      && Pending(r.step.timeouts, Session.Other(r.macro)) == Pending(t, Session.Other(r.macro))
    ensures r.Scheduled? && r.macro == Session.X ==> !(view.zRunning && myTabId == view.zTabId)
    ensures Session.Truthy(myTabId) && view.zRunning && myTabId == view.zTabId && zEnabled ==>
      r.Scheduled? && r.macro == Session.Z
    ensures Session.Truthy(myTabId) && !(view.zRunning && myTabId == view.zTabId)
            && view.xRunning && myTabId == view.xTabId && xEnabled ==>
      r.Scheduled? && r.macro == Session.X
    ensures r.NoTrigger? && Session.Truthy(myTabId) ==>
      forall m :: !(ViewRunning(view, m) && myTabId == ViewOwner(view, m) && UiEnabled(m, zEnabled, xEnabled))
                  || (m == Session.X && view.zRunning && myTabId == view.zTabId)
  {
    if !Session.Truthy(myTabId) then NoTrigger
    else if view.zRunning && myTabId == view.zTabId then
      ProcessMacro(view, Session.Z, myTabId, zEnabled, xEnabled, t, id)
    else if view.xRunning && myTabId == view.xTabId then
      ProcessMacro(view, Session.X, myTabId, zEnabled, xEnabled, t, id)
    else NoTrigger
  }

  /** The callback of the timer `triggerMacroNavigation` arms, as written: the tab id
      is compared with the owner seen when the timer was armed (`target`), not with
      the owner in the fresh answer. */
  function TriggeredFireAsWritten(t: Timeouts, m: Session.Macro, target: Option<int>,
                                  latest: Session.MacroView, tabId: Option<int>, enabled: bool): (r: Fire)
    ensures Pending(r.timeouts, m).None?
    ensures r.navigate ==> ViewRunning(latest, m) && enabled
  {
    Fire(WithPending(t, m, None), ViewRunning(latest, m) && tabId == target && enabled)
  }

  /** The as-written callback navigates although the fresh answer names another tab
      as the owner: tab 5 armed the timer, and by the time it fires macro Z runs in
      tab 7. */
  lemma TriggeredFireMissesOwnerChange()
    ensures var latest := Session.MacroView(true, false, Some(7), None);
      TriggeredFireAsWritten(Timeouts(Some(1), None), Session.Z, Some(5), latest, Some(5), true).navigate
      && !RescheduledFire(Timeouts(Some(1), None), Session.Z, latest, Some(5), true).navigate
  {
  }

  /** The callback with the owner re-checked against the fresh answer, as the
      rescheduled attempt does; it agrees with the as-written one whenever the owner
      did not change. */
  function TriggeredFire(t: Timeouts, m: Session.Macro, target: Option<int>,
                         latest: Session.MacroView, tabId: Option<int>, enabled: bool): (r: Fire)
    ensures r == RescheduledFire(t, m, latest, tabId, enabled)
    ensures ViewOwner(latest, m) == target ==>
      r == TriggeredFireAsWritten(t, m, target, latest, tabId, enabled)
  {
    Fire(WithPending(t, m, None), ViewRunning(latest, m) && tabId == ViewOwner(latest, m) && enabled)
  }

  /* ---------------------------------------------------------------------------
     Post-number input: `numberInput`
     --------------------------------------------------------------------------- */

  /** The input mode and the digits typed so far (the display and its 3-second exit
      timer are left to the environment: the timer firing is `ExitNumberInput`). */
  datatype NumberInput = NumberInput(mode: bool, buffer: string)

  /** `exitNumberInput`. */
  const Closed := NumberInput(false, "")

  /** The state after a key, and the post number handed to `posts.navigate`. */
  datatype NumberStep = NumberStep(state: NumberInput, navigate: Option<string>)

  function ExitNumberInput(s: NumberInput): (r: NumberInput)
    ensures !r.mode && r.buffer == ""
  {
    Closed
  }

  /** `key >= '0' && key <= '9'` on the key string. */
  predicate InDigitRange(key: string) {
    !StringLess(key, "0") && !StringLess("9", key)
  }

  /** On a one-character key the string comparison is the digit test. */
  lemma DigitRangeOfChar(c: char)
    ensures InDigitRange([c]) <==> IsAsciiDigit(c)
  {
    assert [c][1..] == [];
  }

  /** A longer key passes the comparison only when it starts with 0 to 8. */
  lemma DigitRangeOfWord(key: string)
    requires |key| >= 2
    ensures InDigitRange(key) <==> '0' <= key[0] < '9'
  {
    var zero, nine := "0", "9";
    assert zero[1..] == [] && nine[1..] == [] && key[1..] != [];
    assert StringLess(key, zero) == (if key[0] != '0' then key[0] < '0' else StringLess(key[1..], zero[1..]));
    assert StringLess(nine, key) == (if '9' != key[0] then '9' < key[0] else StringLess(nine[1..], key[1..]));
  }

  /** `KeyboardEvent.key` values: one character, or a named key, which never starts
      with a digit. */
  predicate KeyValue(key: string) {
    |key| != 1 ==> key == [] || !IsAsciiDigit(key[0])
  }

  /** A key value passes `key >= '0' && key <= '9'` exactly when it is one digit. */
  lemma KeyValueDigit(key: string)
    requires KeyValue(key)
    ensures InDigitRange(key) <==> |key| == 1 && IsAsciiDigit(key[0])
  {
    if |key| == 1 {
      assert key == [key[0]];
      DigitRangeOfChar(key[0]);
    } else if |key| >= 2 {
      DigitRangeOfWord(key);
    }
  }

  /** `toggleNumberInput`: with digits typed, go to that post and leave the mode;
      otherwise enter the mode with an empty buffer. */
  function ToggleNumberInput(s: NumberInput): (r: NumberStep)
    ensures s.mode && s.buffer != "" ==> r == NumberStep(Closed, Some(s.buffer))
    ensures !(s.mode && s.buffer != "") ==> r.state.mode && r.state.buffer == "" && r.navigate.None?
  {
    if s.mode && s.buffer != "" then NumberStep(Closed, Some(s.buffer))
    else NumberStep(NumberInput(true, ""), None)
  }

  /** `handleNumberInput(key)` while the mode is on. */
  function HandleNumberInput(s: NumberInput, key: string): (r: NumberStep)
    ensures r.navigate.Some? <==> (key == "Enter" || key == "." || key == "`") && s.buffer != ""
    ensures r.navigate.Some? ==> r.navigate.value == s.buffer && r.state == Closed
    ensures key == "Escape" ==> r.state == Closed
  {
    if (key == "Enter" || key == "." || key == "`") && s.buffer != "" then
      NumberStep(Closed, Some(s.buffer))
    else if InDigitRange(key) && |s.buffer| < 3 then
      NumberStep(s.(buffer := s.buffer + key), None)
    else if key == "Escape" then
      NumberStep(Closed, None)
    else if key == "Backspace" && |s.buffer| > 0 then
      NumberStep(s.(buffer := s.buffer[..|s.buffer| - 1]), None)
    else
      NumberStep(s, None)
  }

  /** The buffer holds at most three digits, and nothing outside the mode. */
  predicate NumberWf(s: NumberInput) {
    AllDigits(s.buffer) && |s.buffer| <= 3 && (!s.mode ==> s.buffer == "")
  }

  /** Every transition keeps the buffer to at most three digits. */
  lemma NumberInputKeepsWf(s: NumberInput, key: string)
    requires NumberWf(s) && s.mode && KeyValue(key)
    ensures NumberWf(HandleNumberInput(s, key).state)
    ensures NumberWf(ToggleNumberInput(s).state)
    ensures NumberWf(ExitNumberInput(s))
  {
    KeyValueDigit(key);
  }

  /** A digit typed and then erased leaves the input as it was. */
  lemma BackspaceUndoesDigit(s: NumberInput, d: char)
    requires IsAsciiDigit(d) && |s.buffer| < 3
    ensures var typed := HandleNumberInput(s, [d]).state;
      HandleNumberInput(typed, "Backspace") == NumberStep(s, None)
  {
    DigitRangeOfChar(d);
    assert (s.buffer + [d])[..|s.buffer|] == s.buffer;
  }

  /** The keys, one per character. */
  function CharKeys(ds: string): (r: seq<string>)
    ensures |r| == |ds| && forall i :: 0 <= i < |ds| ==> r[i] == [ds[i]]
  {
    seq(|ds|, i requires 0 <= i < |ds| => [ds[i]])
  }

  /** Feeds keys to the number input in order; the last navigation requested, if
      any. */
  function FeedNumberKeys(s: NumberInput, keys: seq<string>): (r: NumberStep)
    decreases |keys|
  {
    if keys == [] then NumberStep(s, None)
    else
      var step := HandleNumberInput(s, keys[0]);
      var rest := FeedNumberKeys(step.state, keys[1..]);
      if rest.navigate.Some? then rest else NumberStep(rest.state, step.navigate)
  }

  /** Typing up to three digits into an empty buffer collects them. */
  lemma {:induction false} TypedDigits(prefix: string, ds: string)
    requires AllDigits(ds) && |prefix| + |ds| <= 3
    ensures FeedNumberKeys(NumberInput(true, prefix), CharKeys(ds)) == NumberStep(NumberInput(true, prefix + ds), None)
    decreases |ds|
  {
    if ds != [] {
      DigitRangeOfChar(ds[0]);
      var keys := CharKeys(ds);
      assert keys[1..] == CharKeys(ds[1..]);
      assert HandleNumberInput(NumberInput(true, prefix), keys[0]).state == NumberInput(true, prefix + [ds[0]]);
      TypedDigits(prefix + [ds[0]], ds[1..]);
      assert prefix + [ds[0]] + ds[1..] == prefix + ds;
    } else {
      assert prefix + ds == prefix;
    }
  }

  /** Entering the mode, typing one to three digits and pressing Enter goes to
      exactly that post number and leaves the mode. */
  lemma TypedNumberCommits(ds: string)
    requires AllDigits(ds) && 1 <= |ds| <= 3
    ensures var started := ToggleNumberInput(Closed).state;
      FeedNumberKeys(started, CharKeys(ds) + ["Enter"]) == NumberStep(Closed, Some(ds))
  {
    var started := ToggleNumberInput(Closed).state;
    assert started == NumberInput(true, "");
    TypedDigits("", ds);
    FeedAppend(started, CharKeys(ds), "Enter");
    assert "" + ds == ds;
  }

  /** Feeding `keys` then one more key, when `keys` requested nothing. */
  lemma {:induction false} FeedAppend(s: NumberInput, keys: seq<string>, last: string)
    requires FeedNumberKeys(s, keys).navigate.None?
    ensures FeedNumberKeys(s, keys + [last]) == HandleNumberInput(FeedNumberKeys(s, keys).state, last)
    decreases |keys|
  {
    if keys != [] {
      var step := HandleNumberInput(s, keys[0]);
      assert (keys + [last])[0] == keys[0];
      assert (keys + [last])[1..] == keys[1..] + [last];
      FeedAppend(step.state, keys[1..], last);
    } else {
      assert [last][1..] == [];
    }
  }

  /* ---------------------------------------------------------------------------
     Keyboard dispatch: `handleKeydown`, `handleKeyup`, window blur and focus
     --------------------------------------------------------------------------- */

  /** The key stored for an action, if any (`shortcutKeys[`shortcut${a}Key`]`). */
  function StoredCombo(st: SettingsStore.Settings, a: SettingsStore.Action): Option<string> {
    if SettingsStore.KeyKey(a) in st.shortcutKeys then Some(st.shortcutKeys[SettingsStore.KeyKey(a)]) else None
  }

  /** The combination an action answers to: the stored key normalised, else the
      default, with `Alt+` put in front for the Alt-only actions. */
  function AssignedCombo(st: SettingsStore.Settings, a: SettingsStore.Action): string {
    Shortcut.NormalizeWithFallbackAsWritten(StoredCombo(st, a), SettingsStore.DefaultKey(a), SettingsStore.AltRequired(a))
  }

  /** The combination of every action under the settings `st`. */
  function CombosOf(st: SettingsStore.Settings): SettingsStore.Action -> string {
    (a: SettingsStore.Action) => AssignedCombo(st, a)
  }

  /** The loop over `customizableShortcutActions`: the first action whose combination
      (`combo`) is the pressed one. */
  function MatchAction(combo: SettingsStore.Action -> string, pressed: string): (r: Option<SettingsStore.Action>)
    ensures r.Some? ==> combo(r.value) == pressed
    ensures r.Some? ==> exists i :: (0 <= i < |SettingsStore.Actions| && SettingsStore.Actions[i] == r.value
                                     && forall j :: 0 <= j < i ==> combo(SettingsStore.Actions[j]) != pressed)
    ensures r.None? <==> forall i :: 0 <= i < |SettingsStore.Actions| ==> combo(SettingsStore.Actions[i]) != pressed
  {
    var hit := (a: SettingsStore.Action) => combo(a) == pressed;
    match Seqs.FindIndex(SettingsStore.Actions, hit)
    case Some(i) =>
      assert forall j :: 0 <= j < i ==> !hit(SettingsStore.Actions[j]);
      Some(SettingsStore.Actions[i])
    case None => None
  }

  /** Whether a matched action may run: three actions have dedicated flags, the
      others their `shortcutEnabled` entry, a missing entry reading as off. */
  predicate ActionEnabled(st: SettingsStore.Settings, a: SettingsStore.Action) {
    if a == SettingsStore.SubmitComment then st.submitCommentKeyEnabled
    else if a == SettingsStore.SubmitImagePost then st.submitImagePostKeyEnabled
    else if a == SettingsStore.ToggleModal then st.toggleModalKeyEnabled
    else SettingsStore.EnabledKey(a) in st.shortcutEnabled && st.shortcutEnabled[SettingsStore.EnabledKey(a)]
  }

  predicate NoModifiers(ev: Shortcut.KeyEvent) {
    !ev.alt && !ev.ctrl && !ev.shift && !ev.meta
  }

  predicate AltOnly(ev: Shortcut.KeyEvent) {
    ev.alt && !ev.ctrl && !ev.shift && !ev.meta
  }

  /** The legacy profile key while the favourites preview is up: the action's
      combination is a bare key (no `+`) equal to the pressed key up to case. The
      Alt-only rule is not applied here. */
  function LegacyCombosOf(st: SettingsStore.Settings): SettingsStore.Action -> string {
    (a: SettingsStore.Action) => Shortcut.NormalizeWithFallbackAsWritten(StoredCombo(st, a), SettingsStore.DefaultKey(a), false)
  }

  /** `!combo.includes('+') && combo.toUpperCase() === event.key.toUpperCase()`. */
  predicate BareKeyMatches(combo: string, key: string) {
    !Contains(combo, "+") && JsUpper(combo) == JsUpper(key)
  }

  /** For an ASCII combination the test is the ASCII upper case of the combination
      against the full upper case of the key, so the dotless `ı` and the long `ſ`
      match a stored `I` and `S`. */
  lemma BareKeyMatchesAscii(combo: string, key: string)
    requires IsAscii(combo)
    ensures BareKeyMatches(combo, key) <==> !Contains(combo, "+") && Upper(combo) == JsUpper(key)
    ensures BareKeyMatches("I", "ı") && BareKeyMatches("S", "ſ")
  {
    JsUpperOfAscii(combo);
    assert JsUpper("ı") == "I" && JsUpper("I") == "I";
    assert JsUpper("ſ") == "S" && JsUpper("S") == "S";
  }

  /** The post a bare digit opens: `0` the tenth, `n` the n-th (`parseInt(key) - 1`);
      `None` when `parseInt` gives NaN. */
  function ListedIndex(key: string): (r: Option<int>)
  {
    if |key| == 1 && key[0] == '0' then Some(9)
    else match JsNumber.ParseInt(key)
      case Some(v) => Some(v - 1)
      case None => None
  }

  /** `String(k)` is not the key `0` for a positive `k`. */
  lemma NumberKeyNotZero(k: nat)
    requires k >= 1
    ensures !(|NatToString(k)| == 1 && NatToString(k)[0] == '0')
  {
    var r := NatToString(k);
    if |r| == 1 {
      assert r[..0] == [];
      assert DigitsValue(r) == DigitValue(r[0]);
    }
  }

  /** The key `String(k)` opens the k-th listed post (index `k - 1`), so `1` opens the
      first and `9` the ninth; `0` opens the tenth. */
  lemma ListedIndexOfNumber(k: nat)
    requires k >= 1
    ensures ListedIndex(NatToString(k)) == Some(k - 1)
  {
    NumberKeyNotZero(k);
    JsNumber.ParseIntOfNatToString(k);
  }

  /** What a keydown leads to. */
  datatype KeyOutcome =
    | RunShortcut(action: SettingsStore.Action)  // `handleShortcuts(action)`
    | HeldBack                                   // a matched shortcut that is off or would interrupt typing
    | CycleProfile(next: bool)                   // the legacy profile keys
    | FavoriteSlot(key: string)                  // Alt + digit: `handleFavoriteKey`
    | NumberKey(key: string)                     // `handleNumberInput`
    | ToggleNumber                               // `toggleNumberInput`
    | OpenListedPost(index: Option<int>)         // a bare digit
    | NoAction

  /** The keydown's effect on the Alt state, whether the favourites preview is shown,
      and the outcome. */
  datatype Keydown = Keydown(altPressed: bool, showPreview: bool, outcome: KeyOutcome)

  /** What the listener sees of a keydown besides the settings: the pressed key, which
      modifiers are held, whether a text field has the focus, and its own number mode. */
  datatype Press = Press(key: string, altOnly: bool, bare: bool, typing: bool, numberMode: bool)

  /** The decision `handleKeydown` takes once the shortcut lookup is done: `matched` is
      the first action bound to the pressed combination, `runnable` whether that action
      is switched on, `legacy` the profile step a bare profile key asks for under Alt,
      `favorites` whether Alt + digit selects a favourite slot. */
  function Route(matched: Option<SettingsStore.Action>, runnable: bool, legacy: Option<bool>, favorites: bool,
                 numberNavigation: bool, p: Press): (r: KeyOutcome)
    requires legacy.Some? || favorites ==> p.altOnly && !p.bare
    ensures r.RunShortcut? <==> matched.Some? && runnable && !(p.typing && p.bare)
    ensures r.RunShortcut? ==> r.action == matched.value
    ensures r == HeldBack <==> matched.Some? && !(runnable && !(p.typing && p.bare))
    ensures r.CycleProfile? <==> matched.None? && legacy.Some?
    ensures r.CycleProfile? ==> r.next == legacy.value
    ensures r.FavoriteSlot? <==> matched.None? && legacy.None? && favorites
    // typing without a modifier never triggers anything
    ensures p.typing && p.bare ==> r == HeldBack || r == NoAction
    ensures r.NumberKey? || r.ToggleNumber? || r.OpenListedPost? ==> p.bare && !p.typing && matched.None?
    // in number mode every bare key that is not a shortcut goes to the number input
    ensures r.NumberKey? <==> matched.None? && p.bare && !p.typing && p.numberMode
    ensures r.NumberKey? ==> r.key == p.key
    ensures r.ToggleNumber? ==> !p.numberMode && (p.key == "." || p.key == "`")
    ensures r.OpenListedPost? ==> numberNavigation && InDigitRange(p.key) && r.index == ListedIndex(p.key)
  {
    if matched.Some? then
      if runnable && !(p.typing && p.bare) then RunShortcut(matched.value) else HeldBack
    else if legacy.Some? then CycleProfile(legacy.value)
    else if favorites then FavoriteSlot(p.key)
    else if !p.bare || p.typing then NoAction
    else if p.numberMode then NumberKey(p.key)
    else if p.key == "." || p.key == "`" then ToggleNumber
    else if InDigitRange(p.key) && numberNavigation then OpenListedPost(ListedIndex(p.key))
    else NoAction
  }

  /** The first action the pressed combination is bound to (none for an event that
      gives no combination). */
  function PressedAction(st: SettingsStore.Settings, pressed: Option<string>): Option<SettingsStore.Action> {
    match pressed
    case Some(combo) => MatchAction(CombosOf(st), combo)
    case None => None
  }

  /** The legacy profile keys: with Alt alone held, the preview enabled and Alt tracked
      as pressed, a bare previous-profile key steps back and a bare next-profile key
      steps forward. */
  function LegacyStep(st: SettingsStore.Settings, ev: Shortcut.KeyEvent, alt: bool): (r: Option<bool>)
    ensures r.Some? ==> AltOnly(ev) && st.previewEnabled && alt
  {
    var legacy := LegacyCombosOf(st);
    if !(AltOnly(ev) && st.previewEnabled && alt) then None
    else if BareKeyMatches(legacy(SettingsStore.PrevProfile), ev.key) then Some(false)
    else if BareKeyMatches(legacy(SettingsStore.NextProfile), ev.key) then Some(true)
    else None
  }

  /** `handleKeydown` for the event `ev`: `typing` tells whether a text field has the
      focus, `numberNavigation` is the store's `numberNavigationEnabled`, `altPressed`
      and `numberMode` the listener's own state. */
  function HandleKeydown(st: SettingsStore.Settings, numberNavigation: bool, altPressed: bool,
                         numberMode: bool, typing: bool, ev: Shortcut.KeyEvent, pressed: Option<string>): (r: Keydown)
    requires pressed == Shortcut.ComboFromEventAsWritten(ev)
    ensures r.showPreview <==> ev.key == "Alt" && !altPressed && st.previewEnabled
    ensures r.altPressed <==> altPressed || ev.key == "Alt"
    // a shortcut runs only when it is the first match, switched on, and not typed into a text field
    ensures r.outcome.RunShortcut? <==>
      PressedAction(st, pressed).Some? && ActionEnabled(st, PressedAction(st, pressed).value) && !(typing && NoModifiers(ev))
    ensures r.outcome.RunShortcut? ==> PressedAction(st, pressed) == Some(r.outcome.action)
    ensures r.outcome.CycleProfile? || r.outcome.FavoriteSlot? ==> AltOnly(ev)
    ensures r.outcome.FavoriteSlot? ==> st.altNumberEnabled && InDigitRange(ev.key) && r.outcome.key == ev.key
    ensures typing && NoModifiers(ev) ==> r.outcome == HeldBack || r.outcome == NoAction
    ensures r.outcome.NumberKey? <==> PressedAction(st, pressed).None? && NoModifiers(ev) && !typing && numberMode
    ensures r.outcome.NumberKey? ==> r.outcome.key == ev.key
    ensures r.outcome.OpenListedPost? ==> numberNavigation && NoModifiers(ev) && !typing && !numberMode
  {
    var pressAlt := ev.key == "Alt" && !altPressed;
    var alt := altPressed || pressAlt;
    var matched := PressedAction(st, pressed);
    var runnable := matched.Some? && ActionEnabled(st, matched.value);
    var favorites := AltOnly(ev) && InDigitRange(ev.key) && st.altNumberEnabled;
    var p := Press(ev.key, AltOnly(ev), NoModifiers(ev), typing, numberMode);
    Keydown(alt, pressAlt && st.previewEnabled, Route(matched, runnable, LegacyStep(st, ev, alt), favorites, numberNavigation, p))
  }

  /** In number mode a bare digit that is not a shortcut goes into the buffer. */
  lemma DigitKeyFillsBuffer(st: SettingsStore.Settings, numberNavigation: bool, altPressed: bool,
                            s: NumberInput, ev: Shortcut.KeyEvent, d: char)
    requires s.mode && |s.buffer| < 3 && IsAsciiDigit(d) && ev.key == [d] && NoModifiers(ev)
    requires PressedAction(st, Shortcut.ComboFromEventAsWritten(ev)).None?
    ensures var down := HandleKeydown(st, numberNavigation, altPressed, s.mode, false, ev, Shortcut.ComboFromEventAsWritten(ev));
      down.outcome == NumberKey([d])
      && HandleNumberInput(s, down.outcome.key) == NumberStep(s.(buffer := s.buffer + [d]), None)
  {
    DigitRangeOfChar(d);
  }

  /** The Alt state after a key-up, and whether the preview is hidden. */
  datatype AltRelease = AltRelease(altPressed: bool, hidePreview: bool)

  /** `handleKeyup`: releasing Alt clears the state and hides the preview when it is
      enabled. */
  function HandleKeyup(altPressed: bool, key: string, previewEnabled: bool): (r: AltRelease)
    ensures key == "Alt" ==> !r.altPressed && r.hidePreview == previewEnabled
    ensures key != "Alt" ==> r == AltRelease(altPressed, false)
  {
    if key == "Alt" then AltRelease(false, previewEnabled) else AltRelease(altPressed, false)
  }

  /** `handleWindowBlur` and `handleWindowFocus`: a stuck Alt is released. */
  function ReleaseStuckAlt(altPressed: bool, previewEnabled: bool): (r: AltRelease)
    ensures !r.altPressed
    ensures r.hidePreview <==> altPressed && previewEnabled
  {
    if altPressed then AltRelease(false, previewEnabled) else AltRelease(false, false)
  }

  /** Pressing and releasing Alt shows the preview and hides it again. */
  lemma AltPressRelease(st: SettingsStore.Settings, numberNavigation: bool, numberMode: bool, typing: bool,
                        ev: Shortcut.KeyEvent)
    requires ev.key == "Alt"
    ensures var down := HandleKeydown(st, numberNavigation, false, numberMode, typing, ev, Shortcut.ComboFromEventAsWritten(ev));
      down.altPressed && down.showPreview == st.previewEnabled
      && HandleKeyup(down.altPressed, "Alt", st.previewEnabled) == AltRelease(false, st.previewEnabled)
  {
  }

  /* ---------------------------------------------------------------------------
     `cycleProfile`: Alt + profile keys step through the favourite profiles
     --------------------------------------------------------------------------- */

  /** The outcome of a profile step: no other profile to go to, or the profile now
      active together with the store after `switchProfile`. */
  datatype ProfileCycle = NoOtherProfile | SwitchedTo(name: string, favs: FavoritesStore.Favs)

  /** `profileNames.indexOf(activeProfileName)`: -1 when the active name is not a
      profile. */
  function ActiveIndex(s: FavoritesStore.Favs): (r: int)
    ensures -1 <= r < |s.profiles.list|
    ensures r >= 0 <==> JsObject.Has(s.profiles, s.active)
    ensures r >= 0 ==> s.profiles.list[r].0 == s.active
  {
    if JsObject.Has(s.profiles, s.active) then JsObject.IndexOf(s.profiles, s.active) else -1
  }

  /** The position the step moves to: one further (`next`) or one back, wrapping
      around; from a missing active name, `next` starts at the first profile. */
  function CycleTarget(current: int, n: nat, next: bool): (r: nat)
    requires n >= 2 && -1 <= current < n
    ensures r < n
  {
    if next then JsNumber.Rem(current + 1, n) else JsNumber.Rem(current - 1 + n, n)
  }

  /** `cycleProfile(direction)` on the store as loaded. */
  function CycleProfiles(s: FavoritesStore.Favs, next: bool): (r: ProfileCycle)
    ensures r.NoOtherProfile? <==> |s.profiles.list| <= 1
    ensures r.SwitchedTo? ==> (JsObject.Has(s.profiles, r.name)
                               && r.favs.profiles == s.profiles && r.favs.active == r.name)
    // with a valid active profile the step always lands on a different one
    ensures r.SwitchedTo? && FavoritesStore.Wf(s) ==> r.name != s.active
  {
    var names := JsObject.Keys(s.profiles);
    if |names| <= 1 then NoOtherProfile
    else
      var current := ActiveIndex(s);
      var i := CycleTarget(current, |names|, next);
      var name := names[i];
      assert JsObject.Has(s.profiles, name) by { assert s.profiles.list[i].0 == name; }
      assert FavoritesStore.Wf(s) ==> i != current by {
        if FavoritesStore.Wf(s) { CycleMoves(current, |names|, next); }
      }
      SwitchedTo(name, FavoritesStore.SwitchProfile(s, name))
  }

  /** From a valid position the step never stays put. */
  lemma CycleMoves(current: int, n: nat, next: bool)
    requires n >= 2 && 0 <= current < n
    ensures CycleTarget(current, n, next) != current
  {
    if next {
      if current + 1 < n {
        JsNumber.ModUnique(current + 1, n, 0, current + 1);
      } else {
        JsNumber.ModUnique(current + 1, n, 1, 0);
      }
    } else {
      if current >= 1 {
        JsNumber.ModUnique(current - 1 + n, n, 1, current - 1);
      } else {
        JsNumber.ModUnique(current - 1 + n, n, 0, n - 1);
      }
    }
  }

  /** Stepping back undoes stepping forward, position by position. */
  lemma CycleBackUndoesNext(current: int, n: nat)
    requires n >= 2 && 0 <= current < n
    ensures CycleTarget(CycleTarget(current, n, true), n, false) == current
  {
    var j := CycleTarget(current, n, true);
    if current + 1 < n {
      JsNumber.ModUnique(current + 1, n, 0, current + 1);
      JsNumber.ModUnique(j - 1 + n, n, 1, current);
    } else {
      JsNumber.ModUnique(current + 1, n, 1, 0);
      JsNumber.ModUnique(j - 1 + n, n, 0, current);
    }
  }

  /** Entries of an object have distinct keys, so a key's position is its entry's. */
  lemma ActiveIndexAt(s: FavoritesStore.Favs, i: nat)
    requires i < |s.profiles.list| && s.active == s.profiles.list[i].0
    ensures ActiveIndex(s) == i
  {
    assert JsObject.Has(s.profiles, s.active);
  }

  /** Going to the next profile and then back to the previous one returns the store
      to the profile it started from. */
  lemma CycleNextThenPrev(s: FavoritesStore.Favs)
    requires FavoritesStore.Wf(s) && |s.profiles.list| >= 2
    ensures CycleProfiles(s, true).SwitchedTo?
    ensures CycleProfiles(CycleProfiles(s, true).favs, false) == SwitchedTo(s.active, s)
  {
    var n := |s.profiles.list|;
    var current := ActiveIndex(s);
    var j := CycleTarget(current, n, true);
    var t := CycleProfiles(s, true).favs;
    assert t.active == s.profiles.list[j].0;
    ActiveIndexAt(t, j);
    CycleBackUndoesNext(current, n);
  }
}

=== FILE: favorites_store.dfy ===
/** The favourites store (src/stores/favoritesStore.ts): named profiles, each an
    object of favourite galleries keyed by slot, one of them active. Loading
    migrates the old single-profile format; the profile actions refuse empty,
    duplicate and missing names. Storage writes are the `Save` image of the state. */
module FavoritesStore {
  import opened Wrappers
  import opened JsValue
  import opened JsObject
  import Text
  import Storage

  const DefaultProfile := "기본"

  /** The four kinds of gallery, by the first segment of the page path. */
  datatype GalleryType = Board | MGallery | Mini | Person

  function GalleryTypeName(t: GalleryType): string {
    match t
    case Board => "board"
    case MGallery => "mgallery"
    case Mini => "mini"
    case Person => "person"
  }

  /** `FavoriteGalleryInfo`. */
  datatype FavoriteGalleryInfo = FavoriteGalleryInfo(name: string, galleryId: string, galleryType: GalleryType)

  /** The stored form of a favourite: an object with `name`, `galleryId` and
      `galleryType`. */
  function InfoValue(f: FavoriteGalleryInfo): (r: Value)
    ensures r.Object? && Has(r.o, "galleryId")
  {
    var o: Obj<Value> := Entries([("name", Text(f.name)), ("galleryId", Text(f.galleryId)),
                                  ("galleryType", Text(GalleryTypeName(f.galleryType)))]);
    assert o.list[1].0 == "galleryId";
    Object(o)
  }

  /** `profiles` is the loaded `FavoriteProfiles` object (each value is meant to be
      an object of favourites); `active` is `activeProfileName`. */
  datatype Favs = Favs(profiles: Obj<Value>, active: string)

  /** The store before and after its first load: `profiles` is `null` until then. */
  datatype State = State(loaded: Option<Obj<Value>>, active: string)

  function Single(name: string, v: Value): (r: Obj<Value>)
    ensures Keys(r) == [name] && Get(r, name) == Some(v)
  {
    var r: Obj<Value> := Entries([(name, v)]);
    GetAt(r, 0);
    r
  }

  /** `{ 기본: {} }`. */
  function DefaultProfiles(): (r: Obj<Value>)
    ensures Keys(r) == [DefaultProfile] && Get(r, DefaultProfile) == Some(Object(Empty()))
  {
    Single(DefaultProfile, Object(Empty()))
  }

  /** A key the old format used: one ASCII digit (`/^[0-9]$/`). */
  predicate IsSlotKey(k: string) {
    |k| == 1 && Text.IsAsciiDigit(k[0])
  }

  /** The migration test as written: a non-empty object whose keys are all slot keys. */
  predicate IsOldFormatAsWritten(o: Obj<Value>) {
    |o.list| > 0 && forall i :: 0 <= i < |o.list| ==> IsSlotKey(o.list[i].0)
  }

  /** A stored favourite: an object carrying `galleryId` (the shape
      `handleFavoriteKey` accepts). */
  predicate IsFavoriteRecord(v: Value) {
    v.Object? && Has(v.o, "galleryId")
  }

  /** The migration test as intended: slot keys whose values are favourites. A
      profile map whose profiles happen to be named by single digits is not old data. */
  predicate IsOldFormat(o: Obj<Value>) {
    IsOldFormatAsWritten(o) && forall i :: 0 <= i < |o.list| ==> IsFavoriteRecord(o.list[i].1)
  }

  /** The profiles `loadProfiles` derives from the stored value, with the migration
      test given as `oldFormat`. */
  function ProfilesFrom(data: Value, oldFormat: bool): (r: Obj<Value>)
    requires oldFormat ==> data.Object?
    ensures |r.list| > 0
    ensures !data.Object? || data.o.list == [] ==> r == DefaultProfiles()
    ensures data.Object? && data.o.list != [] && oldFormat ==> r == Single(DefaultProfile, data)
    ensures data.Object? && data.o.list != [] && !oldFormat ==> r == data.o
  {
    if !JsValue.Truthy(data) || !IsObject(data) || |data.o.list| == 0 then DefaultProfiles()
    else if oldFormat then Single(DefaultProfile, data)
    else data.o
  }

  /** The stored active name, when it is a string. */
  function StoredName(v: Value): Option<string> {
    if v.Text? then Some(v.s) else None
  }

  /** `loadProfiles` on the storage area read (`None` when reading threw), with
      the migration test as written. A failed read falls back to `{ 기본: {} }`
      and keeps the previous active name. */
  function LoadAsWritten(read: Option<Storage.Area>, previousActive: string): (r: Favs)
    ensures read.None? ==> r == Favs(DefaultProfiles(), previousActive)
    ensures |r.profiles.list| > 0
    ensures read.Some? ==> Has(r.profiles, r.active) || r.active == DefaultProfile
  {
    match read
    case None => Favs(DefaultProfiles(), previousActive)
    case Some(area) =>
      var data := Storage.GetData(area, Storage.FavoriteGalleriesKey, Object(Empty()));
      var profiles := ProfilesFrom(data, data.Object? && IsOldFormatAsWritten(data.o));
      ChooseActive(profiles, Storage.GetData(area, Storage.ActiveFavoritesProfileKey, Text(DefaultProfile)))
  }

  /** `loadProfiles` with the intended migration test. */
  function Load(read: Option<Storage.Area>, previousActive: string): (r: Favs)
    ensures read.None? ==> r == Favs(DefaultProfiles(), previousActive)
    ensures |r.profiles.list| > 0
    ensures read.Some? ==> Has(r.profiles, r.active) || r.active == DefaultProfile
  {
    match read
    case None => Favs(DefaultProfiles(), previousActive)
    case Some(area) =>
      var data := Storage.GetData(area, Storage.FavoriteGalleriesKey, Object(Empty()));
      var profiles := ProfilesFrom(data, data.Object? && IsOldFormat(data.o));
      ChooseActive(profiles, Storage.GetData(area, Storage.ActiveFavoritesProfileKey, Text(DefaultProfile)))
  }

  /** The active profile after loading: the stored name when it names a profile,
      `기본` otherwise. */
  function ChooseActive(profiles: Obj<Value>, stored: Value): (r: Favs)
    ensures r.profiles == profiles
    ensures StoredName(stored).Some? && Has(profiles, StoredName(stored).value) ==> r.active == stored.s
    ensures !(StoredName(stored).Some? && Has(profiles, StoredName(stored).value)) ==> r.active == DefaultProfile
  {
    if stored.Text? && Has(profiles, stored.s) then Favs(profiles, stored.s) else Favs(profiles, DefaultProfile)
  }

  /** `ensureProfilesLoaded`: load only while `profiles` is still `null`, with the
      migration test as written. */
  function EnsureLoaded(s: State, read: Option<Storage.Area>): (r: Favs)
    ensures s.loaded.Some? ==> r == Favs(s.loaded.value, s.active)
    ensures s.loaded.None? ==> r == LoadAsWritten(read, s.active)
  {
    if s.loaded.Some? then Favs(s.loaded.value, s.active) else LoadAsWritten(read, s.active)
  }

  /** What the store writes: the profiles under the favourites key and the active
      name under its own key. */
  function Save(area: Storage.Area, s: Favs): (r: Storage.Area)
    ensures Storage.FavoriteGalleriesKey in r && r[Storage.FavoriteGalleriesKey] == Object(s.profiles)
    ensures Storage.ActiveFavoritesProfileKey in r && r[Storage.ActiveFavoritesProfileKey] == Text(s.active)
  {
    assert |Storage.FavoriteGalleriesKey| != |Storage.ActiveFavoritesProfileKey|;
    Storage.SetData(Storage.SetData(area, Storage.FavoriteGalleriesKey, Object(s.profiles)),
                    Storage.ActiveFavoritesProfileKey, Text(s.active))
  }

  /** `getFavorites` reads back the profiles the store saved. */
  lemma FavoritesReadBack(area: Storage.Area, s: Favs)
    ensures Storage.Favorites(Save(area, s)) == Object(s.profiles)
  {
  }

  /** Every method keeps the active name on an existing profile. */
  predicate Wf(s: Favs) {
    Has(s.profiles, s.active)
  }

  /** No profile is itself shaped like a favourite, which holds whenever favourites
      are stored under slot keys. */
  predicate NoProfileLooksLikeFavorite(profiles: Obj<Value>) {
    forall i :: 0 <= i < |profiles.list| ==> !IsFavoriteRecord(profiles.list[i].1)
  }

  /** Saving and loading again gives back the same store. */
  lemma LoadSaved(area: Storage.Area, s: Favs, previousActive: string)
    requires Wf(s) && NoProfileLooksLikeFavorite(s.profiles)
    ensures Load(Some(Save(area, s)), previousActive) == s
  {
    var saved := Save(area, s);
    assert saved[Storage.FavoriteGalleriesKey] == Object(s.profiles);
    var i := IndexOf(s.profiles, s.active);
    assert !IsFavoriteRecord(s.profiles.list[i].1);
    assert !IsOldFormat(s.profiles);
  }

  /** As written, saving and loading again gives back the same store as long as some
      profile name is not a single digit. */
  lemma LoadSavedAsWritten(area: Storage.Area, s: Favs, previousActive: string)
    requires Wf(s) && !IsOldFormatAsWritten(s.profiles)
    ensures LoadAsWritten(Some(Save(area, s)), previousActive) == s
  {
    var saved := Save(area, s);
    assert saved[Storage.FavoriteGalleriesKey] == Object(s.profiles);
    var i := IndexOf(s.profiles, s.active);
  }

  /** A cold store loads through `LoadAsWritten`, so it reloads what was saved
      under the same condition. */
  lemma EnsureLoadedSaved(area: Storage.Area, s: Favs, prior: State)
    requires Wf(s) && !IsOldFormatAsWritten(s.profiles) && prior.loaded.None?
    ensures EnsureLoaded(prior, Some(Save(area, s))) == s
  {
    LoadSavedAsWritten(area, s, prior.active);
  }

  /** As written, a store whose only profiles are named by single digits is taken
      for old data on the next load: everything is folded into one `기본` profile and
      the active profile is lost. */
  lemma {:induction false} DigitNamedProfileCollapses(area: Storage.Area, name: string, g: Obj<Value>, previousActive: string)
    requires IsSlotKey(name) && !Has(g, "galleryId")
    ensures var s := Favs(Single(name, Object(g)), name);
            Wf(s) && NoProfileLooksLikeFavorite(s.profiles)
            && LoadAsWritten(Some(Save(area, s)), previousActive)
               == Favs(Single(DefaultProfile, Object(Single(name, Object(g)))), DefaultProfile)
            && LoadAsWritten(Some(Save(area, s)), previousActive) != s
  {
    var s := Favs(Single(name, Object(g)), name);
    var saved := Save(area, s);
    var data := Object(s.profiles);
    assert Storage.GetData(saved, Storage.FavoriteGalleriesKey, Object(Empty())) == data;
    assert s.profiles.list[0].1 == Object(g);
    assert IsOldFormatAsWritten(s.profiles);
    var folded := Single(DefaultProfile, data);
    assert !Has(folded, name) by {
      assert Keys(folded) == [DefaultProfile];
      assert DefaultProfile != name by { assert |DefaultProfile| == 2; }
    }
    assert folded != s.profiles;
  }

  /** The active profile is present and truthy. */
  predicate HasTruthyProfile(s: Favs) {
    Get(s.profiles, s.active).Some? && JsValue.Truthy(Get(s.profiles, s.active).value)
  }

  /** `activeFavorites`: the active profile when it is present and truthy, else `{}`. */
  function ActiveFavorites(s: Favs): (r: Value)
    ensures HasTruthyProfile(s) ==> r == Get(s.profiles, s.active).value
    ensures !HasTruthyProfile(s) ==> r == Object(Empty())
  {
    var cur := Get(s.profiles, s.active);
    if cur.Some? && JsValue.Truthy(cur.value) then cur.value else Object(Empty())
  }

  /** `addOrUpdateFavorite`: the active profile gets `key` set to the favourite; its
      other favourites, the other profiles and the active name stay. */
  function AddOrUpdateFavorite(s: Favs, key: string, info: FavoriteGalleryInfo): (r: Favs)
    ensures r.active == s.active
    ensures Member(ActiveFavorites(r), key) == Some(InfoValue(info))
    ensures forall k :: k != key ==> Member(ActiveFavorites(r), k) == Member(ActiveFavorites(s), k)
    ensures forall n :: n != s.active ==> Get(r.profiles, n) == Get(s.profiles, n)
    ensures Wf(s) ==> Keys(r.profiles) == Keys(s.profiles)
  {
    var updated := Set(Spread(ActiveFavorites(s)), key, InfoValue(info));
    Favs(Set(s.profiles, s.active, Object(updated)), s.active)
  }

  /** `removeFavorite`: nothing happens unless the active profile holds a truthy
      value under `key`; then exactly that favourite goes. */
  function RemoveFavorite(s: Favs, key: string): (r: Favs)
    ensures r.active == s.active
    ensures forall n :: n != s.active ==> Get(r.profiles, n) == Get(s.profiles, n)
    ensures !HasTruthy(ActiveFavorites(s), key) ==> r == s
    ensures !HasTruthy(ActiveFavorites(r), key)
    ensures forall k :: k != key ==> Member(ActiveFavorites(r), k) == Member(ActiveFavorites(s), k)
    ensures Wf(s) ==> Keys(r.profiles) == Keys(s.profiles)
  {
    var cur := Get(s.profiles, s.active);
    if cur.None? || !JsValue.Truthy(cur.value) then s
    else
      var member := Member(cur.value, key);
      if member.None? || !JsValue.Truthy(member.value) then s
      else Favs(Set(s.profiles, s.active, Object(Delete(Spread(cur.value), key))), s.active)
  }

  /** The value holds a truthy member under `key` (`!!v[key]`). */
  predicate HasTruthy(v: Value, key: string) {
    Member(v, key).Some? && JsValue.Truthy(Member(v, key).value)
  }

  /** `hasFavorite`. */
  function HasFavorite(s: Favs, key: string): (r: bool)
    ensures r <==> Member(ActiveFavorites(s), key).Some?
  {
    var cur := Get(s.profiles, s.active);
    if cur.Some? && JsValue.Truthy(cur.value) then Member(cur.value, key).Some? else false
  }

  /** `getFavorite`: the stored favourite, `null` when it is missing or falsy. */
  function GetFavorite(s: Favs, key: string): (r: Option<Value>)
    ensures r.Some? ==> Member(ActiveFavorites(s), key) == r && JsValue.Truthy(r.value)
    ensures r.None? ==> Member(ActiveFavorites(s), key).None? || !JsValue.Truthy(Member(ActiveFavorites(s), key).value)
  {
    var cur := Get(s.profiles, s.active);
    if cur.Some? && JsValue.Truthy(cur.value) then
      var m := Member(cur.value, key);
      if m.Some? && JsValue.Truthy(m.value) then m else None
    else None
  }

  /** A favourite just added is found and read back; one just removed is not found. */
  lemma AddThenFind(s: Favs, key: string, info: FavoriteGalleryInfo)
    ensures HasFavorite(AddOrUpdateFavorite(s, key, info), key)
    ensures GetFavorite(AddOrUpdateFavorite(s, key, info), key) == Some(InfoValue(info))
    ensures !HasFavorite(RemoveFavorite(AddOrUpdateFavorite(s, key, info), key), key)
  {
  }

  /** `switchProfile`: only an existing profile becomes active. */
  function SwitchProfile(s: Favs, name: string): (r: Favs)
    ensures r.profiles == s.profiles
    ensures Has(s.profiles, name) ==> r.active == name
    ensures !Has(s.profiles, name) ==> r.active == s.active
  {
    if Has(s.profiles, name) then Favs(s.profiles, name) else s
  }

  datatype Refusal = EmptyName | NameTaken | NoSuchProfile | LastProfile

  datatype Outcome = Done(s: Favs) | Refused(why: Refusal)

  /** `addProfile`: the trimmed name must be non-empty and unused; the new empty
      profile becomes active. It is enumerated last unless its name is an array
      index, which `Object.keys` lists first. */
  function AddProfile(s: Favs, name: string): (r: Outcome)
    ensures Text.Trim(name) == "" <==> r == Refused(EmptyName)
    ensures Text.Trim(name) != "" && Has(s.profiles, Text.Trim(name)) <==> r == Refused(NameTaken)
    ensures r.Done? ==> r.s.active == Text.Trim(name)
                        && Get(r.s.profiles, Text.Trim(name)) == Some(Object(Empty()))
                        && (forall n :: n != Text.Trim(name) ==> Get(r.s.profiles, n) == Get(s.profiles, n))
    ensures r.Done? ==> FilterOut(Keys(r.s.profiles), Text.Trim(name)) == Keys(s.profiles)
    ensures r.Done? && !IsArrayIndex(Text.Trim(name)) ==>
              Keys(r.s.profiles) == Keys(s.profiles) + [Text.Trim(name)]
  {
    var t := Text.Trim(name);
    if t == "" then Refused(EmptyName)
    else if Has(s.profiles, t) then Refused(NameTaken)
    else
      var p := Set(s.profiles, t, Object(Empty()));
      NewKeyKeepsOrder(s.profiles, t, Object(Empty()));
      Done(SwitchProfile(Favs(p, s.active), t))
  }

  /** `removeProfile`: the last profile cannot go; a missing name changes nothing;
      removing the active profile activates the first that remains. */
  function RemoveProfile(s: Favs, name: string): (r: Outcome)
    ensures |s.profiles.list| <= 1 <==> r == Refused(LastProfile)
    ensures |s.profiles.list| > 1 && !Has(s.profiles, name) ==> r == Done(s)
    ensures r.Done? && Has(s.profiles, name) ==>
              !Has(r.s.profiles, name) && |r.s.profiles.list| >= 1
              && Keys(r.s.profiles) == FilterOut(Keys(s.profiles), name)
              && (forall n :: n != name ==> Get(r.s.profiles, n) == Get(s.profiles, n))
    ensures r.Done? && Has(s.profiles, name) && s.active == name ==> r.s.active == Keys(r.s.profiles)[0]
    ensures r.Done? && s.active != name ==> r.s.active == s.active
    ensures r.Done? ==> |r.s.profiles.list| >= 1
  {
    if |Keys(s.profiles)| <= 1 then Refused(LastProfile)
    else if !Has(s.profiles, name) then Done(s)
    else
      var p := Delete(s.profiles, name);
      OthersRemain(s.profiles, name);
      if s.active == name then
        GetAt(p, 0);
        Done(SwitchProfile(Favs(p, s.active), Keys(p)[0]))
      else Done(Favs(p, s.active))
  }

  /** Deleting one of two or more keys leaves at least one. */
  lemma OthersRemain(o: Obj<Value>, k: string)
    requires |o.list| > 1 && Has(o, k)
    ensures |Delete(o, k).list| >= 1
  {
    var j := if o.list[0].0 == k then 1 else 0;
    assert o.list[j].0 != k by {
      if j == 1 { assert o.list[0].0 != o.list[1].0; }
    }
    GetAt(o, j);
    assert Get(Delete(o, k), o.list[j].0).Some?;
  }

  /** `renameProfile`: the trimmed new name must be non-empty and unused and the old
      name must exist; the data moves unchanged to the new name, which is enumerated
      last unless it is an array index, and the active name follows. */
  function RenameProfile(s: Favs, oldName: string, newName: string): (r: Outcome)
    ensures Text.Trim(newName) == "" <==> r == Refused(EmptyName)
    ensures Text.Trim(newName) != "" && !Has(s.profiles, oldName) <==> r == Refused(NoSuchProfile)
    ensures (Text.Trim(newName) != "" && Has(s.profiles, oldName) && Has(s.profiles, Text.Trim(newName)))
              <==> r == Refused(NameTaken)
    ensures r.Done? ==> Get(r.s.profiles, Text.Trim(newName)) == Get(s.profiles, oldName)
                        && !Has(r.s.profiles, oldName)
                        && (forall n :: n != oldName && n != Text.Trim(newName) ==> Get(r.s.profiles, n) == Get(s.profiles, n))
    ensures r.Done? ==> r.s.active == (if s.active == oldName then Text.Trim(newName) else s.active)
    ensures r.Done? ==> FilterOut(Keys(r.s.profiles), Text.Trim(newName)) == FilterOut(Keys(s.profiles), oldName)
    ensures r.Done? && !IsArrayIndex(Text.Trim(newName)) ==>
              Keys(r.s.profiles) == FilterOut(Keys(s.profiles), oldName) + [Text.Trim(newName)]
  {
    var t := Text.Trim(newName);
    if t == "" then Refused(EmptyName)
    else if !Has(s.profiles, oldName) then Refused(NoSuchProfile)
    else if Has(s.profiles, t) then Refused(NameTaken)
    else
      var moved := MoveProfile(s.profiles, oldName, t);
      if s.active == oldName then Done(SwitchProfile(Favs(moved, s.active), t))
      else Done(Favs(moved, s.active))
  }

  /** The profiles once the data under `oldName` has moved to the unused name `t`. */
  function MoveProfile(o: Obj<Value>, oldName: string, t: string): (r: Obj<Value>)
    requires Has(o, oldName) && !Has(o, t)
    ensures Get(r, t) == Get(o, oldName) && !Has(r, oldName)
    ensures forall n :: n != oldName && n != t ==> Get(r, n) == Get(o, n)
    ensures FilterOut(Keys(r), t) == FilterOut(Keys(o), oldName)
    ensures !IsArrayIndex(t) ==> Keys(r) == FilterOut(Keys(o), oldName) + [t]
  {
    var data := Get(o, oldName).value;
    var p := Delete(o, oldName);
    assert !Has(p, t) by { assert Get(p, t) == Get(o, t); }
    NewKeyKeepsOrder(p, t, data);
    Set(p, t, data)
  }

  /** `clearAndSetFavorites`: the new profiles replace the old ones, and the first
      key becomes active when it is a non-empty name (`keys[0] || '기본'`), or `기본`
      otherwise, provided that profile exists. */
  function ClearAndSetFavorites(s: Favs, data: Obj<Value>): (r: Favs)
    ensures r.profiles == data
    ensures |data.list| > 0 && data.list[0].0 != "" ==> r.active == data.list[0].0
    ensures !(|data.list| > 0 && data.list[0].0 != "") ==>
              r.active == (if Has(data, DefaultProfile) then DefaultProfile else s.active)
  {
    var keys := Keys(data);
    var first := if |keys| > 0 && keys[0] != "" then keys[0] else DefaultProfile;
    assert |keys| > 0 ==> Has(data, data.list[0].0);
    SwitchProfile(Favs(data, s.active), first)
  }

  /** Replacing the profiles leaves the active name on a profile exactly when the
      first key is a non-empty name, `기본` is present, or the old active name is. */
  lemma ClearAndSetWf(s: Favs, data: Obj<Value>)
    ensures Wf(ClearAndSetFavorites(s, data)) <==>
              (|data.list| > 0 && data.list[0].0 != "") || Has(data, DefaultProfile) || Has(data, s.active)
  {
    if |data.list| > 0 && data.list[0].0 != "" {
      GetAt(data, 0);
    }
  }

  /** The favourite edits and `switchProfile` keep the active profile present. */
  lemma FavoriteEditsKeepWf(s: Favs, key: string, info: FavoriteGalleryInfo, name: string)
    requires Wf(s)
    ensures Wf(AddOrUpdateFavorite(s, key, info))
    ensures Wf(RemoveFavorite(s, key))
    ensures Wf(SwitchProfile(s, name))
  {
  }

  /** So do the profile actions whenever they go through. */
  lemma ProfileEditsKeepWf(s: Favs, name: string)
    requires Wf(s)
    ensures AddProfile(s, name).Done? ==> Wf(AddProfile(s, name).s)
  {
  }

  lemma RenameProfileKeepsWf(s: Favs, name: string, other: string)
    requires Wf(s)
    ensures RenameProfile(s, name, other).Done? ==> Wf(RenameProfile(s, name, other).s)
  {
    var r := RenameProfile(s, name, other);
    if r.Done? {
      var t := Text.Trim(other);
      if s.active == name {
        assert Get(r.s.profiles, t).Some?;
      } else {
        assert s.active != t;
        assert Get(r.s.profiles, s.active) == Get(s.profiles, s.active);
      }
    }
  }

  lemma RemoveProfileKeepsWf(s: Favs, name: string)
    requires Wf(s)
    ensures RemoveProfile(s, name).Done? ==> Wf(RemoveProfile(s, name).s)
  {
    var r := RemoveProfile(s, name);
    if r.Done? && s.active == name && Has(s.profiles, name) {
      GetAt(r.s.profiles, 0);
    }
  }
}

=== FILE: gallery.dfy ===
/** What a page's address says about the gallery it shows (`Gallery.getPageInfo`), and
    the list addresses built from that (`getBaseListUrl`, `getRecommendListUrl`,
    `getListUrlForCurrentContext`). The two regular expressions of `getPageInfo`,
    `/id=([^&]+)/` and `/page=(\d+)/`, are modelled as a literal followed by a greedy run
    of one character class, matched leftmost. */
module Gallery {
  import opened Wrappers
  import opened Text
  import JsNumber
  import FavoritesStore
  import WebUrl

  type GalleryType = FavoritesStore.GalleryType

  /** `window.location`: the full address and its path. */
  datatype Location = Location(href: string, pathname: string)

  /** `PageContextInfo`. */
  datatype PageInfo = PageInfo(galleryType: GalleryType, galleryId: string, currentPage: int,
                               isRecommendMode: bool)

  const MGalleryPrefix := "/mgallery/"
  const MiniPrefix := "/mini/"
  const PersonPrefix := "/person/"

  /** The gallery kind named by the first path segment; anything else is a board. */
  function TypeOfPath(pathname: string): (r: GalleryType)
    ensures r == FavoritesStore.MGallery <==> StartsWith(pathname, MGalleryPrefix)
    ensures r == FavoritesStore.Mini <==> StartsWith(pathname, MiniPrefix)
    ensures r == FavoritesStore.Person <==> StartsWith(pathname, PersonPrefix)
  {
    PrefixesExclusive(pathname);
    if StartsWith(pathname, MGalleryPrefix) then FavoritesStore.MGallery
    else if StartsWith(pathname, MiniPrefix) then FavoritesStore.Mini
    else if StartsWith(pathname, PersonPrefix) then FavoritesStore.Person
    else FavoritesStore.Board
  }

  /** No path starts with two of the three prefixes: they differ at their second or
      third character. */
  lemma PrefixesExclusive(p: string)
    ensures !(StartsWith(p, MGalleryPrefix) && StartsWith(p, MiniPrefix))
    ensures !(StartsWith(p, MGalleryPrefix) && StartsWith(p, PersonPrefix))
    ensures !(StartsWith(p, MiniPrefix) && StartsWith(p, PersonPrefix))
  {
    if StartsWith(p, MGalleryPrefix) { assert p[2] == MGalleryPrefix[2]; }
    if StartsWith(p, MiniPrefix) { assert p[1] == MiniPrefix[1] && p[2] == MiniPrefix[2]; }
    if StartsWith(p, PersonPrefix) { assert p[1] == PersonPrefix[1]; }
  }

  /** The character class after the literal: `[^&]` or `\d`. */
  datatype CharClass = NotAmpersand | Digit

  predicate InClass(k: CharClass, c: char) {
    match k
    case NotAmpersand => c != '&'
    case Digit => IsAsciiDigit(c)
  }

  /** The pattern `lit` followed by at least one class character matches at `i`. */
  predicate MatchAt(s: string, lit: string, k: CharClass, i: nat) {
    OccursAt(s, lit, i) && i + |lit| < |s| && InClass(k, s[i + |lit|])
  }

  /** The leftmost match position at or after `from`. */
  function FirstMatch(s: string, lit: string, k: CharClass, from: nat): (r: Option<nat>)
    ensures r.Some? ==> from <= r.value && MatchAt(s, lit, k, r.value)
    ensures r.Some? ==> forall j :: from <= j < r.value ==> !MatchAt(s, lit, k, j)
    ensures r.None? ==> forall j :: from <= j ==> !MatchAt(s, lit, k, j)
    decreases |s| - from
  {
    if from + |lit| >= |s| then None
    else if MatchAt(s, lit, k, from) then Some(from)
    else FirstMatch(s, lit, k, from + 1)
  }

  /** The end of the longest run of class characters starting at `i`. */
  function RunEnd(s: string, k: CharClass, i: nat): (r: nat)
    requires i <= |s|
    ensures i <= r <= |s|
    ensures forall j :: i <= j < r ==> InClass(k, s[j])
    ensures r < |s| ==> !InClass(k, s[r])
    decreases |s| - i
  {
    if i == |s| || !InClass(k, s[i]) then i else RunEnd(s, k, i + 1)
  }

  /** Group 1 of `s.match(/lit(class+)/)`, `None` when nothing matches. */
  function Capture(s: string, lit: string, k: CharClass): (r: Option<string>)
    ensures r.None? <==> forall j: nat :: !MatchAt(s, lit, k, j)
    ensures r.Some? ==> |r.value| > 0 && forall j :: 0 <= j < |r.value| ==> InClass(k, r.value[j])
  {
    match FirstMatch(s, lit, k, 0)
    case None => None
    case Some(i) =>
      var e := RunEnd(s, k, i + |lit|);
      Some(s[i + |lit|..e])
  }

  /** The capture when the only possible match starts right after a prefix holding no
      `=` and the captured text runs to the end or to an `&`. */
  lemma CaptureAfter(pre: string, id: string, rest: string)
    requires '=' !in pre
    requires |id| > 0 && '&' !in id
    requires rest == [] || rest[0] == '&'
    ensures Capture(pre + "id=" + id + rest, "id=", NotAmpersand) == Some(id)
  {
    var s := pre + "id=" + id + rest;
    var lit := "id=";
    assert s[|pre|..|pre| + 3] == lit;
    assert s[|pre| + 3] == id[0];
    assert MatchAt(s, lit, NotAmpersand, |pre|);
    forall j | 0 <= j < |pre| ensures !MatchAt(s, lit, NotAmpersand, j) {
      assert s[j + 2] != '=' by {
        if j + 2 < |pre| {
          assert s[j + 2] == pre[j + 2];
        } else {
          assert s[j + 2] == lit[j + 2 - |pre|];
        }
      }
    }
    var m := FirstMatch(s, lit, NotAmpersand, 0);
    assert m == Some(|pre|);
    var start := |pre| + 3;
    var e := RunEnd(s, NotAmpersand, start);
    forall j | start <= j < start + |id| ensures s[j] == id[j - start] {}
    assert start + |id| < |s| ==> s[start + |id|] == rest[0];
    assert e == start + |id|;
    assert s[start..e] == id;
  }

  /** `galleryId`: what follows the leftmost `id=` that has a non-`&` character after
      it, up to the next `&`; `''` when there is none. */
  function GalleryId(href: string): (r: string)
    ensures r == "" <==> forall j: nat :: !MatchAt(href, "id=", NotAmpersand, j)
    ensures '&' !in r
  {
    var c := Capture(href, "id=", NotAmpersand);
    if c.Some? then
      assert forall j :: 0 <= j < |c.value| ==> c.value[j] != '&';
      c.value
    else ""
  }

  /** `currentPage`: `parseInt` of the digits after the leftmost `page=` followed by a
      digit, 1 when there is none. */
  function CurrentPage(href: string): (r: int)
    ensures (forall j: nat :: !MatchAt(href, "page=", Digit, j)) ==> r == 1
    ensures (exists j: nat :: MatchAt(href, "page=", Digit, j)) ==> r >= 0
    ensures Capture(href, "page=", Digit).Some? ==> r == DigitsValue(Capture(href, "page=", Digit).value)
  {
    match Capture(href, "page=", Digit)
    case None => 1
    case Some(d) =>
      JsNumber.ParseIntOfDigits(d);
      JsNumber.ParseInt(d).value
  }

  /** The capture of `page=` followed by digits when the only possible match starts
      right after a prefix holding no `=` and the digits are not followed by another. */
  lemma CapturePageAfter(pre: string, digits: string, rest: string)
    requires '=' !in pre
    requires |digits| > 0 && AllDigits(digits)
    requires rest == [] || !IsAsciiDigit(rest[0])
    ensures Capture(pre + "page=" + digits + rest, "page=", Digit) == Some(digits)
  {
    var s := pre + "page=" + digits + rest;
    var lit := "page=";
    assert s[|pre|..|pre| + 5] == lit;
    assert s[|pre| + 5] == digits[0];
    assert MatchAt(s, lit, Digit, |pre|);
    forall j | 0 <= j < |pre| ensures !MatchAt(s, lit, Digit, j) {
      assert s[j + 4] != '=' by {
        if j + 4 < |pre| {
          assert s[j + 4] == pre[j + 4];
        } else {
          assert s[j + 4] == lit[j + 4 - |pre|];
        }
      }
    }
    var m := FirstMatch(s, lit, Digit, 0);
    assert m == Some(|pre|);
    var start := |pre| + 5;
    var e := RunEnd(s, Digit, start);
    forall j | start <= j < start + |digits| ensures s[j] == digits[j - start] {}
    assert start + |digits| < |s| ==> s[start + |digits|] == rest[0];
    assert e == start + |digits|;
    assert s[start..e] == digits;
  }

  /** The page number written after `page=` is the one read back. */
  lemma CurrentPageReadsBack(pre: string, n: nat, rest: string)
    requires '=' !in pre
    requires rest == [] || !IsAsciiDigit(rest[0])
    ensures CurrentPage(pre + "page=" + NatToString(n) + rest) == n
  {
    CapturePageAfter(pre, NatToString(n), rest);
    JsNumber.ParseIntOfNatToString(n);
  }

  const RecommendParam := "exception_mode=recommend"

  /** `getPageInfo`. */
  function GetPageInfo(loc: Location): (r: PageInfo)
    ensures r.galleryType == TypeOfPath(loc.pathname)
    ensures r.galleryId == GalleryId(loc.href) && r.currentPage == CurrentPage(loc.href)
    ensures r.isRecommendMode <==> Contains(loc.href, RecommendParam)
  {
    PageInfo(TypeOfPath(loc.pathname), GalleryId(loc.href), CurrentPage(loc.href),
             Contains(loc.href, RecommendParam))
  }

  const BaseUrl := "https://gall.dcinside.com"
  const ListPath := "board/lists"

  /** The path of a gallery's list page: boards have no type segment. */
  function ListPathname(t: GalleryType): (r: string)
    ensures t == FavoritesStore.Board ==> r == "/" + ListPath
    ensures t != FavoritesStore.Board ==> r == "/" + FavoritesStore.GalleryTypeName(t) + "/" + ListPath
  {
    var prefix := if t == FavoritesStore.Board then "" else "/" + FavoritesStore.GalleryTypeName(t);
    prefix + "/" + ListPath
  }

  /** `getBaseListUrl`, for the page the address describes. */
  function BaseListUrl(info: PageInfo): (r: Option<string>)
    ensures r.None? <==> info.galleryId == ""
    ensures r.Some? ==> r.value == BaseUrl + ListPathname(info.galleryType) + "?id=" + info.galleryId
  {
    if info.galleryId == "" then None
    else
      var galleryPrefix := if info.galleryType == FavoritesStore.Board then ""
                           else "/" + FavoritesStore.GalleryTypeName(info.galleryType);
      Some(BaseUrl + galleryPrefix + "/" + ListPath + "?id=" + info.galleryId)
  }

  /** `getRecommendListUrl`: the base list address with the recommend filter. */
  function RecommendListUrl(info: PageInfo): (r: Option<string>)
    ensures r.None? <==> BaseListUrl(info).None?
    ensures r.Some? ==> r.value == BaseListUrl(info).value + "&" + RecommendParam
  {
    match BaseListUrl(info)
    case None => None
    case Some(base) => Some(base + "&exception_mode=recommend")
  }

  /** The address before `id=` in a list address holds no `=`. */
  lemma ListUrlPrefix(info: PageInfo)
    requires info.galleryId != ""
    ensures var pre := BaseUrl + ListPathname(info.galleryType) + "?";
            '=' !in pre && BaseListUrl(info).value == pre + "id=" + info.galleryId
  {
    NoEqualsInPathname(info.galleryType);
    assert '=' !in BaseUrl;
  }

  /** Reading back the page the base list address shows gives the gallery type and id
      it was built from. */
  lemma BaseListUrlReadsBack(info: PageInfo)
    requires info.galleryId != "" && '&' !in info.galleryId
    ensures var loc := Location(BaseListUrl(info).value, ListPathname(info.galleryType));
            GetPageInfo(loc).galleryType == info.galleryType && GetPageInfo(loc).galleryId == info.galleryId
  {
    PathnameReadsBack(info.galleryType);
    ListUrlPrefix(info);
    var pre := BaseUrl + ListPathname(info.galleryType) + "?";
    assert BaseListUrl(info).value == pre + "id=" + info.galleryId + [];
    CaptureAfter(pre, info.galleryId, []);
  }

  /** Reading back the recommend list address gives the same gallery, in recommend
      mode. */
  lemma RecommendListUrlReadsBack(info: PageInfo)
    requires info.galleryId != "" && '&' !in info.galleryId
    ensures var loc := Location(RecommendListUrl(info).value, ListPathname(info.galleryType));
            GetPageInfo(loc).galleryType == info.galleryType && GetPageInfo(loc).galleryId == info.galleryId
            && GetPageInfo(loc).isRecommendMode
  {
    PathnameReadsBack(info.galleryType);
    RecommendIdReadsBack(info);
    RecommendParamPresent(info);
  }

  lemma RecommendParamPresent(info: PageInfo)
    requires info.galleryId != ""
    ensures Contains(RecommendListUrl(info).value, RecommendParam)
  {
    var rec := RecommendListUrl(info).value;
    assert OccursAt(rec, RecommendParam, |rec| - |RecommendParam|);
  }

  lemma RecommendIdReadsBack(info: PageInfo)
    requires info.galleryId != "" && '&' !in info.galleryId
    ensures GalleryId(RecommendListUrl(info).value) == info.galleryId
  {
    ListUrlPrefix(info);
    var pre := BaseUrl + ListPathname(info.galleryType) + "?";
    var tail := "&" + RecommendParam;
    assert RecommendListUrl(info).value == pre + "id=" + info.galleryId + tail;
    CaptureAfter(pre, info.galleryId, tail);
  }

  lemma NoEqualsInPathname(t: GalleryType)
    ensures '=' !in ListPathname(t)
  {
  }

  /** The list path of a gallery kind is classified as that kind. */
  lemma PathnameReadsBack(t: GalleryType)
    ensures TypeOfPath(ListPathname(t)) == t
  {
    var p := ListPathname(t);
    match t
    case Board =>
      assert p[1] == 'b';
    case MGallery =>
      assert p[..|MGalleryPrefix|] == MGalleryPrefix;
    case Mini =>
      assert p[..|MiniPrefix|] == MiniPrefix;
    case Person =>
      assert p[..|PersonPrefix|] == PersonPrefix;
  }

  /** The gallery a page shows survives the trip through its list address. */
  lemma PageListUrlReadsBack(loc: Location)
    requires GetPageInfo(loc).galleryId != ""
    ensures var info := GetPageInfo(loc);
            var back := GetPageInfo(Location(BaseListUrl(info).value, ListPathname(info.galleryType)));
            back.galleryType == info.galleryType && back.galleryId == info.galleryId
  {
    BaseListUrlReadsBack(GetPageInfo(loc));
  }

  const ViewSegment := "/view/"
  const ListsSegment := "/lists/"

  /** `getListUrlForCurrentContext`: on a post page (a path holding `/view/`) the
      first `/view/` becomes `/lists/` and every `no` parameter goes; any other address
      comes back unchanged. */
  function ListUrlForCurrentContext(u: WebUrl.Url): (r: WebUrl.Url)
    ensures !Contains(u.pathname, ViewSegment) ==> r == u
    ensures Contains(u.pathname, ViewSegment) ==>
              r.origin == u.origin && r.hash == u.hash
              && !WebUrl.HasParam(r.params, "no")
              && (forall n :: n != "no" ==> WebUrl.GetParam(r.params, n) == WebUrl.GetParam(u.params, n))
              && Contains(r.pathname, ListsSegment)
              && r.params == WebUrl.DeleteParam(u.params, "no")
              && var i := FindFrom(u.pathname, ViewSegment, 0).value;
                 r.pathname == u.pathname[..i] + ListsSegment + u.pathname[i + |ViewSegment|..]
  {
    if Contains(u.pathname, ViewSegment) then
      var p := ReplaceFirst(u.pathname, ViewSegment, ListsSegment);
      var i := FindFrom(u.pathname, ViewSegment, 0).value;
      assert OccursAt(p, ListsSegment, i);
      u.(pathname := p, params := WebUrl.DeleteParam(u.params, "no"))
    else u
  }
}

=== FILE: js_number.dfy ===
/** The parts of JavaScript number semantics the extension relies on: NaN and the
    infinities, truthiness (`x || d`), `Math.max`, the truncating `%` operator,
    `parseInt(s, 10)` and whether `Number(s)` is NaN for a string `s`. */
module JsNumber {
  import opened Wrappers
  import opened Text

  /** An IEEE double as JavaScript sees it; rounding is not modelled, so finite
      values are exact reals. */
  datatype Num = NaN | Finite(value: real) | PosInf | NegInf

  /** `Boolean(n)`: false exactly for NaN and zero. */
  predicate Truthy(n: Num) {
    !(n.NaN? || n == Finite(0.0))
  }

  /** `n || d`. */
  function Or(n: Num, d: Num): (r: Num)
    ensures Truthy(n) ==> r == n
    ensures !Truthy(n) ==> r == d
  {
    if Truthy(n) then n else d
  }

  /** The relation `a < b`, which is false whenever either side is NaN. */
  predicate Less(a: Num, b: Num) {
    match (a, b)
    case (NaN, _) => false
    case (_, NaN) => false
    case (NegInf, NegInf) => false
    case (NegInf, _) => true
    case (_, PosInf) => !a.PosInf?
    case (PosInf, _) => false
    case (_, NegInf) => false
    case (Finite(x), Finite(y)) => x < y
  }

  /** `Math.max(a, b)`: NaN if either argument is NaN. */
  function Max(a: Num, b: Num): (r: Num)
    ensures (a.NaN? || b.NaN?) <==> r.NaN?
    ensures !r.NaN? ==> (r == a || r == b) && !Less(r, a) && !Less(r, b)
  {
    if a.NaN? || b.NaN? then NaN else if Less(a, b) then b else a
  }

  /** Quotient of truncating division (`Math.trunc(a / m)`). */
  function TruncDiv(a: int, m: int): int
    requires m > 0
  {
    if a >= 0 then a / m else -((-a) / m)
  }

  /** `a % m` for a positive divisor: the remainder of truncating division, which
      takes the sign of the dividend (unlike Dafny's Euclidean `%`). */
  function Rem(a: int, m: int): (r: int)
    requires m > 0
    ensures a == TruncDiv(a, m) * m + r
    ensures a >= 0 ==> 0 <= r < m
    ensures a < 0 ==> -m < r <= 0
  {
    if a >= 0 then a % m else -((-a) % m)
  }

  lemma MulAtLeast(k: int, m: int)
    requires k >= 1 && m > 0
    ensures k * m >= m
  {
  }

  /** Euclidean division is unique: a quotient and an in-range remainder that
      rebuild `a` are the ones `/` and `%` give. */
  lemma ModUnique(a: int, m: int, q: int, r: int)
    requires m > 0 && 0 <= r < m && a == q * m + r
    ensures a / m == q && a % m == r
  {
    var q0 := a / m;
    assert a == q0 * m + a % m;
    if q0 > q {
      MulAtLeast(q0 - q, m);
    } else if q0 < q {
      MulAtLeast(q - q0, m);
    }
  }

  /** Adding the divisor once does not change the Euclidean remainder. */
  lemma ModShift(a: int, m: int)
    requires m > 0
    ensures (a + m) % m == a % m
  {
    ModUnique(a + m, m, a / m + 1, a % m);
  }

  /** The longest prefix of ASCII digits. */
  function DigitPrefix(s: string): (r: string)
    ensures AllDigits(r) && StartsWith(s, r)
    ensures |r| < |s| ==> !IsAsciiDigit(s[|r|])
  {
    if s == [] || !IsAsciiDigit(s[0]) then [] else [s[0]] + DigitPrefix(s[1..])
  }

  /** `parseInt(s, 10)`: leading whitespace skipped, an optional sign, then the longest
      run of decimal digits; `None` stands for NaN (no digit where one is needed). */
  function ParseInt(s: string): (r: Option<int>)
  {
    var t := TrimStart(s);
    var negative := |t| > 0 && t[0] == '-';
    var body := if |t| > 0 && (t[0] == '-' || t[0] == '+') then t[1..] else t;
    var digits := DigitPrefix(body);
    if digits == [] then None
    else
      var v: int := DigitsValue(digits);
      if negative then Some(-v) else Some(v)
  }

  /** A string made only of digits parses to the number it denotes. */
  lemma ParseIntOfDigits(s: string)
    requires |s| >= 1 && AllDigits(s)
    ensures ParseInt(s) == Some(DigitsValue(s))
  {
    assert !IsSpace(s[0]);
    assert TrimStart(s) == s;
    assert s[0] != '-' && s[0] != '+';
    DigitPrefixOfDigits(s);
  }

  lemma {:induction false} DigitPrefixOfDigits(s: string)
    requires AllDigits(s)
    ensures DigitPrefix(s) == s
  {
    if s != [] {
      DigitPrefixOfDigits(s[1..]);
    }
  }

  /** `parseInt` inverts decimal rendering. */
  lemma ParseIntOfNatToString(n: nat)
    ensures ParseInt(NatToString(n)) == Some(n)
  {
    ParseIntOfDigits(NatToString(n));
  }

  /** Trailing text after the digits does not affect `parseInt`. */
  lemma {:induction false} DigitPrefixOfAppend(d: string, rest: string)
    requires AllDigits(d)
    requires rest == [] || !IsAsciiDigit(rest[0])
    ensures DigitPrefix(d + rest) == d
  {
    if d != [] {
      assert (d + rest)[1..] == d[1..] + rest;
      DigitPrefixOfAppend(d[1..], rest);
    }
  }

  predicate IsHexDigit(c: char) {
    IsAsciiDigit(c) || ('a' <= c <= 'f') || ('A' <= c <= 'F')
  }

  predicate AllIn(s: string, lo: char, hi: char) {
    forall i :: 0 <= i < |s| ==> lo <= s[i] <= hi
  }

  /** The unsigned decimal part of a StrDecimalLiteral: `Infinity`, or digits with at
      most one `.`, at least one digit, and an optional exponent. */
  predicate IsUnsignedDecimal(s: string) {
    s == "Infinity" || IsMantissaWithExponent(s)
  }

  predicate IsMantissaWithExponent(s: string) {
    exists k :: 0 <= k <= |s| && IsMantissa(s[..k]) && IsExponentPart(s[k..])
  }

  /** DecimalDigits [. DecimalDigits?] | . DecimalDigits */
  predicate IsMantissa(m: string) {
    if '.' in m then
      var d := FirstIndexOf(m, '.');
      AllDigits(m[..d]) && AllDigits(m[d + 1..]) && (d > 0 || d + 1 < |m|)
    else |m| >= 1 && AllDigits(m)
  }

  /** Empty, or e/E, an optional sign and at least one digit. */
  predicate IsExponentPart(e: string) {
    e == [] ||
    (|e| >= 2 && (e[0] == 'e' || e[0] == 'E') &&
      var rest := if e[1] == '+' || e[1] == '-' then e[2..] else e[1..];
      |rest| >= 1 && AllDigits(rest))
  }

  predicate IsNonDecimalInteger(s: string) {
    |s| >= 3 && s[0] == '0' &&
    (((s[1] == 'x' || s[1] == 'X') && forall i :: 2 <= i < |s| ==> IsHexDigit(s[i]))
     || ((s[1] == 'o' || s[1] == 'O') && AllIn(s[2..], '0', '7'))
     || ((s[1] == 'b' || s[1] == 'B') && AllIn(s[2..], '0', '1')))
  }

  /** `!isNaN(Number(s))`: after trimming, the string is empty, a signed decimal
      literal (or signed `Infinity`), or a binary, octal or hexadecimal integer. */
  predicate IsNumericString(s: string) {
    var t := Trim(s);
    t == [] || IsNonDecimalInteger(t) || IsUnsignedDecimal(t)
    || (|t| >= 1 && (t[0] == '+' || t[0] == '-') && IsUnsignedDecimal(t[1..]))
  }

  /** A non-empty run of digits is numeric for `Number`. */
  lemma DigitsAreNumeric(s: string)
    requires |s| >= 1 && AllDigits(s)
    ensures IsNumericString(s)
  {
    assert !IsSpace(s[0]) && !IsSpace(s[|s| - 1]);
    TrimOfTrimmed(s);
    assert '.' !in s by {
      forall i | 0 <= i < |s| ensures s[i] != '.' { assert IsAsciiDigit(s[i]); }
    }
    assert s[..|s|] == s && s[|s|..] == [];
    assert IsMantissa(s[..|s|]) && IsExponentPart(s[|s|..]);
    assert IsMantissaWithExponent(s);
  }
}

=== FILE: js_object.dfy ===
/** Plain JavaScript objects used as string-keyed maps (favourite profiles, the dccon
    alias map). `Object.keys` enumerates the array-index keys first, in ascending
    numeric order, and then the other keys in the order they were created
    (OrdinaryOwnPropertyKeys, section 10.1.11.1 of ECMA-262). Assigning to a present
    key keeps its position, assigning a new key puts it at its place in that order,
    `delete` removes it. */
module JsObject {
  import opened Wrappers
  import opened Text

  datatype Entries<V> = Entries(list: seq<(string, V)>)

  predicate DistinctKeys<V>(list: seq<(string, V)>) {
    forall i, j :: 0 <= i < j < |list| ==> list[i].0 != list[j].0
  }

  /** An array index (section 6.1.7 of ECMA-262): the canonical decimal numeral of an
      integer below 2^32 - 1. */
  predicate IsArrayIndex(k: string) {
    |k| >= 1 && AllDigits(k) && (|k| == 1 || k[0] != '0') && DigitsValue(k) < 0xFFFF_FFFF
  }

  /** Key `a` may be enumerated before key `b`: when `b` is an array index, so is
      `a`, and a smaller one. */
  predicate MayPrecede(a: string, b: string) {
    IsArrayIndex(b) ==> IsArrayIndex(a) && DigitsValue(a) < DigitsValue(b)
  }

  /** Array-index keys come before every other key and ascend numerically. */
  predicate EnumerationOrdered<V>(list: seq<(string, V)>) {
    forall i, j :: 0 <= i < j < |list| ==> MayPrecede(list[i].0, list[j].0)
  }

  /** An object: entries in enumeration order, no key twice. */
  type Obj<V> = e: Entries<V> | DistinctKeys(e.list) && EnumerationOrdered(e.list) witness Entries([])

  function Empty<V>(): (r: Obj<V>)
    ensures |r.list| == 0
  {
    Entries([])
  }

  /** `Object.keys(o)`. */
  function Keys<V>(o: Obj<V>): (r: seq<string>)
    ensures |r| == |o.list|
    ensures forall i :: 0 <= i < |r| ==> r[i] == o.list[i].0
  {
    seq(|o.list|, i requires 0 <= i < |o.list| => o.list[i].0)
  }

  /** `Object.values(o)`. */
  function Values<V>(o: Obj<V>): (r: seq<V>)
    ensures |r| == |o.list|
    ensures forall i :: 0 <= i < |r| ==> r[i] == o.list[i].1
  {
    seq(|o.list|, i requires 0 <= i < |o.list| => o.list[i].1)
  }

  /** `Object.prototype.hasOwnProperty.call(o, k)`. */
  predicate Has<V>(o: Obj<V>, k: string) {
    exists i :: 0 <= i < |o.list| && o.list[i].0 == k
  }

  /** Position of key `k` in enumeration order. */
  function IndexOf<V>(o: Obj<V>, k: string): (r: nat)
    requires Has(o, k)
    ensures r < |o.list| && o.list[r].0 == k
  {
    IndexIn(o.list, k)
  }

  function IndexIn<V>(list: seq<(string, V)>, k: string): (r: nat)
    requires exists i :: 0 <= i < |list| && list[i].0 == k
    ensures r < |list| && list[r].0 == k
  {
    if list[0].0 == k then 0 else IndexIn(list[1..], k) + 1
  }

  /** `o[k]`, `None` for a missing key. */
  function Get<V>(o: Obj<V>, k: string): (r: Option<V>)
    ensures r.Some? <==> Has(o, k)
    ensures r.Some? ==> exists i :: 0 <= i < |o.list| && o.list[i] == (k, r.value)
  {
    if Has(o, k) then Some(o.list[IndexOf(o, k)].1) else None
  }

  /** The value at an entry's key is that entry's value. */
  lemma GetAt<V>(o: Obj<V>, i: nat)
    requires i < |o.list|
    ensures Get(o, o.list[i].0) == Some(o.list[i].1)
  {
    var j := IndexOf(o, o.list[i].0);
    assert j == i;
  }

  /** `o[k] = v`. */
  function Set<V>(o: Obj<V>, k: string, v: V): (r: Obj<V>)
    ensures Get(r, k) == Some(v)
    ensures forall k' :: k' != k ==> Get(r, k') == Get(o, k')
    ensures Has(o, k) ==> Keys(r) == Keys(o)
    ensures !Has(o, k) ==> Keys(r) == Keys(o)[..Slot(o, k)] + [k] + Keys(o)[Slot(o, k)..]
    ensures !Has(o, k) && !IsArrayIndex(k) ==> Keys(r) == Keys(o) + [k]
  {
    if Has(o, k) then Replace(o, IndexOf(o, k), v) else Append(o, k, v)
  }

  /** Assigning to the key of entry `i`: the entry keeps its place. */
  function Replace<V>(o: Obj<V>, i: nat, v: V): (r: Obj<V>)
    requires i < |o.list|
    ensures Get(r, o.list[i].0) == Some(v)
    ensures forall k' :: k' != o.list[i].0 ==> Get(r, k') == Get(o, k')
    ensures Keys(r) == Keys(o)
  {
    var k := o.list[i].0;
    var r: Obj<V> := Entries(o.list[i := (k, v)]);
    GetAt(r, i);
    forall k' | k' != k ensures Get(r, k') == Get(o, k') {
      if Has(o, k') {
        GetAt(r, IndexOf(o, k'));
      } else {
        assert !Has(r, k');
      }
    }
    r
  }

  /** Where a new key `k` enters the enumeration order: after the array-index keys
      below it when it is an array index itself, last otherwise. */
  function Slot<V>(o: Obj<V>, k: string): (p: nat)
    ensures p <= |o.list|
    ensures !IsArrayIndex(k) ==> p == |o.list|
    ensures IsArrayIndex(k) ==> forall i :: 0 <= i < p ==>
      IsArrayIndex(o.list[i].0) && DigitsValue(o.list[i].0) < DigitsValue(k)
    ensures IsArrayIndex(k) ==> forall j :: p <= j < |o.list| && IsArrayIndex(o.list[j].0) ==>
      DigitsValue(k) <= DigitsValue(o.list[j].0)
  {
    if IsArrayIndex(k) then SlotIn(o.list, k) else |o.list|
  }

  function SlotIn<V>(list: seq<(string, V)>, k: string): (p: nat)
    requires IsArrayIndex(k) && EnumerationOrdered(list)
    ensures p <= |list|
    ensures forall i :: 0 <= i < p ==> IsArrayIndex(list[i].0) && DigitsValue(list[i].0) < DigitsValue(k)
    ensures forall j :: p <= j < |list| && IsArrayIndex(list[j].0) ==> DigitsValue(k) <= DigitsValue(list[j].0)
  {
    if list == [] || !(IsArrayIndex(list[0].0) && DigitsValue(list[0].0) < DigitsValue(k)) then 0
    else 1 + SlotIn(list[1..], k)
  }

  /** A canonical numeral is the rendering of the number it denotes. */
  lemma {:induction false} CanonicalNumeral(s: string)
    requires |s| >= 1 && AllDigits(s) && (|s| == 1 || s[0] != '0')
    ensures NatToString(DigitsValue(s)) == s
  {
    var last := s[|s| - 1];
    if |s| > 1 {
      var front := s[..|s| - 1];
      CanonicalNumeral(front);
      LeadingDigitPositive(front);
      var n := DigitsValue(s);
      assert n / 10 == DigitsValue(front) && n % 10 == DigitValue(last);
      assert s == front + [last];
    }
  }

  lemma {:induction false} LeadingDigitPositive(s: string)
    requires |s| >= 1 && AllDigits(s) && s[0] != '0'
    ensures DigitsValue(s) >= 1
  {
    if |s| > 1 {
      LeadingDigitPositive(s[..|s| - 1]);
    }
  }

  /** Two array indices with the same value are the same key. */
  lemma SameIndexValue(a: string, b: string)
    requires IsArrayIndex(a) && IsArrayIndex(b) && DigitsValue(a) == DigitsValue(b)
    ensures a == b
  {
    CanonicalNumeral(a);
    CanonicalNumeral(b);
  }

  lemma InsertDistinct<V>(list: seq<(string, V)>, p: nat, k: string, v: V)
    requires DistinctKeys(list) && p <= |list|
    requires forall i :: 0 <= i < |list| ==> list[i].0 != k
    ensures DistinctKeys(list[..p] + [(k, v)] + list[p..])
  {
    var r := list[..p] + [(k, v)] + list[p..];
    forall i, j | 0 <= i < j < |r| ensures r[i].0 != r[j].0 {
      if i != p && j != p {
        assert r[i] == list[if i < p then i else i - 1];
        assert r[j] == list[if j < p then j else j - 1];
      }
    }
  }

  lemma InsertOrdered<V>(list: seq<(string, V)>, p: nat, k: string, v: V)
    requires EnumerationOrdered(list) && p <= |list|
    requires forall i :: 0 <= i < |list| ==> list[i].0 != k
    requires !IsArrayIndex(k) ==> p == |list|
    requires forall i :: 0 <= i < p ==> MayPrecede(list[i].0, k)
    requires IsArrayIndex(k) ==> forall j :: p <= j < |list| && IsArrayIndex(list[j].0) ==>
      DigitsValue(k) <= DigitsValue(list[j].0)
    ensures EnumerationOrdered(list[..p] + [(k, v)] + list[p..])
  {
    var r := list[..p] + [(k, v)] + list[p..];
    forall i, j | 0 <= i < j < |r| ensures MayPrecede(r[i].0, r[j].0) {
      if i == p {
        assert r[j] == list[j - 1];
        NewBefore(k, list[j - 1].0);
      } else if j == p {
        assert r[i] == list[i];
      } else {
        assert r[i] == list[if i < p then i else i - 1];
        assert r[j] == list[if j < p then j else j - 1];
      }
    }
  }

  /** A new array index placed before the indices it does not exceed. */
  lemma NewBefore(k: string, b: string)
    requires k != b && IsArrayIndex(k)
    requires IsArrayIndex(b) ==> DigitsValue(k) <= DigitsValue(b)
    ensures MayPrecede(k, b)
  {
    if IsArrayIndex(b) && DigitsValue(k) == DigitsValue(b) {
      SameIndexValue(k, b);
    }
  }

  /** Assigning to a new key: the entry goes to its slot in enumeration order. */
  function Append<V>(o: Obj<V>, k: string, v: V): (r: Obj<V>)
    requires !Has(o, k)
    ensures Get(r, k) == Some(v)
    ensures forall k' :: k' != k ==> Get(r, k') == Get(o, k')
    ensures Keys(r) == Keys(o)[..Slot(o, k)] + [k] + Keys(o)[Slot(o, k)..]
  {
    var p := Slot(o, k);
    InsertDistinct(o.list, p, k, v);
    assert forall i :: 0 <= i < p ==> MayPrecede(o.list[i].0, k);
    InsertOrdered(o.list, p, k, v);
    var r: Obj<V> := Entries(o.list[..p] + [(k, v)] + o.list[p..]);
    InsertGets(o, r, p, k, v);
    InsertKeys(o, r, p, k, v);
    r
  }

  lemma InsertGets<V>(o: Obj<V>, r: Obj<V>, p: nat, k: string, v: V)
    requires !Has(o, k) && p <= |o.list| && r.list == o.list[..p] + [(k, v)] + o.list[p..]
    ensures Get(r, k) == Some(v)
    ensures forall k' :: k' != k ==> Get(r, k') == Get(o, k')
  {
    GetAt(r, p);
    forall k' | k' != k ensures Get(r, k') == Get(o, k') {
      if Has(o, k') {
        var i := IndexOf(o, k');
        assert r.list[if i < p then i else i + 1] == o.list[i];
        GetAt(r, if i < p then i else i + 1);
      } else {
        assert !Has(r, k');
      }
    }
  }

  lemma InsertKeys<V>(o: Obj<V>, r: Obj<V>, p: nat, k: string, v: V)
    requires p <= |o.list| && r.list == o.list[..p] + [(k, v)] + o.list[p..]
    ensures Keys(r) == Keys(o)[..p] + [k] + Keys(o)[p..]
  {
  }

  /** An entry of an object determines what a lookup of its key gives. */
  lemma GetOfMember<V>(o: Obj<V>, k: string, v: V)
    requires (k, v) in o.list
    ensures Get(o, k) == Some(v)
  {
    var i :| 0 <= i < |o.list| && o.list[i] == (k, v);
    GetAt(o, i);
  }

  /** The entries whose key is not `k`, in order. */
  function Without<V>(list: seq<(string, V)>, k: string): (r: seq<(string, V)>)
    ensures forall i :: 0 <= i < |r| ==> r[i] in list && r[i].0 != k
    ensures forall i :: 0 <= i < |list| && list[i].0 != k ==> list[i] in r
  {
    if list == [] then []
    else if list[0].0 == k then Without(list[1..], k)
    else [list[0]] + Without(list[1..], k)
  }

  lemma {:induction false} WithoutKeys<V>(list: seq<(string, V)>, k: string)
    ensures KeyList(Without(list, k)) == FilterOut(KeyList(list), k)
  {
    if list != [] {
      WithoutKeys(list[1..], k);
      KeyListTail(list);
      if list[0].0 != k {
        KeyListCons(list[0], Without(list[1..], k));
      }
    }
  }

  /** The keys of a non-empty list: its first key, then the keys of the rest. */
  lemma KeyListTail<V>(list: seq<(string, V)>)
    requires list != []
    ensures KeyList(list)[0] == list[0].0 && KeyList(list)[1..] == KeyList(list[1..])
  {
  }

  lemma KeyListCons<V>(h: (string, V), t: seq<(string, V)>)
    ensures KeyList([h] + t) == [h.0] + KeyList(t)
  {
  }

  lemma {:induction false} WithoutDistinct<V>(list: seq<(string, V)>, k: string)
    requires DistinctKeys(list)
    ensures DistinctKeys(Without(list, k))
  {
    if list != [] {
      WithoutDistinct(list[1..], k);
      var t := Without(list[1..], k);
      forall i | 0 <= i < |t| ensures t[i].0 != list[0].0 {
        assert t[i] in list[1..];
      }
    }
  }

  lemma {:induction false} WithoutOrdered<V>(list: seq<(string, V)>, k: string)
    requires EnumerationOrdered(list)
    ensures EnumerationOrdered(Without(list, k))
  {
    if list != [] {
      WithoutOrdered(list[1..], k);
      var t := Without(list[1..], k);
      if list[0].0 != k {
        forall j | 0 <= j < |t| ensures MayPrecede(list[0].0, t[j].0) {
          var m :| 0 <= m < |list[1..]| && list[1..][m] == t[j];
          assert list[m + 1] == t[j];
        }
        OrderedCons(list[0], t);
      }
    }
  }

  /** An entry that may precede every entry of an ordered list can go in front. */
  lemma OrderedCons<V>(h: (string, V), t: seq<(string, V)>)
    requires EnumerationOrdered(t)
    requires forall j :: 0 <= j < |t| ==> MayPrecede(h.0, t[j].0)
    ensures EnumerationOrdered([h] + t)
  {
    var l := [h] + t;
    forall i, j | 0 <= i < j < |l| ensures MayPrecede(l[i].0, l[j].0) {
      if i > 0 {
        assert l[i] == t[i - 1] && l[j] == t[j - 1];
      } else {
        assert l[j] == t[j - 1];
      }
    }
  }

  function KeyList<V>(list: seq<(string, V)>): (r: seq<string>)
    ensures |r| == |list|
    ensures forall i :: 0 <= i < |r| ==> r[i] == list[i].0
  {
    seq(|list|, i requires 0 <= i < |list| => list[i].0)
  }

  /** `delete o[k]`. */
  function Delete<V>(o: Obj<V>, k: string): (r: Obj<V>)
    ensures !Has(r, k)
    ensures forall k' :: k' != k ==> Get(r, k') == Get(o, k')
    ensures Keys(r) == FilterOut(Keys(o), k)
  {
    WithoutDistinct(o.list, k);
    WithoutOrdered(o.list, k);
    WithoutKeys(o.list, k);
    var r: Obj<V> := Entries(Without(o.list, k));
    assert forall k' :: k' != k ==> Get(r, k') == Get(o, k') by {
      forall k' | k' != k ensures Get(r, k') == Get(o, k') {
        if Has(o, k') {
          var i := IndexOf(o, k');
          assert o.list[i] in r.list;
          GetOfMember(r, k', o.list[i].1);
        }
      }
    }
    assert Keys(r) == KeyList(r.list) && Keys(o) == KeyList(o.list);
    r
  }

  /** Assigning a new key adds it to the enumeration and leaves the relative order
      of the other keys alone. */
  lemma NewKeyKeepsOrder<V>(o: Obj<V>, k: string, v: V)
    requires !Has(o, k)
    ensures FilterOut(Keys(Set(o, k, v)), k) == Keys(o)
    ensures k in Keys(Set(o, k, v))
  {
    var ks := Keys(o);
    var p := Slot(o, k);
    FilterOutInserted(ks, p, k);
    assert Keys(Set(o, k, v))[p] == k;
  }

  lemma {:induction false} FilterOutInserted(ks: seq<string>, p: nat, k: string)
    requires p <= |ks| && k !in ks
    ensures FilterOut(ks[..p] + [k] + ks[p..], k) == ks
  {
    var l := ks[..p] + [k] + ks[p..];
    if p == 0 {
      assert l == [k] + ks && l[1..] == ks;
      FilterOutAbsent(ks, k);
    } else {
      var t := ks[1..];
      FilterOutInserted(t, p - 1, k);
      assert l[0] == ks[0] && l[1..] == t[..p - 1] + [k] + t[p - 1..];
      assert [ks[0]] + t == ks;
    }
  }

  lemma {:induction false} FilterOutAbsent(a: seq<string>, k: string)
    requires k !in a
    ensures FilterOut(a, k) == a
  {
    if a != [] {
      FilterOutAbsent(a[1..], k);
    }
  }

  /** `keys` without the occurrences of `k`. */
  function FilterOut(keys: seq<string>, k: string): (r: seq<string>)
    ensures k !in r
    ensures forall x :: x in r <==> x in keys && x != k
  {
    if keys == [] then []
    else if keys[0] == k then FilterOut(keys[1..], k)
    else [keys[0]] + FilterOut(keys[1..], k)
  }
}

=== FILE: js_value.dfy ===
/** JSON-like JavaScript values as `chrome.storage.local` holds them: `null`,
    booleans, numbers, strings and plain objects. Arrays are not needed by the
    model. A missing key (`undefined`) is the absence of a value, not a `Value`. */
module JsValue {
  import opened Wrappers
  import JsNumber
  import JsObject

  datatype Value =
    | Null
    | Flag(b: bool)
    | Number(n: JsNumber.Num)
    | Text(s: string)
    | Object(o: JsObject.Obj<Value>)

  /** `Boolean(v)`. */
  predicate Truthy(v: Value) {
    match v
    case Null => false
    case Flag(b) => b
    case Number(n) => JsNumber.Truthy(n)
    case Text(s) => s != ""
    case Object(_) => true
  }

  /** `typeof v === 'object'` for a value that is also truthy (`null` is excluded). */
  predicate IsObject(v: Value) {
    v.Object?
  }

  /** `Number(v)`. Converting a string is outside the model and is supplied as
      `textNumber`. */
  function ToNumber(v: Value, textNumber: string -> JsNumber.Num): (r: JsNumber.Num)
    ensures v.Number? ==> r == v.n
    ensures v.Object? ==> r.NaN?
    ensures v.Null? ==> r == JsNumber.Finite(0.0)
    ensures v.Flag? ==> r == JsNumber.Finite(if v.b then 1.0 else 0.0)
  {
    match v
    case Null => JsNumber.Finite(0.0)
    case Flag(b) => JsNumber.Finite(if b then 1.0 else 0.0)
    case Number(n) => n
    case Text(s) => textNumber(s)
    case Object(_) => JsNumber.NaN
  }

  /** `{ ...v }`: the own entries of an object; `null`, booleans and numbers spread
      to nothing. A string would spread to its characters; that case is not
      modelled and also gives no entries. */
  function Spread(v: Value): (r: JsObject.Obj<Value>)
    ensures v.Object? ==> r == v.o
    ensures !v.Object? ==> r.list == []
  {
    if v.Object? then v.o else JsObject.Empty()
  }

  /** `v[k]` for an object, `undefined` (`None`) for anything else. */
  function Member(v: Value, k: string): (r: Option<Value>)
    ensures r.Some? ==> v.Object? && JsObject.Has(v.o, k)
    ensures v.Object? && JsObject.Has(v.o, k) ==> r.Some?
  {
    if v.Object? then JsObject.Get(v.o, k) else None
  }
}

=== FILE: post_navigation.dfy ===
/** Post-to-post navigation of the Z and X keys (`navigatePrevPost` and
    `navigateNextPost` in Events.ts). Z goes to the newer post, which has the larger
    number; X to the older one. The current page's rows, the server's answers to HEAD
    requests and the posts of a fetched list page are inputs; the result is the query
    of the page to go to, or the reason for giving up (after which the macro retries). */
module PostNavigation {
  import opened Wrappers
  import opened Text
  import JsNumber
  import Seqs
  import Sorting
  import WebUrl
  import Posts

  datatype Direction = Newer | Older

  /** `value` is set and non-empty, as `if (value)` tests a string. */
  predicate Truthy(v: Option<string>) {
    v.Some? && v.value != ""
  }

  /* ---------------------------------------------------------------------------
     Query synchronisation after a list page is loaded in place
     --------------------------------------------------------------------------- */

  /** The list parameters copied from the loaded page into the address bar. */
  const ListParams: seq<string> := ["page", "search_pos", "s_type", "s_keyword", "exception_mode"]

  /** What a synchronised parameter reads afterwards: the target's value when it is
      non-empty, otherwise nothing. */
  function Synced(target: WebUrl.Params, name: string): Option<string> {
    if Truthy(WebUrl.GetParam(target, name)) then WebUrl.GetParam(target, name) else None
  }

  /** One step of the `forEach`: `set` with the target's value, or `delete`. */
  function SyncParam(current: WebUrl.Params, target: WebUrl.Params, name: string): (r: WebUrl.Params)
    ensures WebUrl.GetParam(r, name) == Synced(target, name)
    ensures forall n :: n != name ==> WebUrl.GetParam(r, n) == WebUrl.GetParam(current, n)
  {
    var v := WebUrl.GetParam(target, name);
    if Truthy(v) then WebUrl.SetParam(current, name, v.value) else WebUrl.DeleteParam(current, name)
  }

  /** Synchronises the parameters `names` of `current` with `target`: each of them
      follows the target and every other parameter keeps its value. */
  function SyncParams(current: WebUrl.Params, target: WebUrl.Params, names: seq<string>): (r: WebUrl.Params)
    ensures forall n :: n in names ==> WebUrl.GetParam(r, n) == Synced(target, n)
    ensures forall n :: n !in names ==> WebUrl.GetParam(r, n) == WebUrl.GetParam(current, n)
    decreases |names|
  {
    if names == [] then current
    else
      var next := SyncParam(current, target, names[0]);
      var r := SyncParams(next, target, names[1..]);
      assert forall n :: n in names && n !in names[1..] ==> n == names[0];
      r
  }

  /** Synchronising again with the same target changes no lookup. */
  lemma SyncParamsIdempotent(current: WebUrl.Params, target: WebUrl.Params, names: seq<string>, n: string)
    ensures var once := SyncParams(current, target, names);
      WebUrl.GetParam(SyncParams(once, target, names), n) == WebUrl.GetParam(once, n)
  {
  }

  /** The search parameters the page-1 fallback carries over from the current page. */
  const CarriedParams: seq<string> := ["exception_mode", "search_pos", "s_type", "s_keyword"]

  /** Copies each of `names` that `from` has (even with an empty value) into `target`. */
  function CopyPresent(target: WebUrl.Params, from: WebUrl.Params, names: seq<string>): (r: WebUrl.Params)
    ensures forall n :: n in names && WebUrl.HasParam(from, n) ==> WebUrl.GetParam(r, n) == WebUrl.GetParam(from, n)
    ensures forall n :: n in names && !WebUrl.HasParam(from, n) ==> WebUrl.GetParam(r, n) == WebUrl.GetParam(target, n)
    ensures forall n :: n !in names ==> WebUrl.GetParam(r, n) == WebUrl.GetParam(target, n)
    decreases |names|
  {
    if names == [] then target
    else
      var n0 := names[0];
      var next := if WebUrl.HasParam(from, n0) then WebUrl.SetParam(target, n0, WebUrl.GetParam(from, n0).value) else target;
      var r := CopyPresent(next, from, names[1..]);
      assert forall n :: n in names && n !in names[1..] ==> n == n0;
      r
  }

  /* ---------------------------------------------------------------------------
     Targets on a fetched list page
     --------------------------------------------------------------------------- */

  /** An entry of `getValidPostsFromDoc`: only posts with a number and a link are listed;
      `link` is the query of the link's URL. */
  datatype ListedPost = ListedPost(num: int, link: WebUrl.Params)

  /** Lies in direction `d` from the current post number. */
  predicate Beyond(d: Direction, current: int, p: ListedPost) {
    if d == Newer then p.num > current else p.num < current
  }

  function Toward(d: Direction, current: int): ListedPost -> bool {
    (p: ListedPost) => Beyond(d, current, p)
  }

  /** `(a, b) => a.num - b.num` for ascending order, `b.num - a.num` for descending. */
  function ByNum(ascending: bool): (ListedPost, ListedPost) -> int {
    if ascending then (a: ListedPost, b: ListedPost) => a.num - b.num
    else (a: ListedPost, b: ListedPost) => b.num - a.num
  }

  lemma ByNumConsistent(ascending: bool)
    ensures Sorting.Consistent(ByNum(ascending))
  {
  }

  /** `candidates.sort(cmp)[0]`, or nothing for no candidate. */
  function FirstSorted(candidates: seq<ListedPost>, ascending: bool): (r: Option<ListedPost>)
    ensures r.None? <==> candidates == []
    ensures r.Some? ==> r.value in candidates
    ensures r.Some? ==> forall p :: p in candidates ==> (if ascending then r.value.num <= p.num else p.num <= r.value.num)
  {
    if candidates == [] then None
    else
      var le := Sorting.LeOf(ByNum(ascending));
      ByNumConsistent(ascending);
      Sorting.SortedHeadLeast(candidates, le);
      var first := Sorting.Sort(candidates, le)[0];
      assert forall p :: p in candidates ==> le(first, p);
      Some(first)
  }

  /** The posts beyond the current number, in page order. */
  function Candidates(posts: seq<ListedPost>, current: int, d: Direction): (r: seq<ListedPost>)
    ensures forall p :: p in r <==> p in posts && Beyond(d, current, p)
  {
    var r := Seqs.Filter(posts, Toward(d, current));
    forall p ensures p in r <==> p in posts && Beyond(d, current, p) {
      if p in r {
        var i :| 0 <= i < |r| && r[i] == p;
        assert Toward(d, current)(r[i]);
      }
      if p in posts && Beyond(d, current, p) {
        var i :| 0 <= i < |posts| && posts[i] == p;
        assert Toward(d, current)(posts[i]);
      }
    }
    r
  }

  /** The post a cross-page step aims at: among the posts beyond the current number,
      the nearest one (smallest newer number for Z, largest older number for X). */
  function Nearest(posts: seq<ListedPost>, current: int, d: Direction): (r: Option<ListedPost>)
    ensures r.None? <==> forall p :: p in posts ==> !Beyond(d, current, p)
    ensures r.Some? ==> r.value in posts && Beyond(d, current, r.value)
    ensures r.Some? ==> forall p :: p in posts && Beyond(d, current, p) ==>
      (if d == Newer then r.value.num <= p.num else p.num <= r.value.num)
  {
    var candidates := Candidates(posts, current, d);
    assert candidates != [] ==> candidates[0] in candidates;
    FirstSorted(candidates, d == Newer)
  }

  /** The newest post of page 1 that is newer than the current one (the page-1
      fallback sorts by descending number). */
  function Newest(posts: seq<ListedPost>, current: int): (r: Option<ListedPost>)
    ensures r.None? <==> forall p :: p in posts ==> p.num <= current
    ensures r.Some? ==> r.value in posts && r.value.num > current
    ensures r.Some? ==> forall p :: p in posts ==> p.num <= r.value.num || p.num <= current
  {
    var candidates := Candidates(posts, current, Newer);
    assert candidates != [] ==> candidates[0] in candidates;
    FirstSorted(candidates, false)
  }

  /** Why a step gives up; each of these reschedules the macro. */
  datatype Refusal =
    | EmptyPage        // the fetched list has no post
    | NoCandidate      // no post beyond the current one
    | NonPositive      // the target's number is not positive
    | NumberMismatch   // the link's `no` is missing or does not parse to the target's number
    | NotFoundNearby   // no HEAD probe found a post
    | OutOfSync        // the current-post icon is missing where it is needed

  /** Where a step leads: the query of the page to open, or a refusal. */
  datatype Step = Go(params: WebUrl.Params) | Refused(why: Refusal)

  /** The page parameters a cross-page step takes from the list page it fetched. */
  const PagingParams: seq<string> := ["page", "search_pos"]

  /** The cross-page step on the previous (Z) or next (X) list page: the nearest post
      beyond the current one is accepted when its number is positive and its link's
      `no` parses back to that number; the current query then takes that `no` and the
      list page's `page` and `search_pos`. */
  function CrossPage(d: Direction, current: WebUrl.Params, currentNo: int, listPage: WebUrl.Params,
                     posts: seq<ListedPost>): (r: Step)
    ensures r == Refused(EmptyPage) <==> posts == []
    ensures r == Refused(NoCandidate) <==> posts != [] && Nearest(posts, currentNo, d).None?
    ensures r.Go? ==> Nearest(posts, currentNo, d).Some?
    ensures r.Go? ==> Nearest(posts, currentNo, d).value.num > 0
    ensures r.Go? ==> WebUrl.GetParam(r.params, "no") == WebUrl.GetParam(Nearest(posts, currentNo, d).value.link, "no")
    ensures r.Go? ==> forall n :: n in PagingParams ==> WebUrl.GetParam(r.params, n) == Synced(listPage, n)
    ensures r.Go? ==> forall n :: n != "no" && n !in PagingParams ==>
      WebUrl.GetParam(r.params, n) == WebUrl.GetParam(current, n)
  {
    if posts == [] then Refused(EmptyPage)
    else match Nearest(posts, currentNo, d)
      case None => Refused(NoCandidate)
      case Some(t) =>
        var no := WebUrl.GetParam(t.link, "no");
        if t.num <= 0 then Refused(NonPositive)
        else if Truthy(no) && JsNumber.ParseInt(no.value) == Some(t.num) then
          CrossPageParams(current, listPage, no.value);
          Go(SyncParams(WebUrl.SetParam(current, "no", no.value), listPage, PagingParams))
        else Refused(NumberMismatch)
  }

  lemma CrossPageParams(current: WebUrl.Params, listPage: WebUrl.Params, no: string)
    ensures var r := SyncParams(WebUrl.SetParam(current, "no", no), listPage, PagingParams);
      && WebUrl.GetParam(r, "no") == Some(no)
      && (forall n :: n in PagingParams ==> WebUrl.GetParam(r, n) == Synced(listPage, n))
      && forall n :: n != "no" && n !in PagingParams ==> WebUrl.GetParam(r, n) == WebUrl.GetParam(current, n)
  {
    assert "no" !in PagingParams;
  }

  /** A cross-page step lands on a post of the fetched page beyond the current one
      whose number is the one in the new query, and no post of that page beyond the
      current one is nearer. */
  lemma CrossPageGoesToNearest(d: Direction, current: WebUrl.Params, currentNo: int, listPage: WebUrl.Params,
                               posts: seq<ListedPost>)
    requires CrossPage(d, current, currentNo, listPage, posts).Go?
    ensures var r := CrossPage(d, current, currentNo, listPage, posts);
      var no := WebUrl.GetParam(r.params, "no");
      no.Some? && JsNumber.ParseInt(no.value).Some?
      && var n := JsNumber.ParseInt(no.value).value;
         n > 0 && (exists p :: p in posts && p.num == n && Beyond(d, currentNo, p))
         && forall p :: p in posts && Beyond(d, currentNo, p) ==> (if d == Newer then n <= p.num else p.num <= n)
  {
    var t := Nearest(posts, currentNo, d).value;
    assert t in posts && t.num == JsNumber.ParseInt(WebUrl.GetParam(t.link, "no").value).value;
  }

  /** The page-1 fallback of Z when there is no previous page: the newest post of
      page 1 newer than the current one, opened on page 1 with the current search
      parameters carried over. */
  function LatestFallback(current: WebUrl.Params, currentNo: int, page1: seq<ListedPost>): (r: Step)
    ensures r.Go? <==> Newest(page1, currentNo).Some?
    ensures r.Refused? ==> r.why == NoCandidate
    ensures r.Go? ==> WebUrl.GetParam(r.params, "no") == WebUrl.GetParam(Newest(page1, currentNo).value.link, "no")
    ensures r.Go? ==> WebUrl.GetParam(r.params, "page") == Some("1")
    ensures r.Go? ==> forall n :: n in CarriedParams && WebUrl.HasParam(current, n) ==>
      WebUrl.GetParam(r.params, n) == WebUrl.GetParam(current, n)
  {
    match Newest(page1, currentNo)
    case None => Refused(NoCandidate)
    case Some(t) => Go(OnPage1(t.link, current))
  }

  /** The link of a page-1 post with `page=1` set and the current search parameters
      carried over. */
  function OnPage1(link: WebUrl.Params, current: WebUrl.Params): (r: WebUrl.Params)
    ensures WebUrl.GetParam(r, "no") == WebUrl.GetParam(link, "no")
    ensures WebUrl.GetParam(r, "page") == Some("1")
    ensures forall n :: n in CarriedParams && WebUrl.HasParam(current, n) ==>
              WebUrl.GetParam(r, n) == WebUrl.GetParam(current, n)
  {
    assert "page" !in CarriedParams && "no" !in CarriedParams;
    CopyPresent(WebUrl.SetParam(link, "page", "1"), current, CarriedParams)
  }

  /** The fallback goes to the newest post on page 1 exactly when page 1 has a post
      newer than the current one. */
  lemma LatestFallbackNewest(current: WebUrl.Params, currentNo: int, page1: seq<ListedPost>)
    ensures LatestFallback(current, currentNo, page1).Go? <==> exists p :: p in page1 && p.num > currentNo
    ensures LatestFallback(current, currentNo, page1).Go? ==>
      exists p :: (p in page1 && p.num > currentNo && (forall q :: q in page1 ==> q.num <= p.num)
                   && WebUrl.GetParam(LatestFallback(current, currentNo, page1).params, "no") == WebUrl.GetParam(p.link, "no"))
  {
    var t := Newest(page1, currentNo);
    if t.Some? {
      assert t.value in page1 && t.value.num > currentNo;
    }
  }

  /* ---------------------------------------------------------------------------
     HEAD probes
     --------------------------------------------------------------------------- */

  /** The post numbers probed: the five above the current one for Z; for X the five
      below it, stopping before the first that is not positive. */
  function ProbeCandidates(current: int, d: Direction): (r: seq<int>)
    ensures |r| <= 5
    ensures forall i :: 0 <= i < |r| ==> r[i] == (if d == Newer then current + i + 1 else current - i - 1)
    ensures d == Newer ==> |r| == 5
    ensures d == Older ==> (forall i :: 0 <= i < |r| ==> r[i] > 0) && (|r| < 5 ==> current - |r| - 1 <= 0)
  {
    if d == Newer then seq(5, i => current + i + 1)
    else
      var k := if current - 1 < 0 then 0 else if current - 1 > 5 then 5 else current - 1;
      seq(k, i => current - i - 1)
  }

  /** The first probed number the server answers for (`live`: a HEAD response other
      than 404; a failed request counts as absent). */
  method Probe(current: int, d: Direction, live: int -> bool) returns (found: Option<int>)
    ensures var c := ProbeCandidates(current, d);
      found.Some? ==> exists k :: (0 <= k < |c| && c[k] == found.value && live(c[k])
                                   && forall j :: 0 <= j < k ==> !live(c[j]))
    ensures found.None? <==> forall n :: n in ProbeCandidates(current, d) ==> !live(n)
  {
    var c := ProbeCandidates(current, d);
    var i := 1;
    while i <= 5
      invariant 1 <= i <= 6
      invariant i - 1 <= |c|
      invariant forall j :: 0 <= j < i - 1 ==> !live(c[j])
    {
      var target := if d == Newer then current + i else current - i;
      if d == Older && target <= 0 {
        assert |c| == i - 1;
        return None;
      }
      assert c[i - 1] == target;
      if live(target) {
        return Some(target);
      }
      i := i + 1;
    }
    assert |c| == 5;
    return None;
  }

  /** `String(n)` for an integer. */
  function IntString(n: int): (r: string)
    ensures |r| >= 1
  {
    if n < 0 then "-" + NatToString(-n) else NatToString(n)
  }

  /** Where the probe leads: the current query with `no` set to the number found. */
  method ProbeStep(current: WebUrl.Params, currentNo: int, d: Direction, live: int -> bool) returns (r: Step)
    ensures r.Refused? <==> forall n :: n in ProbeCandidates(currentNo, d) ==> !live(n)
    ensures r.Refused? ==> r.why == NotFoundNearby
    ensures r.Go? ==> exists n :: (n in ProbeCandidates(currentNo, d) && live(n)
                                   && WebUrl.GetParam(r.params, "no") == Some(IntString(n)))
    ensures r.Go? ==> forall n :: n != "no" ==> WebUrl.GetParam(r.params, n) == WebUrl.GetParam(current, n)
  {
    var found := Probe(currentNo, d, live);
    if found.None? {
      r := Refused(NotFoundNearby);
    } else {
      r := Go(WebUrl.SetParam(current, "no", IntString(found.value)));
    }
  }

  /* ---------------------------------------------------------------------------
     Choosing the way, and the neighbouring row on the current page
     --------------------------------------------------------------------------- */

  /** How a Z or X step proceeds from the current query: no post number (or an empty
      one), one that does not parse, HEAD probes (no search keyword and no
      current-post icon), an inconsistent page (a search without the icon), or a walk
      over the rows next to the icon's row. */
  datatype Way = NoPostNumber | BadPostNumber | HeadProbe(no: int) | Inconsistent | RowWalk(no: int)

  function ChooseWay(params: WebUrl.Params, crtIcon: bool): (r: Way)
    ensures r == NoPostNumber <==> !Truthy(WebUrl.GetParam(params, "no"))
    ensures r == BadPostNumber <==>
      Truthy(WebUrl.GetParam(params, "no")) && JsNumber.ParseInt(WebUrl.GetParam(params, "no").value).None?
    ensures r.HeadProbe? || r.RowWalk? ==> Some(r.no) == JsNumber.ParseInt(WebUrl.GetParam(params, "no").value)
    ensures r.HeadProbe? ==> !WebUrl.HasParam(params, "s_keyword") && !crtIcon
    ensures r.RowWalk? ==> crtIcon
    ensures r == Inconsistent ==> !crtIcon && WebUrl.HasParam(params, "s_keyword")
  {
    var noStr := WebUrl.GetParam(params, "no");
    if !Truthy(noStr) then NoPostNumber
    else match JsNumber.ParseInt(noStr.value)
      case None => BadPostNumber
      case Some(n) =>
        if !WebUrl.HasParam(params, "s_keyword") && !crtIcon then HeadProbe(n)
        else if !crtIcon then Inconsistent
        else RowWalk(n)
  }

  /** The macro is retried after every failed step except a missing or unreadable
      post number, where the handler only shows an alert. */
  predicate Retries(w: Way) {
    w == Inconsistent
  }

  /** The rows on the side of `at` that `d` walks: Z walks up through the previous
      siblings, X down through the next ones. */
  predicate OnSide(d: Direction, at: nat, j: nat) {
    if d == Newer then j < at else at < j
  }

  /** The row walk: the nearest row next to the current one, in direction `d`, that
      is a post whose title link has an `href`. */
  method NeighbourRow(rows: seq<Posts.Row>, at: nat, d: Direction) returns (r: Option<nat>)
    requires at < |rows|
    ensures r.Some? ==> r.value < |rows| && OnSide(d, at, r.value) && Posts.Walkable(rows[r.value])
    ensures r.Some? ==> forall j: nat :: OnSide(d, at, j) && OnSide(d, j, r.value) ==> !Posts.Walkable(rows[j])
    ensures r.None? <==> forall j: nat :: j < |rows| && OnSide(d, at, j) ==> !Posts.Walkable(rows[j])
  {
    if d == Newer {
      var j: nat := at;
      while j > 0
        invariant j <= at
        invariant forall k :: j <= k < at ==> !Posts.Walkable(rows[k])
      {
        j := j - 1;
        if Posts.Walkable(rows[j]) {
          return Some(j);
        }
      }
      return None;
    } else {
      var j: nat := at + 1;
      while j < |rows|
        invariant at < j <= |rows|
        invariant forall k :: at < k < j ==> !Posts.Walkable(rows[k])
      {
        if Posts.Walkable(rows[j]) {
          return Some(j);
        }
        j := j + 1;
      }
      return None;
    }
  }
}

=== FILE: posts.dfy ===
/** The post list of a gallery page (src/services/Posts.ts) over abstract table rows:
    which rows are real posts, the list of posts with the one being read, moving to
    the n-th post, the `[n]` labels, the date column's short format and the column
    widths. A row records what the DOM queries of the source ask of it. */
module Posts {
  import opened Wrappers
  import opened Text
  import JsNumber
  import opened Seqs

  /** `td.gall_num`: its text, and whether it holds the "current post" icon
      (`.sp_img.crt_icon`). */
  datatype NumCell = NumCell(text: string, currentIcon: bool)

  /** `td.gall_tit`: a notice icon (`em.icon_notice`), a `<b>` element, a link that
      is its first child, and whether that link has a non-empty `href`. */
  datatype TitleCell = TitleCell(noticeIcon: bool, bold: bool, hasLink: bool, linkHref: bool)

  /** A `<tr>` of the list: its two cells when present, the `block-disable` and
      `list_trend` classes, and `style.display === 'none'`. */
  datatype Row = Row(num: Option<NumCell>, title: Option<TitleCell>,
                     blockDisable: bool, listTrend: bool, hidden: bool)

  // ---------------------------------------------------------------------------
  // The reply-count group in the number cell
  // ---------------------------------------------------------------------------

  /** The characters `.` does not match in a regular expression. */
  predicate IsLineTerminator(c: char) {
    c == '\n' || c == '\r' || c == '\U{2028}' || c == '\U{2029}'
  }

  /** From `j`, the first `]` or line terminator (or the end). */
  function CloseFrom(s: string, j: nat): (r: nat)
    requires j <= |s|
    ensures j <= r <= |s|
    ensures forall k :: j <= k < r ==> s[k] != ']' && !IsLineTerminator(s[k])
    ensures r < |s| ==> s[r] == ']' || IsLineTerminator(s[r])
    decreases |s| - j
  {
    if j == |s| || s[j] == ']' || IsLineTerminator(s[j]) then j else CloseFrom(s, j + 1)
  }

  /** `/\[.*?\]/` matches at `i`: a `[`, then a `]` before any line terminator. */
  predicate GroupAt(s: string, i: nat) {
    i < |s| && s[i] == '[' && CloseFrom(s, i + 1) < |s| && s[CloseFrom(s, i + 1)] == ']'
  }

  function FirstGroup(s: string, from: nat): (r: Option<nat>)
    ensures r.Some? ==> from <= r.value && GroupAt(s, r.value)
    ensures r.Some? ==> forall j :: from <= j < r.value ==> !GroupAt(s, j)
    ensures r.None? ==> forall j :: from <= j ==> !GroupAt(s, j)
    decreases |s| - from
  {
    if from >= |s| then None
    else if GroupAt(s, from) then Some(from)
    else FirstGroup(s, from + 1)
  }

  /** From `j`, the end of the run of whitespace. */
  function SpacesFrom(s: string, j: nat): (r: nat)
    requires j <= |s|
    ensures j <= r <= |s|
    ensures forall k :: j <= k < r ==> IsSpace(s[k])
    ensures r < |s| ==> !IsSpace(s[r])
    decreases |s| - j
  {
    if j == |s| || !IsSpace(s[j]) then j else SpacesFrom(s, j + 1)
  }

  /** `s.replace(/\[.*?\]\s*\/, '')`: the leftmost bracket group, shortest, and the
      whitespace after it are cut out; without a group the text is unchanged. */
  function StripFirstGroup(s: string): (r: string)
    ensures (forall j: nat :: !GroupAt(s, j)) ==> r == s
    ensures (exists j: nat :: GroupAt(s, j)) ==> |r| + 2 <= |s|
  {
    match FirstGroup(s, 0)
    case None => s
    case Some(i) =>
      var k := SpacesFrom(s, CloseFrom(s, i + 1) + 1);
      s[..i] + s[k..]
  }

  /** A number cell reading `[d] n` loses its leading group: `n` is what is left. */
  lemma StripLeadingGroup(d: string, ws: string, n: string)
    requires forall k :: 0 <= k < |d| ==> d[k] != ']' && !IsLineTerminator(d[k])
    requires forall k :: 0 <= k < |ws| ==> IsSpace(ws[k])
    requires n == [] || !IsSpace(n[0])
    ensures StripFirstGroup("[" + d + "]" + ws + n) == n
  {
    var s := "[" + d + "]" + ws + n;
    var c := |d| + 1;
    forall k | 1 <= k < c ensures s[k] == d[k - 1] {}
    assert s[c] == ']';
    assert CloseFrom(s, 1) == c;
    assert GroupAt(s, 0);
    var e := |d| + 2 + |ws|;
    forall k | c + 1 <= k < e ensures s[k] == ws[k - c - 1] {}
    assert e < |s| ==> s[e] == n[0];
    assert SpacesFrom(s, c + 1) == e;
    assert s[e..] == n;
  }

  /** A text without `[` has no group. */
  lemma NoBracketNoGroup(s: string)
    requires '[' !in s
    ensures StripFirstGroup(s) == s
  {
    forall j: nat ensures !GroupAt(s, j) {
      if j < |s| {
        assert s[j] in s;
      }
    }
  }

  // ---------------------------------------------------------------------------
  // Classification
  // ---------------------------------------------------------------------------

  /** The trimmed number text. */
  function NumText(c: NumCell): string {
    Trim(c.text)
  }

  /** `isValidPost`: a row is a post when it has both cells, is not blocked, trending
      or hidden, carries no notice icon and no bold title; then the current-post icon
      makes it a post, and otherwise its number text must not be `AD` and, without the
      reply group, must be a non-blank numeric string. */
  predicate IsValidPost(row: Row) {
    row.num.Some? && row.title.Some?
    && !row.blockDisable && !row.listTrend && !row.hidden
    && !row.title.value.noticeIcon && !row.title.value.bold
    && (row.num.value.currentIcon || NumberLooksLikePost(NumText(row.num.value)))
  }

  predicate NumberLooksLikePost(numText: string) {
    var numberPart := StripFirstGroup(numText);
    numText != "AD" && JsNumber.IsNumericString(numberPart) && Trim(numberPart) != ""
  }

  /** The classification, case by case in the order the source tests them. */
  lemma ValidPostCases(row: Row)
    ensures row.num.None? || row.title.None? ==> !IsValidPost(row)
    ensures row.blockDisable || row.listTrend || row.hidden ==> !IsValidPost(row)
    ensures row.title.Some? && (row.title.value.noticeIcon || row.title.value.bold) ==> !IsValidPost(row)
    ensures IsValidPost(row) && !row.num.value.currentIcon ==> NumText(row.num.value) != "AD"
    ensures row.num.Some? && NumText(row.num.value) == "AD" ==>
              (IsValidPost(row) <==> row.num.value.currentIcon && row.title.Some?
                                     && !row.blockDisable && !row.listTrend && !row.hidden
                                     && !row.title.value.noticeIcon && !row.title.value.bold)
  {
  }

  /** A post number, with or without a leading reply group, loses the group. */
  lemma NumberPartOf(t: string, d: string, ws: string, n: string)
    requires |n| >= 1 && AllDigits(n)
    requires forall k :: 0 <= k < |d| ==> d[k] != ']' && !IsLineTerminator(d[k])
    requires forall k :: 0 <= k < |ws| ==> IsSpace(ws[k])
    requires t == n || t == "[" + d + "]" + ws + n
    ensures StripFirstGroup(t) == n && t != "AD"
  {
    assert !IsSpace(n[0]);
    if t == n {
      assert '[' !in n by {
        forall k | 0 <= k < |n| ensures n[k] != '[' { assert IsAsciiDigit(n[k]); }
      }
      NoBracketNoGroup(n);
      assert t != "AD" by { assert IsAsciiDigit(n[0]); }
    } else {
      StripLeadingGroup(d, ws, n);
      assert t != "AD" by { assert t[0] == '['; }
    }
  }

  /** A run of digits is a non-blank numeric string. */
  lemma DigitsArePostNumber(n: string)
    requires |n| >= 1 && AllDigits(n)
    ensures JsNumber.IsNumericString(n) && Trim(n) == n
  {
    JsNumber.DigitsAreNumeric(n);
    assert !IsSpace(n[0]) && !IsSpace(n[|n| - 1]);
    TrimOfTrimmed(n);
  }

  /** A number text that is a post number, with or without a leading reply group,
      looks like a post. */
  lemma NumberTextLooksLikePost(t: string, d: string, ws: string, n: string)
    requires |n| >= 1 && AllDigits(n)
    requires forall k :: 0 <= k < |d| ==> d[k] != ']' && !IsLineTerminator(d[k])
    requires forall k :: 0 <= k < |ws| ==> IsSpace(ws[k])
    requires t == n || t == "[" + d + "]" + ws + n
    ensures NumberLooksLikePost(t)
  {
    NumberPartOf(t, d, ws, n);
    DigitsArePostNumber(n);
  }

  /** An ordinary row whose number cell shows a post number, with or without a
      leading reply group, is a post. */
  lemma NumberedRowIsPost(row: Row, d: string, ws: string, n: string)
    requires row.num.Some? && row.title.Some?
    requires !row.blockDisable && !row.listTrend && !row.hidden
    requires !row.title.value.noticeIcon && !row.title.value.bold
    requires |n| >= 1 && AllDigits(n)
    requires forall k :: 0 <= k < |d| ==> d[k] != ']' && !IsLineTerminator(d[k])
    requires forall k :: 0 <= k < |ws| ==> IsSpace(ws[k])
    requires NumText(row.num.value) == n || NumText(row.num.value) == "[" + d + "]" + ws + n
    ensures IsValidPost(row)
  {
    NumberTextLooksLikePost(NumText(row.num.value), d, ws, n);
  }

  // ---------------------------------------------------------------------------
  // The posts of the page and moving between them
  // ---------------------------------------------------------------------------

  predicate IsCurrent(row: Row) {
    row.num.Some? && row.num.value.currentIcon
  }

  /** A row `getValidPosts` lists: a post whose title has a link. */
  predicate Listed(row: Row) {
    IsValidPost(row) && row.title.value.hasLink
  }

  /** A row the list walk can open: a post whose title link exists and has a
      non-empty `href` (`link?.href`). Every such row is listed. */
  predicate Walkable(row: Row)
    ensures Walkable(row) ==> Listed(row)
  {
    Listed(row) && row.title.value.linkHref
  }

  /** The position of the last element of `ks` that `mark` holds for, or -1. */
  function LastMarked<T>(ks: seq<T>, mark: T -> bool): (r: int)
    ensures -1 <= r < |ks|
  {
    if ks == [] then -1
    else if mark(ks[|ks| - 1]) then |ks| - 1
    else LastMarked(ks[..|ks| - 1], mark)
  }

  /** Appending moves the last mark to the new element exactly when it is marked. */
  lemma LastMarkedSnoc<T>(ks: seq<T>, x: T, mark: T -> bool)
    ensures LastMarked(ks + [x], mark) == if mark(x) then |ks| else LastMarked(ks, mark)
  {
    assert (ks + [x])[..|ks|] == ks;
  }

  /** `LastMarked` is -1 exactly when nothing is marked, and otherwise a marked
      position with nothing marked after it. */
  lemma {:induction false} LastMarkedMeaning<T>(ks: seq<T>, mark: T -> bool)
    ensures LastMarked(ks, mark) == -1 <==> forall i :: 0 <= i < |ks| ==> !mark(ks[i])
    ensures LastMarked(ks, mark) >= 0 ==> mark(ks[LastMarked(ks, mark)])
    ensures LastMarked(ks, mark) >= 0 ==>
              forall j :: LastMarked(ks, mark) < j < |ks| ==> !mark(ks[j])
  {
    if ks != [] && !mark(ks[|ks| - 1]) {
      var init := ks[..|ks| - 1];
      LastMarkedMeaning(init, mark);
      assert forall i :: 0 <= i < |init| ==> init[i] == ks[i];
    }
  }

  /** One pass over `xs`: the accepted elements, and the position among them of the
      last one `mark` holds for, or -1. */
  method FilterFindLast<T>(xs: seq<T>, keep: T -> bool, mark: T -> bool) returns (kept: seq<T>, index: int)
    ensures kept == Filter(xs, keep)
    ensures -1 <= index < |kept|
    ensures index == -1 <==> forall i :: 0 <= i < |kept| ==> !mark(kept[i])
    ensures index >= 0 ==> mark(kept[index])
    ensures index >= 0 ==> forall j :: index < j < |kept| ==> !mark(kept[j])
  {
    kept := [];
    index := -1;
    var i := 0;
    while i < |xs|
      invariant 0 <= i <= |xs|
      invariant kept == Filter(xs[..i], keep)
      invariant index == LastMarked(kept, mark)
    {
      var x := xs[i];
      FilterStep(xs, keep, i);
      if keep(x) {
        LastMarkedSnoc(kept, x, mark);
        kept := kept + [x];
        if mark(x) {
          index := |kept| - 1;
        }
      }
      i := i + 1;
    }
    assert xs[..i] == xs;
    LastMarkedMeaning(kept, mark);
  }

  /** The listed rows in document order. */
  function ListedRows(rows: seq<Row>): (r: seq<Row>)
    ensures |r| <= |rows|
    ensures forall i :: 0 <= i < |r| ==> Listed(r[i]) && r[i] in rows
  {
    Filter(rows, Listed)
  }

  /** `getValidPosts`: the listed rows, and the position among them of the last one
      carrying the current-post icon, or -1. */
  method GetValidPosts(rows: seq<Row>) returns (posts: seq<Row>, currentIndex: int)
    ensures posts == ListedRows(rows)
    ensures -1 <= currentIndex < |posts|
    ensures currentIndex == -1 <==> forall i :: 0 <= i < |posts| ==> !IsCurrent(posts[i])
    ensures currentIndex >= 0 ==> IsCurrent(posts[currentIndex])
    ensures currentIndex >= 0 ==> forall j :: currentIndex < j < |posts| ==> !IsCurrent(posts[j])
  {
    posts, currentIndex := FilterFindLast(rows, Listed, IsCurrent);
  }

  /** `navigate(number)`: the post whose link is followed, when `parseInt(number)`
      names one of the listed posts counting from 1. */
  function Navigate(rows: seq<Row>, number: string): (r: Option<Row>)
    ensures r.Some? <==>
              JsNumber.ParseInt(number).Some? && 1 <= JsNumber.ParseInt(number).value <= |ListedRows(rows)|
    ensures r.Some? ==> r.value == ListedRows(rows)[JsNumber.ParseInt(number).value - 1]
  {
    var posts := ListedRows(rows);
    match JsNumber.ParseInt(number)
    case None => None
    case Some(n) =>
      var index := n - 1;
      if 0 <= index < |posts| then Some(posts[index]) else None
  }

  /** Typing the decimal number `k` of a listed post reaches exactly that post. */
  lemma NavigateToNumber(rows: seq<Row>, k: nat)
    ensures Navigate(rows, NatToString(k)).Some? <==> 1 <= k <= |ListedRows(rows)|
    ensures 1 <= k <= |ListedRows(rows)| ==> Navigate(rows, NatToString(k)) == Some(ListedRows(rows)[k - 1])
  {
    JsNumber.ParseIntOfNatToString(k);
  }

  // ---------------------------------------------------------------------------
  // Number labels
  // ---------------------------------------------------------------------------

  /** A row of some `tbody`, and whether that `tbody` is the first one. */
  datatype Placed = Placed(inFirstBody: bool, row: Row)

  /** The rows of all bodies in document order. */
  function Flatten(bodies: seq<seq<Row>>): (r: seq<Placed>)
  {
    FlattenFrom(bodies, 0)
  }

  function FlattenFrom(bodies: seq<seq<Row>>, i: nat): (r: seq<Placed>)
    requires i <= |bodies|
    decreases |bodies| - i
  {
    if i == |bodies| then []
    else seq(|bodies[i]|, k requires 0 <= k < |bodies[i]| => Placed(i == 0, bodies[i][k]))
         + FlattenFrom(bodies, i + 1)
  }

  /** The rows that get a label: in the first body the posts; in later bodies every
      row with both cells that is neither an `AD` row nor blocked. */
  predicate Labelled(p: Placed) {
    if p.inFirstBody then IsValidPost(p.row)
    else p.row.num.Some? && p.row.title.Some?
         && NumText(p.row.num.value) != "AD" && !p.row.blockDisable
  }

  function CountLabelled(ps: seq<Placed>): (r: nat)
    ensures r <= |ps|
  {
    if ps == [] then 0
    else CountLabelled(ps[..|ps| - 1]) + (if Labelled(ps[|ps| - 1]) then 1 else 0)
  }

  /** The text a label number is shown as. */
  function LabelText(n: nat): string {
    "[" + NatToString(n) + "]"
  }

  /** The label row `k` should carry. */
  function LabelAt(ps: seq<Placed>, k: nat): Option<nat>
    requires k < |ps|
  {
    if Labelled(ps[k]) then Some(CountLabelled(ps[..k]) + 1) else None
  }

  /** `addNumberLabels`: every earlier label is cleared, then the labelled rows get
      1, 2, ... in document order; other rows get none. */
  method AddNumberLabels(ps: seq<Placed>) returns (labels: seq<Option<nat>>)
    ensures |labels| == |ps|
    ensures forall i :: 0 <= i < |ps| ==> (labels[i].Some? <==> Labelled(ps[i]))
    ensures forall i :: 0 <= i < |ps| && labels[i].Some? ==> labels[i].value == CountLabelled(ps[..i]) + 1
  {
    labels := [];
    var n := 0;
    var i := 0;
    while i < |ps|
      invariant 0 <= i <= |ps|
      invariant |labels| == i
      invariant n == CountLabelled(ps[..i])
      invariant forall k :: 0 <= k < i ==> labels[k] == LabelAt(ps, k)
    {
      CountStep(ps, i);
      if Labelled(ps[i]) {
        labels := labels + [Some(n + 1)];
        n := n + 1;
      } else {
        labels := labels + [None];
      }
      i := i + 1;
    }
    LabelsMean(ps, labels);
  }

  /** One more row counts one more exactly when it is labelled. */
  lemma CountStep(ps: seq<Placed>, i: nat)
    requires i < |ps|
    ensures CountLabelled(ps[..i + 1]) == CountLabelled(ps[..i]) + (if Labelled(ps[i]) then 1 else 0)
    ensures LabelAt(ps, i) == if Labelled(ps[i]) then Some(CountLabelled(ps[..i]) + 1) else None
  {
    assert ps[..i + 1][..i] == ps[..i];
  }

  /** Labels that agree with `LabelAt` everywhere carry its meaning. */
  lemma LabelsMean(ps: seq<Placed>, labels: seq<Option<nat>>)
    requires |labels| == |ps|
    requires forall k :: 0 <= k < |ps| ==> labels[k] == LabelAt(ps, k)
    ensures forall i :: 0 <= i < |ps| ==> (labels[i].Some? <==> Labelled(ps[i]))
    ensures forall i :: 0 <= i < |ps| && labels[i].Some? ==> labels[i].value == CountLabelled(ps[..i]) + 1
  {
  }

  /** Counting over a longer prefix never gives less, and a labelled row in between
      adds one. */
  lemma {:induction false} CountGrows(ps: seq<Placed>, i: nat, j: nat)
    requires i < j <= |ps|
    ensures CountLabelled(ps[..j]) >= CountLabelled(ps[..i]) + (if Labelled(ps[i]) then 1 else 0)
    decreases j - i
  {
    assert ps[..j][..j - 1] == ps[..j - 1];
    if j == i + 1 {
    } else {
      CountGrows(ps, i, j - 1);
    }
  }

  /** The labels run 1, 2, ... in document order without gaps or repeats: a later
      labelled row has a larger number, and the last one equals the count. */
  lemma LabelsIncrease(ps: seq<Placed>, labels: seq<Option<nat>>, i: nat, j: nat)
    requires |labels| == |ps|
    requires forall k :: 0 <= k < |ps| ==> (labels[k].Some? <==> Labelled(ps[k]))
    requires forall k :: 0 <= k < |ps| && labels[k].Some? ==> labels[k].value == CountLabelled(ps[..k]) + 1
    requires i < j < |ps| && labels[i].Some? && labels[j].Some?
    ensures labels[i].value < labels[j].value
  {
    CountGrows(ps, i, j);
  }

  // ---------------------------------------------------------------------------
  // Dates
  // ---------------------------------------------------------------------------

  /** `td.gall_date`: its `title` (the full timestamp), its text, and the
      `date-formatted` class. */
  datatype DateCell = DateCell(title: string, text: string, formatted: bool)

  /** The calendar day of the browser's clock. */
  datatype Day = Day(year: nat, month: nat, day: nat)

  predicate DigitsAt(s: string, i: nat, n: nat) {
    i + n <= |s| && forall k :: i <= k < i + n ==> IsAsciiDigit(s[k])
  }

  /** `/(\d{4})-(\d{2})-(\d{2})\s(\d{2}):(\d{2}):\d{2}/` matches at `i`. */
  predicate TimestampAt(s: string, i: nat) {
    i + 19 <= |s|
    && DigitsAt(s, i, 4) && s[i + 4] == '-' && DigitsAt(s, i + 5, 2) && s[i + 7] == '-'
    && DigitsAt(s, i + 8, 2) && IsSpace(s[i + 10]) && DigitsAt(s, i + 11, 2) && s[i + 13] == ':'
    && DigitsAt(s, i + 14, 2) && s[i + 16] == ':' && DigitsAt(s, i + 17, 2)
  }

  function FirstTimestamp(s: string, from: nat): (r: Option<nat>)
    ensures r.Some? ==> from <= r.value && TimestampAt(s, r.value)
    ensures r.Some? ==> forall j :: from <= j < r.value ==> !TimestampAt(s, j)
    ensures r.None? ==> forall j :: from <= j ==> !TimestampAt(s, j)
    decreases |s| - from
  {
    if from + 19 > |s| then None
    else if TimestampAt(s, from) then Some(from)
    else FirstTimestamp(s, from + 1)
  }

  /** `YYYY-MM-DD` of today, as the source builds it (the year is not padded). */
  function TodayString(today: Day): string {
    NatToString(today.year) + "-" + Pad2(today.month) + "-" + Pad2(today.day)
  }

  /** The short form of the timestamp at `i`: `HH:mm` when its day is today, else
      `MM.DD HH:mm`. */
  function ShortDate(s: string, i: nat, today: Day): (r: string)
    requires TimestampAt(s, i)
    ensures s[i..i + 10] == TodayString(today) ==> |r| == 5 && r[2] == ':'
    ensures s[i..i + 10] != TodayString(today) ==> |r| == 11 && r[2] == '.' && r[5] == ' ' && r[8] == ':'
    ensures r[|r| - 5..] == s[i + 11..i + 13] + ":" + s[i + 14..i + 16]
  {
    var month := s[i + 5..i + 7];
    var day := s[i + 8..i + 10];
    var hour := s[i + 11..i + 13];
    var minute := s[i + 14..i + 16];
    var postDate := s[i..i + 4] + "-" + month + "-" + day;
    assert postDate == s[i..i + 10];
    if postDate == TodayString(today) then hour + ":" + minute
    else month + "." + day + " " + hour + ":" + minute
  }

  /** `formatDates` on one cell. Cells already marked are not visited; a visited cell
      whose title holds a timestamp shows its short form; every visited cell is
      marked. */
  function FormatDate(c: DateCell, today: Day): (r: DateCell)
    ensures r.formatted && r.title == c.title
    ensures c.formatted ==> r == c
    ensures FirstTimestamp(c.title, 0).None? ==> r.text == c.text
    ensures !c.formatted && FirstTimestamp(c.title, 0).Some? ==>
              r.text == ShortDate(c.title, FirstTimestamp(c.title, 0).value, today)
  {
    if c.formatted then c
    else
      var text :=
        if c.title != "" then
          match FirstTimestamp(c.title, 0)
          case None => c.text
          case Some(i) => ShortDate(c.title, i, today)
        else c.text;
      c.(text := text, formatted := true)
  }

  function FormatDates(cells: seq<DateCell>, today: Day): (r: seq<DateCell>)
    ensures |r| == |cells|
    ensures forall i :: 0 <= i < |cells| ==> r[i] == FormatDate(cells[i], today)
  {
    seq(|cells|, i requires 0 <= i < |cells| => FormatDate(cells[i], today))
  }

  /** Formatting twice is formatting once: the mark keeps a cell from being
      rewritten, even on another day. */
  lemma FormatDatesOnce(cells: seq<DateCell>, today: Day, later: Day)
    ensures FormatDates(FormatDates(cells, today), later) == FormatDates(cells, today)
  {
  }

  // ---------------------------------------------------------------------------
  // Column widths
  // ---------------------------------------------------------------------------

  /** The widths for 8, 7 and 6 columns; `None` is the column that takes the rest. */
  const Widths8: seq<Option<string>> :=
    [Some("25px"), Some("9%"), Some("51px"), None, Some("15%"), Some("8%"), Some("6%"), Some("6%")]
  const Widths7: seq<Option<string>> :=
    [Some("9%"), Some("51px"), None, Some("15%"), Some("8%"), Some("6%"), Some("6%")]
  const Widths6: seq<Option<string>> :=
    [Some("9%"), None, Some("15%"), Some("8%"), Some("6%"), Some("6%")]

  function TargetWidths(n: nat): (r: Option<seq<Option<string>>>)
    ensures r.Some? <==> 6 <= n <= 8
    ensures r.Some? ==> |r.value| == n
  {
    if n == 8 then Some(Widths8)
    else if n == 7 then Some(Widths7)
    else if n == 6 then Some(Widths6)
    else None
  }

  /** `adjustColgroupWidths` on the `style.width` of each `<col>` (`None` when the
      table has no `colgroup`): with 6, 7 or 8 columns each takes its set width and the
      free column is cleared; any other count is left alone. */
  function AdjustColgroupWidths(cols: Option<seq<string>>): (r: Option<seq<string>>)
    ensures cols.None? ==> r.None?
    ensures cols.Some? && TargetWidths(|cols.value|).None? ==> r == cols
    ensures cols.Some? && TargetWidths(|cols.value|).Some? ==>
              r.Some? && |r.value| == |cols.value|
              && forall i :: 0 <= i < |cols.value| ==> r.value[i] == TargetWidths(|cols.value|).value[i].GetOr("")
  {
    match cols
    case None => None
    case Some(widths) =>
      match TargetWidths(|widths|)
      case None => cols
      case Some(target) =>
        Some(seq(|widths|, i requires 0 <= i < |widths| =>
          if i >= |target| then widths[i]
          else if target[i].Some? then target[i].value
          else if widths[i] != "" then "" else widths[i]))
  }

  /** Adjusting twice is adjusting once. */
  lemma AdjustTwice(cols: Option<seq<string>>)
    ensures AdjustColgroupWidths(AdjustColgroupWidths(cols)) == AdjustColgroupWidths(cols)
  {
    var r := AdjustColgroupWidths(cols);
    if cols.Some? && TargetWidths(|cols.value|).Some? {
      var target := TargetWidths(|cols.value|).value;
      assert TargetWidths(|r.value|) == Some(target);
      var rr := AdjustColgroupWidths(r);
      assert |rr.value| == |r.value|;
      forall i | 0 <= i < |r.value| ensures rr.value[i] == r.value[i] {
        assert rr.value[i] == target[i].GetOr("");
      }
      assert rr.value == r.value;
    }
  }

  /** The three layouts agree: 7 columns are the 8 without the leading checkbox column,
      and 6 are the 7 without the subject column. */
  lemma LayoutsNest()
    ensures Widths7 == Widths8[1..]
    ensures Widths6 == Widths7[..1] + Widths7[2..]
  {
  }
}

=== FILE: refresh_merge.dfy ===
/** The list merge performed by a successful auto-refresh check
    (src/services/AutoRefresher.ts): refreshing reply counts, finding the newest
    post already shown, picking the fetched rows that are new, and inserting them
    above the existing posts while keeping at most 50 posts. Table rows are
    abstract records; `valid` is the verdict of the post-row classifier. */
module RefreshMerge {
  import opened Wrappers
  import opened JsNumber
  import Seqs

  /** A `<tr>` of the post list. `key` is the number cell's text, trimmed and with its
      first `[..]` group removed; `reply` is the text of the reply-count badge. */
  datatype Row = Row(
    key: string,
    valid: bool,
    crt: bool,            // carries the "current post" icon
    hasCells: bool,       // has both a number cell and a title cell
    reply: Option<string>,
    ubContent: bool,      // has the `ub-content` class
    cells: nat,
    highlighted: bool)

  /** `parseInt` of the row's number; `None` is NaN. */
  function Num(r: Row): Option<int> {
    ParseInt(r.key)
  }

  const MaxPosts: nat := 50

  // ---------------------------------------------------------------------------
  // Reply-count refresh
  // ---------------------------------------------------------------------------

  /** Rows that take part in the reply refresh: both cells present and a key that
      is non-empty and numeric for `Number`. */
  predicate Keyed(r: Row) {
    r.hasCells && r.key != [] && IsNumericString(r.key)
  }

  predicate Matches(r: Row, key: string) {
    Keyed(r) && r.key == key
  }

  /** The reply badge recorded for `key` by the fetched list; a later row with the
      same key overwrites an earlier one, as `Map.set` does. */
  function FetchedReply(fetched: seq<Row>, key: string): (r: Option<Option<string>>)
    ensures r.None? <==> forall j :: 0 <= j < |fetched| ==> !Matches(fetched[j], key)
    ensures r.Some? ==> exists i :: 0 <= i < |fetched| && Matches(fetched[i], key)
                                    && r.value == fetched[i].reply
                                    && forall j :: i < j < |fetched| ==> !Matches(fetched[j], key)
  {
    match Seqs.LastIndex(fetched, (row: Row) => Matches(row, key))
    case None => None
    case Some(i) => Some(fetched[i].reply)
  }

  /** Each local row whose key the fetched list knows takes the fetched badge (added,
      updated or removed); every other row and every other field is left alone. */
  function SyncReplies(local: seq<Row>, fetched: seq<Row>): (r: seq<Row>)
    ensures |r| == |local|
    ensures forall i :: 0 <= i < |local| ==> r[i] == local[i].(reply := r[i].reply)
    ensures forall i :: 0 <= i < |local| && Keyed(local[i]) && FetchedReply(fetched, local[i].key).Some? ==>
              r[i].reply == FetchedReply(fetched, local[i].key).value
    ensures forall i :: 0 <= i < |local| && !(Keyed(local[i]) && FetchedReply(fetched, local[i].key).Some?) ==>
              r[i] == local[i]
  {
    seq(|local|, i requires 0 <= i < |local| =>
      var row := local[i];
      if Keyed(row) && FetchedReply(fetched, row.key).Some?
      then row.(reply := FetchedReply(fetched, row.key).value)
      else row)
  }

  // ---------------------------------------------------------------------------
  // Newest post already shown, and the new rows
  // ---------------------------------------------------------------------------

  /** Local rows whose number counts towards the newest shown post. */
  predicate CountsForLatest(r: Row) {
    r.valid && !r.crt && Num(r).Some?
  }

  /** `latestPostNumber` before the URL is consulted: the largest number of a valid
      local row without the current-post icon, or 0. */
  function LatestShown(rows: seq<Row>): (m: int)
    ensures m >= 0
    ensures forall i :: 0 <= i < |rows| && CountsForLatest(rows[i]) ==> Num(rows[i]).value <= m
    ensures m == 0 || exists i :: 0 <= i < |rows| && CountsForLatest(rows[i]) && Num(rows[i]).value == m
  {
    Seqs.MaxWhere(rows, CountsForLatest, NumOr0)
  }

  /** The row's number, 0 for NaN. */
  function NumOr0(r: Row): int {
    if Num(r).Some? then Num(r).value else 0
  }

  /** On a `/view/` page the post number in the URL also counts. */
  function Latest(rows: seq<Row>, viewPostNo: Option<int>): (m: int)
    ensures m >= LatestShown(rows)
    ensures viewPostNo.Some? ==> m >= viewPostNo.value
    ensures m == LatestShown(rows) || (viewPostNo.Some? && m == viewPostNo.value)
  {
    var base := LatestShown(rows);
    if viewPostNo.Some? && viewPostNo.value > base then viewPostNo.value else base
  }

  /** A fetched row is new when it is valid and its number exceeds `latest`
      (a NaN number never does). */
  predicate IsNew(r: Row, latest: int) {
    r.valid && Num(r).Some? && Num(r).value > latest
  }

  function NewRows(fetched: seq<Row>, latest: int): (r: seq<Row>)
    ensures |r| <= |fetched|
    ensures forall i :: 0 <= i < |r| ==> IsNew(r[i], latest) && r[i] in fetched
    ensures forall i :: 0 <= i < |fetched| && IsNew(fetched[i], latest) ==> fetched[i] in r
    ensures r == ValidRows(r)
  {
    var r := Seqs.Filter(fetched, (row: Row) => IsNew(row, latest));
    AllValid(r);
    r
  }

  // ---------------------------------------------------------------------------
  // Insertion and trimming
  // ---------------------------------------------------------------------------

  /** The valid rows, in document order. */
  function ValidRows(rows: seq<Row>): (r: seq<Row>)
    ensures |r| <= |rows|
    ensures forall i :: 0 <= i < |r| ==> r[i].valid
  {
    if rows == [] then []
    else (if rows[0].valid then [rows[0]] else []) + ValidRows(rows[1..])
  }

  /** The rows that are not valid posts (notices, ads, spacers), in document order. */
  function OtherRows(rows: seq<Row>): seq<Row> {
    if rows == [] then []
    else (if rows[0].valid then [] else [rows[0]]) + OtherRows(rows[1..])
  }

  lemma {:induction false} ValidAppend(a: seq<Row>, b: seq<Row>)
    ensures ValidRows(a + b) == ValidRows(a) + ValidRows(b)
  {
    if a != [] {
      assert (a + b)[0] == a[0] && (a + b)[1..] == a[1..] + b;
      ValidAppend(a[1..], b);
    } else {
      assert a + b == b;
    }
  }

  lemma {:induction false} OtherAppend(a: seq<Row>, b: seq<Row>)
    ensures OtherRows(a + b) == OtherRows(a) + OtherRows(b)
  {
    if a != [] {
      assert (a + b)[0] == a[0] && (a + b)[1..] == a[1..] + b;
      OtherAppend(a[1..], b);
    } else {
      assert a + b == b;
    }
  }

  lemma {:induction false} AllValid(rows: seq<Row>)
    requires forall i :: 0 <= i < |rows| ==> rows[i].valid
    ensures ValidRows(rows) == rows
  {
    if rows != [] {
      assert forall i :: 0 <= i < |rows[1..]| ==> rows[1..][i] == rows[i + 1];
      AllValid(rows[1..]);
    }
  }

  /** Index of the first row with the `ub-content` class, the column-count sample. */
  function SampleIndex(rows: seq<Row>): (r: Option<nat>)
    ensures r.Some? ==> r.value < |rows| && rows[r.value].ubContent
                        && forall j :: 0 <= j < r.value ==> !rows[j].ubContent
    ensures r.None? ==> forall j :: 0 <= j < |rows| ==> !rows[j].ubContent
  {
    if rows == [] then None
    else if rows[0].ubContent then Some(0)
    else match SampleIndex(rows[1..])
         case None => None
         case Some(k) => Some(k + 1)
  }

  /** The insertion anchor: the first valid row, or the end of the body (where
      `insertBefore(row, null)` appends). */
  function AnchorIndex(rows: seq<Row>): (r: nat)
    ensures r <= |rows|
    ensures r < |rows| ==> rows[r].valid
    ensures forall j :: 0 <= j < r ==> !rows[j].valid
  {
    if rows == [] then 0
    else if rows[0].valid then 0
    else AnchorIndex(rows[1..]) + 1
  }

  /** A cloned row padded at the front with empty cells up to `columns`, and marked
      as highlighted. */
  function Prepare(r: Row, columns: nat): (p: Row)
    ensures p == r.(cells := p.cells, highlighted := true)
    ensures p.cells >= columns && p.cells >= r.cells
    ensures r.cells >= columns ==> p.cells == r.cells
  {
    r.(cells := if r.cells < columns then columns else r.cells, highlighted := true)
  }

  function PrepareAll(rows: seq<Row>, columns: nat): (r: seq<Row>)
    ensures |r| == |rows|
    ensures forall i :: 0 <= i < |rows| ==> r[i] == Prepare(rows[i], columns)
  {
    seq(|rows|, i requires 0 <= i < |rows| => Prepare(rows[i], columns))
  }

  /** Keeps the first `keep` valid rows and drops every later valid row; the other
      rows stay where they are. */
  function TrimValid(rows: seq<Row>, keep: nat): (r: seq<Row>)
    decreases |rows|
  {
    if rows == [] then []
    else if !rows[0].valid then [rows[0]] + TrimValid(rows[1..], keep)
    else if keep > 0 then [rows[0]] + TrimValid(rows[1..], keep - 1)
    else TrimValid(rows[1..], 0)
  }

  /** Trimming keeps exactly the leading `keep` valid rows and every other row. */
  lemma TrimValidSpec(rows: seq<Row>, keep: nat)
    ensures ValidRows(TrimValid(rows, keep)) == Seqs.Take(ValidRows(rows), keep)
    ensures OtherRows(TrimValid(rows, keep)) == OtherRows(rows)
  {
    TrimValidKeeps(rows, keep);
    TrimValidOthers(rows, keep);
  }

  lemma {:induction false} TrimValidKeeps(rows: seq<Row>, keep: nat)
    ensures ValidRows(TrimValid(rows, keep)) == Seqs.Take(ValidRows(rows), keep)
    decreases |rows|
  {
    if rows != [] {
      var x, tail := rows[0], rows[1..];
      assert ValidRows(rows) == (if x.valid then [x] else []) + ValidRows(tail);
      if !x.valid {
        TrimValidKeeps(tail, keep);
        ValidAppend([x], TrimValid(tail, keep));
      } else if keep > 0 {
        TrimValidKeeps(tail, keep - 1);
        ValidAppend([x], TrimValid(tail, keep - 1));
        Seqs.TakeCons(x, ValidRows(tail), keep);
      } else {
        TrimValidKeeps(tail, 0);
      }
    }
  }

  lemma {:induction false} TrimValidOthers(rows: seq<Row>, keep: nat)
    ensures OtherRows(TrimValid(rows, keep)) == OtherRows(rows)
    decreases |rows|
  {
    if rows != [] {
      if !rows[0].valid {
        TrimValidOthers(rows[1..], keep);
        OtherAppend([rows[0]], TrimValid(rows[1..], keep));
      } else if keep > 0 {
        TrimValidOthers(rows[1..], keep - 1);
        OtherAppend([rows[0]], TrimValid(rows[1..], keep - 1));
      } else {
        TrimValidOthers(rows[1..], 0);
      }
    }
  }

  /** `insertAndTrimPosts` with the new rows kept in fetched order. With no
      `ub-content` sample row, or a sample without cells, nothing changes;
      otherwise the rows go in front of the first valid row and valid rows beyond
      the 50th are removed from the end. */
  function InsertAndTrim(local: seq<Row>, incoming: seq<Row>): (r: seq<Row>)
  {
    match SampleIndex(local)
    case None => local
    case Some(k) =>
      var columns := local[k].cells;
      if columns == 0 then local
      else
        var at := AnchorIndex(local);
        TrimValid(local[..at] + PrepareAll(incoming, columns) + local[at..], MaxPosts)
  }

  /** Splicing rows after a stretch without posts puts their posts first. */
  lemma SpliceValid(pre: seq<Row>, padded: seq<Row>, post: seq<Row>)
    requires ValidRows(pre) == []
    ensures ValidRows(pre + padded + post) == ValidRows(padded) + ValidRows(pre + post)
  {
    ValidAppend(pre + padded, post);
    ValidAppend(pre, padded);
    ValidAppend(pre, post);
  }

  /** Splicing keeps the other rows of both parts, in document order. */
  lemma SpliceOthers(pre: seq<Row>, padded: seq<Row>, post: seq<Row>)
    ensures OtherRows(pre + padded + post) == OtherRows(pre) + OtherRows(padded) + OtherRows(post)
  {
    OtherAppend(pre + padded, post);
    OtherAppend(pre, padded);
  }

  /** Rows spliced in at the anchor and then trimmed: the spliced valid rows come
      before every old valid post, and no row other than a valid one is lost. */
  lemma SpliceAtAnchor(local: seq<Row>, padded: seq<Row>)
    ensures ValidRows(TrimValid(local[..AnchorIndex(local)] + padded + local[AnchorIndex(local)..], MaxPosts))
            == Seqs.Take(ValidRows(padded) + ValidRows(local), MaxPosts)
    ensures OtherRows(TrimValid(local[..AnchorIndex(local)] + padded + local[AnchorIndex(local)..], MaxPosts))
            == OtherRows(local[..AnchorIndex(local)]) + OtherRows(padded) + OtherRows(local[AnchorIndex(local)..])
  {
    var at := AnchorIndex(local);
    SpliceTrimValid(local[..at], padded, local[at..], local);
    SpliceTrimOthers(local[..at], padded, local[at..]);
  }

  lemma SpliceTrimValid(pre: seq<Row>, padded: seq<Row>, post: seq<Row>, local: seq<Row>)
    requires forall j :: 0 <= j < |pre| ==> !pre[j].valid
    requires local == pre + post
    ensures ValidRows(TrimValid(pre + padded + post, MaxPosts)) == Seqs.Take(ValidRows(padded) + ValidRows(local), MaxPosts)
  {
    NoValidBefore(pre);
    SpliceValid(pre, padded, post);
    TrimValidKeeps(pre + padded + post, MaxPosts);
  }

  lemma SpliceTrimOthers(pre: seq<Row>, padded: seq<Row>, post: seq<Row>)
    ensures OtherRows(TrimValid(pre + padded + post, MaxPosts)) == OtherRows(pre) + OtherRows(padded) + OtherRows(post)
  {
    SpliceOthers(pre, padded, post);
    TrimValidOthers(pre + padded + post, MaxPosts);
  }

  /** The evident intent: new posts appear above the old ones, in the order the
      server lists them, and at most 50 posts remain, the oldest going first;
      notices and other non-post rows all stay. */
  lemma InsertAndTrimSpec(local: seq<Row>, incoming: seq<Row>)
    ensures SampleIndex(local).None? ==> InsertAndTrim(local, incoming) == local
    ensures SampleIndex(local).Some? && local[SampleIndex(local).value].cells == 0 ==>
              InsertAndTrim(local, incoming) == local
    ensures SampleIndex(local).Some? && local[SampleIndex(local).value].cells > 0 ==>
              ValidRows(InsertAndTrim(local, incoming))
                == Seqs.Take(ValidRows(PrepareAll(incoming, local[SampleIndex(local).value].cells)) + ValidRows(local), MaxPosts)
              && OtherRows(InsertAndTrim(local, incoming))
                == OtherRows(local[..AnchorIndex(local)])
                   + OtherRows(PrepareAll(incoming, local[SampleIndex(local).value].cells))
                   + OtherRows(local[AnchorIndex(local)..])
  {
    if SampleIndex(local).Some? {
      var columns := local[SampleIndex(local).value].cells;
      if columns > 0 {
        SpliceAtAnchor(local, PrepareAll(incoming, columns));
      }
    }
  }

  lemma {:induction false} NoValidBefore(rows: seq<Row>)
    requires forall j :: 0 <= j < |rows| ==> !rows[j].valid
    ensures ValidRows(rows) == []
  {
    if rows != [] {
      NoValidBefore(rows[1..]);
    }
  }

  function Reverse<T>(s: seq<T>): (r: seq<T>)
    ensures |r| == |s|
    ensures forall i :: 0 <= i < |s| ==> r[i] == s[|s| - 1 - i]
  {
    if s == [] then [] else Reverse(s[1..]) + [s[0]]
  }

  /** `insertAndTrimPosts` as written: the rows are reversed and then each is
      inserted before the same anchor row. */
  function InsertAndTrimAsWritten(local: seq<Row>, incoming: seq<Row>): (r: seq<Row>)
  {
    match SampleIndex(local)
    case None => local
    case Some(k) =>
      var columns := local[k].cells;
      if columns == 0 then local
      else
        var at := AnchorIndex(local);
        TrimValid(InsertEachBefore(local, at, Reverse(incoming), columns), MaxPosts)
  }

  /** Inserting `rows` one by one, each immediately before the anchor row, which
      sits at `at` and moves down by one with every insertion. */
  function InsertEachBefore(local: seq<Row>, at: nat, rows: seq<Row>, columns: nat): (r: seq<Row>)
    requires at <= |local|
    decreases |rows|
  {
    if rows == [] then local
    else InsertEachBefore(local[..at] + [Prepare(rows[0], columns)] + local[at..], at + 1, rows[1..], columns)
  }

  /** Inserting one by one before a fixed anchor lays the rows out in the order
      they are inserted. */
  lemma {:induction false} InsertEachBeforeSplices(local: seq<Row>, at: nat, rows: seq<Row>, columns: nat)
    requires at <= |local|
    ensures InsertEachBefore(local, at, rows, columns) == local[..at] + PrepareAll(rows, columns) + local[at..]
    decreases |rows|
  {
    if rows != [] {
      var next := local[..at] + [Prepare(rows[0], columns)] + local[at..];
      InsertEachBeforeSplices(next, at + 1, rows[1..], columns);
      assert next[..at + 1] == local[..at] + [Prepare(rows[0], columns)];
      assert next[at + 1..] == local[at..];
      assert PrepareAll(rows, columns) == [Prepare(rows[0], columns)] + PrepareAll(rows[1..], columns);
    }
  }

  /** What the code as written does: the new posts land above the old ones, but
      in the reverse of the order the server lists them. */
  lemma InsertAndTrimAsWrittenSpec(local: seq<Row>, incoming: seq<Row>)
    ensures SampleIndex(local).None? ==> InsertAndTrimAsWritten(local, incoming) == local
    ensures SampleIndex(local).Some? && local[SampleIndex(local).value].cells > 0 ==>
              ValidRows(InsertAndTrimAsWritten(local, incoming))
                == Seqs.Take(ValidRows(PrepareAll(Reverse(incoming), local[SampleIndex(local).value].cells)) + ValidRows(local), MaxPosts)
  {
    if SampleIndex(local).Some? {
      var columns := local[SampleIndex(local).value].cells;
      if columns > 0 {
        InsertEachBeforeSplices(local, AnchorIndex(local), Reverse(incoming), columns);
        SpliceAtAnchor(local, PrepareAll(Reverse(incoming), columns));
      }
    }
  }

  /** Inserting one by one before the fixed anchor is inserting the reversed rows
      as a block. */
  lemma AsWrittenReverses(local: seq<Row>, incoming: seq<Row>)
    ensures InsertAndTrimAsWritten(local, incoming) == InsertAndTrim(local, Reverse(incoming))
  {
    if SampleIndex(local).Some? {
      var columns := local[SampleIndex(local).value].cells;
      if columns > 0 {
        InsertEachBeforeSplices(local, AnchorIndex(local), Reverse(incoming), columns);
      }
    }
  }

  /** Two new posts above a page holding one post: the code as written shows them
      in the reverse of the order the server lists them, the intended insertion in
      that order. */
  lemma InsertionOrderReversed(c: Row, n1: Row, n2: Row)
    requires c.valid && c.ubContent && c.cells > 0 && n1.valid && n2.valid
    ensures ValidRows(InsertAndTrimAsWritten([c], [n1, n2])) == [Prepare(n2, c.cells), Prepare(n1, c.cells), c]
    ensures ValidRows(InsertAndTrim([c], [n1, n2])) == [Prepare(n1, c.cells), Prepare(n2, c.cells), c]
    ensures n1.key != n2.key ==>
              ValidRows(InsertAndTrimAsWritten([c], [n1, n2])) != ValidRows(InsertAndTrim([c], [n1, n2]))
  {
    var local := [c];
    var a, b := Prepare(n1, c.cells), Prepare(n2, c.cells);
    assert SampleIndex(local) == Some(0);
    assert ValidRows(local) == [c] by {
      assert ValidRows(local) == [c] + ValidRows(local[1..]);
    }
    InsertAndTrimSpec(local, [n1, n2]);
    InsertAndTrimAsWrittenSpec(local, [n1, n2]);
    assert Reverse([n1, n2]) == [n2, n1];
    assert PrepareAll([n1, n2], c.cells) == [a, b];
    assert PrepareAll([n2, n1], c.cells) == [b, a];
    TwoValid(a, b);
    TwoValid(b, a);
    if n1.key != n2.key {
      assert [b, a, c][0] != [a, b, c][0];
    }
  }

  lemma TwoValid(a: Row, b: Row)
    requires a.valid && b.valid
    ensures ValidRows([a, b]) == [a, b]
  {
    AllValid([a, b]);
  }
}

=== FILE: seqs.dfy ===
/** Order-preserving selection from a sequence (`Array.prototype.filter`) and the
    facts about it the model's scans and edits rely on. */
module Seqs {
  import opened Wrappers

  /** The elements `keep` accepts, in their original order. */
  function Filter<T>(xs: seq<T>, keep: T -> bool): (r: seq<T>)
    ensures |r| <= |xs|
    ensures forall i :: 0 <= i < |r| ==> keep(r[i]) && r[i] in xs
    ensures forall i :: 0 <= i < |xs| && keep(xs[i]) ==> xs[i] in r
  {
    if xs == [] then []
    else
      var init := Filter(xs[..|xs| - 1], keep);
      var last := xs[|xs| - 1];
      assert forall i :: 0 <= i < |xs| - 1 ==> xs[i] == xs[..|xs| - 1][i];
      if keep(last) then init + [last] else init
  }

  /** Filtering a prefix one element longer. */
  lemma FilterStep<T>(xs: seq<T>, keep: T -> bool, i: nat)
    requires i < |xs|
    ensures Filter(xs[..i + 1], keep) == Filter(xs[..i], keep) + (if keep(xs[i]) then [xs[i]] else [])
  {
    assert xs[..i + 1][..i] == xs[..i];
  }

  /** Filtering distributes over concatenation. */
  lemma {:induction false} FilterConcat<T>(a: seq<T>, b: seq<T>, keep: T -> bool)
    ensures Filter(a + b, keep) == Filter(a, keep) + Filter(b, keep)
    decreases |b|
  {
    if b == [] {
      assert a + b == a;
    } else {
      var b' := b[..|b| - 1];
      assert (a + b)[..|a + b| - 1] == a + b';
      FilterConcat(a, b', keep);
    }
  }

  /** Nothing accepted, nothing kept. */
  lemma {:induction false} FilterNone<T>(xs: seq<T>, keep: T -> bool)
    requires forall i :: 0 <= i < |xs| ==> !keep(xs[i])
    ensures Filter(xs, keep) == []
  {
    if xs != [] {
      FilterNone(xs[..|xs| - 1], keep);
    }
  }

  /** Everything accepted, everything kept. */
  lemma {:induction false} FilterAll<T>(xs: seq<T>, keep: T -> bool)
    requires forall i :: 0 <= i < |xs| ==> keep(xs[i])
    ensures Filter(xs, keep) == xs
  {
    if xs != [] {
      FilterAll(xs[..|xs| - 1], keep);
    }
  }

  /** Replacing one element: the filtered sequence changes only at that element. */
  lemma FilterUpdate<T>(xs: seq<T>, e: nat, t: T, keep: T -> bool)
    requires e < |xs|
    ensures Filter(xs[e := t], keep) ==
              Filter(xs[..e], keep) + (if keep(t) then [t] else []) + Filter(xs[e + 1..], keep)
    ensures Filter(xs, keep) ==
              Filter(xs[..e], keep) + (if keep(xs[e]) then [xs[e]] else []) + Filter(xs[e + 1..], keep)
  {
    var ys := xs[e := t];
    assert ys == xs[..e] + [t] + xs[e + 1..];
    assert xs == xs[..e] + [xs[e]] + xs[e + 1..];
    FilterConcat(xs[..e] + [t], xs[e + 1..], keep);
    FilterConcat(xs[..e], [t], keep);
    FilterConcat(xs[..e] + [xs[e]], xs[e + 1..], keep);
    FilterConcat(xs[..e], [xs[e]], keep);
    assert Filter([t], keep) == (if keep(t) then [t] else []) by {
      assert [t][..0] == [];
    }
    assert Filter([xs[e]], keep) == (if keep(xs[e]) then [xs[e]] else []) by {
      assert [xs[e]][..0] == [];
    }
  }

  /** Filtering a sequence with one more element in front. */
  lemma FilterCons<T>(x: T, xs: seq<T>, keep: T -> bool)
    ensures Filter([x] + xs, keep) == (if keep(x) then [x] else []) + Filter(xs, keep)
  {
    FilterConcat([x], xs, keep);
    assert Filter([x], keep) == (if keep(x) then [x] else []) by {
      assert [x][..|[x]| - 1] == [];
    }
  }

  /** Every prefix of a filtered sequence is the filter of some prefix of the input. */
  lemma {:induction false} FilterPrefix<T>(xs: seq<T>, keep: T -> bool, k: nat) returns (n: nat)
    requires k <= |Filter(xs, keep)|
    ensures n <= |xs| && Filter(xs[..n], keep) == Filter(xs, keep)[..k]
  {
    if k == |Filter(xs, keep)| {
      assert xs[..|xs|] == xs;
      n := |xs|;
    } else {
      var init := xs[..|xs| - 1];
      assert Filter(xs, keep)[..k] == Filter(init, keep)[..k];
      n := FilterPrefix(init, keep, k);
      assert init[..n] == xs[..n];
    }
  }

  /** Keeps each element whose key is not in `seen` and was not the key of an earlier
      kept element, in order. */
  function DedupBy<T, K>(xs: seq<T>, key: T -> K, seen: set<K>): (r: seq<T>)
    ensures |r| <= |xs|
    ensures forall i :: 0 <= i < |r| ==> r[i] in xs && key(r[i]) !in seen
    ensures forall i, j :: 0 <= i < j < |r| ==> key(r[i]) != key(r[j])
    ensures forall x :: x in xs ==> key(x) in seen || exists i :: 0 <= i < |r| && key(r[i]) == key(x)
  {
    if xs == [] then []
    else
      var k := key(xs[0]);
      if k in seen then
        var rest := DedupBy(xs[1..], key, seen);
        DedupSkip(xs, key, seen, rest);
        rest
      else
        var rest := DedupBy(xs[1..], key, seen + {k});
        DedupCons(xs, key, seen, rest);
        [xs[0]] + rest
  }

  /** The step of `DedupBy` that drops a first element whose key was seen. */
  lemma DedupSkip<T, K>(xs: seq<T>, key: T -> K, seen: set<K>, rest: seq<T>)
    requires xs != [] && key(xs[0]) in seen
    requires forall i :: 0 <= i < |rest| ==> rest[i] in xs[1..] && key(rest[i]) !in seen
    requires forall x :: x in xs[1..] ==> key(x) in seen || exists i :: 0 <= i < |rest| && key(rest[i]) == key(x)
    ensures forall i :: 0 <= i < |rest| ==> rest[i] in xs
    ensures forall x :: x in xs ==> key(x) in seen || exists i :: 0 <= i < |rest| && key(rest[i]) == key(x)
  {
    assert forall x :: x in xs ==> x == xs[0] || x in xs[1..];
  }

  /** The step of `DedupBy` that keeps a first element with a new key. */
  lemma DedupCons<T, K>(xs: seq<T>, key: T -> K, seen: set<K>, rest: seq<T>)
    requires xs != [] && key(xs[0]) !in seen
    requires forall i :: 0 <= i < |rest| ==> rest[i] in xs[1..] && key(rest[i]) !in seen + {key(xs[0])}
    requires forall i, j :: 0 <= i < j < |rest| ==> key(rest[i]) != key(rest[j])
    requires forall x :: x in xs[1..] ==> key(x) in seen + {key(xs[0])} || exists i :: 0 <= i < |rest| && key(rest[i]) == key(x)
    ensures forall i :: 0 <= i < |[xs[0]] + rest| ==> ([xs[0]] + rest)[i] in xs && key(([xs[0]] + rest)[i]) !in seen
    ensures forall i, j :: 0 <= i < j < |[xs[0]] + rest| ==> key(([xs[0]] + rest)[i]) != key(([xs[0]] + rest)[j])
    ensures forall x :: x in xs ==> key(x) in seen || exists i :: 0 <= i < |[xs[0]] + rest| && key(([xs[0]] + rest)[i]) == key(x)
  {
    var r := [xs[0]] + rest;
    ConsMembers(xs, key, seen, rest, r);
    ConsDistinct(key(xs[0]), key, rest, r);
    ConsCovers(xs, key, seen, rest, r);
  }

  /** The kept list's elements come from `xs` and have unseen keys. */
  lemma ConsMembers<T, K>(xs: seq<T>, key: T -> K, seen: set<K>, rest: seq<T>, r: seq<T>)
    requires xs != [] && key(xs[0]) !in seen && r == [xs[0]] + rest
    requires forall i :: 0 <= i < |rest| ==> rest[i] in xs[1..] && key(rest[i]) !in seen + {key(xs[0])}
    ensures forall i :: 0 <= i < |r| ==> r[i] in xs && key(r[i]) !in seen
  {
    forall i | 0 <= i < |r| ensures r[i] in xs && key(r[i]) !in seen {
      if i > 0 {
        assert r[i] == rest[i - 1];
      }
    }
  }

  /** A first key that no later element has keeps the keys distinct. */
  lemma ConsDistinct<T, K>(k: K, key: T -> K, rest: seq<T>, r: seq<T>)
    requires |r| == |rest| + 1 && key(r[0]) == k && forall i :: 0 <= i < |rest| ==> r[i + 1] == rest[i]
    requires forall i :: 0 <= i < |rest| ==> key(rest[i]) != k
    requires forall i, j :: 0 <= i < j < |rest| ==> key(rest[i]) != key(rest[j])
    ensures forall i, j :: 0 <= i < j < |r| ==> key(r[i]) != key(r[j])
  {
    forall i, j | 0 <= i < j < |r| ensures key(r[i]) != key(r[j]) {
      assert r[j] == rest[j - 1];
      if i > 0 {
        assert r[i] == rest[i - 1];
      }
    }
  }

  /** Every key of `xs` is seen before or kept. */
  lemma ConsCovers<T, K>(xs: seq<T>, key: T -> K, seen: set<K>, rest: seq<T>, r: seq<T>)
    requires xs != [] && r == [xs[0]] + rest
    requires forall x :: x in xs[1..] ==> key(x) in seen + {key(xs[0])} || exists i :: 0 <= i < |rest| && key(rest[i]) == key(x)
    ensures forall x :: x in xs ==> key(x) in seen || exists i :: 0 <= i < |r| && key(r[i]) == key(x)
  {
    forall x | x in xs && key(x) !in seen
      ensures exists i :: 0 <= i < |r| && key(r[i]) == key(x)
    {
      if key(x) != key(xs[0]) {
        assert x in xs[1..] by {
          assert x == xs[0] || x in xs[1..];
        }
        var i :| 0 <= i < |rest| && key(rest[i]) == key(x);
        assert r[i + 1] == rest[i];
      } else {
        assert key(r[0]) == key(x);
      }
    }
  }

  /** The first element with a new key is the one kept. */
  lemma {:induction false} DedupKeepsFirst<T, K>(xs: seq<T>, key: T -> K, seen: set<K>, j: nat)
    requires j < |xs| && key(xs[j]) !in seen
    requires forall k :: 0 <= k < j ==> key(xs[k]) != key(xs[j])
    ensures xs[j] in DedupBy(xs, key, seen)
  {
    var k := key(xs[0]);
    var tail := xs[1..];
    if j == 0 {
      assert DedupBy(xs, key, seen) == [xs[0]] + DedupBy(tail, key, seen + {k});
    } else {
      var seen' := if k in seen then seen else seen + {k};
      assert tail[j - 1] == xs[j];
      assert key(xs[j]) !in seen' by {
        assert key(xs[0]) != key(xs[j]);
      }
      forall i | 0 <= i < j - 1 ensures key(tail[i]) != key(tail[j - 1]) {
        assert tail[i] == xs[i + 1];
      }
      DedupKeepsFirst(tail, key, seen', j - 1);
      if k in seen {
        assert DedupBy(xs, key, seen) == DedupBy(tail, key, seen');
      } else {
        assert DedupBy(xs, key, seen) == [xs[0]] + DedupBy(tail, key, seen');
      }
    }
  }

  /** Elements whose keys are already distinct and unseen pass through unchanged. */
  lemma {:induction false} DedupDistinct<T, K>(xs: seq<T>, key: T -> K, seen: set<K>)
    requires forall i :: 0 <= i < |xs| ==> key(xs[i]) !in seen
    requires forall i, j :: 0 <= i < j < |xs| ==> key(xs[i]) != key(xs[j])
    ensures DedupBy(xs, key, seen) == xs
  {
    if xs != [] {
      DedupDistinct(xs[1..], key, seen + {key(xs[0])});
    }
  }

  /** The accepted elements, first one per key. */
  function FilterDedup<T, K(==)>(xs: seq<T>, keep: T -> bool, key: T -> K): (r: seq<T>)
    ensures forall i :: 0 <= i < |r| ==> keep(r[i]) && r[i] in xs
    ensures forall i, j :: 0 <= i < j < |r| ==> key(r[i]) != key(r[j])
    ensures forall x :: x in xs && keep(x) ==> exists i :: 0 <= i < |r| && key(r[i]) == key(x)
  {
    var kept := Filter(xs, keep);
    DedupBy(kept, key, {})
  }

  /** Some element of `r` has the key `k`. */
  ghost predicate KeyTaken<T, K>(r: seq<T>, key: T -> K, k: K) {
    exists i :: 0 <= i < |r| && key(r[i]) == k
  }

  lemma KeyTakenCons<T, K>(a: T, r: seq<T>, key: T -> K, k: K)
    ensures KeyTaken([a] + r, key, k) <==> key(a) == k || KeyTaken(r, key, k)
  {
    var ar := [a] + r;
    if KeyTaken(ar, key, k) && key(a) != k {
      var i :| 0 <= i < |ar| && key(ar[i]) == k;
      assert ar[i] == r[i - 1];
    }
    if KeyTaken(r, key, k) {
      var i :| 0 <= i < |r| && key(r[i]) == k;
      assert ar[i + 1] == r[i];
    }
    if key(a) == k {
      assert ar[0] == a;
    }
  }

  /** The left-to-right loop with a `seen` set: each accepted element is appended
      unless an element already appended has its key (the set of keys seen so far
      is the set of keys of the elements appended). */
  function LoopDedup<T, K(==)>(xs: seq<T>, keep: T -> bool, key: T -> K): seq<T>
  {
    if xs == [] then []
    else
      var r := LoopDedup(xs[..|xs| - 1], keep, key);
      var x := xs[|xs| - 1];
      if keep(x) && forall i :: 0 <= i < |r| ==> key(r[i]) != key(x) then r + [x] else r
  }

  lemma ConcatAssoc<T>(a: seq<T>, b: seq<T>, c: seq<T>)
    ensures a + (b + c) == (a + b) + c
  {
  }

  /** One step of `DedupBy`. */
  lemma DedupUnfold<T, K>(xs: seq<T>, key: T -> K, seen: set<K>)
    requires xs != []
    ensures key(xs[0]) in seen ==> DedupBy(xs, key, seen) == DedupBy(xs[1..], key, seen)
    ensures key(xs[0]) !in seen ==> DedupBy(xs, key, seen) == [xs[0]] + DedupBy(xs[1..], key, seen + {key(xs[0])})
  {
  }

  /** `DedupBy` on a list one element longer: the new last element is appended
      exactly when neither `seen` nor the kept elements hold its key. */
  lemma {:induction false} DedupSnoc<T, K>(ys: seq<T>, y: T, key: T -> K, seen: set<K>)
    ensures DedupBy(ys + [y], key, seen) ==
              DedupBy(ys, key, seen)
              + (if key(y) in seen || KeyTaken(DedupBy(ys, key, seen), key, key(y)) then [] else [y])
    decreases |ys|
  {
    var zs := ys + [y];
    if ys == [] {
      assert zs == [y] && zs[1..] == [];
      DedupUnfold(zs, key, seen);
      assert DedupBy(ys, key, seen) == [];
      assert !KeyTaken(DedupBy(ys, key, seen), key, key(y));
    } else {
      var a := ys[0];
      var t := ys[1..];
      assert zs[0] == a && zs[1..] == t + [y];
      DedupUnfold(zs, key, seen);
      DedupUnfold(ys, key, seen);
      if key(a) in seen {
        DedupSnoc(t, y, key, seen);
      } else {
        var seen' := seen + {key(a)};
        DedupSnoc(t, y, key, seen');
        var r' := DedupBy(t, key, seen');
        KeyTakenCons(a, r', key, key(y));
        var drop := key(y) in seen || KeyTaken([a] + r', key, key(y));
        assert drop == (key(y) in seen' || KeyTaken(r', key, key(y)));
        var c: seq<T> := if drop then [] else [y];
        assert DedupBy(t + [y], key, seen') == r' + c;
        assert DedupBy(zs, key, seen) == [a] + (r' + c);
        ConcatAssoc([a], r', c);
      }
    }
  }

  /** One step of `LoopDedup`. */
  lemma LoopDedupStep<T, K>(xs: seq<T>, keep: T -> bool, key: T -> K)
    requires xs != []
    ensures var r := LoopDedup(xs[..|xs| - 1], keep, key);
            var x := xs[|xs| - 1];
            LoopDedup(xs, keep, key) == if keep(x) && !KeyTaken(r, key, key(x)) then r + [x] else r
  {
  }

  /** Filtering a list with one more element at the end. */
  lemma FilterSnoc<T>(xs: seq<T>, keep: T -> bool)
    requires xs != []
    ensures Filter(xs, keep) ==
              Filter(xs[..|xs| - 1], keep) + (if keep(xs[|xs| - 1]) then [xs[|xs| - 1]] else [])
  {
  }

  /** `DedupBy` from an empty `seen` set, on a filtered list one element longer. */
  lemma DedupCase<T, K>(f: seq<T>, r: seq<T>, x: T, keep: T -> bool, key: T -> K)
    requires DedupBy(f, key, {}) == r
    ensures DedupBy(f + (if keep(x) then [x] else []), key, {}) ==
              if keep(x) && !KeyTaken(r, key, key(x)) then r + [x] else r
  {
    if keep(x) {
      DedupSnoc(f, x, key, {});
    } else {
      assert f + [] == f;
    }
  }

  /** `FilterDedup` is the left-to-right loop: the same elements in the same order. */
  lemma {:induction false} FilterDedupIsLoop<T, K>(xs: seq<T>, keep: T -> bool, key: T -> K)
    ensures FilterDedup(xs, keep, key) == LoopDedup(xs, keep, key)
    decreases |xs|
  {
    if xs != [] {
      var init := xs[..|xs| - 1];
      var x := xs[|xs| - 1];
      FilterDedupIsLoop(init, keep, key);
      FilterSnoc(xs, keep);
      DedupCase(Filter(init, keep), LoopDedup(init, keep, key), x, keep, key);
      LoopDedupStep(xs, keep, key);
    }
  }

  /** An element of a reordering of `FilterDedup(xs, keep, key)` is an accepted element of `xs`. */
  lemma DedupedMember<T, K>(r: seq<T>, xs: seq<T>, keep: T -> bool, key: T -> K, i: nat)
    requires multiset(r) == multiset(FilterDedup(xs, keep, key)) && i < |r|
    ensures keep(r[i]) && r[i] in xs
  {
    var f := FilterDedup(xs, keep, key);
    assert r[i] in multiset(f);
    var k :| 0 <= k < |f| && f[k] == r[i];
  }

  /** The position in a reordering of `FilterDedup(xs, keep, key)` of the element
      kept for the key of the accepted `x`. */
  lemma DedupedIndex<T, K>(r: seq<T>, xs: seq<T>, keep: T -> bool, key: T -> K, x: T) returns (i: nat)
    requires multiset(r) == multiset(FilterDedup(xs, keep, key)) && x in xs && keep(x)
    ensures i < |r| && key(r[i]) == key(x)
  {
    var f := FilterDedup(xs, keep, key);
    var k :| 0 <= k < |f| && key(f[k]) == key(x);
    assert f[k] in multiset(r);
    i :| 0 <= i < |r| && r[i] == f[k];
  }

  /** `findIndex`: the position of the first element `p` accepts. */
  function FindIndex<T>(xs: seq<T>, p: T -> bool): (r: Option<nat>)
    ensures r.Some? ==> r.value < |xs| && p(xs[r.value])
    ensures r.Some? ==> forall i :: 0 <= i < r.value ==> !p(xs[i])
    ensures r.None? <==> forall i :: 0 <= i < |xs| ==> !p(xs[i])
  {
    if xs == [] then None
    else if p(xs[0]) then Some(0)
    else
      match FindIndex(xs[1..], p)
      case None => None
      case Some(i) => Some(i + 1)
  }

  /** The position of the last element `p` accepts. */
  function LastIndex<T>(xs: seq<T>, p: T -> bool): (r: Option<nat>)
    ensures r.Some? ==> r.value < |xs| && p(xs[r.value])
    ensures r.Some? ==> forall i :: r.value < i < |xs| ==> !p(xs[i])
    ensures r.None? ==> forall i :: 0 <= i < |xs| ==> !p(xs[i])
  {
    if xs == [] then None
    else if p(xs[|xs| - 1]) then Some(|xs| - 1)
    else LastIndex(xs[..|xs| - 1], p)
  }

  lemma LastIndexStep<T>(xs: seq<T>, p: T -> bool, i: nat)
    requires i < |xs|
    ensures LastIndex(xs[..i + 1], p) == if p(xs[i]) then Some(i) else LastIndex(xs[..i], p)
  {
    assert xs[..i + 1][..i] == xs[..i];
  }

  /** The lists one after the other (`forEach` over `forEach`). */
  function Flatten<T>(lists: seq<seq<T>>): (r: seq<T>)
    ensures forall x :: x in r ==> exists i :: 0 <= i < |lists| && x in lists[i]
    ensures forall i, x :: 0 <= i < |lists| && x in lists[i] ==> x in r
  {
    if lists == [] then []
    else
      var init := lists[..|lists| - 1];
      var r := Flatten(init) + lists[|lists| - 1];
      assert forall i :: 0 <= i < |init| ==> init[i] == lists[i];
      r
  }

  /** No two elements share a key. */
  ghost predicate KeysDistinct<T, K>(xs: seq<T>, key: T -> K) {
    forall i, j :: 0 <= i < j < |xs| ==> key(xs[i]) != key(xs[j])
  }

  /** The values `f` gives, in order, skipping the elements it gives nothing for. */
  function FilterMap<T, U>(xs: seq<T>, f: T -> Option<U>): (r: seq<U>)
    ensures |r| <= |xs|
  {
    if xs == [] then []
    else
      var init := FilterMap(xs[..|xs| - 1], f);
      match f(xs[|xs| - 1])
      case None => init
      case Some(y) => init + [y]
  }

  /** Every value kept comes from one of the elements. */
  lemma {:induction false} FilterMapFrom<T, U>(xs: seq<T>, f: T -> Option<U>, y: U) returns (j: nat)
    requires y in FilterMap(xs, f)
    ensures j < |xs| && f(xs[j]) == Some(y)
  {
    var init := xs[..|xs| - 1];
    if y in FilterMap(init, f) {
      j := FilterMapFrom(init, f, y);
      assert xs[j] == init[j];
    } else {
      j := |xs| - 1;
    }
  }

  /** Every value an element gives is kept. */
  lemma {:induction false} FilterMapCovers<T, U>(xs: seq<T>, f: T -> Option<U>, j: nat)
    requires j < |xs| && f(xs[j]).Some?
    ensures f(xs[j]).value in FilterMap(xs, f)
  {
    var init := xs[..|xs| - 1];
    if j < |xs| - 1 {
      assert init[j] == xs[j];
      FilterMapCovers(init, f, j);
    }
  }

  /** When each value has the key of its element, distinct keys stay distinct. */
  lemma {:induction false} FilterMapDistinct<T, U, K>(xs: seq<T>, f: T -> Option<U>, kx: T -> K, ky: U -> K)
    requires KeysDistinct(xs, kx)
    requires forall j :: 0 <= j < |xs| && f(xs[j]).Some? ==> ky(f(xs[j]).value) == kx(xs[j])
    ensures KeysDistinct(FilterMap(xs, f), ky)
  {
    if xs != [] {
      var init := xs[..|xs| - 1];
      var last := xs[|xs| - 1];
      KeysDistinctInit(xs, kx);
      assert forall j :: 0 <= j < |init| ==> init[j] == xs[j];
      FilterMapDistinct(init, f, kx, ky);
      var ys := FilterMap(init, f);
      match f(last)
      case None =>
      case Some(y) =>
        forall i | 0 <= i < |ys| ensures ky(ys[i]) != ky(y) {
          var j := FilterMapFrom(init, f, ys[i]);
          assert xs[j] == init[j];
        }
        KeysDistinctSnoc(ys, y, ky);
    }
  }

  /** The largest `v` among the elements `p` accepts, or 0 when it is larger. */
  function MaxWhere<T>(xs: seq<T>, p: T -> bool, v: T -> int): (m: int)
    ensures m >= 0
    ensures forall i :: 0 <= i < |xs| && p(xs[i]) ==> v(xs[i]) <= m
    ensures m == 0 || exists i :: 0 <= i < |xs| && p(xs[i]) && v(xs[i]) == m
  {
    if xs == [] then 0
    else
      var init := xs[..|xs| - 1];
      var last := xs[|xs| - 1];
      var rest := MaxWhere(init, p, v);
      assert forall i :: 0 <= i < |init| ==> init[i] == xs[i];
      if p(last) && v(last) > rest then v(last) else rest
  }

  /** Dropping the last element keeps the keys distinct. */
  lemma KeysDistinctInit<T, K>(xs: seq<T>, key: T -> K)
    requires xs != [] && KeysDistinct(xs, key)
    ensures KeysDistinct(xs[..|xs| - 1], key)
  {
    var init := xs[..|xs| - 1];
    forall i, j | 0 <= i < j < |init| ensures key(init[i]) != key(init[j]) {
      assert init[i] == xs[i] && init[j] == xs[j];
    }
  }

  /** Appending an element with a new key keeps the keys distinct. */
  lemma KeysDistinctSnoc<T, K>(xs: seq<T>, x: T, key: T -> K)
    requires KeysDistinct(xs, key)
    requires forall i :: 0 <= i < |xs| ==> key(xs[i]) != key(x)
    ensures KeysDistinct(xs + [x], key)
  {
    var r := xs + [x];
    forall i, j | 0 <= i < j < |r| ensures key(r[i]) != key(r[j]) {
      assert r[i] == xs[i];
      if j < |xs| {
        assert r[j] == xs[j];
      }
    }
  }

  /** Some element of `r` has the key of `x` and is no later than `x`. */
  ghost predicate Covered<T, K>(r: seq<T>, key: T -> K, time: T -> real, x: T) {
    exists i :: 0 <= i < |r| && key(r[i]) == key(x) && time(r[i]) <= time(x)
  }

  /** The position of an element that covers `x`. */
  lemma CoveringIndex<T, K>(r: seq<T>, key: T -> K, time: T -> real, x: T) returns (i: nat)
    requires Covered(r, key, time, x)
    ensures i < |r| && key(r[i]) == key(x) && time(r[i]) <= time(x)
  {
    i :| 0 <= i < |r| && key(r[i]) == key(x) && time(r[i]) <= time(x);
  }

  /** `map.set(key(x), x)` unless the kept element for that key is at least as
      early as `x`; a replaced key keeps its position. */
  function Upsert<T, K(==)>(acc: seq<T>, x: T, key: T -> K, time: T -> real): (r: seq<T>)
    requires KeysDistinct(acc, key)
    ensures KeysDistinct(r, key)
    ensures forall i :: 0 <= i < |r| ==> r[i] in acc || r[i] == x
  {
    match FindIndex(acc, (y: T) => key(y) == key(x))
    case None => acc + [x]
    case Some(j) => if time(x) < time(acc[j]) then acc[j := x] else acc
  }

  /** After an upsert, `x` and everything `acc` covered are covered. */
  lemma UpsertCovers<T, K>(acc: seq<T>, x: T, key: T -> K, time: T -> real, y: T)
    requires KeysDistinct(acc, key)
    requires y == x || Covered(acc, key, time, y)
    ensures Covered(Upsert(acc, x, key, time), key, time, y)
  {
    var r := Upsert(acc, x, key, time);
    var found := FindIndex(acc, (z: T) => key(z) == key(x));
    if y == x {
      if found.None? {
        assert r[|acc|] == x;
      } else {
        assert key(r[found.value]) == key(x);
      }
    } else {
      var i :| 0 <= i < |acc| && key(acc[i]) == key(y) && time(acc[i]) <= time(y);
      if found.Some? && found.value == i && time(x) < time(acc[i]) {
        assert r[i] == x;
      } else {
        assert r[i] == acc[i];
      }
    }
  }

  /** A `Map` keyed by `key` built from `xs` in order, where an element replaces the
      kept one only when strictly earlier by `time`; the kept values in key order. */
  function KeepEarliest<T, K(==)>(xs: seq<T>, key: T -> K, time: T -> real): (r: seq<T>)
    ensures KeysDistinct(r, key)
    ensures forall i :: 0 <= i < |r| ==> r[i] in xs
  {
    if xs == [] then []
    else
      var init := xs[..|xs| - 1];
      var r := Upsert(KeepEarliest(init, key, time), xs[|xs| - 1], key, time);
      assert forall y :: y in init ==> y in xs;
      r
  }

  /** Reordering keeps what is covered. */
  lemma CoveredReordered<T, K>(a: seq<T>, b: seq<T>, key: T -> K, time: T -> real, x: T)
    requires Covered(a, key, time, x) && multiset(a) == multiset(b)
    ensures Covered(b, key, time, x)
  {
    var i :| 0 <= i < |a| && key(a[i]) == key(x) && time(a[i]) <= time(x);
    assert a[i] in multiset(b);
    var j :| 0 <= j < |b| && b[j] == a[i];
  }

  /** Keeping the earliest of the accepted elements keeps only accepted ones. */
  lemma KeepEarliestAccepted<T, K>(xs: seq<T>, keep: T -> bool, key: T -> K, time: T -> real)
    ensures var r := KeepEarliest(Filter(xs, keep), key, time);
      forall i :: 0 <= i < |r| ==> keep(r[i])
  {
    var f := Filter(xs, keep);
    var r := KeepEarliest(f, key, time);
    forall i | 0 <= i < |r| ensures keep(r[i]) {
      var j :| 0 <= j < |f| && f[j] == r[i];
    }
  }

  /** Every key of `xs` is kept, by an element no later than any with that key. */
  lemma {:induction false} KeepEarliestCovers<T, K>(xs: seq<T>, key: T -> K, time: T -> real, x: T)
    requires x in xs
    ensures Covered(KeepEarliest(xs, key, time), key, time, x)
  {
    var init := xs[..|xs| - 1];
    var last := xs[|xs| - 1];
    var acc := KeepEarliest(init, key, time);
    assert KeepEarliest(xs, key, time) == Upsert(acc, last, key, time);
    if x != last {
      assert x in init;
      KeepEarliestCovers(init, key, time, x);
    }
    UpsertCovers(acc, last, key, time, x);
  }

  /** The first `n` elements, or all of them when there are fewer (`slice(0, n)`). */
  function Take<T>(xs: seq<T>, n: nat): (r: seq<T>)
    ensures |r| == (if n < |xs| then n else |xs|)
    ensures |xs| <= n ==> r == xs
    ensures r == xs[..|r|]
  {
    if |xs| <= n then xs else xs[..n]
  }

  /** Taking from a sequence with a first element keeps that element first. */
  lemma TakeCons<T>(x: T, xs: seq<T>, n: nat)
    requires n > 0
    ensures Take([x] + xs, n) == [x] + Take(xs, n - 1)
  {
  }
}

=== FILE: session.dfy ===
/** The background service worker's coordination state (src/background/background.ts):
    which macro (Z = "next post", X = "previous post") runs in which tab, and which
    tab is the auto-refresh leader. Every listener is one atomic transition over the
    session record; the tab facts Chrome would supply are parameters, and messages
    to content scripts are returned as effects. */
module Session {
  import opened Wrappers
  import opened Text

  datatype Macro = Z | X

  function Other(m: Macro): (r: Macro)
    ensures r != m
  {
    if m == Z then X else Z
  }

  /** The five session-storage keys. A missing key reads like `false`/`null`. */
  datatype State = State(zRunning: bool, xRunning: bool,
                         zOwner: Option<int>, xOwner: Option<int>,
                         leader: Option<int>)

  function Running(s: State, m: Macro): bool {
    if m == Z then s.zRunning else s.xRunning
  }

  function Owner(s: State, m: Macro): Option<int> {
    if m == Z then s.zOwner else s.xOwner
  }

  /** The record with macro `m`'s running flag and owner replaced. */
  function WithSlot(s: State, m: Macro, running: bool, owner: Option<int>): (r: State)
    ensures Running(r, m) == running && Owner(r, m) == owner
    ensures Running(r, Other(m)) == Running(s, Other(m))
    ensures Owner(r, Other(m)) == Owner(s, Other(m))
    ensures r.leader == s.leader
  {
    if m == Z then s.(zRunning := running, zOwner := owner)
    else s.(xRunning := running, xOwner := owner)
  }

  /** JavaScript truthiness of a tab id: present and not 0. */
  predicate Truthy(id: Option<int>) {
    id.Some? && id.value != 0
  }

  const BoardMarker: string := "dcinside.com/board/"

  /** `chrome.windows.WINDOW_ID_NONE`. */
  const WindowIdNone: int := -1

  /** `tab.url?.includes('dcinside.com/board/')`. */
  predicate IsBoardUrl(url: Option<string>) {
    url.Some? && Contains(url.value, BoardMarker)
  }

  /** What Chrome reports about a tab. */
  datatype Tab = Tab(id: Option<int>, url: Option<string>, active: bool)

  datatype Message =
    | StopMacro(macro: Macro)
    | StartMacro(macro: Macro, expectedTabId: int)
    | LeaderUpdate(leader: Option<int>)

  /** A message to one tab, or a leader update to every dcinside tab. */
  datatype Effect = Send(tab: int, msg: Message) | Broadcast(leader: Option<int>)

  datatype Outcome = Outcome(state: State, effects: seq<Effect>)

  /** Reachable session records: at most one macro runs, and a macro runs exactly
      when it has a recorded owner, which is a truthy tab id. */
  predicate SlotOk(running: bool, owner: Option<int>) {
    (running <==> owner.Some?) && (owner.Some? ==> owner.value != 0)
  }

  predicate Inv(s: State) {
    !(s.zRunning && s.xRunning) && SlotOk(s.zRunning, s.zOwner) && SlotOk(s.xRunning, s.xOwner)
  }

  /** `initializeSessionState`, run on browser start-up and on install. */
  function Initialize(): (r: State)
    ensures Inv(r)
    ensures !Running(r, Z) && !Running(r, X) && r.leader.None?
  {
    State(false, false, None, None, None)
  }

  /** `toggleMacroState(m)`, with `activeTabId` the id of the active dcinside tab of
      the current window, if any. */
  function ToggleMacro(s: State, m: Macro, activeTabId: Option<int>): (r: Outcome)
    // switching a running macro off
    ensures Running(s, m) ==>
      !Running(r.state, m) && Owner(r.state, m).None?
      && Running(r.state, Other(m)) == Running(s, Other(m))
      && Owner(r.state, Other(m)) == Owner(s, Other(m))
      && r.state.leader == s.leader
      && (r.effects == [] <==> !Truthy(Owner(s, m)))
      && (forall i :: 0 <= i < |r.effects| ==> r.effects[i] == Send(Owner(s, m).value, StopMacro(m)))
      && |r.effects| <= 1
    // no active dcinside tab to start in
    ensures !Running(s, m) && !Truthy(activeTabId) ==> r == Outcome(s, [])
    // switching on: one write for both macros, stop the other owner, start the new one
    ensures !Running(s, m) && Truthy(activeTabId) ==>
      Running(r.state, m) && Owner(r.state, m) == activeTabId
      && !Running(r.state, Other(m)) && Owner(r.state, Other(m)).None?
      && r.state.leader == s.leader
      && 1 <= |r.effects| <= 2
      && r.effects[|r.effects| - 1] == Send(activeTabId.value, StartMacro(m, activeTabId.value))
      && (|r.effects| == 2 <==> Running(s, Other(m)) && Truthy(Owner(s, Other(m))))
      && (|r.effects| == 2 ==>
            r.effects[0] == Send(Owner(s, Other(m)).value, StopMacro(Other(m))))
    ensures Inv(s) ==> Inv(r.state)
  {
    if Running(s, m) then
      var owner := Owner(s, m);
      Outcome(WithSlot(s, m, false, None),
              if Truthy(owner) then [Send(owner.value, StopMacro(m))] else [])
    else if !Truthy(activeTabId) then
      Outcome(s, [])
    else
      var o := Other(m);
      var stopOther := if Running(s, o) && Truthy(Owner(s, o))
                       then [Send(Owner(s, o).value, StopMacro(o))] else [];
      Outcome(WithSlot(WithSlot(s, m, true, activeTabId), o, false, None),
              stopOther + [Send(activeTabId.value, StartMacro(m, activeTabId.value))])
  }

  /** `tabs.onRemoved`: forget the closed tab wherever it is recorded. */
  function OnRemoved(s: State, tabId: int): (r: Outcome)
    ensures forall m :: Owner(s, m) == Some(tabId) ==>
      !Running(r.state, m) && Owner(r.state, m).None?
    ensures forall m :: Owner(s, m) != Some(tabId) ==>
      Running(r.state, m) == Running(s, m) && Owner(r.state, m) == Owner(s, m)
    ensures r.state.leader == (if s.leader == Some(tabId) then None else s.leader)
    ensures r.effects == (if s.leader == Some(tabId) then [Broadcast(None)] else [])
    ensures forall m :: Owner(r.state, m) != Some(tabId)
    ensures r.state.leader != Some(tabId)
    ensures Inv(s) ==> Inv(r.state)
  {
    var zHit := s.zOwner == Some(tabId);
    var xHit := s.xOwner == Some(tabId);
    var leaderHit := s.leader == Some(tabId);
    Outcome(
      State(if zHit then false else s.zRunning, if xHit then false else s.xRunning,
            if zHit then None else s.zOwner, if xHit then None else s.xOwner,
            if leaderHit then None else s.leader),
      if leaderHit then [Broadcast(None)] else [])
  }

  /** Only the leader changes in the tab-event listeners below. */
  predicate SameMacros(a: State, b: State) {
    a.zRunning == b.zRunning && a.xRunning == b.xRunning
    && a.zOwner == b.zOwner && a.xOwner == b.xOwner
  }

  /** `tabs.onUpdated` for tab `tabId` with the change's `status`. */
  function OnUpdated(s: State, tabId: int, status: Option<string>, tab: Tab): (r: Outcome)
    ensures SameMacros(r.state, s)
    ensures r.effects == [] || r.effects == [Broadcast(r.state.leader)]
    ensures r.state.leader != s.leader ==> r.effects != []
    // a finished load of a board page in the active tab elects it
    ensures (status == Some("complete") && tab.url.Some? && tab.url.value != []
             && IsBoardUrl(tab.url) && tab.active) ==>
              r.state.leader == Some(tabId) && r.effects == [Broadcast(Some(tabId))]
    // the leader navigating away from the boards resigns
    ensures (status == Some("complete") && tab.url.Some? && tab.url.value != []
             && !IsBoardUrl(tab.url) && s.leader == Some(tabId)) ==>
              r.state.leader.None? && r.effects == [Broadcast(None)]
    // nothing else moves the leader
    ensures r.state.leader != s.leader ==>
      status == Some("complete") && tab.url.Some? && tab.url.value != [] &&
      ((IsBoardUrl(tab.url) && tab.active && r.state.leader == Some(tabId)) ||
       (!IsBoardUrl(tab.url) && s.leader == Some(tabId) && r.state.leader.None?))
  {
    if status == Some("complete") && tab.url.Some? && tab.url.value != [] then
      if IsBoardUrl(tab.url) then
        if tab.active then Outcome(s.(leader := Some(tabId)), [Broadcast(Some(tabId))])
        else Outcome(s, [])
      else if s.leader == Some(tabId) then
        Outcome(s.(leader := None), [Broadcast(None)])
      else Outcome(s, [])
    else Outcome(s, [])
  }

  /** `tabs.onActivated`; `tab` is what `tabs.get` returned (`None` if it failed). */
  function OnActivated(s: State, tab: Option<Tab>): (r: Outcome)
    ensures SameMacros(r.state, s)
    ensures tab.Some? && Truthy(tab.value.id) && IsBoardUrl(tab.value.url) ==>
      r == Outcome(s.(leader := tab.value.id), [Broadcast(tab.value.id)])
    ensures !(tab.Some? && Truthy(tab.value.id) && IsBoardUrl(tab.value.url)) ==>
      r == Outcome(s, [])
    ensures r.state.leader == s.leader || r.state.leader.Some?
  {
    if tab.Some? && Truthy(tab.value.id) && IsBoardUrl(tab.value.url) then
      Outcome(s.(leader := tab.value.id), [Broadcast(tab.value.id)])
    else Outcome(s, [])
  }

  /** `windows.onFocusChanged`; `activeTabs` is the result of querying the active
      tab of the newly focused window (empty if the query failed). */
  function OnFocusChanged(s: State, windowId: int, activeTabs: seq<Tab>): (r: Outcome)
    ensures SameMacros(r.state, s)
    ensures windowId == WindowIdNone ==> r == Outcome(s, [])
    ensures (r.state.leader != s.leader || r.effects != []) ==>
      windowId != WindowIdNone && |activeTabs| > 0 && activeTabs[0].id.Some?
      && IsBoardUrl(activeTabs[0].url)
      && r.state.leader == activeTabs[0].id && r.effects == [Broadcast(activeTabs[0].id)]
    ensures (windowId != WindowIdNone && |activeTabs| > 0 && activeTabs[0].id.Some?
             && IsBoardUrl(activeTabs[0].url)) ==> r.state.leader == activeTabs[0].id
    ensures r.state.leader == s.leader || r.state.leader.Some?
  {
    if windowId == WindowIdNone then Outcome(s, [])
    else if |activeTabs| > 0 && activeTabs[0].id.Some? && IsBoardUrl(activeTabs[0].url) then
      Outcome(s.(leader := activeTabs[0].id), [Broadcast(activeTabs[0].id)])
    else Outcome(s, [])
  }

  /** The events the service worker reacts to. */
  datatype Event =
    | ToggleCommand(macro: Macro, activeTabId: Option<int>)
    | TabRemoved(removedId: int)
    | TabUpdated(updatedId: int, status: Option<string>, tab: Tab)
    | TabActivated(activated: Option<Tab>)
    | FocusChanged(windowId: int, activeTabs: seq<Tab>)
    | Startup

  function Step(s: State, e: Event): (r: Outcome)
    ensures Inv(s) ==> Inv(r.state)
  {
    match e
    case ToggleCommand(m, active) => ToggleMacro(s, m, active)
    case TabRemoved(id) => OnRemoved(s, id)
    case TabUpdated(id, status, tab) => OnUpdated(s, id, status, tab)
    case TabActivated(tab) => OnActivated(s, tab)
    case FocusChanged(w, tabs) => OnFocusChanged(s, w, tabs)
    case Startup => Outcome(Initialize(), [])
  }

  function Run(s: State, events: seq<Event>): State
    decreases |events|
  {
    if events == [] then s else Run(Step(s, events[0]).state, events[1..])
  }

  /** From the initial record, whatever happens, at most one macro is running and a
      running macro always has an owner. */
  lemma {:induction false} RunKeepsInv(s: State, events: seq<Event>)
    requires Inv(s)
    ensures Inv(Run(s, events))
    ensures !(Run(s, events).zRunning && Run(s, events).xRunning)
    ensures forall m :: Running(Run(s, events), m) ==> Truthy(Owner(Run(s, events), m))
    decreases |events|
  {
    if events != [] {
      RunKeepsInv(Step(s, events[0]).state, events[1..]);
    }
  }

  lemma ReachableFromInitialize(events: seq<Event>)
    ensures Inv(Run(Initialize(), events))
  {
    RunKeepsInv(Initialize(), events);
  }

  /** The leader is only ever cleared by closing it, by it leaving the boards, or by
      re-initialisation; focus and activation never clear it. */
  lemma LeaderClearedOnlyBy(s: State, e: Event)
    requires s.leader.Some? && Step(s, e).state.leader.None?
    ensures e == TabRemoved(s.leader.value)
            || (e.TabUpdated? && e.updatedId == s.leader.value && !IsBoardUrl(e.tab.url))
            || e.Startup?
  {
  }

  /** Tab events other than toggling, closing and re-initialisation leave the macros alone. */
  lemma LeaderEventsKeepMacros(s: State, e: Event)
    requires e.TabUpdated? || e.TabActivated? || e.FocusChanged?
    ensures SameMacros(Step(s, e).state, s)
  {
  }

  /** The `getMacroState` reply: running flags compared with `true`, owners through
      `|| null`. */
  datatype MacroView = MacroView(zRunning: bool, xRunning: bool, zTabId: Option<int>, xTabId: Option<int>)

  function OrNull(id: Option<int>): (r: Option<int>)
    ensures r.Some? <==> Truthy(id)
    ensures r.Some? ==> r == id
  {
    if Truthy(id) then id else None
  }

  function MacroStateReply(s: State): (r: MacroView)
    ensures r.zRunning == s.zRunning && r.xRunning == s.xRunning
    ensures Inv(s) ==> r.zTabId == s.zOwner && r.xTabId == s.xOwner
  {
    MacroView(s.zRunning, s.xRunning, OrNull(s.zOwner), OrNull(s.xOwner))
  }

  /** The `getLeaderTabId` reply: a leader recorded as tab 0 reads as no leader. */
  function LeaderReply(s: State): (r: Option<int>)
    ensures r.Some? ==> r == s.leader && r.value != 0
    ensures r.None? ==> !Truthy(s.leader)
  {
    OrNull(s.leader)
  }

  /** The `getMyTabId` reply: success with the sender's tab id only when it is truthy. */
  function MyTabIdReply(senderTabId: Option<int>): (r: Option<int>)
    ensures r.Some? <==> Truthy(senderTabId)
    ensures r.Some? ==> r == senderTabId
  {
    OrNull(senderTabId)
  }

  /** Ids a leader update goes to: every dcinside tab with a truthy id, in query order. */
  function TruthyIds(tabs: seq<Tab>): seq<int> {
    if tabs == [] then []
    else (if Truthy(tabs[0].id) then [tabs[0].id.value] else []) + TruthyIds(tabs[1..])
  }

  /** `broadcastLeaderUpdate`: each send that fails (`delivers` false) is swallowed and
      the loop carries on with the remaining tabs. */
  method DeliverLeaderUpdate(tabs: seq<Tab>, delivers: int -> bool)
    returns (attempted: seq<int>, delivered: seq<int>)
    ensures attempted == TruthyIds(tabs)
    ensures forall t :: t in delivered <==> t in attempted && delivers(t)
    ensures |delivered| <= |attempted|
  {
    attempted := [];
    delivered := [];
    var i := 0;
    while i < |tabs|
      invariant 0 <= i <= |tabs|
      invariant attempted + TruthyIds(tabs[i..]) == TruthyIds(tabs)
      invariant forall t :: t in delivered <==> t in attempted && delivers(t)
      invariant |delivered| <= |attempted|
    {
      assert tabs[i..][1..] == tabs[i + 1..];
      if Truthy(tabs[i].id) {
        var id := tabs[i].id.value;
        attempted := attempted + [id];
        if delivers(id) {
          delivered := delivered + [id];
        }
      }
      i := i + 1;
    }
  }

  /** A tab with a truthy id is always among the broadcast's recipients. */
  lemma {:induction false} TruthyIdsComplete(tabs: seq<Tab>, i: nat)
    requires i < |tabs| && Truthy(tabs[i].id)
    ensures tabs[i].id.value in TruthyIds(tabs)
  {
    if i > 0 {
      TruthyIdsComplete(tabs[1..], i - 1);
    }
  }
}

=== FILE: settings_store.dfy ===
/** The settings store (src/stores/settingsStore.ts): the customizable shortcut
    actions with their default keys, loading every setting from storage, and the
    save actions, which validate, write through `Storage` and update the store. */
module SettingsStore {
  import opened Wrappers
  import opened JsNumber
  import JsValue
  import Text
  import Storage

  datatype Action =
    | W | C | D | R | Q | E | F | G | A | S | Z | X
    | PrevProfile | NextProfile | SubmitComment | SubmitImagePost | ToggleModal

  /** `customizableShortcutActions`: the keys of `defaultShortcutKeys`, in order. */
  const Actions: seq<Action> :=
    [W, C, D, R, Q, E, F, G, A, S, Z, X, PrevProfile, NextProfile, SubmitComment, SubmitImagePost, ToggleModal]

  function Name(a: Action): string {
    match a
    case W => "W" case C => "C" case D => "D" case R => "R" case Q => "Q" case E => "E"
    case F => "F" case G => "G" case A => "A" case S => "S" case Z => "Z" case X => "X"
    case PrevProfile => "PrevProfile"
    case NextProfile => "NextProfile"
    case SubmitComment => "SubmitComment"
    case SubmitImagePost => "SubmitImagePost"
    case ToggleModal => "ToggleModal"
  }

  /** `defaultShortcutKeys`. */
  function DefaultKey(a: Action): (r: string)
    ensures |r| == 1
  {
    match a
    case PrevProfile => "["
    case NextProfile => "]"
    case SubmitComment => "D"
    case SubmitImagePost => "W"
    case ToggleModal => "`"
    case _ => Name(a)
  }

  /** The actions whose combination must include Alt; they have dedicated enable
      flags instead of an entry in `shortcutEnabled`. */
  predicate AltRequired(a: Action) {
    a == SubmitComment || a == SubmitImagePost || a == ToggleModal
  }

  /** `shortcut${action}Key`. */
  function KeyKey(a: Action): string {
    "shortcut" + Name(a) + "Key"
  }

  /** `shortcut${action}Enabled`. */
  function EnabledKey(a: Action): string {
    "shortcut" + Name(a) + "Enabled"
  }

  /** The action a name denotes, read off its length and first letter. */
  function ActionNamed(s: string): Action
    requires |s| > 0
  {
    if |s| == 1 then
      match s[0]
      case 'W' => W case 'C' => C case 'D' => D case 'R' => R case 'Q' => Q case 'E' => E
      case 'F' => F case 'G' => G case 'A' => A case 'S' => S case 'Z' => Z case _ => X
    else if |s| == 13 then SubmitComment
    else if |s| == 15 then SubmitImagePost
    else if s[0] == 'P' then PrevProfile
    else if s[0] == 'N' then NextProfile
    else ToggleModal
  }

  lemma NameDetermines(a: Action)
    ensures |Name(a)| > 0 && ActionNamed(Name(a)) == a
  {
  }

  /** Different actions use different storage keys. */
  lemma KeyKeyInjective(a: Action, b: Action)
    ensures KeyKey(a) == KeyKey(b) ==> a == b
    ensures EnabledKey(a) == EnabledKey(b) ==> a == b
  {
    NameDetermines(a);
    NameDetermines(b);
    var ka, kb := KeyKey(a), KeyKey(b);
    assert ka[8..|ka| - 3] == Name(a);
    assert kb[8..|kb| - 3] == Name(b);
    var ea, eb := EnabledKey(a), EnabledKey(b);
    assert ea[8..|ea| - 7] == Name(a);
    assert eb[8..|eb| - 7] == Name(b);
  }

  const MacroZEnabledKey := "shortcutMacroZEnabled"
  const MacroXEnabledKey := "shortcutMacroXEnabled"
  const SubmitCommentEnabledKey := "shortcutSubmitCommentKeyEnabled"
  const SubmitImagePostEnabledKey := "shortcutSubmitImagePostKeyEnabled"
  const ToggleModalEnabledKey := "shortcutToggleModalKeyEnabled"

  /** The enable keys with a dedicated flag in the store. */
  predicate IsDedicatedEnabledKey(k: string) {
    k == MacroZEnabledKey || k == MacroXEnabledKey || k == SubmitCommentEnabledKey
    || k == SubmitImagePostEnabledKey || k == ToggleModalEnabledKey
  }

  /** No action's own enable key is one of the dedicated keys. */
  lemma EnabledKeyNotDedicated(a: Action)
    ensures !IsDedicatedEnabledKey(EnabledKey(a))
  {
    assert |EnabledKey(a)| == 15 + |Name(a)|;
    assert |Name(a)| in {1, 11, 13, 15};
  }

  /** The store's state. The boolean settings hold the truthiness of what was read,
      which is how every reader uses them. */
  datatype Settings = Settings(
    pageNavigationMode: JsValue.Value,
    shortcutEnabled: map<string, bool>,
    shortcutKeys: map<string, string>,
    altNumberEnabled: bool,
    macroZEnabled: bool,
    macroXEnabled: bool,
    dRefreshCommentEnabled: bool,
    macroInterval: Num,
    previewEnabled: bool,
    previewOpacity: JsValue.Value,
    autoRefreshEnabled: bool,
    autoRefreshInterval: Num,
    submitCommentKeyEnabled: bool,
    submitImagePostKeyEnabled: bool,
    toggleModalKeyEnabled: bool,
    pauseOnInactiveEnabled: bool)

  /** The store before `loadSettings`. */
  function Initial(): (r: Settings)
    ensures r.shortcutKeys == map[] && r.shortcutEnabled == map[]
  {
    Settings(JsValue.Text("ajax"), map[], map[], true, true, true, true, Finite(5000.0), true,
             JsValue.Number(Finite(0.85)), false, Finite(10.0), true, true, true, true)
  }

  /** A boolean setting read with default `d`, as its truthiness. */
  predicate FlagAt(area: Storage.Area, key: string, d: bool) {
    JsValue.Truthy(Storage.GetData(area, key, JsValue.Flag(d)))
  }

  /** The key loaded for an action: what is stored, or the default. A stored value
      that is not a string is not modelled and reads as the default. */
  function StoredKey(area: Storage.Area, a: Action): string {
    var v := Storage.GetData(area, KeyKey(a), JsValue.Null);
    if v.Text? then v.s else DefaultKey(a)
  }

  /** An action's loaded enable flag: anything but a stored `false` enables it. */
  predicate StoredEnabled(area: Storage.Area, a: Action) {
    Storage.GetData(area, EnabledKey(a), JsValue.Flag(true)) != JsValue.Flag(false)
  }

  function KeysFrom(area: Storage.Area, acts: seq<Action>): (m: map<string, string>)
    ensures forall a :: a in acts ==> KeyKey(a) in m && m[KeyKey(a)] == StoredKey(area, a)
    ensures forall k :: k in m ==> exists a :: a in acts && k == KeyKey(a)
  {
    if acts == [] then map[]
    else
      var last := acts[|acts| - 1];
      var m := KeysFrom(area, acts[..|acts| - 1]);
      forall a | a in acts[..|acts| - 1] && KeyKey(a) == KeyKey(last) ensures a == last {
        KeyKeyInjective(a, last);
      }
      m[KeyKey(last) := StoredKey(area, last)]
  }

  function EnabledFrom(area: Storage.Area, acts: seq<Action>): (m: map<string, bool>)
    ensures forall a :: a in acts && !AltRequired(a) ==>
              EnabledKey(a) in m && m[EnabledKey(a)] == StoredEnabled(area, a)
    ensures forall k :: k in m ==> exists a :: a in acts && !AltRequired(a) && k == EnabledKey(a)
  {
    if acts == [] then map[]
    else
      var last := acts[|acts| - 1];
      var m := EnabledFrom(area, acts[..|acts| - 1]);
      forall a | a in acts[..|acts| - 1] && EnabledKey(a) == EnabledKey(last) ensures a == last {
        KeyKeyInjective(a, last);
      }
      if AltRequired(last) then m else m[EnabledKey(last) := StoredEnabled(area, last)]
  }

  /** `loadSettings`. */
  function LoadSettings(area: Storage.Area, textNumber: string -> Num): (r: Settings)
    ensures forall a :: KeyKey(a) in r.shortcutKeys && r.shortcutKeys[KeyKey(a)] == StoredKey(area, a)
    ensures forall a :: !AltRequired(a) ==>
              EnabledKey(a) in r.shortcutEnabled && r.shortcutEnabled[EnabledKey(a)] == StoredEnabled(area, a)
    ensures forall a :: AltRequired(a) ==> EnabledKey(a) !in r.shortcutEnabled
    ensures Storage.AtLeast(r.macroInterval, 500.0) && Storage.AtLeast(r.autoRefreshInterval, 1.0)
  {
    var enabled := EnabledFrom(area, Actions);
    assert forall a :: AltRequired(a) ==> EnabledKey(a) !in enabled by {
      forall a | AltRequired(a) ensures EnabledKey(a) !in enabled {
        if EnabledKey(a) in enabled {
          var b :| b in Actions && !AltRequired(b) && EnabledKey(a) == EnabledKey(b);
          KeyKeyInjective(a, b);
        }
      }
    }
    assert forall a :: a in Actions by {
      forall a ensures a in Actions { ActionListed(a); }
    }
    Settings(
      Storage.PageMode(area),
      enabled,
      KeysFrom(area, Actions),
      FlagAt(area, "altNumberEnabled", true),
      FlagAt(area, MacroZEnabledKey, true),
      FlagAt(area, MacroXEnabledKey, true),
      FlagAt(area, "shortcutDRefreshCommentEnabled", true),
      Storage.MacroInterval(area, textNumber),
      FlagAt(area, "favoritesPreviewEnabled", true),
      Storage.PreviewOpacity(area),
      FlagAt(area, "autoRefreshEnabled", false),
      Storage.AutoRefreshInterval(area, textNumber),
      FlagAt(area, SubmitCommentEnabledKey, true),
      FlagAt(area, SubmitImagePostEnabledKey, true),
      FlagAt(area, ToggleModalEnabledKey, true),
      FlagAt(area, "pauseOnInactiveEnabled", true))
  }

  lemma ActionListed(a: Action)
    ensures a in Actions
  {
    match a
    case W => assert Actions[0] == a;
    case C => assert Actions[1] == a;
    case D => assert Actions[2] == a;
    case R => assert Actions[3] == a;
    case Q => assert Actions[4] == a;
    case E => assert Actions[5] == a;
    case F => assert Actions[6] == a;
    case G => assert Actions[7] == a;
    case A => assert Actions[8] == a;
    case S => assert Actions[9] == a;
    case Z => assert Actions[10] == a;
    case X => assert Actions[11] == a;
    case PrevProfile => assert Actions[12] == a;
    case NextProfile => assert Actions[13] == a;
    case SubmitComment => assert Actions[14] == a;
    case SubmitImagePost => assert Actions[15] == a;
    case ToggleModal => assert Actions[16] == a;
  }

  /** Loading from an empty storage area gives the initial values, the default
      keys, and every non-Alt action enabled. */
  lemma LoadEmptyIsInitial(textNumber: string -> Num)
    ensures var r := LoadSettings(map[], textNumber);
            r == Initial().(shortcutKeys := r.shortcutKeys, shortcutEnabled := r.shortcutEnabled)
  {
    var r := LoadSettings(map[], textNumber);
    assert Storage.PageMode(map[]) == JsValue.Text("ajax");
    assert Storage.MacroInterval(map[], textNumber) == Finite(5000.0);
    assert Storage.AutoRefreshInterval(map[], textNumber) == Finite(10.0);
    assert Storage.PreviewOpacity(map[]) == JsValue.Number(Finite(0.85));
  }

  lemma LoadEmptyKeysAreDefaults(a: Action, textNumber: string -> Num)
    ensures LoadSettings(map[], textNumber).shortcutKeys[KeyKey(a)] == DefaultKey(a)
    ensures !AltRequired(a) ==> LoadSettings(map[], textNumber).shortcutEnabled[EnabledKey(a)]
  {
  }

  // ---------------------------------------------------------------- shortcut keys

  /** `toUpperCase` of one character, for the characters whose upper case could
      pass the key check: ASCII letters, and the dotless `ı` and long `ſ`, which
      upper-case to `I` and `S`. Every other character stays or becomes a
      character outside the accepted set. */
  function KeyUpper(c: char): char {
    if c == 'ı' then 'I' else if c == 'ſ' then 'S' else Text.AsciiUpper(c)
  }

  /** `/^[A-Z0-9\[\]`]$/` for a one-character string. */
  predicate AcceptedKeyChar(c: char) {
    ('A' <= c <= 'Z') || ('0' <= c <= '9') || c == '[' || c == ']' || c == '`'
  }

  /** The key an action currently has: its stored key, else its default. */
  function CurrentKey(st: Settings, a: Action): string {
    if KeyKey(a) in st.shortcutKeys then st.shortcutKeys[KeyKey(a)] else DefaultKey(a)
  }

  /** Action `a` blocks giving `key` to `storageKey`: it is another action, its
      current key upper-cases to `key`, and it is in the same Alt class. */
  predicate Conflicts(st: Settings, storageKey: string, key: string, altRequired: bool, a: Action) {
    KeyKey(a) != storageKey && Text.Upper(CurrentKey(st, a)) == key && altRequired == AltRequired(a)
  }

  datatype Rejection = InvalidKey | ConflictWith(action: Action) | OutOfRange

  datatype SaveResult = Saved(settings: Settings, area: Storage.Area) | Rejected(why: Rejection)

  /** The conflict loop: the first action, in list order, that blocks the key. */
  method FindConflict(st: Settings, storageKey: string, key: string, altRequired: bool) returns (r: Option<Action>)
    ensures r.None? <==> forall a :: !Conflicts(st, storageKey, key, altRequired, a)
    ensures r.Some? ==> Conflicts(st, storageKey, key, altRequired, r.value)
    ensures r.Some? ==> exists i :: 0 <= i < |Actions| && Actions[i] == r.value
                          && forall j :: 0 <= j < i ==> !Conflicts(st, storageKey, key, altRequired, Actions[j])
  {
    var i := 0;
    while i < |Actions|
      invariant 0 <= i <= |Actions|
      invariant forall j :: 0 <= j < i ==> !Conflicts(st, storageKey, key, altRequired, Actions[j])
    {
      if Conflicts(st, storageKey, key, altRequired, Actions[i]) {
        FirstListed(st, storageKey, key, altRequired, i);
        return Some(Actions[i]);
      }
      i := i + 1;
    }
    NoneListed(st, storageKey, key, altRequired);
    return None;
  }

  /** An action that conflicts, with none before it in the list, is the first. */
  lemma FirstListed(st: Settings, storageKey: string, key: string, altRequired: bool, i: nat)
    requires i < |Actions|
    requires forall j :: 0 <= j < i ==> !Conflicts(st, storageKey, key, altRequired, Actions[j])
    ensures exists k :: 0 <= k < |Actions| && Actions[k] == Actions[i]
              && forall j :: 0 <= j < k ==> !Conflicts(st, storageKey, key, altRequired, Actions[j])
  {
    var k := i;
    assert 0 <= k < |Actions| && Actions[k] == Actions[i];
  }

  /** No action conflicts when none in the list does. */
  lemma NoneListed(st: Settings, storageKey: string, key: string, altRequired: bool)
    requires forall j :: 0 <= j < |Actions| ==> !Conflicts(st, storageKey, key, altRequired, Actions[j])
    ensures forall a :: !Conflicts(st, storageKey, key, altRequired, a)
  {
    forall a ensures !Conflicts(st, storageKey, key, altRequired, a) {
      ActionListed(a);
    }
  }

  /** `saveShortcutKey`: accepts one character that upper-cases into
      `[A-Z0-9[\]\`]` and that no other action of the same Alt class already
      uses; then writes it and records it under `storageKey`, and nothing else. */
  method SaveShortcutKey(st: Settings, area: Storage.Area, storageKey: string, newKey: string, altRequired: bool)
    returns (r: SaveResult)
    ensures (|newKey| != 1 || !AcceptedKeyChar(KeyUpper(newKey[0]))) <==> r == Rejected(InvalidKey)
    ensures r.Rejected? && r.why.ConflictWith? ==>
              Conflicts(st, storageKey, [KeyUpper(newKey[0])], altRequired, r.why.action)
    ensures r.Saved? <==>
              |newKey| == 1 && AcceptedKeyChar(KeyUpper(newKey[0]))
              && forall a :: !Conflicts(st, storageKey, [KeyUpper(newKey[0])], altRequired, a)
    ensures r.Saved? ==>
              r.settings == st.(shortcutKeys := st.shortcutKeys[storageKey := [KeyUpper(newKey[0])]])
              && r.area == Storage.SetData(area, storageKey, JsValue.Text([KeyUpper(newKey[0])]))
    ensures !r.Saved? ==> r.Rejected?
  {
    if |newKey| != 1 || !AcceptedKeyChar(KeyUpper(newKey[0])) {
      return Rejected(InvalidKey);
    }
    var key := [KeyUpper(newKey[0])];
    var conflict := FindConflict(st, storageKey, key, altRequired);
    if conflict.Some? {
      return Rejected(ConflictWith(conflict.value));
    }
    return Saved(st.(shortcutKeys := st.shortcutKeys[storageKey := key]),
                 Storage.SetData(area, storageKey, JsValue.Text(key)));
  }

  /** Within each Alt class no two actions share a key. */
  predicate KeysDistinct(st: Settings) {
    forall a, b :: a != b && AltRequired(a) == AltRequired(b) ==>
      Text.Upper(CurrentKey(st, a)) != Text.Upper(CurrentKey(st, b))
  }

  /** The default keys are distinct within each class. */
  lemma DefaultsDistinct(st: Settings)
    requires st.shortcutKeys == map[]
    ensures KeysDistinct(st)
  {
    forall a, b | a != b && AltRequired(a) == AltRequired(b)
      ensures Text.Upper(CurrentKey(st, a)) != Text.Upper(CurrentKey(st, b))
    {
      assert CurrentKey(st, a) == DefaultKey(a) && CurrentKey(st, b) == DefaultKey(b);
      DefaultCode(a);
      DefaultCode(b);
    }
  }

  /** Each default key is its own upper case and names its action within its class. */
  lemma DefaultCode(a: Action)
    ensures Text.Upper(DefaultKey(a)) == DefaultKey(a)
    ensures DefaultOwner(DefaultKey(a)[0], AltRequired(a)) == a
  {
  }

  function DefaultOwner(c: char, alt: bool): Action {
    if alt then (if c == 'D' then SubmitComment else if c == 'W' then SubmitImagePost else ToggleModal)
    else if c == '[' then PrevProfile else if c == ']' then NextProfile
    else ActionNamed([c])
  }

  /** A saved key keeps the keys distinct when the caller passes the action's own
      Alt class, as the shortcut manager does. */
  lemma SaveKeepsKeysDistinct(st: Settings, b: Action, key: string)
    requires KeysDistinct(st)
    requires |key| == 1 && AcceptedKeyChar(key[0])
    requires forall a :: !Conflicts(st, KeyKey(b), key, AltRequired(b), a)
    ensures KeysDistinct(st.(shortcutKeys := st.shortcutKeys[KeyKey(b) := key]))
  {
    var st' := st.(shortcutKeys := st.shortcutKeys[KeyKey(b) := key]);
    assert Text.Upper(key) == key;
    forall a | a != b ensures CurrentKey(st', a) == CurrentKey(st, a) {
      KeyKeyInjective(a, b);
    }
    forall a | a != b && AltRequired(a) == AltRequired(b)
      ensures Text.Upper(CurrentKey(st', a)) != Text.Upper(CurrentKey(st', b))
    {
      KeyKeyInjective(a, b);
      assert !Conflicts(st, KeyKey(b), key, AltRequired(b), a);
    }
  }

  /** A saved key is what the next load reads for that action. */
  lemma SavedKeyReloads(area: Storage.Area, b: Action, key: string, textNumber: string -> Num)
    ensures LoadSettings(Storage.SetData(area, KeyKey(b), JsValue.Text(key)), textNumber).shortcutKeys[KeyKey(b)] == key
  {
  }

  // ---------------------------------------------------------------- numeric settings

  /** `saveMacroInterval`: refuses NaN and values below 500; otherwise stores the
      value and the store takes it. */
  function SaveMacroInterval(st: Settings, area: Storage.Area, n: Num): (r: SaveResult)
    ensures r.Saved? <==> Storage.AtLeast(n, 500.0)
    ensures !r.Saved? ==> r == Rejected(OutOfRange)
    ensures r.Saved? ==> r.settings == st.(macroInterval := n)
                         && r.area == Storage.SetData(area, Storage.MacroIntervalKey, JsValue.Number(n))
  {
    if n.NaN? || Less(n, Finite(500.0)) then Rejected(OutOfRange)
    else Saved(st.(macroInterval := n), Storage.SaveMacroInterval(area, n))
  }

  /** `saveAutoRefreshInterval`: refuses NaN and values below 1. */
  function SaveAutoRefreshInterval(st: Settings, area: Storage.Area, n: Num): (r: SaveResult)
    ensures r.Saved? <==> Storage.AtLeast(n, 1.0)
    ensures !r.Saved? ==> r == Rejected(OutOfRange)
    ensures r.Saved? ==> r.settings == st.(autoRefreshInterval := n)
                         && r.area == Storage.SetData(area, Storage.AutoRefreshIntervalKey, JsValue.Number(n))
  {
    if n.NaN? || Less(n, Finite(1.0)) then Rejected(OutOfRange)
    else Saved(st.(autoRefreshInterval := n), Storage.SaveAutoRefreshInterval(area, n))
  }

  /** `saveFavoritesPreviewOpacity`: refuses NaN and values outside [0.1, 1.0]. */
  function SavePreviewOpacity(st: Settings, area: Storage.Area, n: Num): (r: SaveResult)
    ensures r.Saved? <==> Storage.OpacityInRange(n)
    ensures !r.Saved? ==> r == Rejected(OutOfRange)
    ensures r.Saved? ==> r.settings == st.(previewOpacity := JsValue.Number(n))
                         && r.area == Storage.SetData(area, Storage.PreviewOpacityKey, JsValue.Number(n))
  {
    if n.NaN? || Less(n, Finite(0.1)) || Less(Finite(1.0), n) then Rejected(OutOfRange)
    else Saved(st.(previewOpacity := JsValue.Number(n)), Storage.SavePreviewOpacity(area, n))
  }

  /** After an accepted save, loading again gives what the store holds. */
  lemma MacroIntervalReloads(st: Settings, area: Storage.Area, n: Num, textNumber: string -> Num)
    requires SaveMacroInterval(st, area, n).Saved?
    ensures LoadSettings(SaveMacroInterval(st, area, n).area, textNumber).macroInterval
            == SaveMacroInterval(st, area, n).settings.macroInterval
  {
  }

  lemma AutoRefreshIntervalReloads(st: Settings, area: Storage.Area, n: Num, textNumber: string -> Num)
    requires SaveAutoRefreshInterval(st, area, n).Saved?
    ensures LoadSettings(SaveAutoRefreshInterval(st, area, n).area, textNumber).autoRefreshInterval
            == SaveAutoRefreshInterval(st, area, n).settings.autoRefreshInterval
  {
  }

  lemma PreviewOpacityReloads(st: Settings, area: Storage.Area, n: Num, textNumber: string -> Num)
    requires SavePreviewOpacity(st, area, n).Saved?
    ensures LoadSettings(SavePreviewOpacity(st, area, n).area, textNumber).previewOpacity
            == SavePreviewOpacity(st, area, n).settings.previewOpacity
  {
  }

  /** `savePageNavigationMode`: only `'ajax'` and `'full'` are written and taken. */
  function SavePageNavigationMode(st: Settings, area: Storage.Area, m: Storage.PageNavigationMode): (r: (Settings, Storage.Area))
    ensures m == Storage.Infinite ==> r == (st, area)
    ensures m != Storage.Infinite ==>
              r.0 == st.(pageNavigationMode := JsValue.Text(Storage.ModeName(m)))
              && Storage.PageMode(r.1) == JsValue.Text(Storage.ModeName(m))
  {
    if m != Storage.Ajax && m != Storage.Full then (st, area)
    else (st.(pageNavigationMode := JsValue.Text(Storage.ModeName(m))), Storage.SavePageMode(area, m))
  }

  /** After saving a mode, loading again gives the mode the store now holds; a
      request for infinite scrolling leaves the stored mode as it was. */
  lemma PageNavigationModeReloads(st: Settings, area: Storage.Area, m: Storage.PageNavigationMode,
                                  textNumber: string -> Num)
    ensures m != Storage.Infinite ==>
              LoadSettings(SavePageNavigationMode(st, area, m).1, textNumber).pageNavigationMode
              == SavePageNavigationMode(st, area, m).0.pageNavigationMode
    ensures m == Storage.Infinite ==>
              LoadSettings(SavePageNavigationMode(st, area, m).1, textNumber).pageNavigationMode
              == LoadSettings(area, textNumber).pageNavigationMode
  {
  }

  // ---------------------------------------------------------------- enable flags

  /** `saveShortcutEnabled`: the value is always written under `storageKey`; five
      keys go to their dedicated flags and every other key into `shortcutEnabled`. */
  function SaveShortcutEnabled(st: Settings, area: Storage.Area, storageKey: string, enabled: bool): (r: (Settings, Storage.Area))
    ensures r.1 == Storage.SetData(area, storageKey, JsValue.Flag(enabled))
    ensures storageKey == MacroZEnabledKey ==> r.0 == st.(macroZEnabled := enabled)
    ensures storageKey == MacroXEnabledKey ==> r.0 == st.(macroXEnabled := enabled)
    ensures storageKey == SubmitCommentEnabledKey ==> r.0 == st.(submitCommentKeyEnabled := enabled)
    ensures storageKey == SubmitImagePostEnabledKey ==> r.0 == st.(submitImagePostKeyEnabled := enabled)
    ensures storageKey == ToggleModalEnabledKey ==> r.0 == st.(toggleModalKeyEnabled := enabled)
    ensures !IsDedicatedEnabledKey(storageKey) ==>
              r.0 == st.(shortcutEnabled := st.shortcutEnabled[storageKey := enabled])
  {
    var area' := Storage.SetData(area, storageKey, JsValue.Flag(enabled));
    if storageKey == MacroZEnabledKey then (st.(macroZEnabled := enabled), area')
    else if storageKey == MacroXEnabledKey then (st.(macroXEnabled := enabled), area')
    else if storageKey == SubmitCommentEnabledKey then (st.(submitCommentKeyEnabled := enabled), area')
    else if storageKey == SubmitImagePostEnabledKey then (st.(submitImagePostKeyEnabled := enabled), area')
    else if storageKey == ToggleModalEnabledKey then (st.(toggleModalKeyEnabled := enabled), area')
    else (st.(shortcutEnabled := st.shortcutEnabled[storageKey := enabled]), area')
  }

  /** The routing agrees with loading: after enabling or disabling a non-Alt
      action, the next load gives the store's new flag. */
  lemma EnabledSaveReloads(st: Settings, area: Storage.Area, a: Action, enabled: bool, textNumber: string -> Num)
    requires !AltRequired(a)
    ensures var (st', area') := SaveShortcutEnabled(st, area, EnabledKey(a), enabled);
            st'.shortcutEnabled[EnabledKey(a)] == enabled
            && LoadSettings(area', textNumber).shortcutEnabled[EnabledKey(a)] == enabled
  {
    EnabledKeyNotDedicated(a);
  }
}

=== FILE: shortcut.dfy ===
/** Keyboard shortcut strings (src/services/Shortcut.ts): key-token normalisation,
    the canonical `Ctrl+Alt+Shift+Meta+Key` form, parsing of user-written combos,
    the combo of a key event and the Alt-required fallback rule. */
module Shortcut {
  import opened Wrappers
  import opened Text

  datatype Modifier = Ctrl | Alt | Shift | Meta

  /** `ModifierState`: which modifiers a combo holds. */
  datatype Mods = Mods(ctrl: bool, alt: bool, shift: bool, meta: bool)

  const NoMods := Mods(false, false, false, false)

  function ModifierName(m: Modifier): string {
    match m
    case Ctrl => "Ctrl"
    case Alt => "Alt"
    case Shift => "Shift"
    case Meta => "Meta"
  }

  /** Position of a modifier in `MODIFIER_ORDER`. */
  function Rank(m: Modifier): nat {
    match m
    case Ctrl => 0
    case Alt => 1
    case Shift => 2
    case Meta => 3
  }

  predicate Holds(ms: Mods, m: Modifier) {
    match m
    case Ctrl => ms.ctrl
    case Alt => ms.alt
    case Shift => ms.shift
    case Meta => ms.meta
  }

  function WithModifier(ms: Mods, m: Modifier): (r: Mods)
    ensures Holds(r, m)
    ensures forall m' :: m' != m ==> (Holds(r, m') <==> Holds(ms, m'))
  {
    match m
    case Ctrl => ms.(ctrl := true)
    case Alt => ms.(alt := true)
    case Shift => ms.(shift := true)
    case Meta => ms.(meta := true)
  }

  /** What looking a lower-cased token up in `MODIFIER_ALIASES` finds: one of the
      table's own entries, a member every plain object inherits from
      `Object.prototype` (all-lower-case names only: `constructor`, `__proto__`),
      or nothing. */
  datatype Lookup = Own(modifier: Modifier) | Inherited | Absent

  function AliasLookup(lowered: string): Lookup {
    if lowered == "ctrl" || lowered == "control" then Own(Ctrl)
    else if lowered == "alt" || lowered == "option" then Own(Alt)
    else if lowered == "shift" then Own(Shift)
    else if lowered == "meta" || lowered == "cmd" || lowered == "command"
         || lowered == "win" || lowered == "windows" then Own(Meta)
    else if lowered == "constructor" || lowered == "__proto__" then Inherited
    else Absent
  }

  /** Every name in the table is longer than two characters. */
  lemma ShortNameAbsent(lowered: string)
    requires |lowered| <= 2
    ensures AliasLookup(lowered) == Absent
  {
  }

  /** Both tables hold only names shorter than nine characters but `__proto__`. */
  lemma LongNameAbsent(lowered: string)
    requires |lowered| >= 9
    ensures !AliasLookup(lowered).Own? && KeyAlias(lowered).None?
  {
  }

  /** Every name in the key table but the space is longer than one character. */
  lemma ShortKeyAlias(lowered: string)
    requires |lowered| == 1 && lowered[0] != ' '
    ensures KeyAlias(lowered).None?
  {
  }

  /** Every disallowed token is longer than two characters. */
  lemma ShortNotDisallowed(k: string)
    requires |k| <= 2
    ensures k !in Disallowed
  {
  }

  /** `MODIFIER_KEYS`: the `key` values of the modifier keys themselves. */
  const ModifierKeys: set<string> := {"Control", "Alt", "AltGraph", "Shift", "Meta", "OS"}

  /** `DISALLOWED_KEY_TOKENS`: IME and dead-key values. */
  const Disallowed: set<string> :=
    {"Process", "Dead", "Unidentified", "Compose", "HangulMode", "HanjaMode", "JunjaMode", "FinalMode"}

  /** `KEY_NORMALIZATION_MAP`, looked up with a lower-cased token. */
  function KeyAlias(lowered: string): (r: Option<string>)
    ensures r.Some? ==> r.value in KeyNames
  {
    if lowered == " " || lowered == "space" || lowered == "spacebar" then Some("Space")
    else if lowered == "esc" || lowered == "escape" then Some("Escape")
    else if lowered == "return" || lowered == "enter" then Some("Enter")
    else if lowered == "del" || lowered == "delete" then Some("Delete")
    else if lowered == "ins" || lowered == "insert" then Some("Insert")
    else if lowered == "pgup" || lowered == "pageup" then Some("PageUp")
    else if lowered == "pgdn" || lowered == "pagedown" then Some("PageDown")
    else if lowered == "left" then Some("ArrowLeft")
    else if lowered == "right" then Some("ArrowRight")
    else if lowered == "up" then Some("ArrowUp")
    else if lowered == "down" then Some("ArrowDown")
    else if lowered == "plus" then Some("Plus")
    else if lowered == "dot" then Some("Period")
    else None
  }

  /** The values of `KEY_NORMALIZATION_MAP`. */
  const KeyNames: set<string> :=
    {"Space", "Escape", "Enter", "Delete", "Insert", "PageUp", "PageDown",
     "ArrowLeft", "ArrowRight", "ArrowUp", "ArrowDown", "Plus", "Period"}

  /** The class `[ㄱ-ㅎㅏ-ㅣ가-힣]`: compatibility jamo U+3131..U+3163 and the
      precomposed syllables U+AC00..U+D7A3. */
  predicate IsHangul(c: char) {
    ('\U{3131}' <= c <= '\U{3163}') || ('\U{AC00}' <= c <= '\U{D7A3}')
  }

  predicate HasHangul(s: string) {
    exists i :: 0 <= i < |s| && IsHangul(s[i])
  }

  /** `isAsciiPrintableChar`: code 33..126 (the space is not printable here). */
  predicate IsPrintable(c: char) {
    33 <= c as int <= 126
  }

  /** `/^f\d{1,2}$/i`. */
  predicate IsFunctionKey(t: string) {
    2 <= |t| <= 3 && (t[0] == 'f' || t[0] == 'F') && AllDigits(t[1..])
  }

  /** `/^[A-Za-z0-9]+$/`. */
  predicate IsAlphanumeric(t: string) {
    |t| >= 1 && forall i :: 0 <= i < |t| ==> IsAsciiLetter(t[i]) || IsAsciiDigit(t[i])
  }

  /** The characters a normalised key token is made of: printable, never `+`. */
  predicate KeyChars(k: string) {
    |k| >= 1 && forall i :: 0 <= i < |k| ==> IsPrintable(k[i]) && k[i] != '+'
  }

  /** `normalizeKeyToken` as written. The table entry for a single space is never
      reached: the token is trimmed before the lookup, and a space trims to nothing. */
  function NormalizeKeyTokenAsWritten(raw: string): (r: string)
    ensures raw in Disallowed || HasHangul(raw) ==> r == ""
    ensures Trim(raw) == [] ==> r == ""
    ensures r != "" ==> KeyChars(r)
    ensures !(raw in Disallowed || HasHangul(raw)) && KeyAlias(Lower(Trim(raw))).Some? ==>
              r == KeyAlias(Lower(Trim(raw))).value
  {
    if raw in Disallowed || HasHangul(raw) then "" else NormalizeTrimmed(Trim(raw))
  }

  /** The rules after the IME and Hangul checks, on the trimmed token: the alias
      table (case-insensitive), single characters, function keys, then words of
      letters and digits with the first letter capitalised. */
  function NormalizeTrimmed(t: string): (r: string)
    ensures t == [] ==> r == ""
    ensures r != "" ==> KeyChars(r)
    ensures t != [] && KeyAlias(Lower(t)).Some? ==> r == KeyAlias(Lower(t)).value
  {
    if t == [] then ""
    else if KeyAlias(Lower(t)).Some? then
      KeyNameChars(KeyAlias(Lower(t)).value);
      KeyAlias(Lower(t)).value
    else if |t| == 1 then SingleCharacter(t[0])
    else if IsFunctionKey(t) then
      FunctionKeyChars(t);
      Upper(t)
    else if !IsAlphanumeric(t) then ""
    else
      var n := Capitalize(t);
      if n in Disallowed then "" else n
  }

  /** A one-character token: `+` is `Plus`, printable ASCII is upper-cased,
      anything else is dropped. */
  function SingleCharacter(c: char): (r: string)
    ensures c == '+' ==> r == "Plus"
    ensures c != '+' && IsPrintable(c) ==> r == [AsciiUpper(c)]
    ensures !IsPrintable(c) ==> r == ""
    ensures r != "" ==> KeyChars(r)
  {
    if c == '+' then "Plus"
    else if !IsPrintable(c) then ""
    else Upper([c])
  }

  lemma FunctionKeyChars(t: string)
    requires IsFunctionKey(t)
    ensures KeyChars(Upper(t))
  {
    forall i | 1 <= i < |t| ensures IsAsciiDigit(t[i]) {
      assert t[i] == t[1..][i - 1];
    }
  }

  /** Upper-casing the first character, as `charAt(0).toUpperCase() + slice(1)`. */
  function Capitalize(t: string): (r: string)
    requires |t| >= 1
    ensures |r| == |t| && r[1..] == t[1..]
    ensures Lower(r) == Lower(t)
    ensures IsAlphanumeric(t) ==> IsAlphanumeric(r) && KeyChars(r)
  {
    var r := [AsciiUpper(t[0])] + t[1..];
    assert Lower(r) == Lower(t) by {
      forall i | 0 <= i < |t| ensures Lower(r)[i] == Lower(t)[i] {
        if i > 0 { assert r[i] == t[i]; }
      }
    }
    r
  }

  lemma KeyNameChars(k: string)
    requires k in KeyNames
    ensures KeyChars(k)
  {
  }

  /** `normalizeKeyToken` with the space bar reaching its table entry, as the entry
      `' ': 'Space'` evidently intends; every other token is treated as written. */
  function NormalizeKeyToken(raw: string): (r: string)
    ensures raw != " " ==> r == NormalizeKeyTokenAsWritten(raw)
    ensures raw == " " ==> r == "Space"
    ensures r != "" ==> KeyChars(r)
  {
    if raw == " " then KeyAlias(raw).value else NormalizeKeyTokenAsWritten(raw)
  }

  /** The space bar is lost as written and kept once corrected. */
  lemma SpaceBarDropped()
    ensures NormalizeKeyTokenAsWritten(" ") == ""
    ensures NormalizeKeyToken(" ") == "Space"
  {
    assert IsSpace(" "[0]);
  }

  /** A normalised key token: made of its characters and a fixed point of
      `NormalizeKeyToken`. */
  predicate KeyShape(k: string) {
    KeyChars(k) && NormalizeKeyToken(k) == k
  }

  /** A token that the modifier table does not claim. */
  predicate NotModifier(k: string) {
    !AliasLookup(Lower(k)).Own?
  }

  /** On printable tokens the IME, Hangul and trim steps are pass-throughs. */
  lemma PrintableNormal(k: string)
    requires KeyChars(k) && k !in Disallowed
    ensures NormalizeKeyToken(k) == NormalizeTrimmed(k)
  {
    PrintableToken(k);
  }

  lemma AsciiUpperIdempotent(c: char)
    ensures AsciiUpper(AsciiUpper(c)) == AsciiUpper(c)
  {
  }

  /** Printable characters are neither whitespace nor Hangul, so a token made of
      them survives `trim` and the Hangul check. */
  lemma PrintableToken(k: string)
    requires KeyChars(k)
    ensures Trim(k) == k
    ensures !HasHangul(k)
    ensures k != " "
  {
    EdgesNotSpace(k);
    TrimOfTrimmed(k);
  }

  /** A name found in the table under its own lower-case form is a fixed point. */
  lemma TableNameStable(k: string, lowered: string)
    requires KeyChars(k) && Lower(k) == lowered
    requires k !in Disallowed && KeyAlias(lowered) == Some(k)
    ensures NormalizeKeyToken(k) == k
  {
    PrintableToken(k);
  }

  /** A capitalised word outside the table is a fixed point. */
  lemma WordNameStable(k: string, lowered: string)
    requires KeyChars(k) && Lower(k) == lowered && |k| >= 2
    requires k !in Disallowed && KeyAlias(lowered).None?
    requires IsAlphanumeric(k) && !IsFunctionKey(k) && Capitalize(k) == k
    ensures NormalizeKeyToken(k) == k
  {
    PrintableNormal(k);
    WordTrimmed(k);
  }

  lemma WordTrimmed(k: string)
    requires |k| >= 2 && k !in Disallowed && KeyAlias(Lower(k)).None?
    requires IsAlphanumeric(k) && !IsFunctionKey(k) && Capitalize(k) == k
    ensures NormalizeTrimmed(k) == k
  {
  }

  /** The table's names normalise to themselves and are not modifier aliases. */
  lemma KeyNameStable(k: string)
    requires k in KeyNames
    ensures NormalizeKeyToken(k) == k
    ensures !AliasLookup(Lower(k)).Own?
  {
    KeyNameChars(k);
    KeyNameClass(k);
    if KeyAlias(Lower(k)) == Some(k) {
      TableNameStable(k, Lower(k));
    } else {
      WordNameStable(k, Lower(k));
    }
  }

  /** Each name is either found in the table under its lower-case form, or is a
      capitalised word of letters outside it. */
  lemma KeyNameClass(k: string)
    requires k in KeyNames
    ensures !AliasLookup(Lower(k)).Own? && k !in Disallowed
    ensures KeyAlias(Lower(k)) == Some(k)
            || (KeyAlias(Lower(k)).None? && |k| >= 2 && IsAlphanumeric(k)
                && !IsFunctionKey(k) && Capitalize(k) == k)
  {
    if k == "Space" {
      SpaceClass(k);
    } else if k == "Escape" {
      EscapeClass(k);
    } else if k == "Enter" {
      EnterClass(k);
    } else if k == "Delete" {
      DeleteClass(k);
    } else if k == "Insert" {
      InsertClass(k);
    } else if k == "PageUp" {
      PageUpClass(k);
    } else if k == "PageDown" {
      PageDownClass(k);
    } else if k == "Plus" {
      PlusClass(k);
    } else if k == "ArrowLeft" {
      ArrowLeftClass(k);
      ArrowLeftShape(k);
    } else if k == "ArrowRight" {
      ArrowRightClass(k);
      ArrowRightShape(k);
    } else if k == "ArrowUp" {
      ArrowUpClass(k);
      ArrowUpShape(k);
    } else if k == "ArrowDown" {
      ArrowDownClass(k);
      ArrowDownShape(k);
    } else if k == "Period" {
      PeriodClass(k);
      PeriodShape(k);
    }
  }

  /** A capitalised word of letters is alphanumeric, no function key, and its own
      capitalisation. */
  lemma WordShape(k: string)
    requires |k| >= 4 && 'A' <= k[0] <= 'Z'
    requires forall i :: 0 <= i < |k| ==> IsAsciiLetter(k[i])
    ensures IsAlphanumeric(k) && !IsFunctionKey(k) && Capitalize(k) == k
  {
    assert Capitalize(k) == [k[0]] + k[1..];
  }

  lemma SpaceClass(k: string)
    requires k == "Space"
    ensures !AliasLookup(Lower(k)).Own? && k !in Disallowed
    ensures KeyAlias(Lower(k)) == Some(k)
  {
    assert Lower(k) == "space";
  }

  lemma EscapeClass(k: string)
    requires k == "Escape"
    ensures !AliasLookup(Lower(k)).Own? && k !in Disallowed
    ensures KeyAlias(Lower(k)) == Some(k)
  {
    assert Lower(k) == "escape";
  }

  lemma EnterClass(k: string)
    requires k == "Enter"
    ensures !AliasLookup(Lower(k)).Own? && k !in Disallowed
    ensures KeyAlias(Lower(k)) == Some(k)
  {
    assert Lower(k) == "enter";
  }

  lemma DeleteClass(k: string)
    requires k == "Delete"
    ensures !AliasLookup(Lower(k)).Own? && k !in Disallowed
    ensures KeyAlias(Lower(k)) == Some(k)
  {
    assert Lower(k) == "delete";
  }

  lemma InsertClass(k: string)
    requires k == "Insert"
    ensures !AliasLookup(Lower(k)).Own? && k !in Disallowed
    ensures KeyAlias(Lower(k)) == Some(k)
  {
    assert Lower(k) == "insert";
  }

  lemma PageUpClass(k: string)
    requires k == "PageUp"
    ensures !AliasLookup(Lower(k)).Own? && k !in Disallowed
    ensures KeyAlias(Lower(k)) == Some(k)
  {
    assert Lower(k) == "pageup";
  }

  lemma PageDownClass(k: string)
    requires k == "PageDown"
    ensures !AliasLookup(Lower(k)).Own? && k !in Disallowed
    ensures KeyAlias(Lower(k)) == Some(k)
  {
    assert Lower(k) == "pagedown";
  }

  lemma PlusClass(k: string)
    requires k == "Plus"
    ensures !AliasLookup(Lower(k)).Own? && k !in Disallowed
    ensures KeyAlias(Lower(k)) == Some(k)
  {
    assert Lower(k) == "plus";
  }

  lemma ArrowLeftClass(k: string)
    requires k == "ArrowLeft"
    ensures !AliasLookup(Lower(k)).Own? && k !in Disallowed
    ensures KeyAlias(Lower(k)).None?
  {
    assert Lower(k) == "arrowleft";
    LongNameAbsent(Lower(k));
  }

  lemma ArrowLeftShape(k: string)
    requires k == "ArrowLeft"
    ensures |k| >= 2 && IsAlphanumeric(k) && !IsFunctionKey(k) && Capitalize(k) == k
  {
    WordShape(k);
  }

  lemma ArrowRightClass(k: string)
    requires k == "ArrowRight"
    ensures !AliasLookup(Lower(k)).Own? && k !in Disallowed
    ensures KeyAlias(Lower(k)).None?
  {
    assert Lower(k) == "arrowright";
    LongNameAbsent(Lower(k));
  }

  lemma ArrowRightShape(k: string)
    requires k == "ArrowRight"
    ensures |k| >= 2 && IsAlphanumeric(k) && !IsFunctionKey(k) && Capitalize(k) == k
  {
    WordShape(k);
  }

  lemma ArrowUpClass(k: string)
    requires k == "ArrowUp"
    ensures !AliasLookup(Lower(k)).Own? && k !in Disallowed
    ensures KeyAlias(Lower(k)).None?
  {
    assert Lower(k) == "arrowup";
    ArrowUpLookups(Lower(k));
  }

  lemma ArrowUpLookups(l: string)
    requires l == "arrowup"
    ensures !AliasLookup(l).Own? && KeyAlias(l).None?
  {
  }

  lemma ArrowUpShape(k: string)
    requires k == "ArrowUp"
    ensures |k| >= 2 && IsAlphanumeric(k) && !IsFunctionKey(k) && Capitalize(k) == k
  {
    WordShape(k);
  }

  lemma ArrowDownClass(k: string)
    requires k == "ArrowDown"
    ensures !AliasLookup(Lower(k)).Own? && k !in Disallowed
    ensures KeyAlias(Lower(k)).None?
  {
    assert Lower(k) == "arrowdown";
    LongNameAbsent(Lower(k));
  }

  lemma ArrowDownShape(k: string)
    requires k == "ArrowDown"
    ensures |k| >= 2 && IsAlphanumeric(k) && !IsFunctionKey(k) && Capitalize(k) == k
  {
    WordShape(k);
  }

  lemma PeriodClass(k: string)
    requires k == "Period"
    ensures !AliasLookup(Lower(k)).Own? && k !in Disallowed
    ensures KeyAlias(Lower(k)).None?
  {
    assert Lower(k) == "period";
    PeriodLookups(Lower(k));
  }

  lemma PeriodLookups(l: string)
    requires l == "period"
    ensures !AliasLookup(l).Own? && KeyAlias(l).None?
  {
  }

  lemma PeriodShape(k: string)
    requires k == "Period"
    ensures |k| >= 2 && IsAlphanumeric(k) && !IsFunctionKey(k) && Capitalize(k) == k
  {
    WordShape(k);
  }

  /** Normalising a normalised token changes nothing, and a token that is not a
      modifier alias does not become one. */
  lemma KeyTokenStable(raw: string)
    requires NormalizeKeyToken(raw) != ""
    ensures KeyShape(NormalizeKeyToken(raw))
    ensures NotModifier(Trim(raw)) ==> NotModifier(NormalizeKeyToken(raw))
  {
    var r := NormalizeKeyToken(raw);
    if raw == " " {
      KeyNameStable(r);
    } else {
      var t := Trim(raw);
      assert r == NormalizeTrimmed(t);
      TrimmedStable(t);
    }
  }

  lemma TrimmedStable(t: string)
    requires NormalizeTrimmed(t) != ""
    ensures KeyShape(NormalizeTrimmed(t))
    ensures NotModifier(t) ==> NotModifier(NormalizeTrimmed(t))
  {
    var r := NormalizeTrimmed(t);
    if KeyAlias(Lower(t)).Some? {
      KeyNameStable(r);
    } else if |t| == 1 {
      SingleStable(t[0]);
    } else if IsFunctionKey(t) {
      FunctionKeyStable(t);
    } else {
      WordStable(t);
    }
  }

  lemma SingleStable(c: char)
    requires SingleCharacter(c) != ""
    ensures KeyShape(SingleCharacter(c))
    ensures NotModifier(SingleCharacter(c))
  {
    var r := SingleCharacter(c);
    if c == '+' {
      KeyNameStable(r);
    } else {
      var u := AsciiUpper(c);
      assert r == [u];
      ShortNotDisallowed(r);
      PrintableNormal(r);
      var l := Lower(r);
      assert l == [AsciiLower(u)];
      ShortKeyAlias(l);
      ShortNameAbsent(l);
      AsciiUpperIdempotent(c);
      assert NormalizeTrimmed(r) == SingleCharacter(u);
    }
  }

  lemma FunctionKeyStable(t: string)
    requires IsFunctionKey(t) && KeyAlias(Lower(t)).None?
    ensures NormalizeTrimmed(t) == Upper(t)
    ensures KeyShape(Upper(t))
    ensures Lower(Upper(t)) == Lower(t)
  {
    var r := Upper(t);
    FunctionKeyChars(t);
    LowerOfUpper(t);
    assert IsFunctionKey(r) by {
      forall i | 0 <= i < |r| - 1 ensures IsAsciiDigit(r[1..][i]) {
        assert t[i + 1] == t[1..][i];
        assert r[1..][i] == r[i + 1];
      }
    }
    assert Upper(r) == r by {
      forall i | 0 <= i < |r| ensures Upper(r)[i] == r[i] {
        AsciiUpperIdempotent(t[i]);
      }
    }
    assert r !in Disallowed by { assert |r| <= 3; }
    PrintableNormal(r);
    assert NormalizeTrimmed(r) == r;
  }

  lemma WordStable(t: string)
    requires |t| >= 2 && KeyAlias(Lower(t)).None? && !IsFunctionKey(t)
    requires NormalizeTrimmed(t) != ""
    ensures NormalizeTrimmed(t) == Capitalize(t)
    ensures KeyShape(Capitalize(t))
    ensures Lower(Capitalize(t)) == Lower(t)
  {
    var n := Capitalize(t);
    assert IsAlphanumeric(t);
    assert n !in Disallowed;
    PrintableNormal(n);
    assert !IsFunctionKey(n) by {
      assert n[1..] == t[1..];
    }
    AsciiUpperIdempotent(t[0]);
    assert Capitalize(n) == n;
    assert NormalizeTrimmed(n) == n;
  }

  // ---------------------------------------------------------------------------
  // The canonical combo form

  /** The held modifiers in `MODIFIER_ORDER`. */
  function Held(ms: Mods): (r: seq<Modifier>)
    ensures forall m :: m in r <==> Holds(ms, m)
    ensures forall i, j :: 0 <= i < j < |r| ==> Rank(r[i]) < Rank(r[j])
  {
    (if ms.ctrl then [Ctrl] else []) + (if ms.alt then [Alt] else [])
    + (if ms.shift then [Shift] else []) + (if ms.meta then [Meta] else [])
  }

  function NamesOf(ms: seq<Modifier>): (r: seq<string>)
    ensures |r| == |ms|
    ensures forall i :: 0 <= i < |ms| ==> r[i] == ModifierName(ms[i])
  {
    seq(|ms|, i requires 0 <= i < |ms| => ModifierName(ms[i]))
  }

  /** The modifiers a list names. */
  function ModsFrom(ms: seq<Modifier>): (r: Mods)
    ensures forall m :: Holds(r, m) <==> m in ms
  {
    Mods(Ctrl in ms, Alt in ms, Shift in ms, Meta in ms)
  }

  /** A modifier's name is printable, free of `+`, and the table maps it back. */
  lemma ModifierNameClass(m: Modifier)
    ensures KeyChars(ModifierName(m))
    ensures AliasLookup(Lower(ModifierName(m))) == Own(m)
  {
    match m
    case Ctrl => assert Lower("Ctrl") == "ctrl";
    case Alt => assert Lower("Alt") == "alt";
    case Shift => assert Lower("Shift") == "shift";
    case Meta => assert Lower("Meta") == "meta";
  }

  lemma NamesDistinct(a: Modifier, b: Modifier)
    requires ModifierName(a) == ModifierName(b)
    ensures a == b
  {
    ModifierNameClass(a);
    ModifierNameClass(b);
  }

  /** The pieces of a combo string: modifier names, then the key. */
  function Pieces(ms: seq<Modifier>, key: string): (r: seq<string>)
    ensures |r| == |ms| + 1 && r[|ms|] == key
    ensures KeyChars(key) ==> forall i :: 0 <= i < |r| ==> KeyChars(r[i])
  {
    forall m | m in ms ensures KeyChars(ModifierName(m)) { ModifierNameClass(m); }
    NamesOf(ms) + [key]
  }

  /** `formatShortcutCombo`: the held modifiers in order, then the key, joined by
      `+`; splitting the result at `+` gives those pieces back. */
  function FormatCombo(ms: Mods, key: string): (r: string)
    ensures KeyChars(key) ==> Split(r, '+') == Pieces(Held(ms), key)
    ensures KeyChars(key) ==> KeyCharsOrPlus(r)
  {
    var parts := Pieces(Held(ms), key);
    JoinFacts(parts, KeyChars(key));
    Join(parts, '+')
  }

  lemma JoinFacts(parts: seq<string>, keyOk: bool)
    requires |parts| >= 1
    requires keyOk ==> forall i :: 0 <= i < |parts| ==> KeyChars(parts[i])
    ensures keyOk ==> Split(Join(parts, '+'), '+') == parts && KeyCharsOrPlus(Join(parts, '+'))
  {
    if keyOk {
      SplitJoin(parts, '+');
      JoinChars(parts);
    }
  }

  /** Printable characters only (the `+` separators included). */
  predicate KeyCharsOrPlus(s: string) {
    |s| >= 1 && forall i :: 0 <= i < |s| ==> IsPrintable(s[i])
  }

  lemma {:induction false} JoinChars(parts: seq<string>)
    requires |parts| >= 1
    requires forall i :: 0 <= i < |parts| ==> KeyChars(parts[i])
    ensures KeyCharsOrPlus(Join(parts, '+'))
    decreases |parts|
  {
    if |parts| > 1 {
      JoinChars(parts[1..]);
      var a := parts[0];
      var b := Join(parts[1..], '+');
      assert Join(parts, '+') == a + ['+'] + b;
      forall i | 0 <= i < |a| + 1 + |b| ensures IsPrintable((a + ['+'] + b)[i]) {
        if i < |a| {
          assert (a + ['+'] + b)[i] == a[i];
        } else if i > |a| {
          assert (a + ['+'] + b)[i] == b[i - |a| - 1];
        }
      }
    }
  }

  // ---------------------------------------------------------------------------
  // Parsing a written combo

  /** `.map(t => t.trim()).filter(Boolean)`. */
  function Clean(parts: seq<string>): (r: seq<string>)
    ensures forall i :: 0 <= i < |r| ==> Trimmed(r[i])
  {
    if parts == [] then []
    else
      var t := Trim(parts[0]);
      var rest := Clean(parts[1..]);
      if t == [] then rest
      else
        TrimNonEmpty(parts[0]);
        ConsTrimmed(t, rest);
        [t] + rest
  }

  lemma TrimNonEmpty(s: string)
    requires Trim(s) != []
    ensures Trimmed(Trim(s))
  {
  }

  lemma ConsTrimmed(t: string, rest: seq<string>)
    requires Trimmed(t)
    requires forall i :: 0 <= i < |rest| ==> Trimmed(rest[i])
    ensures forall i :: 0 <= i < |[t] + rest| ==> Trimmed(([t] + rest)[i])
  {
    forall i | 0 <= i < |[t] + rest| ensures Trimmed(([t] + rest)[i]) {
      if i > 0 {
        assert ([t] + rest)[i] == rest[i - 1];
      }
    }
  }

  /** Non-empty, with no whitespace at either end. */
  predicate Trimmed(s: string) {
    s != [] && !IsSpace(s[0]) && !IsSpace(s[|s| - 1])
  }

  /** Pieces that are already trimmed and non-empty pass `Clean` unchanged. */
  lemma CleanKeeps(parts: seq<string>)
    requires forall i :: 0 <= i < |parts| ==> parts[i] != [] && Trim(parts[i]) == parts[i]
    ensures Clean(parts) == parts
  {
    CleanKeepsFrom(parts, 0);
    assert parts[0..] == parts;
  }

  lemma {:induction false} CleanKeepsFrom(parts: seq<string>, n: nat)
    requires n <= |parts|
    requires forall i :: 0 <= i < |parts| ==> parts[i] != [] && Trim(parts[i]) == parts[i]
    ensures Clean(parts[n..]) == parts[n..]
    decreases |parts| - n
  {
    if n < |parts| {
      CleanKeepsFrom(parts, n + 1);
      var s := parts[n..];
      assert s[0] == parts[n] && s[1..] == parts[n + 1..];
      CleanStep(s);
    }
  }

  lemma CleanStep(parts: seq<string>)
    requires parts != [] && parts[0] != [] && Trim(parts[0]) == parts[0]
    ensures Clean(parts) == [parts[0]] + Clean(parts[1..])
  {
  }

  /** The tokens `normalizeShortcutCombo` walks through. */
  function Tokens(combo: string): (r: seq<string>)
    ensures forall i :: 0 <= i < |r| ==> Trimmed(r[i])
  {
    Clean(Split(Trim(combo), '+'))
  }

  /** The loop of `normalizeShortcutCombo` over the tokens, from the modifiers and
      key found so far. A token the modifier table answers for sets a modifier;
      any other must normalise to a key, and only one key is allowed. With
      `ownOnly` false the lookup also answers for the names plain objects inherit,
      as the source's table does; those tokens are skipped. */
  function Scan(tokens: seq<string>, ms: Mods, key: Option<string>, ownOnly: bool): (r: Option<(Mods, string)>)
    decreases |tokens|
  {
    if tokens == [] then (if key.Some? then Some((ms, key.value)) else None)
    else
      var l := AliasLookup(Lower(tokens[0]));
      if l.Own? then Scan(tokens[1..], WithModifier(ms, l.modifier), key, ownOnly)
      else if l.Inherited? && !ownOnly then Scan(tokens[1..], ms, key, ownOnly)
      else
        var k := if ownOnly then NormalizeKeyToken(tokens[0]) else NormalizeKeyTokenAsWritten(tokens[0]);
        if k == "" || key.Some? then None
        else Scan(tokens[1..], ms, Some(k), ownOnly)
  }

  function Parse(combo: string, ownOnly: bool): Option<(Mods, string)> {
    if Trim(combo) == [] then None
    else
      var tokens := Tokens(combo);
      if tokens == [] then None else Scan(tokens, NoMods, None, ownOnly)
  }

  /** The tokens the modifier table does not claim: the key candidates. */
  function Candidates(tokens: seq<string>): (r: seq<string>)
    ensures forall i :: 0 <= i < |r| ==> r[i] in tokens && NotModifier(r[i])
  {
    if tokens == [] then []
    else if NotModifier(tokens[0]) then [tokens[0]] + Candidates(tokens[1..])
    else Candidates(tokens[1..])
  }

  /** Some token names modifier `m`. */
  predicate Mentions(tokens: seq<string>, m: Modifier) {
    exists i :: 0 <= i < |tokens| && AliasLookup(Lower(tokens[i])) == Own(m)
  }

  /** `ms` with every modifier the tokens name added. */
  function Union(ms: Mods, tokens: seq<string>): (r: Mods)
    ensures forall m :: Holds(r, m) <==> Holds(ms, m) || Mentions(tokens, m)
  {
    Mods(ms.ctrl || Mentions(tokens, Ctrl), ms.alt || Mentions(tokens, Alt),
         ms.shift || Mentions(tokens, Shift), ms.meta || Mentions(tokens, Meta))
  }

  /** What a token list means, stated without the loop: exactly one key candidate,
      which must normalise; the modifiers are all those named. */
  function Meaning(tokens: seq<string>): Option<(Mods, string)> {
    var ks := Candidates(tokens);
    if |ks| == 1 && NormalizeKeyToken(ks[0]) != "" then Some((Union(NoMods, tokens), NormalizeKeyToken(ks[0])))
    else None
  }

  lemma MentionsCons(tokens: seq<string>, m: Modifier)
    requires tokens != []
    ensures Mentions(tokens, m) <==>
              AliasLookup(Lower(tokens[0])) == Own(m) || Mentions(tokens[1..], m)
  {
    if Mentions(tokens[1..], m) {
      var i :| 0 <= i < |tokens[1..]| && AliasLookup(Lower(tokens[1..][i])) == Own(m);
      assert tokens[i + 1] == tokens[1..][i];
    }
    if Mentions(tokens, m) && AliasLookup(Lower(tokens[0])) != Own(m) {
      var i :| 0 <= i < |tokens| && AliasLookup(Lower(tokens[i])) == Own(m);
      assert tokens[1..][i - 1] == tokens[i];
    }
  }

  /** The loop computes the meaning, from any modifiers and key found so far. */
  lemma {:induction false} ScanMeaning(tokens: seq<string>, ms: Mods, key: Option<string>)
    ensures var ks := Candidates(tokens);
            Scan(tokens, ms, key, true) ==
              if key.None? then
                (if |ks| == 1 && NormalizeKeyToken(ks[0]) != "" then Some((Union(ms, tokens), NormalizeKeyToken(ks[0])))
                 else None)
              else if ks == [] then Some((Union(ms, tokens), key.value))
              else None
    decreases |tokens|
  {
    if tokens == [] {
      assert Union(ms, tokens) == ms;
    } else {
      var t := tokens[0];
      var rest := tokens[1..];
      var l := AliasLookup(Lower(t));
      if l.Own? {
        ScanMeaning(rest, WithModifier(ms, l.modifier), key);
        UnionOwnStep(tokens, ms);
      } else {
        assert Candidates(tokens) == [t] + Candidates(rest);
        UnionKeyStep(tokens, ms);
        var k := NormalizeKeyToken(t);
        if k != "" && key.None? {
          ScanMeaning(rest, ms, Some(k));
        }
      }
    }
  }

  /** A leading modifier name moves from the tokens into the modifiers. */
  lemma UnionOwnStep(tokens: seq<string>, ms: Mods)
    requires tokens != [] && AliasLookup(Lower(tokens[0])).Own?
    ensures Union(WithModifier(ms, AliasLookup(Lower(tokens[0])).modifier), tokens[1..]) == Union(ms, tokens)
  {
    var m0 := AliasLookup(Lower(tokens[0])).modifier;
    forall m ensures Holds(Union(WithModifier(ms, m0), tokens[1..]), m) <==> Holds(Union(ms, tokens), m) {
      MentionsCons(tokens, m);
    }
  }

  /** A leading token that names no modifier adds none. */
  lemma UnionKeyStep(tokens: seq<string>, ms: Mods)
    requires tokens != [] && !AliasLookup(Lower(tokens[0])).Own?
    ensures Union(ms, tokens[1..]) == Union(ms, tokens)
  {
    forall m ensures Holds(Union(ms, tokens[1..]), m) <==> Holds(Union(ms, tokens), m) {
      MentionsCons(tokens, m);
    }
  }

  /** `normalizeShortcutCombo`, returning the parsed modifiers and key: it is the
      meaning of the tokens, and the key it finds is a normalised key token that
      the modifier table does not claim. */
  function NormalizeParts(combo: string): (r: Option<(Mods, string)>)
    ensures r == Meaning(Tokens(combo))
    ensures r.Some? ==> KeyShape(r.value.1) && NotModifier(r.value.1)
  {
    ParseMeaning(combo);
    Parse(combo, true)
  }

  lemma ParseMeaning(combo: string)
    ensures Parse(combo, true) == Meaning(Tokens(combo))
    ensures Meaning(Tokens(combo)).Some? ==>
              KeyShape(Meaning(Tokens(combo)).value.1) && NotModifier(Meaning(Tokens(combo)).value.1)
  {
    var tokens := Tokens(combo);
    ScanMeaning(tokens, NoMods, None);
    if Trim(combo) == [] {
      assert Split(Trim(combo), '+') == [[]];
      assert Clean([[]]) == [];
    }
    if Meaning(tokens).Some? {
      var t := Candidates(tokens)[0];
      TrimOfTrimmed(t);
      KeyTokenStable(t);
    }
  }

  /** `normalizeShortcutCombo` with the modifier table consulted for its own
      entries only. */
  function NormalizeCombo(combo: string): (r: Option<string>)
    ensures r.Some? <==> NormalizeParts(combo).Some?
    ensures r.Some? ==> r.value == FormatCombo(NormalizeParts(combo).value.0, NormalizeParts(combo).value.1)
  {
    match NormalizeParts(combo)
    case None => None
    case Some((ms, key)) => Some(FormatCombo(ms, key))
  }

  /** `normalizeShortcutCombo` as written: the lookup `MODIFIER_ALIASES[token]` also
      finds `Object.prototype` members, so a token `constructor` or `__proto__`
      (in any letter case) is taken for a modifier and then ignored. */
  function NormalizeComboAsWritten(combo: string): (r: Option<string>)
    ensures Trim(combo) == [] ==> r.None?
  {
    match Parse(combo, false)
    case None => None
    case Some((ms, key)) => Some(FormatCombo(ms, key))
  }

  // ---------------------------------------------------------------------------
  // Round trip and idempotence

  lemma {:induction false} CandidatesOfPieces(ms: seq<Modifier>, k: string)
    requires NotModifier(k)
    ensures Candidates(Pieces(ms, k)) == [k]
    decreases |ms|
  {
    if ms == [] {
      assert Pieces(ms, k) == [k];
    } else {
      assert Pieces(ms, k) == [ModifierName(ms[0])] + Pieces(ms[1..], k);
      ModifierNameClass(ms[0]);
      CandidatesOfPieces(ms[1..], k);
    }
  }

  lemma MentionsOfPieces(ms: seq<Modifier>, k: string)
    requires NotModifier(k)
    ensures Union(NoMods, Pieces(ms, k)) == ModsFrom(ms)
  {
    var parts := Pieces(ms, k);
    forall m ensures Mentions(parts, m) <==> m in ms {
      if m in ms {
        var i :| 0 <= i < |ms| && ms[i] == m;
        ModifierNameClass(m);
        assert AliasLookup(Lower(parts[i])) == Own(m);
      }
      if Mentions(parts, m) {
        var i :| 0 <= i < |parts| && AliasLookup(Lower(parts[i])) == Own(m);
        if i < |ms| {
          ModifierNameClass(ms[i]);
        }
      }
    }
    assert forall m :: Holds(Union(NoMods, parts), m) <==> Holds(ModsFrom(ms), m);
  }

  /** Joined pieces come back as the tokens. */
  lemma PiecesTokens(ms: seq<Modifier>, k: string)
    requires KeyChars(k)
    ensures Tokens(Join(Pieces(ms, k), '+')) == Pieces(ms, k)
  {
    PrintableTokens(Pieces(ms, k));
  }

  /** Parsing the joined pieces gives back the modifiers named and the key. */
  lemma ParsePieces(ms: seq<Modifier>, k: string)
    requires KeyShape(k) && NotModifier(k)
    ensures NormalizeParts(Join(Pieces(ms, k), '+')) == Some((ModsFrom(ms), k))
  {
    PiecesTokens(ms, k);
    MeaningOfPieces(ms, k);
  }

  lemma MeaningOfPieces(ms: seq<Modifier>, k: string)
    requires KeyShape(k) && NotModifier(k)
    ensures Meaning(Pieces(ms, k)) == Some((ModsFrom(ms), k))
  {
    CandidatesOfPieces(ms, k);
    MentionsOfPieces(ms, k);
  }

  /** Normalising the canonical form of modifiers and a key gives them back. */
  lemma FormatRoundTrip(ms: Mods, k: string)
    requires KeyShape(k) && NotModifier(k)
    ensures NormalizeParts(FormatCombo(ms, k)) == Some((ms, k))
  {
    ParsePieces(Held(ms), k);
    assert FormatCombo(ms, k) == Join(Pieces(Held(ms), k), '+');
    ModsFromHeld(ms);
  }

  /** Reading back the held modifiers gives the same modifiers. */
  lemma ModsFromHeld(ms: Mods)
    ensures ModsFrom(Held(ms)) == ms
  {
    assert forall m :: Holds(ModsFrom(Held(ms)), m) <==> Holds(ms, m);
  }

  /** `normalizeShortcutCombo` is idempotent: a normalised combo normalises to
      itself. */
  lemma NormalizeIdempotent(combo: string)
    requires NormalizeCombo(combo).Some?
    ensures NormalizeCombo(NormalizeCombo(combo).value) == NormalizeCombo(combo)
  {
    var (ms, k) := NormalizeParts(combo).value;
    FormatRoundTrip(ms, k);
  }

  /** When a combo normalises to nothing: blank input, modifiers only, a word that
      is neither a modifier nor a key, or two keys. */
  lemma NormalizeRejects(combo: string)
    ensures Trim(combo) == [] ==> NormalizeParts(combo).None?
    ensures Candidates(Tokens(combo)) == [] ==> NormalizeParts(combo).None?
    ensures |Candidates(Tokens(combo))| >= 2 ==> NormalizeParts(combo).None?
    ensures |Candidates(Tokens(combo))| == 1 && NormalizeKeyToken(Candidates(Tokens(combo))[0]) == ""
            ==> NormalizeParts(combo).None?
  {
    BlankHasNoTokens(combo);
  }

  lemma BlankHasNoTokens(combo: string)
    ensures Trim(combo) == [] ==> Tokens(combo) == []
  {
    if Trim(combo) == [] {
      var pieces := Split(Trim(combo), '+');
      assert pieces == [[]];
      CleanBlank(pieces);
    }
  }

  lemma CleanBlank(parts: seq<string>)
    requires parts == [[]]
    ensures Clean(parts) == []
  {
    assert Trim(parts[0]) == [];
  }

  // ---------------------------------------------------------------------------
  // Alt, key events and the fallback rule

  /** `shortcutComboHasAlt` on the corrected normalisation (`HasAltAsWritten` is
      the source's). */
  function HasAlt(combo: string): (r: bool)
    ensures r <==> NormalizeParts(combo).Some? && NormalizeParts(combo).value.0.alt
  {
    match NormalizeCombo(combo)
    case None => false
    case Some(n) =>
      AltInPieces(NormalizeParts(combo).value.0, NormalizeParts(combo).value.1);
      "Alt" in Split(n, '+')
  }

  lemma AltInPieces(ms: Mods, k: string)
    requires KeyChars(k) && NotModifier(k)
    ensures "Alt" in Split(FormatCombo(ms, k), '+') <==> ms.alt
  {
    var parts := Pieces(Held(ms), k);
    ModifierNameClass(Alt);
    if "Alt" in parts {
      var i :| 0 <= i < |parts| && parts[i] == "Alt";
      if i < |Held(ms)| {
        NamesDistinct(Held(ms)[i], Alt);
      }
    }
    if ms.alt {
      assert Alt in Held(ms);
      var i :| 0 <= i < |Held(ms)| && Held(ms)[i] == Alt;
      assert parts[i] == "Alt";
    }
  }

  /** What a `KeyboardEvent` contributes: its `key`, the four modifier flags and
      `isComposing`. */
  datatype KeyEvent = KeyEvent(key: string, ctrl: bool, alt: bool, shift: bool, meta: bool, composing: bool)

  function EventMods(ev: KeyEvent): Mods {
    Mods(ev.ctrl, ev.alt, ev.shift, ev.meta)
  }

  /** `getShortcutComboFromEvent` with the corrected key token, under which the
      space bar gives `Space` (`ComboFromEventAsWritten` is the source's): nothing
      while composing, for a modifier key
      itself, or for a key that does not normalise; otherwise the canonical combo,
      which normalises back to exactly the event's modifiers and key. */
  function ComboFromEvent(ev: KeyEvent): (r: Option<string>)
    ensures r.Some? <==> !ev.composing && ev.key !in ModifierKeys && NormalizeKeyToken(ev.key) != ""
    ensures r.Some? && NotModifier(Trim(ev.key)) ==>
              NormalizeParts(r.value) == Some((EventMods(ev), NormalizeKeyToken(ev.key)))
  {
    if ev.composing || ev.key in ModifierKeys then None
    else
      var k := NormalizeKeyToken(ev.key);
      if k == "" then None
      else
        EventRoundTrip(ev);
        Some(FormatCombo(EventMods(ev), k))
  }

  lemma EventRoundTrip(ev: KeyEvent)
    requires NormalizeKeyToken(ev.key) != ""
    ensures NotModifier(Trim(ev.key)) ==>
              NormalizeParts(FormatCombo(EventMods(ev), NormalizeKeyToken(ev.key)))
              == Some((EventMods(ev), NormalizeKeyToken(ev.key)))
  {
    KeyTokenStable(ev.key);
    if NotModifier(Trim(ev.key)) {
      FormatRoundTrip(EventMods(ev), NormalizeKeyToken(ev.key));
    }
  }

  /** `normalizeShortcutWithFallback` on the corrected normalisation
      (`NormalizeWithFallbackAsWritten` is the source's): the stored combo if it
      normalises, else the default, else nothing; for an Alt-required action `Alt+` is put in front when
      the combo lacks Alt. The result always normalises to the chosen combo with
      Alt added when required, and it holds Alt whenever Alt is required. */
  function NormalizeWithFallback(combo: Option<string>, fallback: string, altRequired: bool): (r: string)
    ensures r == "" <==> NormalizeParts(combo.GetOr("")).None? && NormalizeParts(fallback).None?
    ensures NormalizeParts(combo.GetOr("")).Some? ==>
              NormalizeParts(r) == Some(AltIf(NormalizeParts(combo.GetOr("")).value, altRequired))
    ensures NormalizeParts(combo.GetOr("")).None? && NormalizeParts(fallback).Some? ==>
              NormalizeParts(r) == Some(AltIf(NormalizeParts(fallback).value, altRequired))
    ensures altRequired && r != "" ==> HasAlt(r)
  {
    var primary := NormalizeCombo(combo.GetOr(""));
    var chosen := if primary.Some? then NormalizeParts(combo.GetOr("")) else NormalizeParts(fallback);
    var normalized := if primary.Some? then primary.value else NormalizeCombo(fallback).GetOr("");
    if chosen.None? then
      ""
    else
      WithAltFacts(chosen.value.0, chosen.value.1, altRequired);
      if altRequired && !HasAlt(normalized) then "Alt+" + normalized else normalized
  }

  function AltIf(parsed: (Mods, string), altRequired: bool): (Mods, string) {
    if altRequired then (parsed.0.(alt := true), parsed.1) else parsed
  }

  lemma WithAltFacts(ms: Mods, k: string, altRequired: bool)
    requires KeyShape(k) && NotModifier(k)
    ensures FormatCombo(ms, k) != ""
    ensures NormalizeParts(FormatCombo(ms, k)) == Some((ms, k))
    ensures HasAlt(FormatCombo(ms, k)) <==> ms.alt
    ensures !ms.alt ==> NormalizeParts("Alt+" + FormatCombo(ms, k)) == Some((ms.(alt := true), k))
  {
    FormatRoundTrip(ms, k);
    if !ms.alt {
      AltPrefix(ms, k);
    }
  }

  /** `Alt+` in front of a canonical combo without Alt parses as that combo with Alt. */
  lemma AltPrefix(ms: Mods, k: string)
    requires KeyShape(k) && NotModifier(k) && !ms.alt
    ensures NormalizeParts("Alt+" + FormatCombo(ms, k)) == Some((ms.(alt := true), k))
  {
    AltPrefixJoin(ms, k);
    ParsePieces([Alt] + Held(ms), k);
    ModsFromAlt(ms);
  }

  lemma AltPrefixJoin(ms: Mods, k: string)
    ensures "Alt+" + FormatCombo(ms, k) == Join(Pieces([Alt] + Held(ms), k), '+')
  {
    var parts := Pieces(Held(ms), k);
    var more := Pieces([Alt] + Held(ms), k);
    assert more[1..] == parts;
    assert Join(more, '+') == "Alt" + ['+'] + Join(parts, '+');
  }

  lemma ModsFromAlt(ms: Mods)
    ensures ModsFrom([Alt] + Held(ms)) == ms.(alt := true)
  {
    assert forall m :: Holds(ModsFrom([Alt] + Held(ms)), m) <==> Holds(ms.(alt := true), m);
  }

  /** `Alt+` is put in front, not merged into the canonical order: for an
      Alt-required action whose combo holds Ctrl, the result is the canonical form
      of no combo at all, so no key press, whose combo is always canonical,
      produces it. */
  lemma AltPrefixNotCanonical(ms: Mods, k: string, other: Mods, k': string)
    requires KeyShape(k) && NotModifier(k) && ms.ctrl && !ms.alt
    requires KeyChars(k')
    ensures "Alt+" + FormatCombo(ms, k) != FormatCombo(other, k')
  {
    var lhs := Pieces([Alt] + Held(ms), k);
    var rhs := Pieces(Held(other), k');
    AltPrefixJoin(ms, k);
    forall i | 0 <= i < |lhs| ensures KeyChars(lhs[i]) {
      if i < |lhs| - 1 { ModifierNameClass(([Alt] + Held(ms))[i]); }
    }
    JoinFacts(lhs, true);
    if "Alt+" + FormatCombo(ms, k) == FormatCombo(other, k') {
      assert lhs == rhs;
      assert Held(ms)[0] == Ctrl;
      assert |Held(other)| >= 2;
      NamesDistinct(Held(other)[0], Alt);
      NamesDistinct(Held(other)[1], Ctrl);
      assert false;
    }
  }

  /** Hence a key event never produces such a combo. */
  lemma AltPrefixNeverPressed(ms: Mods, k: string, ev: KeyEvent)
    requires KeyShape(k) && NotModifier(k) && ms.ctrl && !ms.alt
    ensures ComboFromEvent(ev) != Some("Alt+" + FormatCombo(ms, k))
  {
    if ComboFromEvent(ev).Some? {
      AltPrefixNotCanonical(ms, k, EventMods(ev), NormalizeKeyToken(ev.key));
    }
  }

  /** The space bar yields the combo `Space` once its table entry is reachable. */
  lemma SpaceBarCombo(ctrl: bool, alt: bool, shift: bool, meta: bool)
    ensures ComboFromEvent(KeyEvent(" ", ctrl, alt, shift, meta, false))
            == Some(FormatCombo(Mods(ctrl, alt, shift, meta), "Space"))
  {
    assert " " !in ModifierKeys;
  }

  /** The tokens the source's lookup does not take for inherited members. */
  function DropInherited(tokens: seq<string>): (r: seq<string>)
    ensures forall i :: 0 <= i < |r| ==> r[i] in tokens
  {
    if tokens == [] then []
    else if AliasLookup(Lower(tokens[0])).Inherited? then DropInherited(tokens[1..])
    else [tokens[0]] + DropInherited(tokens[1..])
  }

  /** As written, the loop behaves as the corrected one on the tokens left after
      dropping inherited names. */
  lemma {:induction false} ScanAsWritten(tokens: seq<string>, ms: Mods, key: Option<string>)
    requires forall i :: 0 <= i < |tokens| ==> Trimmed(tokens[i])
    ensures Scan(tokens, ms, key, false) == Scan(DropInherited(tokens), ms, key, true)
    decreases |tokens|
  {
    if tokens != [] {
      var t := tokens[0];
      var rest := tokens[1..];
      ScanAsWritten(rest, ms, key);
      var l := AliasLookup(Lower(t));
      if l.Own? {
        ScanAsWritten(rest, WithModifier(ms, l.modifier), key);
        assert DropInherited(tokens) == [t] + DropInherited(rest);
      } else if !l.Inherited? {
        assert t != " " by { assert Trimmed(t); }
        assert DropInherited(tokens) == [t] + DropInherited(rest);
        var k := NormalizeKeyToken(t);
        if k != "" && key.None? {
          ScanAsWritten(rest, ms, Some(k));
        }
      }
    }
  }

  /** `normalizeShortcutCombo` as written is the meaning of the tokens left after
      dropping those named like inherited members. */
  lemma AsWrittenMeaning(combo: string)
    ensures NormalizeComboAsWritten(combo).Some? <==> Meaning(DropInherited(Tokens(combo))).Some?
    ensures NormalizeComboAsWritten(combo).Some? ==>
              NormalizeComboAsWritten(combo).value
              == FormatCombo(Meaning(DropInherited(Tokens(combo))).value.0, Meaning(DropInherited(Tokens(combo))).value.1)
  {
    ParseAsWritten(combo);
  }

  lemma ParseAsWritten(combo: string)
    ensures Parse(combo, false) == Meaning(DropInherited(Tokens(combo)))
  {
    var tokens := Tokens(combo);
    BlankHasNoTokens(combo);
    ScanAsWritten(tokens, NoMods, None);
    ScanMeaning(DropInherited(tokens), NoMods, None);
  }

  /** A token spelled like a member every object inherits (`constructor`,
      `__proto__`) is swallowed as written: `Ctrl+A+constructor` normalises to
      `Ctrl+A`, while with only the table's own entries the word is a second key
      and the combo is rejected. Stated for any key the table does not know. */
  lemma InheritedAliasSwallowed(a: string, w: string)
    requires KeyShape(a) && AliasLookup(Lower(a)) == Absent
    requires KeyChars(w) && AliasLookup(Lower(w)) == Inherited
    ensures NormalizeComboAsWritten(Join(["Ctrl", a, w], '+'))
            == Some(FormatCombo(Mods(true, false, false, false), a))
    ensures NormalizeCombo(Join(["Ctrl", a, w], '+')).None?
  {
    ModifierNameClass(Ctrl);
    var c := ModifierName(Ctrl);
    var combo := Join([c, a, w], '+');
    ThreeTokens(c, a, w);
    InheritedKept(combo, c, a, w);
    DropThree(c, a, w);
    InheritedDropped(combo, a);
    CtrlOnly();
  }

  lemma CtrlOnly()
    ensures ModsFrom([Ctrl]) == Mods(true, false, false, false)
  {
    assert forall m :: Holds(ModsFrom([Ctrl]), m) <==> m == Ctrl;
  }

  /** `A` is such a key. */
  lemma LetterKey(a: string)
    requires a == "A"
    ensures KeyShape(a) && AliasLookup(Lower(a)) == Absent
  {
    SingleStable('a');
    assert a == SingleCharacter('a');
    ShortNameAbsent(Lower(a));
  }

  /** Both inherited spellings reach the lookup as printable tokens. */
  lemma InheritedWords(w: string)
    requires w == "constructor" || w == "__proto__"
    ensures KeyChars(w) && AliasLookup(Lower(w)) == Inherited
  {
    assert Lower(w) == w;
  }

  /** As written, a word the lookup finds among inherited members vanishes from a
      modifier-key-word combo. */
  lemma InheritedDropped(combo: string, a: string)
    requires KeyShape(a) && NotModifier(a)
    requires DropInherited(Tokens(combo)) == Pieces([Ctrl], a)
    ensures NormalizeComboAsWritten(combo) == Some(FormatCombo(ModsFrom([Ctrl]), a))
  {
    MeaningOfPieces([Ctrl], a);
    AsWrittenMeaning(combo);
  }

  /** With only the table's own entries the same word is a second key. */
  lemma InheritedKept(combo: string, c: string, a: string, w: string)
    requires Tokens(combo) == [c, a, w]
    requires AliasLookup(Lower(c)).Own?
    requires !AliasLookup(Lower(a)).Own? && !AliasLookup(Lower(a)).Inherited?
    requires AliasLookup(Lower(w)) == Inherited
    ensures NormalizeCombo(combo).None?
  {
    CandidatesOfThree(c, a, w);
    assert NormalizeParts(combo) == Meaning([c, a, w]);
  }

  lemma CandidatesOfThree(c: string, a: string, w: string)
    requires !NotModifier(c) && NotModifier(a) && NotModifier(w)
    ensures Candidates([c, a, w]) == [a, w]
  {
    var parts := [c, a, w];
    assert parts[1..] == [a, w] && [a, w][1..] == [w];
    assert Candidates([w]) == [w];
  }

  lemma ThreeTokens(c: string, a: string, w: string)
    requires KeyChars(c) && KeyChars(a) && KeyChars(w)
    ensures Tokens(Join([c, a, w], '+')) == [c, a, w]
  {
    PrintableTokens([c, a, w]);
  }

  lemma DropThree(c: string, a: string, w: string)
    requires AliasLookup(Lower(c)) == Own(Ctrl)
    requires !AliasLookup(Lower(a)).Inherited?
    requires AliasLookup(Lower(w)) == Inherited
    requires c == ModifierName(Ctrl)
    ensures DropInherited([c, a, w]) == Pieces([Ctrl], a)
  {
    var parts := [c, a, w];
    assert parts[1..] == [a, w] && parts[2..] == [w];
    assert DropInherited([w]) == [];
    assert Pieces([Ctrl], a) == [ModifierName(Ctrl), a];
  }


  lemma EdgesNotSpace(s: string)
    requires KeyCharsOrPlus(s)
    ensures !IsSpace(s[0]) && !IsSpace(s[|s| - 1])
  {
  }

  /** Printable pieces joined by `+` come back as the tokens. */
  lemma {:induction false} PrintableTokens(parts: seq<string>)
    requires |parts| >= 1
    requires forall i :: 0 <= i < |parts| ==> KeyChars(parts[i])
    ensures Tokens(Join(parts, '+')) == parts
  {
    var s := Join(parts, '+');
    JoinFacts(parts, true);
    EdgesNotSpace(s);
    TrimOfTrimmed(s);
    forall i | 0 <= i < |parts| ensures parts[i] != [] && Trim(parts[i]) == parts[i] {
      PrintableToken(parts[i]);
    }
    CleanKeeps(parts);
  }

  // ---------------------------------------------------------------------------
  // The flows as written: the space bar trims away, and the lookup answers for
  // inherited names

  /** A key the modifier table answers nothing for, not even an inherited member. */
  predicate PlainKey(k: string) {
    KeyShape(k) && AliasLookup(Lower(k)) == Absent
  }

  /** `normalizeShortcutCombo` as written, returning the parsed modifiers and key:
      the meaning of the tokens once those named like inherited members are
      dropped; the key it finds is a plain normalised key. */
  function PartsAsWritten(combo: string): (r: Option<(Mods, string)>)
    ensures r == Meaning(DropInherited(Tokens(combo)))
    ensures r.Some? ==> PlainKey(r.value.1)
  {
    ParseAsWritten(combo);
    DroppedShape(Tokens(combo));
    Parse(combo, false)
  }

  /** The tokens left after dropping inherited names mean a plain key, if any. */
  lemma DroppedShape(tokens: seq<string>)
    requires forall i :: 0 <= i < |tokens| ==> Trimmed(tokens[i])
    ensures Meaning(DropInherited(tokens)).Some? ==> PlainKey(Meaning(DropInherited(tokens)).value.1)
  {
    var dropped := DropInherited(tokens);
    var m := Meaning(dropped);
    if m.Some? {
      var t := MeaningKey(dropped);
      DroppedNotInherited(tokens, t);
      CandidateKeyPlain(t);
    }
  }

  /** The key of a meaning comes from its one candidate token. */
  lemma MeaningKey(tokens: seq<string>) returns (t: string)
    requires Meaning(tokens).Some?
    ensures t in tokens && NotModifier(t) && NormalizeKeyToken(t) == Meaning(tokens).value.1
  {
    t := Candidates(tokens)[0];
  }

  /** A trimmed candidate the lookup does not answer for normalises to a plain key. */
  lemma CandidateKeyPlain(t: string)
    requires Trimmed(t) && NotModifier(t) && !AliasLookup(Lower(t)).Inherited?
    requires NormalizeKeyToken(t) != ""
    ensures PlainKey(NormalizeKeyToken(t))
  {
    TrimOfTrimmed(t);
    KeyTokenStable(t);
    NormalizedNotInherited(t);
  }

  lemma {:induction false} DroppedNotInherited(tokens: seq<string>, t: string)
    requires forall i :: 0 <= i < |tokens| ==> Trimmed(tokens[i])
    requires t in DropInherited(tokens)
    ensures Trimmed(t) && !AliasLookup(Lower(t)).Inherited?
    decreases |tokens|
  {
    if tokens != [] && t != tokens[0] {
      var rest := DropInherited(tokens[1..]);
      assert t in rest by {
        if !AliasLookup(Lower(tokens[0])).Inherited? {
          assert DropInherited(tokens) == [tokens[0]] + rest;
        }
      }
      DroppedNotInherited(tokens[1..], t);
    } else if tokens != [] && AliasLookup(Lower(tokens[0])).Inherited? {
      DroppedNotInherited(tokens[1..], t);
    }
  }

  /** Normalising a token the lookup does not answer for as inherited gives a key
      it does not answer for either. */
  lemma NormalizedNotInherited(t: string)
    requires Trimmed(t) && !AliasLookup(Lower(t)).Inherited? && NormalizeKeyToken(t) != ""
    ensures !AliasLookup(Lower(NormalizeKeyToken(t))).Inherited?
  {
    TrimOfTrimmed(t);
    assert t != " ";
    assert NormalizeKeyToken(t) == NormalizeTrimmed(t);
    TrimmedNotInherited(t);
  }

  lemma TrimmedNotInherited(t: string)
    requires !AliasLookup(Lower(t)).Inherited? && NormalizeTrimmed(t) != ""
    ensures !AliasLookup(Lower(NormalizeTrimmed(t))).Inherited?
  {
    var r := NormalizeTrimmed(t);
    if KeyAlias(Lower(t)).Some? {
      TableNameNotInherited(r);
    } else if |t| == 1 {
      if t[0] == '+' {
        TableNameNotInherited(r);
      } else {
        ShortNameAbsent(Lower(r));
      }
    } else if IsFunctionKey(t) {
      FunctionKeyStable(t);
    } else {
      WordStable(t);
    }
  }

  /** No name in the key table is spelled like an inherited member. */
  lemma TableNameNotInherited(k: string)
    requires k in KeyNames
    ensures !AliasLookup(Lower(k)).Inherited?
  {
    var l := Lower(k);
    assert |l| != |"constructor"|;
    if |l| == 9 {
      assert k[0] == 'A';
      assert l[0] != '_';
    }
  }

  /** `shortcutComboHasAlt` on top of the as-written normalisation. */
  function HasAltAsWritten(combo: string): (r: bool)
    ensures r <==> PartsAsWritten(combo).Some? && PartsAsWritten(combo).value.0.alt
  {
    match NormalizeComboAsWritten(combo)
    case None => false
    case Some(n) =>
      AsWrittenMeaning(combo);
      AltInPieces(PartsAsWritten(combo).value.0, PartsAsWritten(combo).value.1);
      "Alt" in Split(n, '+')
  }

  /** The tokens that name no inherited member are kept whole. */
  lemma {:induction false} DropNone(tokens: seq<string>)
    requires forall i :: 0 <= i < |tokens| ==> !AliasLookup(Lower(tokens[i])).Inherited?
    ensures DropInherited(tokens) == tokens
  {
    if tokens != [] {
      DropNone(tokens[1..]);
    }
  }

  /** The pieces of a canonical combo with a plain key name no inherited member. */
  lemma PiecesNotInherited(ms: seq<Modifier>, k: string)
    requires PlainKey(k)
    ensures DropInherited(Pieces(ms, k)) == Pieces(ms, k)
  {
    var parts := Pieces(ms, k);
    assert parts == NamesOf(ms) + [k];
    forall i | 0 <= i < |parts| ensures !AliasLookup(Lower(parts[i])).Inherited? {
      if i < |ms| {
        assert parts[i] == ModifierName(ms[i]);
        ModifierNameClass(ms[i]);
      } else {
        assert parts[i] == k;
      }
    }
    DropNone(parts);
  }

  /** As written, a canonical combo with a plain key still normalises to itself. */
  lemma FormatRoundTripAsWritten(ms: Mods, k: string)
    requires PlainKey(k)
    ensures PartsAsWritten(FormatCombo(ms, k)) == Some((ms, k))
  {
    var c := FormatCombo(ms, k);
    PiecesTokens(Held(ms), k);
    assert c == Join(Pieces(Held(ms), k), '+');
    PiecesNotInherited(Held(ms), k);
    MeaningOfPieces(Held(ms), k);
    ModsFromHeld(ms);
  }

  /** So does `Alt+` in front of one without Alt, parsed with Alt added. */
  lemma AltPrefixAsWritten(ms: Mods, k: string)
    requires PlainKey(k) && !ms.alt
    ensures PartsAsWritten("Alt+" + FormatCombo(ms, k)) == Some((ms.(alt := true), k))
  {
    var parts := Pieces([Alt] + Held(ms), k);
    AltPrefixJoin(ms, k);
    PiecesTokens([Alt] + Held(ms), k);
    PiecesNotInherited([Alt] + Held(ms), k);
    MeaningOfPieces([Alt] + Held(ms), k);
    ModsFromAlt(ms);
  }

  /** `getShortcutComboFromEvent` as written: the space bar gives no combo, every
      other key the combo of the corrected rule; a plain key's combo normalises back
      to the event's modifiers and key. */
  function ComboFromEventAsWritten(ev: KeyEvent): (r: Option<string>)
    ensures r.Some? <==> !ev.composing && ev.key !in ModifierKeys && NormalizeKeyTokenAsWritten(ev.key) != ""
    ensures r == (if ev.key == " " then None else ComboFromEvent(ev))
    ensures r.Some? && PlainKey(NormalizeKeyTokenAsWritten(ev.key)) ==>
              PartsAsWritten(r.value) == Some((EventMods(ev), NormalizeKeyTokenAsWritten(ev.key)))
  {
    if ev.composing || ev.key in ModifierKeys then None
    else
      var k := NormalizeKeyTokenAsWritten(ev.key);
      if k == "" then None
      else
        EventComboAsWritten(ev);
        Some(FormatCombo(EventMods(ev), k))
  }

  lemma EventComboAsWritten(ev: KeyEvent)
    ensures ev.key == " " ==> NormalizeKeyTokenAsWritten(ev.key) == ""
    ensures ev.key != " " ==>
              ComboFromEvent(ev)
              == if ev.composing || ev.key in ModifierKeys || NormalizeKeyTokenAsWritten(ev.key) == "" then None
                 else Some(FormatCombo(EventMods(ev), NormalizeKeyTokenAsWritten(ev.key)))
    ensures PlainKey(NormalizeKeyTokenAsWritten(ev.key)) ==>
              PartsAsWritten(FormatCombo(EventMods(ev), NormalizeKeyTokenAsWritten(ev.key)))
              == Some((EventMods(ev), NormalizeKeyTokenAsWritten(ev.key)))
  {
    if ev.key == " " { SpaceBarDropped(); }
    if PlainKey(NormalizeKeyTokenAsWritten(ev.key)) {
      FormatRoundTripAsWritten(EventMods(ev), NormalizeKeyTokenAsWritten(ev.key));
    }
  }

  /** `normalizeShortcutWithFallback` as written: the stored combo if it normalises,
      else the default, else nothing; for an Alt-required action `Alt+` is put in
      front when the combo lacks Alt. The result normalises to the chosen combo with
      Alt added when required, and holds Alt whenever Alt is required. */
  function NormalizeWithFallbackAsWritten(combo: Option<string>, fallback: string, altRequired: bool): (r: string)
    ensures r == "" <==> PartsAsWritten(combo.GetOr("")).None? && PartsAsWritten(fallback).None?
    ensures PartsAsWritten(combo.GetOr("")).Some? ==>
              PartsAsWritten(r) == Some(AltIf(PartsAsWritten(combo.GetOr("")).value, altRequired))
    ensures PartsAsWritten(combo.GetOr("")).None? && PartsAsWritten(fallback).Some? ==>
              PartsAsWritten(r) == Some(AltIf(PartsAsWritten(fallback).value, altRequired))
    ensures altRequired && r != "" ==> HasAltAsWritten(r)
  {
    var stored := combo.GetOr("");
    var primary := NormalizeComboAsWritten(stored);
    AsWrittenMeaning(stored);
    AsWrittenMeaning(fallback);
    var chosen := if primary.Some? then PartsAsWritten(stored) else PartsAsWritten(fallback);
    var normalized := if primary.Some? then primary.value else NormalizeComboAsWritten(fallback).GetOr("");
    if chosen.None? then
      ""
    else
      AltFactsAsWritten(chosen.value.0, chosen.value.1);
      if altRequired && !HasAltAsWritten(normalized) then "Alt+" + normalized else normalized
  }

  lemma AltFactsAsWritten(ms: Mods, k: string)
    requires PlainKey(k)
    ensures FormatCombo(ms, k) != ""
    ensures PartsAsWritten(FormatCombo(ms, k)) == Some((ms, k))
    ensures HasAltAsWritten(FormatCombo(ms, k)) <==> ms.alt
    ensures !ms.alt ==> PartsAsWritten("Alt+" + FormatCombo(ms, k)) == Some((ms.(alt := true), k))
  {
    FormatRoundTripAsWritten(ms, k);
    if !ms.alt {
      AltPrefixAsWritten(ms, k);
    }
  }

  /** Without a token named like an inherited member, the as-written normalisation
      and the corrected one agree. */
  lemma AsWrittenAgrees(combo: string)
    requires forall i :: 0 <= i < |Tokens(combo)| ==> !AliasLookup(Lower(Tokens(combo)[i])).Inherited?
    ensures PartsAsWritten(combo) == NormalizeParts(combo)
    ensures NormalizeComboAsWritten(combo) == NormalizeCombo(combo)
    ensures HasAltAsWritten(combo) == HasAlt(combo)
  {
    DropNone(Tokens(combo));
    AsWrittenMeaning(combo);
  }

  /** The combo `normalizeShortcutWithFallback` starts from: the stored one when it
      normalises, else the default. */
  function ChosenParts(combo: Option<string>, fallback: string): (r: Option<(Mods, string)>)
    ensures r.Some? ==> PlainKey(r.value.1)
    ensures r.None? <==> PartsAsWritten(combo.GetOr("")).None? && PartsAsWritten(fallback).None?
  {
    if PartsAsWritten(combo.GetOr("")).Some? then PartsAsWritten(combo.GetOr("")) else PartsAsWritten(fallback)
  }

  /** `normalizeShortcutWithFallback` with Alt merged into the canonical order, as
      the Alt-required actions evidently intend: the result is always a canonical
      combo. */
  function NormalizeWithFallbackMerged(combo: Option<string>, fallback: string, altRequired: bool): (r: string)
    ensures r == "" <==> ChosenParts(combo, fallback).None?
    ensures r != "" ==> PartsAsWritten(r) == Some(AltIf(ChosenParts(combo, fallback).value, altRequired))
    ensures r != "" ==> PartsAsWritten(r) == PartsAsWritten(NormalizeWithFallbackAsWritten(combo, fallback, altRequired))
    ensures altRequired && r != "" ==> HasAltAsWritten(r)
  {
    match ChosenParts(combo, fallback)
    case None => ""
    case Some(p) =>
      var q := AltIf(p, altRequired);
      AltFactsAsWritten(q.0, q.1);
      FormatCombo(q.0, q.1)
  }

  /** The Alt-merged combo is what pressing its key with its modifiers produces,
      unless its key is the `key` value of a modifier key itself. */
  lemma MergedIsPressed(combo: Option<string>, fallback: string, altRequired: bool)
    requires ChosenParts(combo, fallback).Some?
    requires AltIf(ChosenParts(combo, fallback).value, altRequired).1 !in ModifierKeys
    ensures var q := AltIf(ChosenParts(combo, fallback).value, altRequired);
            ComboFromEventAsWritten(KeyEvent(q.1, q.0.ctrl, q.0.alt, q.0.shift, q.0.meta, false))
            == Some(NormalizeWithFallbackMerged(combo, fallback, altRequired))
  {
    var q := AltIf(ChosenParts(combo, fallback).value, altRequired);
    PlainKeyToken(q.1);
    PlainKeyPressed(q.0, q.1);
  }

  /** A plain key is its own token, as written too. */
  lemma PlainKeyToken(k: string)
    requires PlainKey(k)
    ensures NormalizeKeyTokenAsWritten(k) == k != ""
  {
    PrintableToken(k);
  }

  /** Pressing a plain key with modifiers held gives their canonical combo. */
  lemma PlainKeyPressed(ms: Mods, k: string)
    requires NormalizeKeyTokenAsWritten(k) == k != "" && k !in ModifierKeys
    ensures ComboFromEventAsWritten(KeyEvent(k, ms.ctrl, ms.alt, ms.shift, ms.meta, false)) == Some(FormatCombo(ms, k))
  {
    var ev := KeyEvent(k, ms.ctrl, ms.alt, ms.shift, ms.meta, false);
    assert EventMods(ev) == ms;
  }

  /** As written, an Alt-required action whose combo holds Ctrl and not Alt gets the
      `Alt+` prefix in front of the canonical form, which no key press produces. */
  lemma AltPrefixedNeverPressed(combo: Option<string>, fallback: string, ev: KeyEvent)
    requires ChosenParts(combo, fallback).Some?
    requires ChosenParts(combo, fallback).value.0.ctrl && !ChosenParts(combo, fallback).value.0.alt
    ensures ComboFromEventAsWritten(ev) != Some(NormalizeWithFallbackAsWritten(combo, fallback, true))
  {
    var (ms, k) := ChosenParts(combo, fallback).value;
    AltPrefixedForm(combo, fallback);
    if ComboFromEventAsWritten(ev).Some? {
      AltPrefixNotCanonical(ms, k, EventMods(ev), NormalizeKeyTokenAsWritten(ev.key));
    }
  }

  lemma AltPrefixedForm(combo: Option<string>, fallback: string)
    requires ChosenParts(combo, fallback).Some?
    requires ChosenParts(combo, fallback).value.0.ctrl && !ChosenParts(combo, fallback).value.0.alt
    ensures KeyShape(ChosenParts(combo, fallback).value.1) && NotModifier(ChosenParts(combo, fallback).value.1)
    ensures NormalizeWithFallbackAsWritten(combo, fallback, true)
            == "Alt+" + FormatCombo(ChosenParts(combo, fallback).value.0, ChosenParts(combo, fallback).value.1)
  {
    var (ms, k) := ChosenParts(combo, fallback).value;
    AsWrittenMeaning(combo.GetOr(""));
    AsWrittenMeaning(fallback);
    AltFactsAsWritten(ms, k);
  }
}

=== FILE: sorting.dfy ===
/** `Array.prototype.sort` with a comparator, as a stable insertion sort over an
    ordering `le` (`le(a, b)` is `compare(a, b) <= 0`). The sort is stable, as
    ECMAScript requires: elements the comparator ranks equal keep their input
    order (`SortStable`). */
module Sorting {
  import Seqs

  /** A consistent comparator: any two elements are comparable, transitively. */
  ghost predicate TotalPreorder<T(!new)>(le: (T, T) -> bool) {
    (forall a, b :: le(a, b) || le(b, a))
    && (forall a, b, c :: le(a, b) && le(b, c) ==> le(a, c))
  }

  /** The ordering a three-way comparator induces (`compare(a, b) <= 0`). */
  function LeOf<T>(cmp: (T, T) -> int): (T, T) -> bool {
    (a: T, b: T) => cmp(a, b) <= 0
  }

  /** A comparator `Array.prototype.sort` can rely on. */
  ghost predicate Consistent<T(!new)>(cmp: (T, T) -> int) {
    TotalPreorder(LeOf(cmp))
  }

  /** Compares by `key` first and by `tie` between equal keys (`tie`). */
  function ByKeyThen<T>(key: T -> nat, tie: (T, T) -> int): (T, T) -> int {
    (a: T, b: T) => if key(a) != key(b) then key(a) - key(b) else tie(a, b)
  }

  /** Ordering by a key first keeps a consistent comparator consistent. */
  lemma ByKeyThenConsistent<T(!new)>(key: T -> nat, tie: (T, T) -> int)
    requires Consistent(tie)
    ensures Consistent(ByKeyThen(key, tie))
  {
    var le := LeOf(ByKeyThen(key, tie));
    var lo := LeOf(tie);
    forall a, b ensures le(a, b) || le(b, a) {
      assert lo(a, b) || lo(b, a);
    }
    forall a, b, c | le(a, b) && le(b, c) ensures le(a, c) {
      if key(a) == key(b) == key(c) {
        assert lo(a, b) && lo(b, c);
      }
    }
  }

  predicate Sorted<T>(s: seq<T>, le: (T, T) -> bool) {
    forall i, j :: 0 <= i < j < |s| ==> le(s[i], s[j])
  }

  /** Places `x` after every element that does not come strictly after it. */
  function Insert<T>(sorted: seq<T>, x: T, le: (T, T) -> bool): (r: seq<T>)
    ensures |r| == |sorted| + 1
    ensures multiset(r) == multiset(sorted) + multiset{x}
  {
    if sorted == [] then [x]
    else if !le(sorted[0], x) then [x] + sorted
    else
      assert sorted == [sorted[0]] + sorted[1..];
      [sorted[0]] + Insert(sorted[1..], x, le)
  }

  /** The sorted sequence: a permutation of `xs`. */
  function Sort<T>(xs: seq<T>, le: (T, T) -> bool): (r: seq<T>)
    ensures |r| == |xs|
    ensures multiset(r) == multiset(xs)
  {
    if xs == [] then []
    else
      assert xs == xs[..|xs| - 1] + [xs[|xs| - 1]];
      Insert(Sort(xs[..|xs| - 1], le), xs[|xs| - 1], le)
  }

  lemma {:induction false} InsertSorted<T(!new)>(sorted: seq<T>, x: T, le: (T, T) -> bool)
    requires TotalPreorder(le) && Sorted(sorted, le)
    ensures Sorted(Insert(sorted, x, le), le)
  {
    if sorted != [] && le(sorted[0], x) {
      var tail := sorted[1..];
      InsertSorted(tail, x, le);
      var r := Insert(sorted, x, le);
      var rest := Insert(tail, x, le);
      assert r == [sorted[0]] + rest;
      forall j | 0 <= j < |rest| ensures le(sorted[0], rest[j]) {
        assert rest[j] in multiset(rest);
        assert rest[j] in multiset(tail) + multiset{x};
        if rest[j] != x || rest[j] in multiset(tail) {
          if rest[j] in multiset(tail) {
            var k :| 0 <= k < |tail| && tail[k] == rest[j];
            assert sorted[k + 1] == tail[k];
          }
        }
      }
    }
  }

  /** The sort orders its output. */
  lemma {:induction false} SortSorted<T(!new)>(xs: seq<T>, le: (T, T) -> bool)
    requires TotalPreorder(le)
    ensures Sorted(Sort(xs, le), le)
  {
    if xs != [] {
      SortSorted(xs[..|xs| - 1], le);
      InsertSorted(Sort(xs[..|xs| - 1], le), xs[|xs| - 1], le);
    }
  }

  /** Inserting an element whose key is new keeps the keys distinct. */
  lemma {:induction false} InsertKeepsDistinct<T, K>(sorted: seq<T>, x: T, le: (T, T) -> bool, key: T -> K)
    requires Seqs.KeysDistinct(sorted, key)
    requires forall i :: 0 <= i < |sorted| ==> key(sorted[i]) != key(x)
    ensures Seqs.KeysDistinct(Insert(sorted, x, le), key)
  {
    var r := Insert(sorted, x, le);
    if sorted == [] {
    } else if !le(sorted[0], x) {
      assert r == [x] + sorted;
      forall i, j | 0 <= i < j < |r| ensures key(r[i]) != key(r[j]) {
        assert r[j] == sorted[j - 1];
        if i > 0 {
          assert r[i] == sorted[i - 1];
        }
      }
    } else {
      var tail := sorted[1..];
      InsertKeepsDistinct(tail, x, le, key);
      var rest := Insert(tail, x, le);
      assert r == [sorted[0]] + rest;
      forall j | 0 <= j < |rest| ensures key(sorted[0]) != key(rest[j]) {
        assert rest[j] in multiset(tail) + multiset{x};
        if rest[j] in multiset(tail) {
          var k :| 0 <= k < |tail| && tail[k] == rest[j];
          assert sorted[k + 1] == tail[k];
        }
      }
      forall i, j | 0 <= i < j < |r| ensures key(r[i]) != key(r[j]) {
        assert r[j] == rest[j - 1];
        if i > 0 {
          assert r[i] == rest[i - 1];
        }
      }
    }
  }

  /** Sorting keeps the keys of the elements distinct. */
  lemma {:induction false} SortKeepsDistinct<T, K>(xs: seq<T>, le: (T, T) -> bool, key: T -> K)
    requires Seqs.KeysDistinct(xs, key)
    ensures Seqs.KeysDistinct(Sort(xs, le), key)
  {
    if xs != [] {
      var init := xs[..|xs| - 1];
      var x := xs[|xs| - 1];
      assert Seqs.KeysDistinct(init, key) by {
        forall i, j | 0 <= i < j < |init| ensures key(init[i]) != key(init[j]) {
          assert init[i] == xs[i] && init[j] == xs[j];
        }
      }
      SortKeepsDistinct(init, le, key);
      var s := Sort(init, le);
      forall i | 0 <= i < |s| ensures key(s[i]) != key(x) {
        assert s[i] in multiset(init);
        var k :| 0 <= k < |init| && init[k] == s[i];
        assert xs[k] == init[k];
      }
      InsertKeepsDistinct(s, x, le, key);
    }
  }

  /** The first element of the sorted sequence is one of the inputs and comes no
      later than any of them. */
  lemma SortedHeadLeast<T(!new)>(xs: seq<T>, le: (T, T) -> bool)
    requires TotalPreorder(le) && xs != []
    ensures Sort(xs, le)[0] in xs
    ensures forall x :: x in xs ==> le(Sort(xs, le)[0], x)
  {
    var s := Sort(xs, le);
    SortSorted(xs, le);
    assert s[0] in multiset(xs);
    forall x | x in xs ensures le(s[0], x) {
      assert x in multiset(s);
      var k :| 0 <= k < |s| && s[k] == x;
      if k == 0 {
        assert le(x, x) || le(x, x);
      }
    }
  }

  /** The elements ranked equal to `z`. */
  function TiedWith<T>(le: (T, T) -> bool, z: T): T -> bool {
    (y: T) => le(z, y) && le(y, z)
  }

  /** An element ranked equal to the inserted one never sits after its slot. */
  lemma {:induction false} InsertTies<T(!new)>(sorted: seq<T>, x: T, le: (T, T) -> bool, z: T)
    requires TotalPreorder(le) && Sorted(sorted, le)
    ensures Seqs.Filter(Insert(sorted, x, le), TiedWith(le, z))
            == Seqs.Filter(sorted, TiedWith(le, z)) + (if TiedWith(le, z)(x) then [x] else [])
  {
    var tied := TiedWith(le, z);
    if sorted == [] {
      Seqs.FilterCons(x, [], tied);
    } else if !le(sorted[0], x) {
      Seqs.FilterCons(x, sorted, tied);
      if tied(x) {
        NoneTiedAfter(sorted, x, le, z);
        assert [x] + [] == [] + [x];
      } else {
        assert Seqs.Filter(sorted, tied) + [] == Seqs.Filter(sorted, tied);
      }
    } else {
      InsertTies(sorted[1..], x, le, z);
      TiesAfterHead(sorted, x, le, tied);
    }
  }

  /** Inserting past the head of `sorted` leaves the head where it was among the kept elements. */
  lemma TiesAfterHead<T>(sorted: seq<T>, x: T, le: (T, T) -> bool, tied: T -> bool)
    requires sorted != [] && le(sorted[0], x)
    requires Seqs.Filter(Insert(sorted[1..], x, le), tied)
             == Seqs.Filter(sorted[1..], tied) + (if tied(x) then [x] else [])
    ensures Seqs.Filter(Insert(sorted, x, le), tied)
            == Seqs.Filter(sorted, tied) + (if tied(x) then [x] else [])
  {
    var h, tail := sorted[0], sorted[1..];
    assert sorted == [h] + tail;
    FilterConsBoth(h, Insert(tail, x, le), tail, tied, if tied(x) then [x] else []);
  }

  /** Putting the same element in front of two sequences keeps how their kept elements relate. */
  lemma FilterConsBoth<T>(h: T, longer: seq<T>, shorter: seq<T>, keep: T -> bool, extra: seq<T>)
    requires Seqs.Filter(longer, keep) == Seqs.Filter(shorter, keep) + extra
    ensures Seqs.Filter([h] + longer, keep) == Seqs.Filter([h] + shorter, keep) + extra
  {
    var pre := if keep(h) then [h] else [];
    calc {
      Seqs.Filter([h] + longer, keep);
      == { Seqs.FilterCons(h, longer, keep); }
      pre + Seqs.Filter(longer, keep);
      ==
      pre + (Seqs.Filter(shorter, keep) + extra);
      == { assert pre + (Seqs.Filter(shorter, keep) + extra) == (pre + Seqs.Filter(shorter, keep)) + extra; }
      (pre + Seqs.Filter(shorter, keep)) + extra;
      == { Seqs.FilterCons(h, shorter, keep); }
      Seqs.Filter([h] + shorter, keep) + extra;
    }
  }

  /** Nothing that ranks after `x` is tied with it. */
  lemma NoneTiedAfter<T(!new)>(sorted: seq<T>, x: T, le: (T, T) -> bool, z: T)
    requires TotalPreorder(le) && Sorted(sorted, le)
    requires sorted != [] && !le(sorted[0], x) && TiedWith(le, z)(x)
    ensures Seqs.Filter(sorted, TiedWith(le, z)) == []
  {
    var tied := TiedWith(le, z);
    forall j | 0 <= j < |sorted| ensures !tied(sorted[j]) {
      if j > 0 {
        assert le(sorted[0], sorted[j]);
      }
    }
    Seqs.FilterNone(sorted, tied);
  }

  /** Stability: the elements ranked equal to any `z` come out in their input order. */
  lemma {:induction false} SortStable<T(!new)>(xs: seq<T>, le: (T, T) -> bool, z: T)
    requires TotalPreorder(le)
    ensures Seqs.Filter(Sort(xs, le), TiedWith(le, z)) == Seqs.Filter(xs, TiedWith(le, z))
  {
    if xs != [] {
      var init := xs[..|xs| - 1];
      var x := xs[|xs| - 1];
      var tied := TiedWith(le, z);
      var post := if tied(x) then [x] else [];
      calc {
        Seqs.Filter(Sort(xs, le), tied);
        ==
        Seqs.Filter(Insert(Sort(init, le), x, le), tied);
        == { SortSorted(init, le); InsertTies(Sort(init, le), x, le, z); }
        Seqs.Filter(Sort(init, le), tied) + post;
        == { SortStable(init, le, z); }
        Seqs.Filter(init, tied) + post;
        ==
        Seqs.Filter(xs, tied);
      }
    }
  }
}

=== FILE: storage.dfy ===
/** The settings storage wrapper (src/services/Storage.ts) over an abstract
    `chrome.storage.local` area: `getData` with its `??` default, the interval
    getters that clamp what they read, and the setters that refuse invalid values.
    A storage failure is not modelled: every read and write succeeds. */
module Storage {
  import opened JsNumber
  import opened JsValue
  import JsObject

  /** The storage area: a key is either absent (`undefined`) or holds a value. */
  type Area = map<string, Value>

  const FavoriteGalleriesKey := "dcinside_favorite_galleries"
  const ActiveFavoritesProfileKey := "dcinside_active_favorites_profile"
  const PageNavigationModeKey := "dcinside_page_navigation_mode"
  const MacroIntervalKey := "dcinside_macro_interval"
  const DcconAliasMapKey := "dcinside_dccon_alias_map"
  const AutoRefreshIntervalKey := "autoRefreshInterval"
  const PreviewOpacityKey := "favoritesPreviewOpacity"

  /** `getData(key, d)`: the stored value, or `d` when it is missing or `null`. */
  function GetData(area: Area, key: string, default: Value): (r: Value)
    ensures key !in area || area[key].Null? ==> r == default
    ensures key in area && !area[key].Null? ==> r == area[key]
  {
    if key in area && !area[key].Null? then area[key] else default
  }

  /** `setData(key, v)`. */
  function SetData(area: Area, key: string, v: Value): (r: Area)
    ensures key in r && r[key] == v
    ensures forall k :: k != key ==> (k in r <==> k in area)
    ensures forall k :: k in area && k != key ==> r[k] == area[k]
  {
    area[key := v]
  }

  /** What is written under a key is what `getData` reads back (unless it is
      `null`), and every other key reads as before. */
  lemma GetAfterSet(area: Area, key: string, v: Value, other: string, default: Value)
    requires other != key
    ensures !v.Null? ==> GetData(SetData(area, key, v), key, default) == v
    ensures v.Null? ==> GetData(SetData(area, key, v), key, default) == default
    ensures GetData(SetData(area, key, v), other, default) == GetData(area, other, default)
  {
  }

  /** `v >= lo` for a number that is not NaN (so also `Infinity`). */
  predicate AtLeast(n: Num, lo: real) {
    !n.NaN? && !Less(n, Finite(lo))
  }

  /** `Math.max(lo, Number(value) || d)` for the value read with default `d`. */
  function ClampedNumber(area: Area, key: string, lo: real, d: real, textNumber: string -> Num): (r: Num)
    requires lo <= d
    ensures AtLeast(r, lo)
    ensures var n := ToNumber(GetData(area, key, Number(Finite(d))), textNumber);
            (!JsNumber.Truthy(n) ==> r == Finite(d))
            && (JsNumber.Truthy(n) && AtLeast(n, lo) ==> r == n)
            && (JsNumber.Truthy(n) && !AtLeast(n, lo) ==> r == Finite(lo))
  {
    var n := ToNumber(GetData(area, key, Number(Finite(d))), textNumber);
    Max(Finite(lo), Or(n, Finite(d)))
  }

  /** `getAutoRefreshInterval`: at least one second; ten when nothing usable is
      stored (missing, `null`, zero, NaN); otherwise what is stored, raised to 1. */
  function AutoRefreshInterval(area: Area, textNumber: string -> Num): (r: Num)
    ensures AtLeast(r, 1.0)
    ensures AutoRefreshIntervalKey !in area ==> r == Finite(10.0)
    ensures var n := ToNumber(GetData(area, AutoRefreshIntervalKey, Number(Finite(10.0))), textNumber);
            (!JsNumber.Truthy(n) ==> r == Finite(10.0))
            && (JsNumber.Truthy(n) && AtLeast(n, 1.0) ==> r == n)
            && (JsNumber.Truthy(n) && !AtLeast(n, 1.0) ==> r == Finite(1.0))
  {
    ClampedNumber(area, AutoRefreshIntervalKey, 1.0, 10.0, textNumber)
  }

  /** `getMacroInterval`: at least 500 ms; 5000 when nothing usable is stored. */
  function MacroInterval(area: Area, textNumber: string -> Num): (r: Num)
    ensures AtLeast(r, 500.0)
    ensures MacroIntervalKey !in area ==> r == Finite(5000.0)
    ensures var n := ToNumber(GetData(area, MacroIntervalKey, Number(Finite(5000.0))), textNumber);
            (!JsNumber.Truthy(n) ==> r == Finite(5000.0))
            && (JsNumber.Truthy(n) && AtLeast(n, 500.0) ==> r == n)
            && (JsNumber.Truthy(n) && !AtLeast(n, 500.0) ==> r == Finite(500.0))
  {
    ClampedNumber(area, MacroIntervalKey, 500.0, 5000.0, textNumber)
  }

  /** `saveAutoRefreshInterval`: writes only a number that is at least 1. */
  function SaveAutoRefreshInterval(area: Area, value: Num): (r: Area)
    ensures AtLeast(value, 1.0) ==> r == SetData(area, AutoRefreshIntervalKey, Number(value))
    ensures !AtLeast(value, 1.0) ==> r == area
  {
    if AtLeast(value, 1.0) then SetData(area, AutoRefreshIntervalKey, Number(value)) else area
  }

  /** `saveMacroInterval`: writes only a number that is at least 500. */
  function SaveMacroInterval(area: Area, value: Num): (r: Area)
    ensures AtLeast(value, 500.0) ==> r == SetData(area, MacroIntervalKey, Number(value))
    ensures !AtLeast(value, 500.0) ==> r == area
  {
    if AtLeast(value, 500.0) then SetData(area, MacroIntervalKey, Number(value)) else area
  }

  /** A saved interval is read back unchanged; a refused one leaves the reading
      as it was. */
  lemma IntervalsReadBack(area: Area, value: Num, textNumber: string -> Num)
    ensures AtLeast(value, 1.0) ==> AutoRefreshInterval(SaveAutoRefreshInterval(area, value), textNumber) == value
    ensures !AtLeast(value, 1.0) ==>
              AutoRefreshInterval(SaveAutoRefreshInterval(area, value), textNumber) == AutoRefreshInterval(area, textNumber)
    ensures AtLeast(value, 500.0) ==> MacroInterval(SaveMacroInterval(area, value), textNumber) == value
    ensures !AtLeast(value, 500.0) ==>
              MacroInterval(SaveMacroInterval(area, value), textNumber) == MacroInterval(area, textNumber)
  {
  }

  /** Once the setters are the only writers, what is stored under the interval
      keys is always a valid number, so the getters' clamps never change it. */
  predicate IntervalsValid(area: Area) {
    (AutoRefreshIntervalKey in area ==> area[AutoRefreshIntervalKey].Number? && AtLeast(area[AutoRefreshIntervalKey].n, 1.0))
    && (MacroIntervalKey in area ==> area[MacroIntervalKey].Number? && AtLeast(area[MacroIntervalKey].n, 500.0))
  }

  lemma SaversKeepIntervalsValid(area: Area, value: Num, textNumber: string -> Num)
    requires IntervalsValid(area)
    ensures IntervalsValid(SaveAutoRefreshInterval(area, value))
    ensures IntervalsValid(SaveMacroInterval(area, value))
    ensures AutoRefreshIntervalKey in area ==> AutoRefreshInterval(area, textNumber) == area[AutoRefreshIntervalKey].n
    ensures MacroIntervalKey in area ==> MacroInterval(area, textNumber) == area[MacroIntervalKey].n
  {
  }

  /** `getFavoritesPreviewOpacity`: read without conversion, default 0.85. */
  function PreviewOpacity(area: Area): (r: Value)
    ensures PreviewOpacityKey !in area ==> r == Number(Finite(0.85))
    ensures PreviewOpacityKey in area && !area[PreviewOpacityKey].Null? ==> r == area[PreviewOpacityKey]
  {
    GetData(area, PreviewOpacityKey, Number(Finite(0.85)))
  }

  /** `0.1 <= v <= 1.0` for a number that is not NaN. */
  predicate OpacityInRange(n: Num) {
    n.Finite? && 0.1 <= n.value <= 1.0
  }

  /** `saveFavoritesPreviewOpacity`: writes only a number in [0.1, 1.0]. */
  function SavePreviewOpacity(area: Area, value: Num): (r: Area)
    ensures OpacityInRange(value) ==> r == SetData(area, PreviewOpacityKey, Number(value))
    ensures !OpacityInRange(value) ==> r == area
  {
    if !value.NaN? && !Less(value, Finite(0.1)) && !Less(Finite(1.0), value) then
      SetData(area, PreviewOpacityKey, Number(value))
    else area
  }

  lemma OpacityReadsBack(area: Area, value: Num)
    ensures OpacityInRange(value) ==> PreviewOpacity(SavePreviewOpacity(area, value)) == Number(value)
    ensures !OpacityInRange(value) ==> PreviewOpacity(SavePreviewOpacity(area, value)) == PreviewOpacity(area)
  {
  }

  datatype PageNavigationMode = Ajax | Full | Infinite

  function ModeName(m: PageNavigationMode): (r: string)
    ensures m == Ajax <==> r == "ajax"
    ensures m == Full <==> r == "full"
  {
    match m
    case Ajax => "ajax"
    case Full => "full"
    case Infinite => "infinite"
  }

  /** `getPageNavigationMode`: default `'ajax'`. */
  function PageMode(area: Area): (r: Value)
    ensures PageNavigationModeKey !in area ==> r == Text("ajax")
  {
    GetData(area, PageNavigationModeKey, Text("ajax"))
  }

  /** `savePageNavigationMode`: only `'ajax'` and `'full'` are written. */
  function SavePageMode(area: Area, m: PageNavigationMode): (r: Area)
    ensures m != Infinite ==> PageMode(r) == Text(ModeName(m))
    ensures m == Infinite ==> r == area
  {
    if m != Ajax && m != Full then area else SetData(area, PageNavigationModeKey, Text(ModeName(m)))
  }

  /** Starting from a storage area that never held `'infinite'`, no sequence of
      saves makes the page mode read as `'infinite'`. */
  predicate ModeNeverInfinite(area: Area) {
    PageMode(area) != Text("infinite")
  }

  lemma {:induction false} SavesNeverStoreInfinite(area: Area, modes: seq<PageNavigationMode>)
    requires ModeNeverInfinite(area)
    ensures ModeNeverInfinite(SaveModes(area, modes))
    decreases |modes|
  {
    if modes != [] {
      SavesNeverStoreInfinite(SavePageMode(area, modes[0]), modes[1..]);
    }
  }

  function SaveModes(area: Area, modes: seq<PageNavigationMode>): Area
    decreases |modes|
  {
    if modes == [] then area else SaveModes(SavePageMode(area, modes[0]), modes[1..])
  }

  /** `getFavorites`: the stored value when it is an object, `{}` otherwise
      (missing, `null`, a boolean, number or string). */
  function Favorites(area: Area): (r: Value)
    ensures r.Object?
    ensures FavoriteGalleriesKey in area && area[FavoriteGalleriesKey].Object? ==> r == area[FavoriteGalleriesKey]
    ensures !(FavoriteGalleriesKey in area && area[FavoriteGalleriesKey].Object?) ==> r.o.list == []
  {
    var data := GetData(area, FavoriteGalleriesKey, Object(JsObject.Empty()));
    if JsValue.Truthy(data) && IsObject(data) then data else Object(JsObject.Empty())
  }
}

=== FILE: text.dfy ===
/** String helpers with ECMAScript meaning: the whitespace set of `String.prototype.trim`
    and of the regular-expression class `\s`, ASCII case mapping, substring search,
    `split`/`join` on a one-character separator, and decimal rendering of naturals. */
module Text {
  import opened Wrappers

  /** The characters `trim` removes and `\s` matches: WhiteSpace and LineTerminator
      of ECMA-262 (tab, LF, VT, FF, CR, space, NBSP, the Zs block, LS, PS, BOM). */
  predicate IsSpace(c: char) {
    c in SpaceChars || ('\U{2000}' <= c <= '\U{200A}')
  }

  const SpaceChars: set<char> :=
    {'\t', '\n', '\U{000B}', '\U{000C}', '\r', ' ', '\U{00A0}', '\U{1680}',
     '\U{2028}', '\U{2029}', '\U{202F}', '\U{205F}', '\U{3000}', '\U{FEFF}'}

  predicate HasSpace(s: string) {
    exists i :: 0 <= i < |s| && IsSpace(s[i])
  }

  predicate IsAsciiDigit(c: char) { '0' <= c <= '9' }

  predicate IsAsciiLetter(c: char) { ('A' <= c <= 'Z') || ('a' <= c <= 'z') }

  predicate AllDigits(s: string) {
    forall i :: 0 <= i < |s| ==> IsAsciiDigit(s[i])
  }

  /** `trimStart`: drops the leading whitespace. */
  function TrimStart(s: string): (r: string)
    ensures |r| <= |s| && r == s[|s| - |r|..]
    ensures forall i :: 0 <= i < |s| - |r| ==> IsSpace(s[i])
    ensures r == [] || !IsSpace(r[0])
  {
    if s == [] || !IsSpace(s[0]) then s else TrimStart(s[1..])
  }

  /** `trimEnd`: drops the trailing whitespace. */
  function TrimEnd(s: string): (r: string)
    ensures |r| <= |s| && r == s[..|r|]
    ensures forall i :: |r| <= i < |s| ==> IsSpace(s[i])
    ensures r == [] || !IsSpace(r[|r| - 1])
  {
    if s == [] || !IsSpace(s[|s| - 1]) then s else TrimEnd(s[..|s| - 1])
  }

  /** `trim`: the slice of `s` between the first and last non-space characters. */
  function Trim(s: string): (r: string)
    ensures r == [] || (!IsSpace(r[0]) && !IsSpace(r[|r| - 1]))
    ensures (forall k :: 0 <= k < |s| ==> IsSpace(s[k])) <==> r == []
  {
    var t := TrimStart(s);
    var r := TrimEnd(t);
    TrimSlice(s, t, r);
    r
  }

  /** The facts `Trim` needs about its two passes, stated over the pieces alone. */
  lemma TrimSlice(s: string, t: string, r: string)
    requires |t| <= |s| && t == s[|s| - |t|..]
    requires forall k :: 0 <= k < |s| - |t| ==> IsSpace(s[k])
    requires t == [] || !IsSpace(t[0])
    requires |r| <= |t| && r == t[..|r|]
    requires forall k :: |r| <= k < |t| ==> IsSpace(t[k])
    requires r == [] || !IsSpace(r[|r| - 1])
    ensures 0 <= |s| - |t| <= |s| - |t| + |r| <= |s|
    ensures r == s[|s| - |t|..|s| - |t| + |r|]
    ensures forall k :: |s| - |t| + |r| <= k < |s| ==> IsSpace(s[k])
    ensures r == [] || (!IsSpace(r[0]) && !IsSpace(r[|r| - 1]))
    ensures (forall k :: 0 <= k < |s| ==> IsSpace(s[k])) <==> r == []
  {
    var i := |s| - |t|;
    forall k | i + |r| <= k < |s| ensures IsSpace(s[k]) {
      assert s[k] == t[k - i];
    }
    if r != [] {
      assert r[0] == t[0];
    }
  }

  /** Trimming what is already trimmed changes nothing. */
  lemma TrimOfTrimmed(s: string)
    requires s == [] || (!IsSpace(s[0]) && !IsSpace(s[|s| - 1]))
    ensures Trim(s) == s
  {
  }

  function AsciiLower(c: char): (r: char)
    ensures 'A' <= c <= 'Z' ==> 'a' <= r <= 'z'
    ensures !('A' <= c <= 'Z') ==> r == c
  {
    if 'A' <= c <= 'Z' then (c as int + 32) as char else c
  }

  function AsciiUpper(c: char): (r: char)
    ensures 'a' <= c <= 'z' ==> 'A' <= r <= 'Z'
    ensures !('a' <= c <= 'z') ==> r == c
  {
    if 'a' <= c <= 'z' then (c as int - 32) as char else c
  }

  /** `toLowerCase` restricted to the ASCII letters. */
  function Lower(s: string): (r: string)
    ensures |r| == |s|
    ensures forall i :: 0 <= i < |s| ==> r[i] == AsciiLower(s[i])
  {
    seq(|s|, i requires 0 <= i < |s| => AsciiLower(s[i]))
  }

  /** `toUpperCase` restricted to the ASCII letters. */
  function Upper(s: string): (r: string)
    ensures |r| == |s|
    ensures forall i :: 0 <= i < |s| ==> r[i] == AsciiUpper(s[i])
  {
    seq(|s|, i requires 0 <= i < |s| => AsciiUpper(s[i]))
  }

  /** `toUpperCase` of one character, written out for every character whose upper
      case is made of ASCII characters only: ASCII itself, the dotless `ı` (to `I`),
      the long `ſ` (to `S`), the sharp `ß` (to `SS`) and the Latin ligatures
      U+FB00 to U+FB06 (to `FF`, `FI`, `FL`, `FFI`, `FFL`, `ST`, `ST`). Any other
      character is kept as it is; its real upper case always holds a character
      outside ASCII, so it compares unequal to ASCII text either way. */
  function JsUpperChar(c: char): (r: string)
    ensures 1 <= |r| <= 3
    ensures c as int < 128 ==> r == [AsciiUpper(c)]
    ensures c == 'ı' ==> r == "I"
    ensures c == 'ſ' ==> r == "S"
  {
    if c == 'ı' then "I"
    else if c == 'ſ' then "S"
    else if c == 'ß' then "SS"
    else if c == '\U{FB00}' then "FF"
    else if c == '\U{FB01}' then "FI"
    else if c == '\U{FB02}' then "FL"
    else if c == '\U{FB03}' then "FFI"
    else if c == '\U{FB04}' then "FFL"
    else if c == '\U{FB05}' || c == '\U{FB06}' then "ST"
    else [AsciiUpper(c)]
  }

  /** `toUpperCase` of a string, character by character. */
  function JsUpper(s: string): (r: string)
    ensures |s| <= |r| <= 3 * |s|
  {
    if s == [] then [] else JsUpperChar(s[0]) + JsUpper(s[1..])
  }

  predicate IsAscii(s: string) {
    forall i :: 0 <= i < |s| ==> s[i] as int < 128
  }

  /** On ASCII text `toUpperCase` is the ASCII upper-casing. */
  lemma {:induction false} JsUpperOfAscii(s: string)
    requires IsAscii(s)
    ensures JsUpper(s) == Upper(s)
  {
    if s != [] {
      assert IsAscii(s[1..]) by {
        forall i | 0 <= i < |s[1..]| ensures s[1..][i] as int < 128 {
          assert s[1..][i] == s[i + 1];
        }
      }
      JsUpperOfAscii(s[1..]);
      assert Upper(s) == [AsciiUpper(s[0])] + Upper(s[1..]);
    }
  }

  /** Lower-casing the upper-cased string gives the lower-cased string. */
  lemma LowerOfUpper(s: string)
    ensures Lower(Upper(s)) == Lower(s)
  {
    forall i | 0 <= i < |s| ensures Lower(Upper(s))[i] == Lower(s)[i] {
      var c := s[i];
      if 'a' <= c <= 'z' {
      } else if 'A' <= c <= 'Z' {
      }
    }
  }

  /** `s.includes(t)`. */
  predicate Contains(s: string, t: string) {
    exists i :: 0 <= i <= |s| && OccursAt(s, t, i)
  }

  /** `t` appears in `s` starting at position `i`. */
  predicate OccursAt(s: string, t: string, i: nat) {
    i + |t| <= |s| && s[i..i + |t|] == t
  }

  /** `s.startsWith(p)`. */
  predicate StartsWith(s: string, p: string) {
    |p| <= |s| && s[..|p|] == p
  }

  /** `s.indexOf(t, from)`: the first position at or after `from` where `t` occurs,
      `None` for -1. */
  function FindFrom(s: string, t: string, from: nat): (r: Option<nat>)
    ensures r.Some? ==> from <= r.value && OccursAt(s, t, r.value)
    ensures r.Some? ==> forall j :: from <= j < r.value ==> !OccursAt(s, t, j)
    ensures r.None? ==> forall j :: from <= j ==> !OccursAt(s, t, j)
    decreases |s| - from
  {
    if from + |t| > |s| then None
    else if OccursAt(s, t, from) then Some(from)
    else FindFrom(s, t, from + 1)
  }

  /** `FindFrom` from the start finds something exactly when `s.includes(t)`. */
  lemma FindIffContains(s: string, t: string)
    ensures FindFrom(s, t, 0).Some? <==> Contains(s, t)
  {
    if Contains(s, t) {
      var i :| 0 <= i <= |s| && OccursAt(s, t, i);
      assert FindFrom(s, t, 0).Some?;
    }
  }

  /** `s.replace(t, u)` with a string pattern: only the first occurrence is replaced,
      and without one the string is returned unchanged. */
  function ReplaceFirst(s: string, t: string, u: string): (r: string)
    ensures !Contains(s, t) ==> r == s
    ensures Contains(s, t) ==>
      var i := FindFrom(s, t, 0).value;
      |r| == |s| - |t| + |u| && r[..i] == s[..i] && r[i..i + |u|] == u && r[i + |u|..] == s[i + |t|..]
  {
    FindIffContains(s, t);
    match FindFrom(s, t, 0)
    case None => s
    case Some(i) =>
      var r := s[..i] + u + s[i + |t|..];
      assert r[..i] == s[..i] && r[i..i + |u|] == u && r[i + |u|..] == s[i + |t|..];
      r
  }

  /** A string contains every one of its own slices. */
  lemma ContainsSlice(s: string, i: nat, j: nat)
    requires i <= j <= |s|
    ensures Contains(s, s[i..j])
  {
    assert OccursAt(s, s[i..j], i);
  }

  /** Position of the first occurrence of `c`. */
  function FirstIndexOf(s: string, c: char): (r: nat)
    requires c in s
    ensures r < |s| && s[r] == c && c !in s[..r]
  {
    if s[0] == c then 0 else FirstIndexOf(s[1..], c) + 1
  }

  /** `parts.join(sep)`. */
  function Join(parts: seq<string>, sep: char): (r: string)
    ensures |parts| == 1 ==> r == parts[0]
  {
    if |parts| == 0 then ""
    else if |parts| == 1 then parts[0]
    else parts[0] + [sep] + Join(parts[1..], sep)
  }

  /** `s.split(sep)` for a one-character separator: the pieces between separators,
      always at least one, none containing the separator, and joined back give `s`. */
  function Split(s: string, sep: char): (r: seq<string>)
    ensures |r| >= 1
    ensures forall i :: 0 <= i < |r| ==> sep !in r[i]
    ensures Join(r, sep) == s
    decreases |s|
  {
    if sep !in s then [s]
    else
      var i := FirstIndexOf(s, sep);
      var rest := Split(s[i + 1..], sep);
      assert s == s[..i] + [sep] + s[i + 1..];
      [s[..i]] + rest
  }

  /** Splitting a join recovers the parts when no part holds the separator. */
  lemma {:induction false} SplitJoin(parts: seq<string>, sep: char)
    requires |parts| >= 1
    requires forall i :: 0 <= i < |parts| ==> sep !in parts[i]
    ensures Split(Join(parts, sep), sep) == parts
    decreases |parts|
  {
    if |parts| > 1 {
      var p := parts[0];
      var tail := Join(parts[1..], sep);
      var s := p + [sep] + tail;
      assert Join(parts, sep) == s;
      assert s[|p|] == sep;
      var k := FirstIndexOf(s, sep);
      assert s[..|p|] == p;
      assert k == |p|;
      assert s[..k] == p;
      assert s[k + 1..] == tail;
      SplitJoin(parts[1..], sep);
      assert [p] + parts[1..] == parts;
    }
  }

  /** A separator appears in a join of two or more parts. */
  lemma SeparatorInJoin(parts: seq<string>, sep: char)
    requires |parts| >= 2
    ensures sep in Join(parts, sep)
  {
    assert Join(parts, sep)[|parts[0]|] == sep;
  }

  function DigitChar(d: nat): (c: char)
    requires d < 10
    ensures IsAsciiDigit(c)
  {
    ('0' as int + d) as char
  }

  function DigitValue(c: char): (d: nat)
    requires IsAsciiDigit(c)
    ensures d < 10
  {
    c as int - '0' as int
  }

  /** The number a run of decimal digits denotes. */
  function DigitsValue(s: string): nat
    requires AllDigits(s)
  {
    if s == [] then 0 else DigitsValue(s[..|s| - 1]) * 10 + DigitValue(s[|s| - 1])
  }

  /** Decimal rendering of a natural, as `String(n)` gives it. */
  function NatToString(n: nat): (r: string)
    ensures |r| >= 1 && AllDigits(r)
    ensures DigitsValue(r) == n
    ensures |r| > 1 ==> r[0] != '0'
  {
    if n < 10 then [DigitChar(n)]
    else
      var prefix := NatToString(n / 10);
      var r := prefix + [DigitChar(n % 10)];
      assert r[..|r| - 1] == prefix;
      r
  }

  /** `String(n).padStart(2, '0')`. */
  function Pad2(n: nat): (r: string)
    ensures AllDigits(r) && DigitsValue(r) == n
    ensures n < 100 ==> |r| == 2
  {
    if n < 10 then
      var r := ['0', DigitChar(n)];
      assert r[..1] == ['0'];
      assert DigitsValue(r[..1]) == DigitsValue([]) * 10 + 0;
      r
    else
      assert |NatToString(n / 10)| == 1 || n >= 100;
      NatToString(n)
  }

  /** `a < b` on strings: lexicographic order of the characters, a proper prefix
      first. */
  predicate StringLess(a: string, b: string) {
    if a == [] then b != []
    else if b == [] then false
    else if a[0] != b[0] then a[0] < b[0]
    else StringLess(a[1..], b[1..])
  }
}

=== FILE: ui_store.dfy ===
/** The UI store (src/stores/uiStore.ts): which modal is open, if any, and whether
    the favourites preview is shown. */
module UiStore {

  datatype Modal = NoModal | Favorites | Shortcuts

  datatype Ui = Ui(activeModal: Modal, previewVisible: bool)

  const Initial := Ui(NoModal, false)

  datatype UiAction =
    | OpenFavoritesModal | OpenShortcutManagerModal | CloseModal
    | ToggleFavorites | ToggleShortcuts | ShowFavoritesPreview | HideFavoritesPreview

  predicate ChangesModal(act: UiAction) {
    act != ShowFavoritesPreview && act != HideFavoritesPreview
  }

  /** Each action of the store. Modal actions leave the preview flag alone and the
      preview actions leave the modal alone. */
  function Apply(ui: Ui, act: UiAction): (r: Ui)
    ensures ChangesModal(act) ==> r.previewVisible == ui.previewVisible
    ensures !ChangesModal(act) ==> r.activeModal == ui.activeModal && r.previewVisible == (act == ShowFavoritesPreview)
    ensures act == OpenFavoritesModal ==> r.activeModal == Favorites
    ensures act == OpenShortcutManagerModal ==> r.activeModal == Shortcuts
    ensures act == CloseModal ==> r.activeModal == NoModal
    ensures act == ToggleFavorites ==> (r.activeModal == NoModal <==> ui.activeModal == Favorites)
    ensures act == ToggleFavorites ==> r.activeModal in {NoModal, Favorites}
    ensures act == ToggleShortcuts ==> (r.activeModal == NoModal <==> ui.activeModal == Shortcuts)
    ensures act == ToggleShortcuts ==> r.activeModal in {NoModal, Shortcuts}
  {
    match act
    case OpenFavoritesModal => ui.(activeModal := Favorites)
    case OpenShortcutManagerModal => ui.(activeModal := Shortcuts)
    case CloseModal => ui.(activeModal := NoModal)
    case ToggleFavorites => ui.(activeModal := if ui.activeModal == Favorites then NoModal else Favorites)
    case ToggleShortcuts => ui.(activeModal := if ui.activeModal == Shortcuts then NoModal else Shortcuts)
    case ShowFavoritesPreview => ui.(previewVisible := true)
    case HideFavoritesPreview => ui.(previewVisible := false)
  }

  /** Toggling twice restores a closed or favourites modal (and likewise for the
      shortcut manager); from the other modal it ends closed. */
  lemma ToggleTwice(ui: Ui)
    ensures ui.activeModal != Shortcuts ==> Apply(Apply(ui, ToggleFavorites), ToggleFavorites) == ui
    ensures ui.activeModal == Shortcuts ==> Apply(Apply(ui, ToggleFavorites), ToggleFavorites).activeModal == NoModal
    ensures ui.activeModal != Favorites ==> Apply(Apply(ui, ToggleShortcuts), ToggleShortcuts) == ui
    ensures ui.activeModal == Favorites ==> Apply(Apply(ui, ToggleShortcuts), ToggleShortcuts).activeModal == NoModal
  {
  }

  function Run(ui: Ui, acts: seq<UiAction>): Ui
    decreases |acts|
  {
    if acts == [] then ui else Run(Apply(ui, acts[0]), acts[1..])
  }

  /** Over any run, the preview flag is what the last show or hide made it, and is
      untouched by modal actions. */
  lemma {:induction false} PreviewFollowsLastShowOrHide(ui: Ui, acts: seq<UiAction>)
    ensures (forall i :: 0 <= i < |acts| ==> ChangesModal(acts[i])) ==> Run(ui, acts).previewVisible == ui.previewVisible
    ensures |acts| > 0 && !ChangesModal(acts[|acts| - 1]) ==>
              Run(ui, acts).previewVisible == (acts[|acts| - 1] == ShowFavoritesPreview)
    decreases |acts|
  {
    if acts != [] {
      PreviewFollowsLastShowOrHide(Apply(ui, acts[0]), acts[1..]);
      assert acts[1..] == [] ==> |acts| == 1;
      assert |acts| > 1 ==> acts[1..][|acts[1..]| - 1] == acts[|acts| - 1];
    }
  }
}

=== FILE: web_url.dfy ===
/** The parts of a WHATWG URL the extension reads and edits: the path and the query
    as the list of name/value pairs `URLSearchParams` keeps. Names and values are the
    decoded strings; percent-encoding and serialisation back to `href` are not part of
    this model. */
module WebUrl {
  import opened Wrappers

  type Params = seq<(string, string)>

  datatype Url = Url(origin: string, pathname: string, params: Params, hash: string)

  predicate HasParam(ps: Params, name: string) {
    exists i :: 0 <= i < |ps| && ps[i].0 == name
  }

  /** `searchParams.get(name)`: the value of the first pair with that name. */
  function GetParam(ps: Params, name: string): (r: Option<string>)
    ensures r.Some? <==> HasParam(ps, name)
    ensures r.Some? ==> (name, r.value) in ps
  {
    if ps == [] then None
    else if ps[0].0 == name then Some(ps[0].1)
    else
      assert HasParam(ps, name) ==> HasParam(ps[1..], name) by {
        if HasParam(ps, name) {
          var i :| 0 <= i < |ps| && ps[i].0 == name;
          assert ps[1..][i - 1].0 == name;
        }
      }
      GetParam(ps[1..], name)
  }

  /** Lookups in `[p] + ps` see `p` first. */
  lemma GetParamCons(p: (string, string), ps: Params, name: string)
    ensures GetParam([p] + ps, name) == if p.0 == name then Some(p.1) else GetParam(ps, name)
  {
    assert ([p] + ps)[1..] == ps;
  }

  /** `searchParams.delete(name)`: every pair with that name goes and the others keep
      their order. */
  function DeleteParam(ps: Params, name: string): (r: Params)
    ensures !HasParam(r, name)
    ensures forall p :: p in r <==> p in ps && p.0 != name
    ensures forall n :: n != name ==> GetParam(r, n) == GetParam(ps, n)
  {
    if ps == [] then []
    else if ps[0].0 == name then DeleteParam(ps[1..], name)
    else
      var rest := DeleteParam(ps[1..], name);
      forall n | n != name ensures GetParam([ps[0]] + rest, n) == GetParam(ps, n) {
        GetParamCons(ps[0], rest, n);
      }
      [ps[0]] + rest
  }

  /** Deleting a name that is absent changes nothing. */
  lemma {:induction false} DeleteAbsent(ps: Params, name: string)
    requires !HasParam(ps, name)
    ensures DeleteParam(ps, name) == ps
  {
    if ps != [] {
      assert ps[0].0 != name;
      assert !HasParam(ps[1..], name) by {
        forall i | 0 <= i < |ps[1..]| ensures ps[1..][i].0 != name {
          assert ps[1..][i] == ps[i + 1];
        }
      }
      DeleteAbsent(ps[1..], name);
      assert [ps[0]] + ps[1..] == ps;
    }
  }

  /** `searchParams.set(name, value)`: the first pair with that name takes the value
      and the later pairs with that name go; without one, the pair is appended. */
  function SetParam(ps: Params, name: string, value: string): (r: Params)
    ensures GetParam(r, name) == Some(value)
    ensures forall n :: n != name ==> GetParam(r, n) == GetParam(ps, n)
    ensures DeleteParam(r, name) == DeleteParam(ps, name)
  {
    if ps == [] then [(name, value)]
    else if ps[0].0 == name then
      var rest := DeleteParam(ps[1..], name);
      DeleteAbsent(rest, name);
      forall n | n != name ensures GetParam([(name, value)] + rest, n) == GetParam(ps, n) {
        GetParamCons((name, value), rest, n);
      }
      GetParamCons((name, value), rest, name);
      assert ([(name, value)] + rest)[1..] == rest;
      [(name, value)] + rest
    else
      var rest := SetParam(ps[1..], name, value);
      forall n ensures GetParam([ps[0]] + rest, n) == GetParam([ps[0]] + ps[1..], n) || n == name {
        GetParamCons(ps[0], rest, n);
        GetParamCons(ps[0], ps[1..], n);
      }
      GetParamCons(ps[0], rest, name);
      assert [ps[0]] + ps[1..] == ps;
      assert ([ps[0]] + rest)[1..] == rest;
      [ps[0]] + rest
  }
}

=== FILE: wrappers.dfy ===
/** Optional values and success/failure results shared by every module of the model.
    `None` stands for JavaScript's `null`/`undefined`; `Err` carries the message
    string a store operation returns when it refuses its input. */
module Wrappers {

  datatype Option<+T> = None | Some(value: T) {
    /** The wrapped value, or `default` when there is none (the `??` operator). */
    function GetOr(default: T): T {
      match this
      case Some(v) => v
      case None => default
    }
  }

  datatype Result<+T> = Ok(value: T) | Err(message: string)
}
